=== FILE: README.md ===
# Advent of Code 2023 puzzle kernels, modelled in Dafny

This project models the pure computational kernels of a Rust solution set for the
Advent of Code 2023 puzzles. Each day's `src/bin/NN.rs` becomes one Dafny module in
`dayNN_*.dfy`. The text parsers (nom combinators, regular expressions, `split`) are
pure functions over `string` that return the unread rest. The data are algebraic
datatypes. The per-day answers are pure functions over `seq`, `set` and `map`.
Four shared modules hold what several days use:

- `Sequences`: sums, flattening, itertools' `group_by`, `tuple_windows`, `zip`, and
  collecting pairs into a map where a later pair wins.
- `Text`: `split`, `join`, and the non-empty lines of an input.
- `Decimal`: decimal digits, their value, and writing a natural number in decimal.
- `Parsing`: `char`, `tag`, `digit1`/`alpha1`, and `separated_list1`, with their
  read-back lemmas.

The days covered:

| module | day | kernel |
|---|---|---|
| `Calibration` | 1 | first and last digit of each line |
| `CubeGame` | 2 | cube reveals, possible games, minimum power |
| `PartNumbers` | 3 | digit runs touching a symbol in three-line windows |
| `Scratchcards` | 4 | matches and doubling score of a card |
| `Almanac` | 5 | range maps and the seed-to-location fold |
| `CamelCards` | 7 | card parsing and the hand category |
| `Network` | 8 | the node graph and the walk from AAA to ZZZ |
| `Extrapolation` | 9 | difference pyramids, future and past values |
| `PipeMaze` | 10 | tiles, the maze and the start tile |
| `Expansion` | 11 | galaxies and dilated distances |
| `Springs` | 12 | counting spring arrangements, unfolding |
| `Mirrors` | 13 | horizontal and vertical mirror lines |
| `Tilting` | 14 | tilting the platform in four directions and the load |
| `Hashing` | 15 | the HASH algorithm |
| `Beams` | 16 | beam propagation, mirrors, splitters, energised tiles |
| `Crucible` | 17 | the crucible's moves and its successor relation |
| `Lagoon` | 18 | the trench, the cell order and the capacity |
| `Workflows` | 19 | the workflow and part grammar |

Integers are unbounded throughout. The source's `u32`, `usize`, `i32` and `i64`
arithmetic is modelled without wrap-around; the exceptions are stated where they
matter (day 15's `u32` product is proved never to wrap). Where the source panics
(`unwrap`, `panic!`, `assert!`), the model either puts the condition in a `requires`
clause or returns `None`/`Fail`; the rows below and "Left out" say which.

## Model

| member | source | states |
|---|---|---|
| `Calibration.FirstDigit` | src/bin/01.rs:4-6 | The value of the leftmost digit of the line; `None` exactly when the line has no digit. |
| `Calibration.LastDigit` | src/bin/01.rs:8-10 | The value of the rightmost digit; `None` exactly when the line has no digit. |
| `Calibration.LastDigitIsFirstOfReverse` | src/bin/01.rs:8-10 | Searching from the end (`chars().rev()`) is searching the reversed line from its start. |
| `Calibration.CalibrationValue` | src/bin/01.rs:12-14 | Ten times the first digit plus the last digit, at most 99; `None` exactly when the line has no digit. |
| `Calibration.SingleDigitLine` | src/bin/01.rs:12-14 | A line whose only digit is `d` has the value `11 * d`. |
| `Calibration.Total` | src/bin/01.rs:16-21 | Over lines that all have a digit, the total is at most 99 per line. |
| `Calibration.TotalAppend` | src/bin/01.rs:16-21 | The total over two lists of lines is the sum of their totals. |
| `Calibration.PartOne` | src/bin/01.rs:3-24 | The total over the non-empty lines, at most 99 per line; every line must have a digit (`unwrap`). |
| `Calibration.PartOneConcat` | src/bin/01.rs:16-21 | The answer for two documents joined by a newline is the sum of their answers. |
| `CubeGame.ColourNamed` | src/bin/02.rs:20 | The colour whose name is exactly the text; no colour for any other text. |
| `CubeGame.MaybeKeyValue` | src/bin/02.rs:18-33 | A token is accepted only when it is exactly " <digits> <red/blue/green>", and then the count is the digits' value. |
| `CubeGame.TokenAccepted` | src/bin/02.rs:18-33 | Every token of that shape is accepted, with its colour and count. |
| `CubeGame.FromSubset` | src/bin/02.rs:42-76 | Each colour's count is the count of the last accepted token naming it (the `HashMap` collect), 0 if none does. |
| `CubeGame.AbsentColourIsZero` | src/bin/02.rs:53-69 | A colour that no accepted token names counts 0. |
| `CubeGame.FromSubsetRender` | src/bin/02.rs:42-76 | A reveal written as " r red, b blue, g green" reads back as the same reveal. |
| `CubeGame.IsPossible` | src/bin/02.rs:78-80 | A reveal is possible exactly when no colour exceeds its bag limit (12 red, 14 blue, 13 green). |
| `CubeGame.MaybeId` | src/bin/02.rs:7-16 | An id is read only from a header that is exactly "Game <digits>", and it is the digits' value. |
| `CubeGame.FromLine` | src/bin/02.rs:89-120 | A game exists exactly when the line has a ':' and a well-formed header; it then has at least one reveal. The panics are `None`. |
| `CubeGame.Reveals` | src/bin/02.rs:114-118 | One reveal per ';'-separated subset, each read by `FromSubset`. |
| `CubeGame.MaxCount` | src/bin/02.rs:123-125 | The largest count of a colour over the reveals: attained by some reveal, at least every reveal's count, and 0 (`unwrap_or(0)`) when there is no reveal. |
| `CubeGame.MinimumPower` | src/bin/02.rs:122-128 | The product of the per-colour maxima: 0 exactly when some colour is never shown, and positive only when every colour is. |
| `CubeGame.MinimumPowerIsLeast` | src/bin/02.rs:122-128 | The maxima form a bag that could have produced every reveal, and every such bag has at least the minimum power. |
| `CubeGame.ZeroPowerNeverShown` | src/bin/02.rs:122-128 | A zero product of the maxima means some colour is never shown. |
| `CubeGame.PossibleIffMaximaPossible` | src/bin/02.rs:137 | All reveals are possible exactly when the reveal of the per-colour maxima is. |
| `CubeGame.PossibleIdSum` | src/bin/02.rs:137-139 | The sum of the ids of possible games: at most the sum of all ids, equal to it when all are possible, 0 when none is. |
| `CubeGame.PossibleIdSumAppend` | src/bin/02.rs:131-142 | The sum over two lists of games is the sum of the two sums. |
| `CubeGame.Games` | src/bin/02.rs:132-136 | One game per non-empty line, each read by `FromLine`; every line must be well formed. |
| `CubeGame.PartOne` | src/bin/02.rs:131-142 | The sum of the possible games' ids, at most the sum of all ids. |
| `CubeGame.PowerSum` | src/bin/02.rs:144-154 | The sum of the minimum powers: 0 exactly when every game has a colour it never shows, in particular when no game shows any cubes. |
| `CubeGame.PowerSumAppend` | src/bin/02.rs:144-154 | The sum of powers over two lists of games is the sum of the two sums. |
| `PartNumbers.Windows` | src/bin/03.rs:10-14 | `tuple_windows` over the line padded with '.' on both sides: window `k` holds columns `k-1`, `k`, `k+1`. |
| `PartNumbers.Flags` | src/bin/03.rs:13-30 | As many flags as the shortest of the three lines has columns; column `k` is flagged exactly when it is a digit with a symbol among its eight neighbours. |
| `PartNumbers.FlagMeaning` | src/bin/03.rs:5-29 | The flag of one window means exactly "a digit with a symbol among its eight neighbours", a symbol being any character other than a digit or '.'. |
| `PartNumbers.PositionalIsValue` | src/bin/03.rs:40-48 | Summing the reversed digits times powers of ten gives the run's decimal value. |
| `PartNumbers.RunValue` | src/bin/03.rs:39-49 | The value a digit run contributes is its decimal value. |
| `PartNumbers.ContributionsIsScan` | src/bin/03.rs:32-50 | Grouping the columns into digit and non-digit runs and summing the flagged digit runs equals one left-to-right pass. |
| `PartNumbers.SumOfPartNumbers` | src/bin/03.rs:9-51 | Grouping a line's columns into runs and adding up the flagged digit runs is one left-to-right pass over the columns, with "a digit touching a symbol" as each column's flag. |
| `PartNumbers.PartOne` | src/bin/03.rs:53-62 | The sum, over every non-empty line with a line above and a line below it, of that line's part numbers; 0 with fewer than three non-empty lines. |
| `PartNumbers.WindowSumAppend` | src/bin/03.rs:57-59 | The sum over two lists of windows is the sum of their sums. |
| `PartNumbers.WindowSumExtend` | src/bin/03.rs:57-59 | A further line adds exactly the sum of the old last line as a middle line; the new line itself is never a middle line. |
| `PartNumbers.WindowSumIsMiddleSum` | src/bin/03.rs:57-59 | Summing over the `tuple_windows` of three lines is summing over the middle lines, each with its neighbours. |
| `Scratchcards.FromLists` | src/bin/04.rs:65-69 | The card keeps the id and the listed numbers; the winning list collapses into a set. |
| `Scratchcards.MatchCount` | src/bin/04.rs:24-28 | The number of listed numbers, repeats included, that are winning: 0 exactly when none is, and all of them exactly when all are. |
| `Scratchcards.ScoreFor` | src/bin/04.rs:30-34 | No points for no match; otherwise `2^(m-1)`. |
| `Scratchcards.Score` | src/bin/04.rs:23-35 | The score of the card's match count; 0 exactly when no listed number is winning. |
| `Scratchcards.ScoreDoubles` | src/bin/04.rs:31-34 | Each further match doubles the score of a winning card. |
| `Scratchcards.ScoreMonotone` | src/bin/04.rs:31-34 | More matches never score less. |
| `Scratchcards.MatchCountAppend` | src/bin/04.rs:24-28 | The matches of two lists add up. |
| `Scratchcards.RepeatedNumberCounts` | src/bin/04.rs:19 | A winning number listed again adds one more match. |
| `Scratchcards.RepeatedWinnerCollapses` | src/bin/04.rs:18 | Listing a winning number twice builds the same card. |
| `Scratchcards.MatchCountPermutation` | src/bin/04.rs:24-28 | The match count depends only on how often each number is listed, not on the order. |
| `Scratchcards.TotalScoreBound` | src/bin/04.rs:78-88 | The total score is at most the sum over cards of `2^(n-1)`, for `n` listed numbers. |
| `Almanac.Destination` | src/bin/05.rs:57-60 | Inside the range (the source asserts it), the offset from the source start is kept, so the result lies in the destination range. |
| `Almanac.Contains` | src/bin/05.rs:53-55 | The half-open source interval; a range of length 0 contains nothing. |
| `Almanac.DestinationIncreasing` | src/bin/05.rs:57-60 | Within one range the mapping is strictly increasing and keeps differences. |
| `Almanac.MapDestination` | src/bin/05.rs:95-101 | The first range containing the number maps it; a number no range contains maps to itself. |
| `Almanac.FirstRangeWins` | src/bin/05.rs:96 | A range containing the number placed in front decides the result, whatever follows. |
| `Almanac.LocationCompose` | src/bin/05.rs:150-154 | Folding over two lists of maps is folding over the first, then over the second. |
| `Almanac.Location` | src/bin/05.rs:150-154 | Maps without ranges leave every seed where it is. |
| `Almanac.ParseRange` | src/bin/05.rs:35-50 | A successful read consumes input (what its round trip `ParseRangeLine` needs to terminate lists). |
| `Almanac.ParseRangeLine` | src/bin/05.rs:35-50 | A written range line reads back as the same range; the first number is the destination start and the second the source start. |
| `Almanac.Locations` | src/bin/05.rs:161-164 | One location per seed, in order, each the fold of the maps over that seed. |
| `Almanac.Least` | src/bin/05.rs:165 | `min`: the least element, attained by some element. |
| `Almanac.PartOne` | src/bin/05.rs:157-168 | The least location of any seed, attained by some seed; `None` exactly when there is no seed. |
| `CamelCards.ParseCard` | src/bin/07.rs:41-56 | A character read as a card is that card's character; any other character is not a card (the source panics). |
| `CamelCards.ParseCardChar` | src/bin/07.rs:41-56 | Every card is read back from its character. |
| `CamelCards.ParseCardAccepts` | src/bin/07.rs:41-56 | Exactly the thirteen characters `23456789TJQKA` are cards. |
| `CamelCards.ParseCards` | src/bin/07.rs:33-59 | A hand's text gives cards exactly when every character is a card, one card per character in order. |
| `CamelCards.Tally` | src/bin/07.rs:77-79 | The `Counter`: positive entries; every entry is the multiplicity of some card kind, and every kind that occurs has its multiplicity among the entries. |
| `CamelCards.SortDescending` | src/bin/07.rs:80 | `most_common`'s order: the result is descending and a permutation of the counts. |
| `CamelCards.Profile` | src/bin/07.rs:77-83 | The multiplicities of the cards that occur: positive and descending. |
| `CamelCards.ProfileSum` | src/bin/07.rs:77-83 | The multiplicities add up to the number of cards. |
| `CamelCards.GetCategory` | src/bin/07.rs:76-95 | Each of the seven categories exactly for its multiplicity pattern (`[5]`, `[4,1]`, `[3,2]`, `[3,1,1]`, `[2,2,1]`, `[2,1,1,1]`, `[1,1,1,1,1]`); nothing, where the source panics, exactly when the profile is none of them. |
| `CamelCards.CategoryOf` | src/bin/07.rs:85-94 | The match on the multiplicities: one category per listed pattern, nothing for any other list. |
| `CamelCards.PartitionsOfFive` | src/bin/07.rs:85-93 | A descending positive sequence adding up to five is one of the seven patterns the match lists. |
| `CamelCards.ProfileOfFive` | src/bin/07.rs:85-93 | The profile of a five-card hand is one of the seven patterns. |
| `CamelCards.FiveCardsHaveCategory` | src/bin/07.rs:85-93 | The `panic!` arm is unreachable for hands of five cards. |
| `CamelCards.CategoryOfPermutation` | src/bin/07.rs:76-95 | The category depends only on the multiset of cards, not on their order. |
| `CamelCards.FiveOfAKindIffAllEqual` | src/bin/07.rs:86 | A hand of five is five of a kind exactly when all its cards are equal. |
| `CamelCards.HighCardIffAllDistinct` | src/bin/07.rs:92 | A hand of five is a high-card hand exactly when its cards are pairwise distinct. |
| `CamelCards.InProfile` | src/bin/07.rs:77-83 | A multiplicity occurs in the profile exactly when some card occurs that often. |
| `CamelCards.TwiceInProfile` | src/bin/07.rs:77-83 | A multiplicity occurs twice in the profile exactly when two different cards occur that often. |
| `CamelCards.FourOfAKindIff` | src/bin/07.rs:87 | A hand of five is four of a kind exactly when some card occurs four times. |
| `CamelCards.FullHouseIff` | src/bin/07.rs:88 | A hand of five is a full house exactly when some card occurs three times and some card twice. |
| `CamelCards.ThreeOfAKindIff` | src/bin/07.rs:89 | A hand of five is three of a kind exactly when some card occurs three times and none twice. |
| `CamelCards.TwoPairIff` | src/bin/07.rs:90 | A hand of five is two pair exactly when two different cards occur twice each. |
| `CamelCards.OnePairIff` | src/bin/07.rs:91 | A hand of five is one pair exactly when one card occurs twice and every other card at most once. |
| `Network.ParseDirection` | src/bin/08.rs:23-32 | 'L' is Left, 'R' is Right, and no other character is a direction. |
| `Network.ParseDirections` | src/bin/08.rs:36-40 | `many1`: the longest non-empty run of direction letters, one direction per letter. |
| `Network.DirectionsRoundTrip` | src/bin/08.rs:36-40 | Written directions are read back, up to the first non-direction character. |
| `Network.ParseEntry` | src/bin/08.rs:65-86 | A successful read consumes input. |
| `Network.ParseNeighbours` | src/bin/08.rs:65-86 | The `(LEFT, RIGHT)` part of an entry: a successful read consumes input. |
| `Network.EntryRoundTrip` | src/bin/08.rs:47-86 | An entry `NAME = (LEFT, RIGHT)` with alphabetic names is read back, whatever follows it. |
| `Network.Lookup` | src/bin/08.rs:90-100 | The map holds exactly the nodes that some entry names, each with its last entry's neighbours (the `HashMap` collect). |
| `Network.ParseLookup` | src/bin/08.rs:90-100 | The lookup parses exactly when its first entry does. |
| `Network.LookupRoundTrip` | src/bin/08.rs:90-100 | Entries written one per line are read back as the map of their last occurrences. |
| `Network.ParseGraph` | src/bin/08.rs:108-127 | A parsed graph has at least one direction. |
| `Network.GraphRoundTrip` | src/bin/08.rs:108-127 | Directions, a blank line and the entries are read back as that graph. |
| `Network.Advance` | src/bin/08.rs:130-166 | One step follows the current instruction to the node's left or right neighbour in the lookup and moves to the next instruction, wrapping to the first (`cycle`); nothing exactly when the node is missing from the lookup (the source panics). |
| `Network.Position` | src/bin/08.rs:154-166 | The walk starts at the source with the first instruction and always points at an existing instruction. |
| `Network.InstructionCycles` | src/bin/08.rs:154-166 | After `k` steps the next instruction is number `k mod n`. |
| `Network.PositionShift` | src/bin/08.rs:154-166 | Two steps that reach the same node and instruction continue identically. |
| `Network.CycleNeverNotYet` | src/bin/08.rs:154-166 | A walk that returns to an earlier node and instruction without meeting ZZZ never meets it. |
| `Network.WalkToGoal` | src/bin/08.rs:154-166 | A reached goal is met at that step for the first time; a stuck walk ends at a node the lookup lacks; an unfinished walk has not met the goal within its steps. |
| `Network.PartOne` | src/bin/08.rs:141-169 | Nothing exactly when the input does not parse; a reported count is the first step at which the walk from AAA is at ZZZ. |
| `Extrapolation.Differences` | src/bin/09.rs:37-43 | One fewer value than the history (none for fewer than two), each the difference of consecutive values. |
| `Extrapolation.FutureValue` | src/bin/09.rs:46-62 | The last value plus the next value of the differences. |
| `Extrapolation.PastValue` | src/bin/09.rs:64-84 | The first value minus the previous value of the differences. |
| `Extrapolation.ExtendsPyramid` | src/bin/09.rs:46-62 | Appending the extrapolated value extends the differences by their own extrapolated value. |
| `Extrapolation.ExtendsPyramidBackwards` | src/bin/09.rs:64-84 | Prepending the backward extrapolation extends the differences at the front by theirs. |
| `Extrapolation.ConstantNext` | src/bin/09.rs:46-62 | A constant history continues with its constant. |
| `Extrapolation.ArithmeticNext` | src/bin/09.rs:46-62 | An arithmetic history `a + i*d` continues with `a + n*d`. |
| `Extrapolation.NextOfNegation` | src/bin/09.rs:46-62 | Negating the history negates the next value. |
| `Extrapolation.DifferencesOfReverse` | src/bin/09.rs:37-43 | The differences of the reversed history are the reversed differences, negated. |
| `Extrapolation.PastIsFutureOfReverse` | src/bin/09.rs:64-84 | Extrapolating backwards is extrapolating the reversed history forwards. |
| `Extrapolation.ParseValue` | src/bin/09.rs:16-22 | A successful read consumes input. |
| `Extrapolation.ValueRoundTrip` | src/bin/09.rs:16-22 | A written integer, with a minus sign when negative, is read back when no digit follows it. |
| `Extrapolation.ParseHistory` | src/bin/09.rs:31-35 | A parsed history has at least one value and the read consumes input. |
| `Extrapolation.HistoryRoundTrip` | src/bin/09.rs:31-35 | Values written with single spaces are read back when neither a digit nor a space follows. |
| `Extrapolation.ParseReport` | src/bin/09.rs:94-99 | A report parses exactly when its first history does, and has at least one history. |
| `Extrapolation.ReportRoundTrip` | src/bin/09.rs:94-99 | Histories written one per line are read back. |
| `Extrapolation.PastTotalIsFutureTotalOfReversed` | src/bin/09.rs:128-139 | The answer to part two is the answer to part one on the reversed histories. |
| `Extrapolation.Extrapolations` | src/bin/09.rs:119-123 | One forward extrapolation per history, each the value whose appending extends the history's differences by their own extrapolation. |
| `Extrapolation.NextExtends` | src/bin/09.rs:46-62 | Appending the next value extends the difference pyramid by one column. |
| `Extrapolation.FutureTotalIsSum` | src/bin/09.rs:119-123 | The total of part one is the sum of the per-history extrapolations. |
| `Extrapolation.PartOne` | src/bin/09.rs:115-126 | Nothing exactly when the input does not parse; otherwise the sum of the values that extend each history's pyramid. No history may be all zero: the source's `reduce().unwrap()` panics on one. |
| `Extrapolation.PartTwo` | src/bin/09.rs:128-139 | Nothing exactly when the input does not parse; otherwise the answer of part one for the histories reversed, which have no all-zero history either. No history may be all zero: the source's `reduce().unwrap()` panics on one. |
| `PipeMaze.Reversed` | src/bin/10.rs:24-31 | The opposite direction: different from the input and on the same axis. |
| `PipeMaze.ReversedInvolution` | src/bin/10.rs:24-31 | Reversing twice gives the direction back. |
| `PipeMaze.ParseTile` | src/bin/10.rs:46-87 | The eight tile characters give a tile, and only they; every tile read is one the maze can hold. |
| `PipeMaze.TileCharRoundTrip` | src/bin/10.rs:46-87 | Tile characters and valid tiles correspond one to one. |
| `PipeMaze.Adjacent` | src/bin/10.rs:108-115 | The neighbour one step away in the given direction: rows grow southwards and columns eastwards. |
| `PipeMaze.AdjacentReversed` | src/bin/10.rs:108-115 | Stepping back the opposite way returns to the start. |
| `PipeMaze.ParseRow` | src/bin/10.rs:91-95 | `many1(parse_tile)`: the longest non-empty run of tile characters, one tile per character. |
| `PipeMaze.RowRoundTrip` | src/bin/10.rs:91-95 | A written row is read back, up to the first character that is not a tile. |
| `PipeMaze.FindStart` | src/bin/10.rs:136-140 | The first start tile in row-major order; nothing exactly when there is none. |
| `PipeMaze.ParseMaze` | src/bin/10.rs:125-151 | A maze is read exactly when the newline-separated rows parse, have one common non-zero length and contain a start tile; the source's assertion (ragged rows) and `unwrap` (no start) panic where the model gives `None`. The maze's tiles are exactly the rows read, and its start index is the first start tile in row-major order. |
| `PipeMaze.RowsRoundTrip` | src/bin/10.rs:97-103 | Non-empty rows written one per line are read back as they are, whatever their lengths. |
| `PipeMaze.MazeRoundTrip` | src/bin/10.rs:125-151 | A written maze whose start index is its first start tile is read back as the same maze. |
| `PipeMaze.RaggedMazePanics` | src/bin/10.rs:128-129 | Written rows of different lengths fail the source's assertion; the model reads nothing. |
| `PipeMaze.StartlessMazePanics` | src/bin/10.rs:136-140 | Written rows without a start tile make the source's `unwrap` panic; the model reads nothing. |
| `PipeMaze.AvailableAsWritten` | src/bin/10.rs:168-198 | As written, on a grid of at least two rows and columns: exactly the directions whose neighbour is inside. |
| `PipeMaze.AvailableAsWrittenLeaves` | src/bin/10.rs:168-198 | As written, a one-row maze offers South from its start, which leaves the grid. |
| `PipeMaze.Available` | src/bin/10.rs:168-198 | Corrected: exactly the directions whose neighbour is inside the grid, in the source's order. |
| `PipeMaze.AvailableAgrees` | src/bin/10.rs:168-198 | On grids of at least two rows and columns the corrected directions are the source's. |
| `PipeMaze.TileAtStart` | src/bin/10.rs:204-228 | The pipe joining the two neighbours that point back at the start, and no other; nothing unless exactly two do (the source panics). It scans the corrected directions of `PipeMaze.Available`, so on a maze of one row or one column it can return a pipe where the source panics. |
| `PipeMaze.ConnectingComplete` | src/bin/10.rs:204-228 | No connecting neighbour is missed by the scan of available directions. |
| `PipeMaze.TileAtStartFound` | src/bin/10.rs:204-228 | When exactly two neighbours point back at the start, the start's pipe is found. |
| `Expansion.ParsePixel` | src/bin/11.rs:24-32 | '#' is a galaxy and '.' is space; no other character is a pixel. |
| `Expansion.ParseRow` | src/bin/11.rs:36-40 | `many1(parse_pixel)`: the longest non-empty run of pixel characters, one pixel per character. |
| `Expansion.RowRoundTrip` | src/bin/11.rs:36-40 | A written row is read back, up to the first character that is not a pixel. |
| `Expansion.Distance` | src/bin/11.rs:53-57 | The Manhattan distance is 0 exactly between equal positions. |
| `Expansion.EmptyRows` | src/bin/11.rs:97-103 | Exactly the rows without a galaxy, in increasing order. |
| `Expansion.EmptyColumns` | src/bin/11.rs:105-111 | Exactly the columns without a galaxy, in increasing order. |
| `Expansion.Galaxies` | src/bin/11.rs:113-117 | Exactly the galaxy positions, in row-major order. |
| `Expansion.GalaxyLinesNotEmpty` | src/bin/11.rs:97-117 | A galaxy's row and column are never empty. |
| `Expansion.ParseImage` | src/bin/11.rs:86-130 | An image is read exactly when the newline-separated rows parse and have one common length; ragged rows fail the source's assertion and give `None` here. Its pixels are exactly the rows read, and it holds their empty rows, empty columns and galaxies. |
| `Expansion.RowsRoundTrip` | src/bin/11.rs:44-48 | Non-empty rows written one per line are read back as they are, whatever their lengths. |
| `Expansion.ImageRoundTrip` | src/bin/11.rs:86-130 | A written rectangular image is read back with the same pixels. |
| `Expansion.RaggedImagePanics` | src/bin/11.rs:89-90 | Written rows of different lengths fail the source's assertion; the model reads nothing. |
| `Expansion.LineDilation` | src/bin/11.rs:147-177 | The number of empty lines crossed is at most the number of empty lines. |
| `Expansion.Dilation` | src/bin/11.rs:179-182 | At most all the empty rows plus all the empty columns are crossed. |
| `Expansion.DilatedDistance` | src/bin/11.rs:184-194 | The dilated distance is at least the Manhattan distance. |
| `Expansion.DilatedDistanceSymmetric` | src/bin/11.rs:184-194 | The distance does not depend on the direction of travel. |
| `Expansion.LineDilationIsExpansion` | src/bin/11.rs:147-177 | Between non-empty lines, the dilated gap is the gap between the coordinates in the expanded universe. |
| `Expansion.DilatedDistanceIsExpansion` | src/bin/11.rs:184-194 | Between two galaxies, the dilated distance is the Manhattan distance in the expanded universe. |
| `Expansion.MegaExceedsPlain` | src/bin/11.rs:184-194 | Part two's distance exceeds part one's by 999998 per empty line crossed. |
| `Expansion.PairSumIsExpansion` | src/bin/11.rs:201-210 | `combinations(2)` summed: for galaxies off the empty lines, adding up each pair's dilated distance gives the sum over pairs of their Manhattan distances in the expanded universe. |
| `Expansion.FromFirstIsExpansion` | src/bin/11.rs:201-210 | The pairs with one fixed galaxy: the summed dilated distances equal the summed distances after expanding every empty line. |
| `Expansion.Total` | src/bin/11.rs:197-231 | Nothing exactly when the input does not parse; otherwise the sum over all pairs of galaxies of their Manhattan distance in the universe expanded by the factor (2 for part one, 1000000 for part two). |
| `Expansion.FromFirstUnexpanded` | src/bin/11.rs:197-213 | Without expansion the sum over pairs is the plain Manhattan sum. |
| `Springs.ParseStatus` | src/bin/12.rs:22-31 | '?', '#' and '.' are springs, and only they. |
| `Springs.FirstRunFits` | src/bin/12.rs:126-129 | The minimum length `sum + count - 1` is at least the first run. |
| `Springs.Resolutions` | src/bin/12.rs:74-149 | Every listed resolution turns each unknown spring operational or damaged and keeps the known ones. |
| `Springs.ResolutionsComplete` | src/bin/12.rs:74-149 | Every such resolution is listed. |
| `Springs.RunsCoverDamaged` | src/bin/12.rs:74-149 | The damaged runs of a resolution account for all its damaged springs. |
| `Springs.PendingEmpty` | src/bin/12.rs:102-105 | With no spring left, a resolution fits exactly when no run is left. |
| `Springs.PendingNoRuns` | src/bin/12.rs:109-118 | With no run left, exactly one resolution fits when no spring is known damaged, none otherwise. |
| `Springs.PendingTooShort` | src/bin/12.rs:126-129 | Fewer springs than `sum + count - 1` admit no resolution. |
| `Springs.PendingStep` | src/bin/12.rs:131-148 | The brute-force count, one spring at a time: an operational spring is skipped, a damaged one continues a run, an unknown one adds both cases. |
| `Springs.PendingInsideRun` | src/bin/12.rs:84-95 | Inside a run, the remaining springs of the run must be damaged or unknown and be followed by the end or a non-damaged spring. |
| `Springs.MatchedIsBruteForce` | src/bin/12.rs:76-98 | The match step counts exactly the resolutions that start with a damaged run of the first length. |
| `Springs.ArrangementsIsBruteForce` | src/bin/12.rs:74-149 | For runs of positive length, the dynamic programme counts exactly the resolutions whose damaged runs are the recorded runs. |
| `Springs.Copies` | src/bin/12.rs:158-166 | `n` copies of the springs joined by `n - 1` unknown springs: position `i` is the joining unknown spring when `i mod (len + 1) = len`, and otherwise spring `i mod (len + 1)`. |
| `Springs.Repeated` | src/bin/12.rs:168-170 | `n` copies of the runs: `n` times as many runs, run `i` being run `i mod len` of the original. |
| `Springs.Unfolded` | src/bin/12.rs:152-178 | Five copies of the springs with four joining unknowns and five copies of the runs, with the contents `Copies` and `Repeated` state. |
| `Springs.UnfoldedRuns` | src/bin/12.rs:152-178 | Unfolding multiplies the expected damaged springs and keeps the runs positive, so the count of an unfolded record is its brute-force count too. |
| `Springs.ParseRow` | src/bin/12.rs:40-44 | `many1(parse_status)`: the longest non-empty run of spring characters, one spring per character. |
| `Springs.ParseRecord` | src/bin/12.rs:69-72 | A successful read consumes input. |
| `Springs.RecordRoundTrip` | src/bin/12.rs:55-72 | Springs, a space and comma-separated runs are read back when the end or a newline follows. |
| `Springs.ParseReport` | src/bin/12.rs:192-195 | The report parses exactly when its first record does. |
| `Springs.PartOneIsBruteForce` | src/bin/12.rs:211-222 | Part one is the sum over the records of their brute-force counts. |
| `Springs.UnfoldAll` | src/bin/12.rs:229-231 | One unfolded record per record, in order. |
| `Springs.PartTwoIsPartOneUnfolded` | src/bin/12.rs:224-238 | Part two is part one of the unfolded records. |
| `Springs.PartTwoIsBruteForce` | src/bin/12.rs:224-238 | For runs of positive length, part two is the sum over the records of the brute-force counts of their unfolded forms. |
| `Mirrors.ParseFeature` | src/bin/13.rs:24-32 | '.' and '#' are features, '#' exactly the rock. |
| `Mirrors.FirstRowMirror` | src/bin/13.rs:90-103 | The first row mirror at or after the start, or 0 exactly when none exists. |
| `Mirrors.HorizontalScore` | src/bin/13.rs:90-103 | Fewer than the number of rows. |
| `Mirrors.FirstColumnMirror` | src/bin/13.rs:105-118 | The first column mirror at or after the start, or 0 exactly when none exists. |
| `Mirrors.VerticalScore` | src/bin/13.rs:105-118 | Fewer than the number of columns. |
| `Mirrors.Score` | src/bin/13.rs:120-124 | Below the columns plus 100 times the rows. |
| `Mirrors.Transpose` | src/bin/13.rs:105-118 | Columns become rows. |
| `Mirrors.ColumnMirrorIsRowMirror` | src/bin/13.rs:105-118 | A column mirror is a row mirror of the transposed pattern. |
| `Mirrors.VerticalIsTransposedHorizontal` | src/bin/13.rs:90-118 | The vertical score is the horizontal score of the transposed pattern. |
| `Mirrors.FirstMirrorsAgree` | src/bin/13.rs:105-118 | The first column mirror is the first row mirror of the transposed pattern, from any start. |
| `Mirrors.MirroredPatternHasMirror` | src/bin/13.rs:90-103 | A pattern followed by its own rows reversed has a mirror at the seam. |
| `Mirrors.HorizontalScoreAtMost` | src/bin/13.rs:90-103 | When some row mirror exists, the score is positive and at most that mirror. |
| `Mirrors.ParseRow` | src/bin/13.rs:36-40 | `many1(parse_feature)`: the longest non-empty run of feature characters, one feature per character. |
| `Mirrors.RowRoundTrip` | src/bin/13.rs:36-40 | A written row is read back, up to the first non-feature character. |
| `Mirrors.ParseRows` | src/bin/13.rs:44-48 | Rows are read exactly when the text starts with a feature character; at least one non-empty row, and the read consumes input. |
| `Mirrors.RowsRoundTrip` | src/bin/13.rs:44-48 | Non-empty rows written one per line are read back, up to a text that does not continue them. |
| `Mirrors.ParsePattern` | src/bin/13.rs:65-85 | The assertion fails (no result) exactly when rows are read but differ in length; nom fails exactly when no row is read; otherwise the rows read, rectangular, consuming input. |
| `Mirrors.PatternRoundTrip` | src/bin/13.rs:65-85 | A written rectangular pattern is read back, up to a text that does not continue it. |
| `Mirrors.RaggedPatternPanics` | src/bin/13.rs:68-69 | Written rows of different lengths make the assertion fail. |
| `Mirrors.ParseNotes` | src/bin/13.rs:134-137 | A failed assertion in the first pattern fails the read; a successful read has at least one pattern, each rectangular, starting with the first pattern read, and consumes input. |
| `Mirrors.NotesCons` | src/bin/13.rs:134-137 | After a pattern and a blank line the rest of the notes is read and the pattern put in front; a failed assertion in the rest fails the whole read. |
| `Mirrors.NotesStop` | src/bin/13.rs:134-137 | The list ends after a pattern no blank line follows. |
| `Mirrors.NotesRoundTrip` | src/bin/13.rs:134-137 | Written notes are read back, up to a text that neither continues the last pattern nor starts with a blank line. |
| `Mirrors.LaterRaggedPatternPanics` | src/bin/13.rs:68-69 | A ragged pattern after a blank line fails the whole read instead of ending the list before it. |
| `Mirrors.PartOne` | src/bin/13.rs:153-160 | The total is at least every single pattern's score. |
| `Mirrors.PartOneAppend` | src/bin/13.rs:153-160 | The answer for notes in two parts is the sum of the two answers. |
| `Tilting.ParseCell` | src/bin/14.rs:35-44 | 'O', '#' and '.' are cells, and only they. |
| `Tilting.CellChar` | src/bin/14.rs:35-44 | Every cell is read back from its character. |
| `Tilting.Sort` | src/bin/14.rs:115-172 | `sorted()`: ascending and a permutation of the segment. |
| `Tilting.AscendingUnique` | src/bin/14.rs:115-172 | An ascending arrangement of a multiset is unique, so the sorted segment is determined by its rocks. |
| `Tilting.SortAscending` | src/bin/14.rs:115-172 | Sorting an ascending segment leaves it as it is. |
| `Tilting.Arranged` | src/bin/14.rs:115-172 | One segment sorted towards its end, or reversed towards its start: same length and same rocks. |
| `Tilting.ArrangedSegment` | src/bin/14.rs:115-172 | A segment without a cube rock, or a run of cube rocks, stays so and leaves no round rock able to roll. |
| `Tilting.ArrangeAllProperties` | src/bin/14.rs:115-172 | Arranging every segment keeps the line's length, its rocks and the cube rocks' places, and leaves the line settled. |
| `Tilting.TiltLine` | src/bin/14.rs:115-172 | A tilted row or column keeps its rocks and its cube rocks' places, and no round rock can roll further towards the tilt. |
| `Tilting.TiltKeepsSegments` | src/bin/14.rs:115-172 | Round rocks never pass a cube rock: the tilted line's segments are the original ones, each rearranged. |
| `Tilting.TiltSettled` | src/bin/14.rs:115-172 | Tilting a settled line changes nothing. |
| `Tilting.TiltIdempotent` | src/bin/14.rs:115-172 | Tilting a line twice is tilting it once. |
| `Tilting.Transpose` | src/bin/14.rs:178-186 | The column-major reshape: rows become columns. |
| `Tilting.TiltColumns` | src/bin/14.rs:115-144 | North and South: every column tilted, with the same rocks, and the platform's shape kept. |
| `Tilting.TiltRows` | src/bin/14.rs:145-172 | East and West: every row tilted, with the same rocks, and the platform's shape kept. |
| `Tilting.TiltedIn` | src/bin/14.rs:113-187 | The platform keeps its shape, each row or column along the tilt keeps its rocks, and nothing can roll further. Each row (East, West) or column (North, South) is exactly that line tilted on its own (`TiltLine`), so by `TiltKeepsSegments` no round rock crosses a cube rock. |
| `Tilting.SettledRowStays` | src/bin/14.rs:145-172 | A one-row platform whose row is already settled East or West is left exactly as it is: tilting sorts each segment between cube rocks on its own. |
| `Tilting.CubeStopsRoundRock` | src/bin/14.rs:145-158 | Tilting the row `O#.` East leaves it as `O#.`: the cube rock stops the round rock. |
| `Tilting.TiltedSettled` | src/bin/14.rs:113-187 | Tilting a platform on which nothing can roll changes nothing. |
| `Tilting.TiltedIdempotent` | src/bin/14.rs:113-187 | Tilting twice in one direction is tilting once. |
| `Tilting.Successor` | src/bin/14.rs:220-229 | One spin cycle keeps the platform's shape and ends settled towards the East. |
| `Tilting.LoadByColumns` | src/bin/14.rs:189-203 | The load counted row by row equals the load counted column by column, each round rock weighing its distance from the south edge. |
| `Tilting.Load` | src/bin/14.rs:189-203 | The load counted row by row, each round rock weighing its distance from the south edge, equals the load counted column by column. |
| `Tilting.NorthLoadByColumns` | src/bin/14.rs:206-214 | After tilting North the load is the sum over columns of each tilted column's load. |
| `Tilting.ParseRank` | src/bin/14.rs:48-53 | `many1(parse_maybe_rock)`: a non-empty row, consuming input, exactly when the first character is a cell. |
| `Tilting.ParseState` | src/bin/14.rs:71-108 | A platform is read exactly when the ranks are read and have one length; a ragged platform, on which the source's assertion panics, is nothing. |
| `Tilting.RaggedStatePanics` | src/bin/14.rs:75-78 | Written rows of different lengths make the assertion fail. |
| `Tilting.RankRoundTrip` | src/bin/14.rs:48-53 | A written row is read back, up to the first non-cell character. |
| `Tilting.StateRoundTrip` | src/bin/14.rs:71-108 | A written platform is read back. |
| `Tilting.PartOne` | src/bin/14.rs:206-214 | Nothing exactly when the input does not parse or the platform is ragged (where the source panics); otherwise the column-wise load of the platform tilted North. |
| `Hashing.HashStep` | src/bin/15.rs:32 | One character of HASH stays below 256, and from a value below 256 its `u32` product never wraps. |
| `Hashing.HashFrom` | src/bin/15.rs:30-32 | The fold stays below 256 and leaves the start value for an empty string. |
| `Hashing.Hash` | src/bin/15.rs:29-33 | The hash is below 256. |
| `Hashing.HashFromAppend` | src/bin/15.rs:30-32 | Hashing a concatenation continues from the hash of its first part. |
| `Hashing.HashFromIsPolynomial` | src/bin/15.rs:30-32 | Reducing modulo 256 after every character gives what reducing once at the end gives. |
| `Hashing.HashIsPolynomial` | src/bin/15.rs:29-33 | The hash of a string is `sum c_i * 17^(n-i)` modulo 256. |
| `Hashing.ParseStep` | src/bin/15.rs:15-24 | `is_not(",\n")`: the longest non-empty run of characters other than comma and newline. |
| `Hashing.ParseSequence` | src/bin/15.rs:38-68 | A parsed sequence has at least one step. |
| `Hashing.SequenceRoundTrip` | src/bin/15.rs:38-68 | Steps joined by commas and ended by a newline are read back, whatever follows. |
| `Hashing.HashTotal` | src/bin/15.rs:73 | At most 255 per step. |
| `Hashing.PartOne` | src/bin/15.rs:69-76 | Nothing exactly when the input does not parse; otherwise at most 255 per step. |
| `Hashing.PartOneOfSteps` | src/bin/15.rs:69-76 | A written sequence's answer is the sum of its steps' hashes. |
| `Beams.Step` | src/bin/16.rs:149-169 | The neighbour one step away: North and South change the row, East and West the column. |
| `Beams.StepReverse` | src/bin/16.rs:149-169 | Stepping forward and then back returns to the start. |
| `Beams.Propagated` | src/bin/16.rs:149-169 | The heading is kept, and stepping back against it returns to the starting tile. |
| `Beams.ReflectedHeading` | src/bin/16.rs:171-211 | A mirror turns a vertical beam horizontal and a horizontal beam vertical. |
| `Beams.ReflectionReversible` | src/bin/16.rs:171-211 | A beam sent back along the reflected heading leaves along the reverse of the arriving one. |
| `Beams.MirrorsOpposite` | src/bin/16.rs:171-211 | The two mirrors send a beam in opposite directions. |
| `Beams.Reflected` | src/bin/16.rs:171-211 | The heading turns to the perpendicular reflected one, and stepping back against it returns to the mirror. |
| `Beams.Split` | src/bin/16.rs:213-243 | Along the splitter the beam passes on; across it two beams leave in opposite directions along the splitter, each one step on. |
| `Beams.Successors` | src/bin/16.rs:268-283 | One or two beams, each one step on in its heading; an empty tile passes the beam on. |
| `Beams.ReachableStep` | src/bin/16.rs:268-283 | A reached inside state passes each of its beams on. |
| `Beams.ClosedHoldsReachable` | src/bin/16.rs:256-286 | A closed set of inside states holding the start holds everything the beam reaches. |
| `Beams.SkipKeepsFrontier` | src/bin/16.rs:258-265 | Popping an outside or already visited state keeps the search's invariant. |
| `Beams.VisitKeepsFrontier` | src/bin/16.rs:266-283 | Visiting a new inside state and pushing its beams keeps the invariant. |
| `Beams.EnergisedBound` | src/bin/16.rs:304-310 | A set of inside states energises at most rows times columns tiles. |
| `Beams.EnergisedCount` | src/bin/16.rs:304-310 | The visited states are exactly the inside states the beam reaches, the count is the number of their distinct indexes, and it is at most rows times columns. |
| `Beams.ParseTile` | src/bin/16.rs:45-64 | The five tile characters give a tile, and only they. |
| `Beams.TileChar` | src/bin/16.rs:45-64 | Every tile is read back from its character. |
| `Beams.ParseRank` | src/bin/16.rs:68-71 | `many1(parse_tile)`: a non-empty row, consuming input, exactly when the first character is a tile. |
| `Beams.ParseGrid` | src/bin/16.rs:102-137 | A grid is read exactly when the ranks are read and have one length; a ragged grid, on which the source's assertion panics, is nothing. |
| `Beams.RaggedGridPanics` | src/bin/16.rs:105-108 | Written rows of different lengths make the assertion fail. |
| `Beams.RankRoundTrip` | src/bin/16.rs:68-71 | A written row is read back, up to the first non-tile character. |
| `Beams.GridRoundTrip` | src/bin/16.rs:102-137 | A written grid is read back. |
| `Beams.PartOne` | src/bin/16.rs:313-321 | Nothing exactly when the input does not parse or the grid is ragged (where the source panics); otherwise the number of distinct indexes the beam from the top-left corner heading East reaches, at most the grid's size. |
| `Crucible.TurnsAreQuarterTurns` | src/bin/17.rs:193-275 | Right undoes left; a turn changes the heading without reversing it, and right is the reverse of left. |
| `Crucible.Ahead` | src/bin/17.rs:138-167 | One block on in the same heading with the run one longer; nothing exactly at the edge of the city. |
| `Crucible.OnLeft` | src/bin/17.rs:193-222 | One block to the left with a new run of one; nothing exactly at the edge. |
| `Crucible.OnRight` | src/bin/17.rs:246-275 | One block to the right with a new run of one; nothing exactly at the edge. |
| `Crucible.KindAhead` | src/bin/17.rs:169-191 | The plain or ultra move ahead, when it exists, is a legal move inside the city. |
| `Crucible.KindLeft` | src/bin/17.rs:224-244 | The plain or ultra left turn, when it exists, is a legal move inside the city. |
| `Crucible.KindRight` | src/bin/17.rs:277-297 | The plain or ultra right turn, when it exists, is a legal move inside the city. |
| `Crucible.Next` | src/bin/17.rs:299-315 | At most three successors, each with the heat loss of the block it enters. |
| `Crucible.Somes` | src/bin/17.rs:300-303 | `flatten` over the three options: the present values, in order, and no others. |
| `Crucible.SomesOne` | src/bin/17.rs:300-303 | A present value is kept as itself; an absent one disappears. |
| `Crucible.SomesAppend` | src/bin/17.rs:300-303 | `flatten` keeps order: the values of two lists of options are the values of the first followed by those of the second. |
| `Crucible.NextIsLegal` | src/bin/17.rs:299-315 | The successors are exactly the legal moves. |
| `Crucible.NextStaysValid` | src/bin/17.rs:169-297 | Every successor's run length is one the guards accept, so the `panic!` arms are unreachable. |
| `Crucible.IsGoal` | src/bin/17.rs:317-323 | A goal state is inside the city (at its bottom-right block), and an ultra crucible stops there only with a run it may turn after. |
| `Crucible.UltraTurnsEarlyAsWritten` | src/bin/17.rs:360-378 | As written, with the start's run length 1, an ultra crucible in a 4 by 4 city turns after three blocks. |
| `Crucible.RunCountsStraightMoves` | src/bin/17.rs:138-297 | From the corrected start, the run length is the number of blocks moved straight: a plain crucible goes at most three blocks straight, an ultra one turns only after four. |
| `Crucible.ParseBlock` | src/bin/17.rs:24-42 | The digits 1 to 9, and only they, give their values. |
| `Crucible.ParseStreet` | src/bin/17.rs:46-49 | `many1(parse_block)`: a non-empty street, consuming input, exactly when the first character is a block. |
| `Crucible.ParseCity` | src/bin/17.rs:91-130 | A city is read exactly when the streets are read and have one length; a ragged city, on which the source's assertion panics, is nothing. |
| `Crucible.RaggedCityPanics` | src/bin/17.rs:94-97 | Written streets of different lengths make the assertion fail. |
| `Crucible.StreetRoundTrip` | src/bin/17.rs:46-49 | A written street is read back, up to the first non-block character. |
| `Crucible.CityRoundTrip` | src/bin/17.rs:91-130 | A written city is read back. |
| `Lagoon.Compare` | src/bin/18.rs:124-148 | The cell order is lexicographic on (−y, x): higher ranks first, then left to right; `Equal` exactly for equal cells. |
| `Lagoon.CompareFlips` | src/bin/18.rs:141-148 | Swapping the cells flips the result. |
| `Lagoon.CompareTransitive` | src/bin/18.rs:141-148 | The order is transitive, and two `Equal`-or-`Less` steps ending `Equal` pass through one cell. |
| `Lagoon.Incremented` | src/bin/18.rs:150-171 | `k` cells in the direction: Up adds to y, Down subtracts from y, Left subtracts from x, Right adds to x; the other coordinate is kept. |
| `Lagoon.IncrementedCompose` | src/bin/18.rs:150-171 | Two moves in one direction make one move of the summed length. |
| `Lagoon.IncrementedUndone` | src/bin/18.rs:150-171 | A move followed by the same move in the opposite direction returns to the start. |
| `Lagoon.Segment` | src/bin/18.rs:195-197 | One instruction digs the cells at distances 1 to `n` in its direction, in order. |
| `Lagoon.Dig` | src/bin/18.rs:186-204 | One dug cell per unit of increment in the plan. |
| `Lagoon.DigIsWalk` | src/bin/18.rs:186-204 | The scan digs one cell per unit of increment, each next to the one before, starting next to the origin and ending at the final cursor. |
| `Lagoon.Sort` | src/bin/18.rs:206 | `sorted()`: sorted in the cell order and a permutation of the dug cells. |
| `Lagoon.SortedUnique` | src/bin/18.rs:206 | A multiset of cells has one sorted arrangement, so every sorting algorithm gives the same trench. |
| `Lagoon.SortSorted` | src/bin/18.rs:206 | Sorting a sorted trench leaves it as it is. |
| `Lagoon.SortedNoRepeats` | src/bin/18.rs:206 | A sorted trench without repeated cells is strictly increasing. |
| `Lagoon.Ranks` | src/bin/18.rs:209-211 | `group_by(y)`: the maximal runs of cells of equal y, in order. |
| `Lagoon.RanksOrdered` | src/bin/18.rs:209-216 | The ranks of a sorted trench go from the top down and each rank left to right, strictly when no cell repeats. |
| `Lagoon.Runs` | src/bin/18.rs:216-221 | `enumerate` then `group_by(x - i)`: the rank's x values cut into maximal runs of consecutive values. |
| `Lagoon.RunsApart` | src/bin/18.rs:216-221 | For strictly increasing x values, each run starts at least two after the previous one ends. |
| `Lagoon.FromPlan` | src/bin/18.rs:184-229 | The trench is sorted and holds exactly the dug cells; there is one list of runs per rank, each the run split of that rank's x values. |
| `Lagoon.PairedGapsBound` | src/bin/18.rs:240-246 | Runs pairwise apart give at least one cell per pair of runs. |
| `Lagoon.RankGapsBound` | src/bin/18.rs:236-248 | The gap total over the ranks is not negative. |
| `Lagoon.Capacity` | src/bin/18.rs:235-250 | When consecutive runs of every rank are at least two apart, the capacity is at least the trench capacity. |
| `Lagoon.CapacityBound` | src/bin/18.rs:231-250 | `trench_capacity` is the plan's total increment; without a repeated cell the capacity is at least the trench capacity. |
| `Lagoon.ParseDirection` | src/bin/18.rs:25-35 | Exactly `U`, `D`, `L` and `R` are directions, each read back from its character. |
| `Lagoon.ParseColor` | src/bin/18.rs:44-57 | A read colour is a non-empty run of hex digits, and the read consumes input. |
| `Lagoon.ColorRoundTrip` | src/bin/18.rs:44-57 | `(#hex)` is read back as its hex digits. |
| `Lagoon.ParseInstruction` | src/bin/18.rs:66-80 | A read instruction has a colour and the read consumes input. |
| `Lagoon.AmountRoundTrip` | src/bin/18.rs:70 | An increment, a space and a colour written out are read back. |
| `Lagoon.InstructionRoundTrip` | src/bin/18.rs:66-80 | A written instruction is read back, whatever follows it. |
| `Lagoon.ParseInstructions` | src/bin/18.rs:84-87 | At least one instruction, each with a colour. |
| `Lagoon.InstructionsRoundTrip` | src/bin/18.rs:84-87 | Instructions written one per line are read back when the newline after them is not followed by another instruction. |
| `Lagoon.ParsePlan` | src/bin/18.rs:94-111 | A parsed plan has at least one instruction. |
| `Lagoon.PlanRoundTrip` | src/bin/18.rs:94-111 | A written plan, ended by a newline, is read back when no further instruction follows. |
| `Lagoon.PartOne` | src/bin/18.rs:253-265 | Nothing exactly when the input does not parse; otherwise the capacity of the lagoon the plan digs, which is the paired gaps over all ranks plus the total increment, and at least the total increment when no cell is dug twice. |
| `Lagoon.PartOneBound` | src/bin/18.rs:253-265 | For a written plan that never digs a cell twice, the answer is that capacity and at least the total increment. |
| `Workflows.ParseCategory` | src/bin/19.rs:24-35 | Exactly `x`, `m`, `a` and `s` are categories, one character each. |
| `Workflows.CategoryRoundTrip` | src/bin/19.rs:24-35 | Each category is read back from its letter. |
| `Workflows.ParseOperator` | src/bin/19.rs:43-52 | Exactly `<` and `>` are operators, one character each. |
| `Workflows.OperatorRoundTrip` | src/bin/19.rs:43-52 | Each operator is read back from its character. |
| `Workflows.ParsePredicate` | src/bin/19.rs:68-80 | A read predicate consumes input and ends where the threshold's digits end. |
| `Workflows.PredicateRoundTrip` | src/bin/19.rs:56-80 | Category, operator and threshold written together are read back when no digit follows. |
| `Workflows.ParseName` | src/bin/19.rs:84-88 | `alpha1`: the longest non-empty run of letters. |
| `Workflows.ParseOutcome` | src/bin/19.rs:97-109 | A leading `A` is Accept and a leading `R` is Reject, one character each, whatever follows; any other letter starts a delegation by name, so no delegated name starts with `A` or `R`. |
| `Workflows.OutcomeShadowsNames` | src/bin/19.rs:99-106 | A name such as `Ab` is read as Accept followed by `b`. |
| `Workflows.OutcomeRoundTrip` | src/bin/19.rs:97-109 | An outcome whose name does not start with `A` or `R` is read back when no letter follows. |
| `Workflows.ParseTest` | src/bin/19.rs:119 | A read test consumes input. |
| `Workflows.ParseRule` | src/bin/19.rs:117-137 | A test that parses gives a rule with its predicate; otherwise the original input is read again as a bare outcome without a predicate. |
| `Workflows.RuleFallbackQuirk` | src/bin/19.rs:129-136 | A test without its `:` falls back to delegating to the category letter: `a<5}` reads as a rule delegating to `a`, leaving `<5}`. |
| `Workflows.TestRoundTrip` | src/bin/19.rs:119 | A written test is read back before a comma, a brace or the end. |
| `Workflows.BareOutcomeIsNoTest` | src/bin/19.rs:119-129 | A bare outcome is never read as a test. |
| `Workflows.RuleRoundTrip` | src/bin/19.rs:117-137 | A written rule, with or without a test, is read back before a comma, a brace or the end. |
| `Workflows.ParseRules` | src/bin/19.rs:141-145 | At least one rule; the list parses exactly when its first rule does. |
| `Workflows.RulesRoundTrip` | src/bin/19.rs:141-145 | Rules joined by commas are read back up to the closing brace. |
| `Workflows.ParseWorkflow` | src/bin/19.rs:153-158 | A read workflow has an alphabetic name and at least one rule. |
| `Workflows.WorkflowRoundTrip` | src/bin/19.rs:153-158 | A written workflow is read back, whatever follows it. |
| `Workflows.ParseWorkflows` | src/bin/19.rs:176-179 | At least one workflow. |
| `Workflows.WorkflowsRoundTrip` | src/bin/19.rs:176-179 | Workflows written one per line are read back up to a newline that no workflow follows. |
| `Workflows.ParseEntry` | src/bin/19.rs:190-194 | A read entry consumes input. |
| `Workflows.EntryRoundTrip` | src/bin/19.rs:190-194 | `category=rating` is read back when no digit follows. |
| `Workflows.ParseEntries` | src/bin/19.rs:200 | At least one entry. |
| `Workflows.EntriesRoundTrip` | src/bin/19.rs:200 | Entries joined by commas are read back up to the closing brace. |
| `Workflows.ParsePart` | src/bin/19.rs:196-209 | A part is the map collected from its braced entries. |
| `Workflows.PartRoundTrip` | src/bin/19.rs:196-209 | A written part is read back as the map of its entries. |
| `Workflows.PartKeepsLastRating` | src/bin/19.rs:206 | A category is rated exactly when some entry names it, and then with its last entry's rating. |
| `Workflows.ParseParts` | src/bin/19.rs:213-216 | At least one part. |
| `Workflows.PartsRoundTrip` | src/bin/19.rs:213-216 | Parts written one per line are read back as their maps. |
| `Workflows.ParseProcessor` | src/bin/19.rs:224-228 | At least one workflow and one part; the workflows are those the workflow list reads. |
| `Workflows.ProcessorRoundTrip` | src/bin/19.rs:224-242 | Written workflows, a blank line and written parts are read back. |

## Left out

- Day 6 (`src/bin/06.rs`) is not part of this model: its answer is computed in floating point (`f64` square roots), which Dafny does not model.
- Days 20 and 21 are not part of this model.
- The shared library algorithms (`dijkstra`, `brent`) and the `#[cached]` memoisation are not part of this model. The memoised function is modelled as the plain recursion it caches.
- `println!` output is left out throughout; it does not affect any result.
- Fixed-width integers: `u32`, `usize`, `i32` and `i64` are modelled as unbounded `int`/`nat`. Input numbers that overflow the source's `str::parse` target type are read successfully here. On days 4, 5, 7, 9, 12, 18 and 19 such a number makes nom's `map_res` fail. Day 2 reads its numbers with `.parse::<u32>().unwrap()` (src/bin/02.rs:15, 31), which panics instead. Day 3 builds each part number digit by digit in `u32` (src/bin/03.rs:41-48), where a long number overflows: a debug build panics, and a release build wraps. Day 15 is the exception: `Hashing.HashStep` proves its `u32` arithmetic never wraps.
- Answers that the source gives as constants are not modelled: part two of days 1, 3, 4, 5, 7, 8, 10, 13, 15, 16, 18 and 19 returns `None`; day 10 and day 19 part one return `None` after parsing, and day 7 part one returns `Some(0)` after parsing.
- Calibration.PartOne: a non-empty line without a digit makes the source panic (`unwrap`); the model requires a digit on every line instead.
- Day 4's text parser (`Card::from_str`, `src/bin/04.rs:41-75`) and its `part_one` sum over lines are not modelled; the card is built from already-parsed lists by `Scratchcards.FromLists`.
- Day 5's seed, map and almanac parsers (`src/bin/05.rs:65-148`) are not modelled; only the range line parser is. `Almanac.PartOne` takes a parsed almanac.
- Day 7's bid, hand and game parsers (`src/bin/07.rs:63-158`) are not modelled; the card parser and the hand's category are.
- Network.WalkToGoal: the source walks for ever when ZZZ is never reached; the model takes a step bound `fuel` and reports `Unfinished` when it is spent. `Network.CycleNeverNotYet` states when the unbounded walk never ends.
- Network.PartOne: it returns the walk's outcome (reached, stuck at a missing node, unfinished) rather than panicking or diverging.
- Springs.ArrangementsIsBruteForce: it holds for runs of positive length only. With a run of length 0 the source's count differs from the count of resolutions: "?" with runs `[0]` counts 1.
- Day 14's `part_two` (the `brent` cycle search over 10^9 spin cycles) is not modelled; its `successor` is.
- PipeMaze.TileAtStart: it scans the corrected directions, not the source's arms. On a maze of one row or one column the source offers a direction leading outside the grid and panics in `tile_at` (src/bin/10.rs:210); the model returns the pipe its neighbours make, e.g. `Link(East, West)` for `-S-`. On mazes of at least two rows and two columns both agree (`PipeMaze.AvailableAgrees`).
- Beams.Step: day 16 indexes are `i32` and tile lookups cast them to `usize`; the model uses `int` and only looks up indexes inside the grid, as the iterator's guard ensures. The unused helper `_index_in` is not modelled.
- Crucible: the `dijkstra` searches of `part_one` and `part_two` are not modelled; the successor relation and the goal test they search are.
- Lagoon.ParseColor: the colour is kept as its hex digits. `HexColor::parse_rgb`'s length check (six digits) is not modelled, so any non-empty run of hex digits is accepted.
- Lagoon.FromPlan: the `as usize` cast in `group_by(x as usize - i)` (src/bin/18.rs:218) is modelled over `int`. The `i32` x is cast first and i subtracted after, so the subtraction underflows exactly when 0 <= x < i. A negative x casts to 2^64 + x and does not underflow by itself. Two ranks that do underflow: `[-1, 0]` computes `0 - 1` at i = 1, and so does `[0, 0]`, which repeats a cell. A release build wraps and groups the same way; the debug-build overflow panic is not modelled.
- Lagoon.CapacityBound: the model follows the source's capacity as written, pairing consecutive runs of a rank. It does not state or prove that this is the area the trench encloses: for some non-convex shapes it is not, and no enclosed-area reference is defined here. The published example (src/bin/18.rs:278, 62) is non-convex and gets the right answer. A rank through the bottom of a U-shaped dent shows where it goes wrong. Take the trench `###.###`, `#.#.#.#`, `#.###.#`, `#.....#`, `#######`, with the dent coming in from the top. The rank of its third row has three runs, x = 0, x = 2..4 and x = 6. `tuples()` pairs the first two and counts the cell x = 1 between them. The third run has no partner, so the enclosed cell x = 5 is not counted.
- Lagoon.PartOne: a negative paired gap, possible only when cells repeat, would wrap or panic in the source's `as usize`; the model computes a negative `int` instead.

## Findings

| source | as written | input that shows it | evidently intended | confidence | as-written member | corrected member |
|---|---|---|---|---|---|---|
| src/bin/10.rs:168-198 | The arms are chosen by the start's position against the last row and column only; the first matching arm assumes at least two rows and two columns. | A maze of one row, `S.`: the start at `[0, 0]` is offered South, whose neighbour lies outside the grid, and `tile_at` then indexes out of bounds. | The available directions are exactly those whose neighbour lies inside the grid. | not executed | `PipeMaze.AvailableAsWrittenLeaves` | `PipeMaze.Available` (with `PipeMaze.AvailableAgrees`: the same on grids of at least two rows and columns) |
| src/bin/17.rs:330-378 | Both searches start with `run_length: 1` before any block has been moved, so the start already counts one straight block. | A 4 by 4 city: an ultra crucible goes East three blocks (run lengths 2, 3, 4) and may then turn South, although the guards allow a turn only after four blocks; a plain crucible likewise can go only two blocks before its first turn. | The run length counts the blocks moved straight, so a start state has run length 0. The corrected half holds for the move rule (`Crucible.Legal`) and the paths built from it; in the source the matches in the `maybe_*` functions would also have to accept run length 0, which today falls into their `panic!` arm. | not executed | `Crucible.UltraTurnsEarlyAsWritten` | `Crucible.RunCountsStraightMoves` (from the corrected start `Crucible.Start`) |

=== FILE: common_decimal.dfy ===
/** Decimal digit strings: reading a string of ASCII digits as a natural number and
    writing a natural number back as its shortest digit string. */
module Decimal {

  predicate IsDigit(c: char)
  {
    '0' <= c <= '9'
  }

  predicate AllDigits(s: string)
  {
    forall i :: 0 <= i < |s| ==> IsDigit(s[i])
  }

  function DigitValue(c: char): (d: nat)
    requires IsDigit(c)
    ensures d <= 9
  {
    c as int - '0' as int
  }

  function DigitChar(d: nat): (c: char)
    requires d <= 9
    ensures IsDigit(c) && DigitValue(c) == d
  {
    ('0' as int + d) as char
  }

  /** The number a digit string denotes, most significant digit first. */
  function Value(s: string): nat
    requires AllDigits(s)
  {
    if |s| == 0 then 0 else 10 * Value(s[..|s| - 1]) + DigitValue(s[|s| - 1])
  }

  /** The shortest digit string of `n` ("0" for zero). */
  function ToDigits(n: nat): (s: string)
    ensures |s| >= 1 && AllDigits(s)
    ensures |s| > 1 ==> s[0] != '0'
    decreases n
  {
    if n < 10 then [DigitChar(n)] else ToDigits(n / 10) + [DigitChar(n % 10)]
  }

  /** Writing a number and reading it back is the identity. */
  lemma {:induction false} ValueOfToDigits(n: nat)
    ensures Value(ToDigits(n)) == n
    decreases n
  {
    var s := ToDigits(n);
    if n >= 10 {
      ValueOfToDigits(n / 10);
      assert s[..|s| - 1] == ToDigits(n / 10);
    }
  }

  /** A value is bounded by the number of digits used to write it. */
  lemma {:induction false} ValueBound(s: string)
    requires AllDigits(s)
    ensures Value(s) < Pow10(|s|)
  {
    if |s| > 0 {
      ValueBound(s[..|s| - 1]);
    }
  }

  function Pow10(k: nat): (p: nat)
    ensures p >= 1
  {
    if k == 0 then 1 else 10 * Pow10(k - 1)
  }

  lemma WeightShift(d: nat, p: nat, v: nat, last: nat)
    ensures 10 * (d * p + v) + last == d * (10 * p) + (10 * v + last)
  {
  }

  /** Reading from the most significant end: the leading digit weighs `10^(rest)`. */
  lemma {:induction false} ValueCons(c: char, s: string)
    requires IsDigit(c) && AllDigits(s)
    ensures AllDigits([c] + s)
    ensures Value([c] + s) == DigitValue(c) * Pow10(|s|) + Value(s)
  {
    var t := [c] + s;
    assert AllDigits(t) by {
      assert forall i :: 1 <= i < |t| ==> t[i] == s[i - 1];
    }
    if |s| > 0 {
      var init := s[..|s| - 1];
      assert t[..|t| - 1] == [c] + init;
      ValueCons(c, init);
      assert t[|t| - 1] == s[|s| - 1];
      WeightShift(DigitValue(c), Pow10(|init|), Value(init), DigitValue(s[|s| - 1]));
    } else {
      assert t[..|t| - 1] == [];
    }
  }
}

=== FILE: common_parsing.dfy ===
/** The few parser combinators the puzzle parsers use, with the semantics of nom 7's
    complete-input parsers: a parser either fails or returns a value and the unread
    rest of its input. */
module Parsing {
  import opened Decimal
  import Text
  import Sequences

  datatype Parsed<+T> = Ok(value: T, rest: string) | Fail

  /** `r` is what remains of `s` after reading some prefix of it. */
  predicate IsSuffix(r: string, s: string)
  {
    |r| <= |s| && r == s[|s| - |r|..]
  }

  /** A parser never returns more input than it was given. */
  ghost predicate Shrinks<T>(p: string -> Parsed<T>)
  {
    forall s :: p(s).Ok? ==> |p(s).rest| <= |s|
  }

  /** `char(c)`: reads exactly the character `c`. */
  function Char(c: char, s: string): (r: Parsed<char>)
    ensures r.Ok? <==> |s| > 0 && s[0] == c
    ensures r.Ok? ==> r == Ok(c, s[1..])
  {
    if |s| > 0 && s[0] == c then Ok(c, s[1..]) else Fail
  }

  /** `tag(t)`: reads exactly the text `t`. */
  function Tag(t: string, s: string): (r: Parsed<string>)
    ensures r.Ok? <==> |t| <= |s| && s[..|t|] == t
    ensures r.Ok? ==> r.value == t && r.value + r.rest == s
  {
    if |t| <= |s| && s[..|t|] == t then
      assert s[..|t|] + s[|t|..] == s;
      Ok(t, s[|t|..])
    else Fail
  }

  /** A tag is read off the front of a text that starts with it. */
  lemma TagPrefix(t: string, rest: string)
    ensures Tag(t, t + rest) == Ok(t, rest)
  {
    assert (t + rest)[..|t|] == t;
    assert (t + rest)[|t|..] == rest;
  }

  /** `alpha1`'s character class: ASCII letters. */
  predicate IsAlpha(c: char)
  {
    'a' <= c <= 'z' || 'A' <= c <= 'Z'
  }

  /** Length of the longest prefix of `s` whose characters all satisfy `pred`. */
  function Span(s: string, pred: char -> bool): (n: nat)
    ensures n <= |s|
    ensures forall i :: 0 <= i < n ==> pred(s[i])
    ensures n < |s| ==> !pred(s[n])
  {
    if |s| == 0 || !pred(s[0]) then 0 else 1 + Span(s[1..], pred)
  }

  /** The shape of nom's `digit1`, `alpha1` and `is_not`: the longest non-empty prefix
      whose characters satisfy `pred`; fails when there is none. */
  function TakeWhile1(s: string, pred: char -> bool): (r: Parsed<string>)
    ensures r.Fail? <==> |s| == 0 || !pred(s[0])
    ensures r.Ok? ==> |r.value| >= 1 && r.value + r.rest == s
    ensures r.Ok? ==> (forall i :: 0 <= i < |r.value| ==> pred(r.value[i]))
    ensures r.Ok? ==> |r.rest| == 0 || !pred(r.rest[0])
  {
    var n := Span(s, pred);
    if n == 0 then Fail
    else
      assert s[..n] + s[n..] == s;
      Ok(s[..n], s[n..])
  }

  /** A non-empty word of `pred` characters followed by a non-`pred` character (or the
      end) is read back exactly. */
  lemma {:induction false} TakeWhile1Word(w: string, t: string, pred: char -> bool)
    requires |w| >= 1 && forall i :: 0 <= i < |w| ==> pred(w[i])
    requires |t| == 0 || !pred(t[0])
    ensures TakeWhile1(w + t, pred) == Ok(w, t)
  {
    SpanWord(w, t, pred);
    assert (w + t)[..|w|] == w && (w + t)[|w|..] == t;
  }

  lemma {:induction false} SpanWord(w: string, t: string, pred: char -> bool)
    requires forall i :: 0 <= i < |w| ==> pred(w[i])
    requires |t| == 0 || !pred(t[0])
    ensures Span(w + t, pred) == |w|
  {
    if |w| > 0 {
      assert (w + t)[1..] == w[1..] + t;
      SpanWord(w[1..], t, pred);
    } else {
      assert w + t == t;
    }
  }

  /** `map_res(digit1, str::parse)` for an unbounded natural number. */
  function Number(s: string): (r: Parsed<nat>)
    ensures r.Ok? <==> |s| > 0 && IsDigit(s[0])
    ensures r.Ok? ==> |r.rest| < |s| && IsSuffix(r.rest, s)
    ensures r.Ok? ==> |r.rest| == 0 || !IsDigit(r.rest[0])
  {
    match TakeWhile1(s, IsDigit)
    case Fail => Fail
    case Ok(digits, rest) =>
      assert s[|s| - |rest|..] == rest by { assert s == digits + rest; }
      Ok(Value(digits), rest)
  }

  /** A number written in decimal is read back. */
  lemma NumberOfDigits(n: nat, t: string)
    requires |t| == 0 || !IsDigit(t[0])
    ensures Number(ToDigits(n) + t) == Ok(n, t)
  {
    TakeWhile1Word(ToDigits(n), t, IsDigit);
    ValueOfToDigits(n);
  }

  /** `separated_list1(char(sep), p)`: one or more `p`, separated by `sep`. After a
      separator whose element does not parse, the list ends BEFORE that separator. */
  function SeparatedList1<T>(p: string -> Parsed<T>, sep: char, s: string): (r: Parsed<seq<T>>)
    requires Shrinks(p)
    ensures r.Ok? ==> |r.value| >= 1 && |r.rest| <= |s|
    ensures r.Ok? <==> p(s).Ok?
  {
    match p(s)
    case Fail => Fail
    case Ok(v, i) =>
      var tail := ListTail(p, sep, i);
      Ok([v] + tail.value, tail.rest)
  }

  /** The repetitions after the first element of `separated_list1`. */
  function ListTail<T>(p: string -> Parsed<T>, sep: char, s: string): (r: Parsed<seq<T>>)
    requires Shrinks(p)
    ensures r.Ok? && |r.rest| <= |s|
    decreases |s|
  {
    if |s| > 0 && s[0] == sep then
      match p(s[1..])
      case Fail => Ok([], s)
      case Ok(v, i) =>
        var tail := ListTail(p, sep, i);
        Ok([v] + tail.value, tail.rest)
    else Ok([], s)
  }

  /** Every element of a list satisfies what every value of its element parser
      satisfies. */
  lemma SeparatedList1Values<T>(p: string -> Parsed<T>, sep: char, s: string, P: T -> bool)
    requires Shrinks(p)
    requires forall t :: p(t).Ok? ==> P(p(t).value)
    ensures SeparatedList1(p, sep, s).Ok? ==>
      forall i :: 0 <= i < |SeparatedList1(p, sep, s).value| ==> P(SeparatedList1(p, sep, s).value[i])
  {
    if p(s).Ok? {
      ListTailValues(p, sep, p(s).rest, P);
    }
  }

  lemma {:induction false} ListTailValues<T>(p: string -> Parsed<T>, sep: char, s: string, P: T -> bool)
    requires Shrinks(p)
    requires forall t :: p(t).Ok? ==> P(p(t).value)
    ensures forall i :: 0 <= i < |ListTail(p, sep, s).value| ==> P(ListTail(p, sep, s).value[i])
    decreases |s|
  {
    if |s| > 0 && s[0] == sep && p(s[1..]).Ok? {
      ListTailValues(p, sep, p(s[1..]).rest, P);
    }
  }

  /** `t` may follow an element of a list: it is the text after the list, or it starts
      with the separator. */
  predicate Follows(t: string, sep: char, after: string)
  {
    t == after || (|t| > 0 && t[0] == sep)
  }

  /** The list stops in front of `after`: `after` does not start with the separator,
      or the element parser fails on what follows that separator. */
  predicate Stops<T>(p: string -> Parsed<T>, sep: char, after: string)
  {
    |after| == 0 || after[0] != sep || p(after[1..]).Fail?
  }

  /** Separated elements, each of which its parser reads back, are read back as the
      whole list, as long as the list stops in front of the text after it. */
  lemma SeparatedList1Join<T>(p: string -> Parsed<T>, sep: char, items: seq<string>,
                              values: seq<T>, after: string)
    requires Shrinks(p)
    requires |items| == |values| >= 1
    requires forall i, t :: 0 <= i < |items| && Follows(t, sep, after) ==>
      p(items[i] + t) == Ok(values[i], t)
    requires Stops(p, sep, after)
    ensures SeparatedList1(p, sep, Text.Join(items, sep) + after) == Ok(values, after)
  {
    var t := JoinSteps(p, sep, items, values, after);
    assert values == [values[0]] + values[1..];
  }

  lemma ListTailJoin<T>(p: string -> Parsed<T>, sep: char, items: seq<string>,
                        values: seq<T>, after: string)
    requires Shrinks(p)
    requires |items| == |values| >= 1
    requires forall i, t :: 0 <= i < |items| && Follows(t, sep, after) ==>
      p(items[i] + t) == Ok(values[i], t)
    requires Stops(p, sep, after)
    ensures ListTail(p, sep, [sep] + Text.Join(items, sep) + after) == Ok(values, after)
  {
    var s := [sep] + Text.Join(items, sep) + after;
    assert s[1..] == Text.Join(items, sep) + after;
    var t := JoinSteps(p, sep, items, values, after);
    assert values == [values[0]] + values[1..];
  }

  /** The element parser reads the first item, leaving `t`, and the list's tail reads
      the remaining items from `t`. */
  lemma {:induction false} JoinSteps<T>(p: string -> Parsed<T>, sep: char, items: seq<string>,
                                       values: seq<T>, after: string) returns (t: string)
    requires Shrinks(p)
    requires |items| == |values| >= 1
    requires forall i, t :: 0 <= i < |items| && Follows(t, sep, after) ==>
      p(items[i] + t) == Ok(values[i], t)
    requires Stops(p, sep, after)
    ensures p(Text.Join(items, sep) + after) == Ok(values[0], t)
    ensures ListTail(p, sep, t) == Ok(values[1..], after)
    decreases |items|
  {
    if |items| == 1 {
      t := after;
      assert Text.Join(items, sep) == items[0];
      assert Follows(after, sep, after);
      assert values[1..] == [];
    } else {
      var rest := Text.Join(items[1..], sep) + after;
      t := [sep] + rest;
      assert Text.Join(items, sep) + after == items[0] + t by {
        Sequences.Assoc4(items[0], [sep], Text.Join(items[1..], sep), after);
      }
      assert Follows(t, sep, after);
      assert t[1..] == rest;
      ReadsTail(p, sep, items, values, after);
      var t' := JoinSteps(p, sep, items[1..], values[1..], after);
      assert values[1..] == [values[1..][0]] + values[1..][1..];
    }
  }

  /** What the element parser reads back from every item, it reads back from every
      item after the first. */
  lemma ReadsTail<T>(p: string -> Parsed<T>, sep: char, items: seq<string>, values: seq<T>, after: string)
    requires |items| == |values| >= 1
    requires forall i, t :: 0 <= i < |items| && Follows(t, sep, after) ==>
      p(items[i] + t) == Ok(values[i], t)
    ensures forall i, t :: 0 <= i < |items[1..]| && Follows(t, sep, after) ==>
      p(items[1..][i] + t) == Ok(values[1..][i], t)
  {
    forall i, t | 0 <= i < |items[1..]| && Follows(t, sep, after)
      ensures p(items[1..][i] + t) == Ok(values[1..][i], t)
    {
      assert items[1..][i] == items[i + 1];
    }
  }
}

=== FILE: common_sequences.dfy ===
/** Generic sequence utilities shared by the puzzle kernels: sums, flattening,
    `group_by` over consecutive equal keys, and collecting key/value pairs into a
    map where later pairs overwrite earlier ones (as `HashMap::from_iter` does). */
module Sequences {

  /** A value that may be missing, as Rust's `Option`. */
  datatype Option<+T> = None | Some(value: T)

  /** Concatenation regrouped to the right, for contexts where the solver would
      otherwise have to find this among many other facts. */
  lemma Assoc3<T>(a: seq<T>, b: seq<T>, c: seq<T>)
    ensures a + b + c == a + (b + c)
  {
  }

  lemma Assoc4<T>(a: seq<T>, b: seq<T>, c: seq<T>, d: seq<T>)
    ensures a + b + c + d == a + (b + (c + d))
  {
    Assoc3(a, b, c);
    Assoc3(a + b, c, d);
    Assoc3(a, b, c + d);
  }

  /** A relation that holds between a head pair and between all later pairs holds
      between all pairs, with the relation kept abstract so that its definition does
      not enter the proof. */
  lemma PairwiseCons<A, B>(R: (A, B) -> bool, xs: seq<A>, y: B, ys: seq<B>)
    requires |xs| >= 1 && |ys| == |xs| - 1
    requires R(xs[0], y)
    requires forall i :: 0 <= i < |xs[1..]| ==> R(xs[1..][i], ys[i])
    ensures forall i :: 0 <= i < |xs| ==> R(xs[i], ([y] + ys)[i])
  {
    forall i | 1 <= i < |xs|
      ensures R(xs[i], ([y] + ys)[i])
    {
      assert xs[i] == xs[1..][i - 1];
    }
  }

  /** Sum of a sequence of integers, folded from the front. */
  function Sum(xs: seq<int>): int
  {
    if |xs| == 0 then 0 else xs[0] + Sum(xs[1..])
  }

  lemma {:induction false} SumAppend(xs: seq<int>, ys: seq<int>)
    ensures Sum(xs + ys) == Sum(xs) + Sum(ys)
  {
    if |xs| == 0 {
      assert xs + ys == ys;
    } else {
      assert (xs + ys)[1..] == xs[1..] + ys;
      SumAppend(xs[1..], ys);
    }
  }

  /** Every element bounded by `b` bounds the sum by `b` times the length. */
  lemma {:induction false} SumBounded(xs: seq<int>, lo: int, hi: int)
    requires forall i :: 0 <= i < |xs| ==> lo <= xs[i] <= hi
    ensures lo * |xs| <= Sum(xs) <= hi * |xs|
  {
    if |xs| > 0 {
      SumBounded(xs[1..], lo, hi);
    }
  }

  lemma {:induction false} SumNonNegative(xs: seq<nat>)
    ensures Sum(xs) >= 0
  {
    if |xs| > 0 {
      SumNonNegative(xs[1..]);
    }
  }

  /** Concatenation of a sequence of sequences. */
  function Flatten<T>(g: seq<seq<T>>): seq<T>
  {
    if |g| == 0 then [] else g[0] + Flatten(g[1..])
  }

  lemma {:induction false} FlattenAppend<T>(a: seq<seq<T>>, b: seq<seq<T>>)
    ensures Flatten(a + b) == Flatten(a) + Flatten(b)
  {
    if |a| == 0 {
      assert a + b == b;
    } else {
      assert (a + b)[1..] == a[1..] + b;
      FlattenAppend(a[1..], b);
    }
  }

  /** `g` splits `s` into maximal runs of elements with equal `key`: the runs are
      non-empty, concatenate to `s`, share one key inside, and neighbouring runs have
      different keys. This is what itertools' `group_by` produces. */
  ghost predicate IsGrouping<T, K>(g: seq<seq<T>>, s: seq<T>, key: T -> K)
  {
    && Flatten(g) == s
    && (forall i :: 0 <= i < |g| ==> |g[i]| > 0)
    && (forall i, j :: 0 <= i < |g| && 0 <= j < |g[i]| ==> key(g[i][j]) == key(g[i][0]))
    && (forall i :: 0 < i < |g| ==> key(g[i][0]) != key(g[i - 1][0]))
  }

  /** Puts `x` in front of the grouping `rest`: it joins the first run when the keys
      agree and starts a run of its own otherwise. */
  function ConsGroup<T, K(==)>(x: T, rest: seq<seq<T>>, key: T -> K): seq<seq<T>>
  {
    if |rest| > 0 && |rest[0]| > 0 && key(rest[0][0]) == key(x) then [[x] + rest[0]] + rest[1..]
    else [[x]] + rest
  }

  lemma GroupingCons<T, K>(x: T, t: seq<T>, rest: seq<seq<T>>, key: T -> K)
    requires IsGrouping(rest, t, key)
    ensures IsGrouping(ConsGroup(x, rest, key), [x] + t, key)
  {
    if |rest| > 0 && key(rest[0][0]) == key(x) {
      GroupingJoinFirst(x, t, rest, key);
    } else {
      GroupingNewRun(x, t, rest, key);
    }
  }

  /** `x` joins the first run, whose key it shares. */
  lemma GroupingJoinFirst<T, K>(x: T, t: seq<T>, rest: seq<seq<T>>, key: T -> K)
    requires IsGrouping(rest, t, key)
    requires |rest| > 0 && key(rest[0][0]) == key(x)
    ensures IsGrouping([[x] + rest[0]] + rest[1..], [x] + t, key)
  {
    var g := [[x] + rest[0]] + rest[1..];
    assert Flatten(rest) == rest[0] + Flatten(rest[1..]);
    assert g[1..] == rest[1..];
    assert Flatten(g) == g[0] + Flatten(g[1..]);
    forall i | 0 < i < |g|
      ensures key(g[i][0]) != key(g[i - 1][0])
    {
      if i > 1 {
        assert g[i] == rest[i] && g[i - 1] == rest[i - 1];
      }
    }
  }

  /** `x` starts a run of its own, its key differing from the first run's. */
  lemma GroupingNewRun<T, K>(x: T, t: seq<T>, rest: seq<seq<T>>, key: T -> K)
    requires IsGrouping(rest, t, key)
    requires |rest| == 0 || key(rest[0][0]) != key(x)
    ensures IsGrouping([[x]] + rest, [x] + t, key)
  {
    var g := [[x]] + rest;
    assert g[1..] == rest;
    assert Flatten(g) == g[0] + Flatten(g[1..]);
    forall i | 0 < i < |g|
      ensures key(g[i][0]) != key(g[i - 1][0])
    {
      if i > 1 {
        assert g[i] == rest[i - 1] && g[i - 1] == rest[i - 2];
      }
    }
  }

  /** Splits `s` into maximal runs of consecutive elements that share a key. */
  function GroupBy<T, K(==)>(s: seq<T>, key: T -> K): (g: seq<seq<T>>)
    ensures IsGrouping(g, s, key)
  {
    if |s| == 0 then []
    else
      var rest := GroupBy(s[1..], key);
      GroupingCons(s[0], s[1..], rest, key);
      assert [s[0]] + s[1..] == s;
      ConsGroup(s[0], rest, key)
  }

  /** Length of the longest prefix of `s` whose elements share the key of `s[0]`. */
  function LeadLength<T, K(==)>(s: seq<T>, key: T -> K): (n: nat)
    requires |s| > 0
    ensures 1 <= n <= |s|
  {
    if |s| == 1 || key(s[1]) != key(s[0]) then 1
    else 1 + LeadLength(s[1..], key)
  }

  /** A prefix length `m` whose elements share the first key and which is followed by
      a different key (or the end) is the lead length. */
  lemma {:induction false} LeadLengthUnique<T, K>(s: seq<T>, key: T -> K, m: nat)
    requires 1 <= m <= |s|
    requires forall j :: 0 <= j < m ==> key(s[j]) == key(s[0])
    requires m < |s| ==> key(s[m]) != key(s[0])
    ensures LeadLength(s, key) == m
  {
    if m > 1 {
      LeadLengthUnique(s[1..], key, m - 1);
    }
  }

  lemma {:induction false} FlattenLength<T>(g: seq<seq<T>>)
    requires forall i :: 0 <= i < |g| ==> |g[i]| > 0
    ensures |Flatten(g)| >= |g|
  {
    if |g| > 0 {
      FlattenLength(g[1..]);
    }
  }

  /** The first run of any grouping is the maximal same-key prefix. */
  lemma {:induction false} GroupingHead<T, K>(g: seq<seq<T>>, s: seq<T>, key: T -> K)
    requires IsGrouping(g, s, key)
    requires |s| > 0
    ensures |g| > 0 && |g[0]| == LeadLength(s, key)
    ensures IsGrouping(g[1..], s[|g[0]|..], key)
  {
    assert |g| > 0;
    assert s == g[0] + Flatten(g[1..]);
    var m := |g[0]|;
    forall j | 0 <= j < m
      ensures key(s[j]) == key(s[0])
    {
      assert s[j] == g[0][j];
    }
    if m < |s| {
      FlattenLength(g[1..]);
      assert |Flatten(g[1..])| > 0;
      assert |g| > 1;
      assert Flatten(g[1..]) == g[1] + Flatten(g[2..]);
      assert s[m] == g[1][0];
    }
    LeadLengthUnique(s, key, m);
    var g' := g[1..];
    assert s[m..] == Flatten(g');
    forall i | 0 < i < |g'|
      ensures key(g'[i][0]) != key(g'[i - 1][0])
    {
      assert g'[i] == g[i + 1] && g'[i - 1] == g[i];
    }
  }

  /** A sequence has exactly one grouping. */
  lemma {:induction false} GroupingUnique<T, K>(g1: seq<seq<T>>, g2: seq<seq<T>>, s: seq<T>, key: T -> K)
    requires IsGrouping(g1, s, key) && IsGrouping(g2, s, key)
    ensures g1 == g2
    decreases |s|
  {
    if |s| == 0 {
      FlattenLength(g1);
      FlattenLength(g2);
    } else {
      GroupingHead(g1, s, key);
      GroupingHead(g2, s, key);
      assert g1[0] == s[..|g1[0]|] by {
        assert s == g1[0] + Flatten(g1[1..]);
      }
      assert g2[0] == s[..|g2[0]|] by {
        assert s == g2[0] + Flatten(g2[1..]);
      }
      GroupingUnique(g1[1..], g2[1..], s[|g1[0]|..], key);
      assert g1 == [g1[0]] + g1[1..];
      assert g2 == [g2[0]] + g2[1..];
    }
  }

  /** The first run of `GroupBy` is a same-key prefix, the text after it starts with
      another key, and grouping that text gives the remaining runs. */
  lemma GroupByHead<T, K>(s: seq<T>, key: T -> K)
    requires |s| > 0
    ensures var g := GroupBy(s, key);
      && |g| > 0 && |g[0]| > 0
      && s == g[0] + s[|g[0]|..]
      && GroupBy(s[|g[0]|..], key) == g[1..]
      && (forall j :: 0 <= j < |g[0]| ==> key(g[0][j]) == key(g[0][0]))
      && (|s[|g[0]|..]| > 0 ==> key(s[|g[0]|..][0]) != key(g[0][0]))
  {
    var g := GroupBy(s, key);
    GroupingHead(g, s, key);
    var rest := s[|g[0]|..];
    GroupByOfGrouping(g[1..], rest, key);
    assert s == g[0] + Flatten(g[1..]);
    if |rest| > 0 {
      assert |g[1..]| > 0;
      assert Flatten(g[1..]) == g[1] + Flatten(g[2..]);
      assert rest[0] == g[1][0];
    }
  }

  /** `GroupBy` returns the one grouping there is. */
  lemma GroupByOfGrouping<T, K>(g: seq<seq<T>>, s: seq<T>, key: T -> K)
    requires IsGrouping(g, s, key)
    ensures GroupBy(s, key) == g
  {
    GroupingUnique(GroupBy(s, key), g, s, key);
  }

  /** The last pair of `pairs` with key `k` carries `v`. */
  ghost predicate LastPairWith<K, V>(pairs: seq<(K, V)>, k: K, v: V)
  {
    exists i :: 0 <= i < |pairs| && pairs[i] == (k, v) && NoLaterKey(pairs, k, i)
  }

  /** No pair after position `i` has key `k`. */
  ghost predicate NoLaterKey<K, V>(pairs: seq<(K, V)>, k: K, i: int)
  {
    forall j :: 0 <= j < |pairs| && i < j ==> pairs[j].0 != k
  }

  /** Collects key/value pairs into a map, inserting in order, so a later pair
      overwrites an earlier pair with the same key. */
  function CollectMap<K(==,!new), V>(pairs: seq<(K, V)>): (m: map<K, V>)
    ensures forall k :: k in m <==> exists i :: 0 <= i < |pairs| && pairs[i].0 == k
    ensures forall k :: k in m ==> LastPairWith(pairs, k, m[k])
  {
    if |pairs| == 0 then map[]
    else
      var n := |pairs| - 1;
      var m := CollectMap(pairs[..n]);
      var r := m[pairs[n].0 := pairs[n].1];
      assert forall i :: 0 <= i < n ==> pairs[..n][i] == pairs[i];
      assert pairs == pairs[..n] + [pairs[n]];
      CollectLastWins(pairs[..n], pairs[n], m, r);
      r
  }

  /** Inserting one more pair keeps "each value is that of the last pair with its
      key". */
  lemma CollectLastWins<K, V>(init: seq<(K, V)>, last: (K, V), m: map<K, V>, r: map<K, V>)
    requires forall k :: k in m ==> LastPairWith(init, k, m[k])
    requires r == m[last.0 := last.1]
    ensures forall k :: k in r ==> LastPairWith(init + [last], k, r[k])
  {
    forall k | k in r
      ensures LastPairWith(init + [last], k, r[k])
    {
      if k == last.0 {
        LastPairIsLast(init, last);
      } else {
        LastPairKept(init, last, k, m[k]);
      }
    }
  }

  lemma LastPairIsLast<K, V>(init: seq<(K, V)>, last: (K, V))
    ensures LastPairWith(init + [last], last.0, last.1)
  {
    var pairs := init + [last];
    assert pairs[|init|] == last;
    assert NoLaterKey(pairs, last.0, |init|);
  }

  lemma LastPairKept<K, V>(init: seq<(K, V)>, last: (K, V), k: K, v: V)
    requires k != last.0 && LastPairWith(init, k, v)
    ensures LastPairWith(init + [last], k, v)
  {
    var pairs := init + [last];
    var i :| 0 <= i < |init| && init[i] == (k, v) && NoLaterKey(init, k, i);
    assert pairs[i] == (k, v);
    forall j | 0 <= j < |pairs| && i < j
      ensures pairs[j].0 != k
    {
      if j < |init| {
        assert pairs[j] == init[j];
      }
    }
    assert NoLaterKey(pairs, k, i);
  }

  /** The value that the last pair with key `k` carries, or `default` if none does. */
  function LastValue<K(==), V>(pairs: seq<(K, V)>, k: K, default: V): V
  {
    if |pairs| == 0 then default
    else if pairs[|pairs| - 1].0 == k then pairs[|pairs| - 1].1
    else LastValue(pairs[..|pairs| - 1], k, default)
  }

  /** Looking a key up in the collected map (with a default for a missing key) gives
      the value of the last pair with that key. */
  lemma {:induction false} CollectMapLastWins<K(!new), V>(pairs: seq<(K, V)>, k: K, default: V)
    ensures (if k in CollectMap(pairs) then CollectMap(pairs)[k] else default)
            == LastValue(pairs, k, default)
  {
    if |pairs| > 0 {
      CollectMapLastWins(pairs[..|pairs| - 1], k, default);
    }
  }

  /** The elements in reverse order. */
  function Reverse<T>(s: seq<T>): (r: seq<T>)
    ensures |r| == |s|
    ensures forall i :: 0 <= i < |s| ==> r[i] == s[|s| - 1 - i]
  {
    if |s| == 0 then [] else Reverse(s[1..]) + [s[0]]
  }

  /** Reversing keeps the elements and their multiplicities. */
  lemma {:induction false} ReverseMultiset<T>(s: seq<T>)
    ensures multiset(Reverse(s)) == multiset(s)
  {
    if |s| > 0 {
      ReverseMultiset(s[1..]);
      assert s == [s[0]] + s[1..];
    }
  }

  lemma ReverseReverse<T>(s: seq<T>)
    ensures Reverse(Reverse(s)) == s
  {
  }

  /** Pairs of elements at equal positions, cut to the shorter input (as `zip`). */
  function Zip<A, B>(a: seq<A>, b: seq<B>): (z: seq<(A, B)>)
    ensures |z| == if |a| < |b| then |a| else |b|
    ensures forall i :: 0 <= i < |z| ==> z[i] == (a[i], b[i])
  {
    if |a| == 0 || |b| == 0 then [] else [(a[0], b[0])] + Zip(a[1..], b[1..])
  }

  /** The overlapping triples of consecutive elements (as `tuple_windows`). */
  function Triples<T>(s: seq<T>): (w: seq<(T, T, T)>)
    ensures |w| == if |s| < 3 then 0 else |s| - 2
    ensures forall k :: 0 <= k < |w| ==> w[k] == (s[k], s[k + 1], s[k + 2])
  {
    seq(if |s| < 3 then 0 else |s| - 2, k requires 0 <= k < |s| - 2 => (s[k], s[k + 1], s[k + 2]))
  }

  /** Every element of a non-empty sequence is its last one or in the rest. */
  lemma PopMembers<T>(s: seq<T>)
    requires |s| > 0
    ensures forall t :: t in s ==> t == s[|s| - 1] || t in s[..|s| - 1]
  {
    forall t | t in s
      ensures t == s[|s| - 1] || t in s[..|s| - 1]
    {
      var i :| 0 <= i < |s| && s[i] == t;
      if i < |s| - 1 {
        assert s[..|s| - 1][i] == t;
      }
    }
  }

  /** One more element adds exactly the triple that ends with it. */
  lemma TriplesSnoc<T>(s: seq<T>, x: T)
    requires |s| >= 2
    ensures Triples(s + [x]) == Triples(s) + [(s[|s| - 2], s[|s| - 1], x)]
  {
    var t := s + [x];
    var l := Triples(t);
    var r := Triples(s) + [(s[|s| - 2], s[|s| - 1], x)];
    forall k | 0 <= k < |l|
      ensures l[k] == r[k]
    {
      assert l[k] == (t[k], t[k + 1], t[k + 2]);
      if k < |s| - 2 {
        assert r[k] == Triples(s)[k];
      }
    }
  }

  /** A relation that holds between every two neighbours of a flattened grouping holds
      between neighbours inside each run, and between the last element of each run and
      the first of the next. */
  lemma {:induction false} FlattenNeighbours<T>(g: seq<seq<T>>, R: (T, T) -> bool)
    requires forall i :: 0 <= i < |g| ==> |g[i]| > 0
    requires forall i :: 0 < i < |Flatten(g)| ==> R(Flatten(g)[i - 1], Flatten(g)[i])
    ensures forall k, j :: 0 <= k < |g| && 0 < j < |g[k]| ==> R(g[k][j - 1], g[k][j])
    ensures forall k :: 0 < k < |g| ==> R(g[k - 1][|g[k - 1]| - 1], g[k][0])
  {
    if |g| > 0 {
      var f := Flatten(g);
      var f' := Flatten(g[1..]);
      var n := |g[0]|;
      assert f == g[0] + f';
      forall i | 0 < i < |f'|
        ensures R(f'[i - 1], f'[i])
      {
        assert f'[i - 1] == f[n + i - 1] && f'[i] == f[n + i];
      }
      FlattenNeighbours(g[1..], R);
      forall k, j | 0 <= k < |g| && 0 < j < |g[k]|
        ensures R(g[k][j - 1], g[k][j])
      {
        if k == 0 {
          assert g[k][j - 1] == f[j - 1] && g[k][j] == f[j];
        } else {
          assert g[k] == g[1..][k - 1];
        }
      }
      forall k | 0 < k < |g|
        ensures R(g[k - 1][|g[k - 1]| - 1], g[k][0])
      {
        if k == 1 {
          FlattenLength(g[1..]);
          assert f'[0] == g[1][0] by {
            assert f' == g[1] + Flatten(g[2..]);
          }
          assert g[0][n - 1] == f[n - 1] && g[1][0] == f[n];
        } else {
          assert g[k] == g[1..][k - 1] && g[k - 1] == g[1..][k - 2];
        }
      }
    }
  }
}

=== FILE: common_text.dfy ===
/** Text utilities with the semantics of Rust's `str::split(char)`: splitting never
    drops a piece, so `""` splits into `[""]` and `"a,"` into `["a", ""]`. */
module Text {

  /** Splits `s` at every occurrence of `sep`. */
  function Split(s: string, sep: char): (pieces: seq<string>)
    ensures |pieces| >= 1
    ensures forall i :: 0 <= i < |pieces| ==> sep !in pieces[i]
  {
    if |s| == 0 then [[]]
    else
      var rest := Split(s[1..], sep);
      if s[0] == sep then [[]] + rest
      else [[s[0]] + rest[0]] + rest[1..]
  }

  /** Joins non-empty `pieces` with `sep` between consecutive pieces. */
  function Join(pieces: seq<string>, sep: char): string
    requires |pieces| >= 1
  {
    if |pieces| == 1 then pieces[0] else pieces[0] + [sep] + Join(pieces[1..], sep)
  }

  /** Joining the pieces back restores the input: no character is lost or added. */
  lemma {:induction false} JoinSplit(s: string, sep: char)
    ensures Join(Split(s, sep), sep) == s
  {
    if |s| > 0 {
      var rest := Split(s[1..], sep);
      JoinSplit(s[1..], sep);
      if s[0] == sep {
        assert Split(s, sep)[1..] == rest;
      } else {
        var pieces := Split(s, sep);
        if |rest| == 1 {
          assert pieces == [[s[0]] + rest[0]];
        } else {
          assert pieces[1..] == rest[1..];
          assert Join(rest, sep) == rest[0] + [sep] + Join(rest[1..], sep);
        }
      }
    }
  }

  /** Splitting a join of separator-free pieces gives the pieces back. */
  lemma {:induction false} SplitJoin(pieces: seq<string>, sep: char)
    requires |pieces| >= 1
    requires forall i :: 0 <= i < |pieces| ==> sep !in pieces[i]
    ensures Split(Join(pieces, sep), sep) == pieces
    decreases |pieces|, |pieces[0]|
  {
    var p := pieces[0];
    if |p| == 0 {
      if |pieces| > 1 {
        var j := Join(pieces, sep);
        assert j == [sep] + Join(pieces[1..], sep);
        assert j[1..] == Join(pieces[1..], sep);
        SplitJoin(pieces[1..], sep);
        assert [[]] + pieces[1..] == pieces;
      }
    } else {
      var pieces' := [p[1..]] + pieces[1..];
      assert pieces'[1..] == pieces[1..];
      SplitJoin(pieces', sep);
      var j := Join(pieces, sep);
      assert j == [p[0]] + Join(pieces', sep) by {
        if |pieces| > 1 {
          assert Join(pieces', sep) == p[1..] + [sep] + Join(pieces[1..], sep);
        }
      }
      assert j[1..] == Join(pieces', sep);
      assert p[0] != sep by {
        assert p[0] in pieces[0];
      }
      assert [p[0]] + p[1..] == p;
      assert pieces == [p] + pieces[1..];
    }
  }

  /** The non-empty lines of `input`, as `input.split('\n').filter(|l| !l.is_empty())`. */
  function Lines(input: string): (lines: seq<string>)
    ensures forall i :: 0 <= i < |lines| ==> |lines[i]| > 0 && '\n' !in lines[i]
  {
    NonEmpty(Split(input, '\n'))
  }

  /** The non-empty pieces, in order. */
  function NonEmpty(pieces: seq<string>): (r: seq<string>)
    ensures forall i :: 0 <= i < |r| ==> |r[i]| > 0 && r[i] in pieces
    ensures forall p :: p in pieces && |p| > 0 ==> p in r
  {
    if |pieces| == 0 then []
    else if |pieces[0]| == 0 then NonEmpty(pieces[1..])
    else [pieces[0]] + NonEmpty(pieces[1..])
  }

  /** Splitting at a separator that joins two texts splits each text on its own. */
  lemma {:induction false} SplitConcat(a: string, b: string, sep: char)
    ensures Split(a + [sep] + b, sep) == Split(a, sep) + Split(b, sep)
  {
    var s := a + [sep] + b;
    if |a| == 0 {
      assert s == [sep] + b;
      assert s[1..] == b;
      assert Split(s, sep) == [[]] + Split(b, sep);
    } else {
      assert s[1..] == a[1..] + [sep] + b;
      SplitConcat(a[1..], b, sep);
      var rest := Split(a[1..], sep);
      var rb := Split(b, sep);
      if a[0] == sep {
        assert Split(s, sep) == [[]] + (rest + rb);
        assert Split(a, sep) == [[]] + rest;
      } else {
        ExtendFirstPiece(a[0], rest, rb);
      }
    }
  }

  /** Putting a character in front of the first piece commutes with appending more
      pieces. */
  lemma ExtendFirstPiece(c: char, rest: seq<string>, more: seq<string>)
    requires |rest| >= 1
    ensures [[c] + (rest + more)[0]] + (rest + more)[1..] == ([[c] + rest[0]] + rest[1..]) + more
  {
    var l := [[c] + (rest + more)[0]] + (rest + more)[1..];
    var r := ([[c] + rest[0]] + rest[1..]) + more;
    assert |l| == |r|;
    forall i | 0 <= i < |l|
      ensures l[i] == r[i]
    {
      if 0 < i < |rest| {
        assert l[i] == rest[i];
      } else if i >= |rest| {
        assert l[i] == more[i - |rest|];
      }
    }
  }

  lemma {:induction false} NonEmptyConcat(x: seq<string>, y: seq<string>)
    ensures NonEmpty(x + y) == NonEmpty(x) + NonEmpty(y)
  {
    if |x| == 0 {
      assert x + y == y;
    } else {
      assert (x + y)[1..] == x[1..] + y;
      NonEmptyConcat(x[1..], y);
    }
  }

  /** The lines of two texts joined by a newline are the lines of the first followed
      by the lines of the second. */
  lemma LinesConcat(a: string, b: string)
    ensures Lines(a + "\n" + b) == Lines(a) + Lines(b)
  {
    SplitConcat(a, b, '\n');
    NonEmptyConcat(Split(a, '\n'), Split(b, '\n'));
  }
}

=== FILE: day01_calibration.dfy ===
/** Day 1, "Trebuchet?!": each line's calibration value is the two-digit number made of
    its first and its last decimal digit; the answer is the sum over all lines. */
module Calibration {
  import opened Sequences
  import opened Decimal
  import Text

  predicate HasDigit(line: string)
  {
    exists i :: 0 <= i < |line| && IsDigit(line[i])
  }

  /** `line[i]` is the leftmost digit of `line`. */
  predicate IsFirstDigitAt(line: string, i: int)
  {
    0 <= i < |line| && IsDigit(line[i]) && forall j :: 0 <= j < i ==> !IsDigit(line[j])
  }

  /** `line[i]` is the rightmost digit of `line`. */
  predicate IsLastDigitAt(line: string, i: int)
  {
    0 <= i < |line| && IsDigit(line[i]) && forall j :: i < j < |line| ==> !IsDigit(line[j])
  }

  /** The value of the leftmost digit of `line`, if it has one. */
  function FirstDigit(line: string): (r: Option<nat>)
    ensures r.None? <==> !HasDigit(line)
    ensures r.Some? ==> r.value <= 9
    ensures forall i :: IsFirstDigitAt(line, i) ==> r == Some(DigitValue(line[i]))
  {
    if |line| == 0 then None
    else if IsDigit(line[0]) then Some(DigitValue(line[0]))
    else FirstDigit(line[1..])
  }

  /** The value of the rightmost digit of `line`, if it has one (the line is searched
      from its end). */
  function LastDigit(line: string): (r: Option<nat>)
    ensures r.None? <==> !HasDigit(line)
    ensures r.Some? ==> r.value <= 9
    ensures forall i :: IsLastDigitAt(line, i) ==> r == Some(DigitValue(line[i]))
  {
    if |line| == 0 then None
    else if IsDigit(line[|line| - 1]) then Some(DigitValue(line[|line| - 1]))
    else
      var init := line[..|line| - 1];
      DropLastNonDigit(line);
      LastDigit(init)
  }

  /** Dropping a final non-digit keeps both the digits and the rightmost one. */
  lemma DropLastNonDigit(line: string)
    requires |line| > 0 && !IsDigit(line[|line| - 1])
    ensures HasDigit(line) <==> HasDigit(line[..|line| - 1])
    ensures forall i :: IsLastDigitAt(line, i) ==> IsLastDigitAt(line[..|line| - 1], i)
  {
    var init := line[..|line| - 1];
    assert forall j :: 0 <= j < |init| ==> init[j] == line[j];
    if HasDigit(line) {
      var i :| 0 <= i < |line| && IsDigit(line[i]);
      assert IsDigit(init[i]);
    }
  }

  /** Searching from the end is searching the reversed line from its start. */
  lemma LastDigitIsFirstOfReverse(line: string)
    ensures LastDigit(line) == FirstDigit(Reverse(line))
  {
    var r := Reverse(line);
    if exists i :: 0 <= i < |line| && IsDigit(line[i]) {
      var i := LastDigitIndex(line);
      var k := |line| - 1 - i;
      assert r[k] == line[i];
      forall j | 0 <= j < k
        ensures !IsDigit(r[j])
      {
        assert r[j] == line[|line| - 1 - j];
      }
    } else {
      forall j | 0 <= j < |r|
        ensures !IsDigit(r[j])
      {
        assert r[j] == line[|line| - 1 - j];
      }
    }
  }

  /** The index of the rightmost digit of a line that has one. */
  lemma LastDigitIndex(line: string) returns (i: nat)
    requires exists i :: 0 <= i < |line| && IsDigit(line[i])
    ensures i < |line| && IsDigit(line[i])
    ensures forall j :: i < j < |line| ==> !IsDigit(line[j])
  {
    i := |line| - 1;
    while !IsDigit(line[i])
      invariant 0 <= i < |line|
      invariant forall j :: i < j < |line| ==> !IsDigit(line[j])
      invariant exists k :: 0 <= k <= i && IsDigit(line[k])
      decreases i
    {
      i := i - 1;
    }
  }

  /** `calibration_value`: ten times the first digit plus the last digit; missing when
      the line has no digit. */
  function CalibrationValue(line: string): (r: Option<nat>)
    ensures r.None? <==> !HasDigit(line)
    ensures r.Some? ==> r.value <= 99 && r.value == 10 * FirstDigit(line).value + LastDigit(line).value
  {
    match (FirstDigit(line), LastDigit(line))
    case (Some(first), Some(last)) => Some(10 * first + last)
    case _ => None
  }

  /** A line with a single digit `d` has the value `11 * d`. */
  lemma SingleDigitLine(line: string, i: nat)
    requires i < |line| && IsDigit(line[i])
    requires forall j :: 0 <= j < |line| && j != i ==> !IsDigit(line[j])
    ensures CalibrationValue(line) == Some(11 * DigitValue(line[i]))
  {
    assert FirstDigit(line) == Some(DigitValue(line[i]));
    assert LastDigit(line) == Some(DigitValue(line[i]));
  }

  function Value(line: string): (v: nat)
    requires HasDigit(line)
    ensures CalibrationValue(line) == Some(v)
  {
    CalibrationValue(line).value
  }

  /** Sum of the calibration values of lines that all have a digit. */
  function Total(lines: seq<string>): (t: nat)
    requires forall k :: 0 <= k < |lines| ==> HasDigit(lines[k])
    ensures t <= 99 * |lines|
  {
    if |lines| == 0 then 0 else Value(lines[0]) + Total(lines[1..])
  }

  /** `part_one`: the total over the non-empty lines of the input. A non-empty line
      without any digit makes the source panic, so the model requires a digit on each. */
  function PartOne(input: string): (total: nat)
    requires forall k :: 0 <= k < |Text.Lines(input)| ==> HasDigit(Text.Lines(input)[k])
    ensures total <= 99 * |Text.Lines(input)|
  {
    Total(Text.Lines(input))
  }

  lemma {:induction false} TotalAppend(a: seq<string>, b: seq<string>)
    requires forall k :: 0 <= k < |a| ==> HasDigit(a[k])
    requires forall k :: 0 <= k < |b| ==> HasDigit(b[k])
    ensures Total(a + b) == Total(a) + Total(b)
  {
    if |a| == 0 {
      assert a + b == b;
    } else {
      assert (a + b)[1..] == a[1..] + b;
      TotalAppend(a[1..], b);
    }
  }

  /** The answer for two documents joined by a newline is the sum of their answers. */
  lemma PartOneConcat(a: string, b: string)
    requires forall k :: 0 <= k < |Text.Lines(a)| ==> HasDigit(Text.Lines(a)[k])
    requires forall k :: 0 <= k < |Text.Lines(b)| ==> HasDigit(Text.Lines(b)[k])
    ensures forall k :: 0 <= k < |Text.Lines(a + "\n" + b)| ==> HasDigit(Text.Lines(a + "\n" + b)[k])
    ensures PartOne(a + "\n" + b) == PartOne(a) + PartOne(b)
  {
    var la, lb := Text.Lines(a), Text.Lines(b);
    Text.LinesConcat(a, b);
    TotalAppend(la, lb);
  }
}

=== FILE: day02_cube_game.dfy ===
/** Day 2, "Cube Conundrum": each game line lists reveals of red, green and blue cubes;
    part one sums the ids of the games possible with 12 red, 13 green and 14 blue
    cubes, part two sums the games' minimum powers. */
module CubeGame {
  import opened Sequences
  import opened Decimal
  import opened Parsing
  import Text

  datatype Colour = Red | Blue | Green

  function Name(c: Colour): string
  {
    match c
    case Red => "red"
    case Blue => "blue"
    case Green => "green"
  }

  /** The colour whose name is exactly `s`. */
  function ColourNamed(s: string): (r: Option<Colour>)
    ensures r.Some? ==> Name(r.value) == s
    ensures forall c :: s == Name(c) ==> r == Some(c)
  {
    if s == "red" then Some(Red)
    else if s == "blue" then Some(Blue)
    else if s == "green" then Some(Green)
    else None
  }

  /** `t` is the token " <ds> <colour>" for a non-empty digit string `ds`. */
  predicate IsTokenOf(t: string, ds: string, c: Colour)
  {
    |ds| >= 1 && AllDigits(ds) && t == " " + ds + " " + Name(c)
  }

  /** The count part of a token " <count> <colour>". */
  function CountText(t: string, c: Colour): string
    requires |t| >= |Name(c)| + 3
  {
    t[1..|t| - |Name(c)| - 1]
  }

  /** `maybe_key_value`: a token of exactly the shape " <digits> <red|blue|green>" gives
      its colour and count; any other token gives nothing. */
  function MaybeKeyValue(t: string): (r: Option<(Colour, nat)>)
    ensures r.Some? ==> |t| >= |Name(r.value.0)| + 3 && IsTokenOf(t, CountText(t, r.value.0), r.value.0)
    ensures r.Some? ==> r.value.1 == Value(CountText(t, r.value.0))
  {
    if |t| == 0 || t[0] != ' ' then None
    else
      var rest := t[1..];
      var n := Span(rest, IsDigit);
      if n == 0 || n == |rest| || rest[n] != ' ' then None
      else
        var ds := rest[..n];
        assert AllDigits(ds) by {
          assert forall i :: 0 <= i < n ==> ds[i] == rest[i];
        }
        match ColourNamed(rest[n + 1..])
        case None => None
        case Some(c) =>
          assert t == " " + ds + " " + Name(c) by {
            assert rest == ds + [' '] + rest[n + 1..];
          }
          assert CountText(t, c) == ds;
          Some((c, Value(ds)))
  }

  /** Every well-shaped token is accepted, with the count its digits denote. */
  lemma TokenAccepted(ds: string, c: Colour)
    requires |ds| >= 1 && AllDigits(ds)
    ensures MaybeKeyValue(" " + ds + " " + Name(c)) == Some((c, Value(ds)))
  {
    TokenShape(ds, c);
    assert ColourNamed(Name(c)) == Some(c);
  }

  lemma TokenShape(ds: string, c: Colour)
    requires |ds| >= 1 && AllDigits(ds)
    ensures var t := " " + ds + " " + Name(c);
      && |t| > 0 && t[0] == ' '
      && Span(t[1..], IsDigit) == |ds|
      && |ds| < |t[1..]| && t[1..][|ds|] == ' '
      && t[1..][..|ds|] == ds
      && t[1..][|ds| + 1..] == Name(c)
  {
    var t := " " + ds + " " + Name(c);
    var rest := t[1..];
    assert rest == ds + (" " + Name(c));
    SpanWord(ds, " " + Name(c), IsDigit);
  }

  /** The accepted tokens of the comma-separated pieces, in order. */
  function Accepted(pieces: seq<string>): (pairs: seq<(Colour, nat)>)
    ensures |pairs| <= |pieces|
  {
    if |pieces| == 0 then []
    else
      match MaybeKeyValue(pieces[0])
      case None => Accepted(pieces[1..])
      case Some(kv) => [kv] + Accepted(pieces[1..])
  }

  function Tokens(subset: string): seq<(Colour, nat)>
  {
    Accepted(Text.Split(subset, ','))
  }

  datatype Reveal = Reveal(red: nat, blue: nat, green: nat)

  function Count(r: Reveal, c: Colour): nat
  {
    match c
    case Red => r.red
    case Blue => r.blue
    case Green => r.green
  }

  /** `Reveal::from_subset`: the accepted tokens go into a map, so for a repeated colour
      the later token wins, and a colour without a token counts 0. */
  function FromSubset(subset: string): (r: Reveal)
    ensures r.red == LastValue(Tokens(subset), Red, 0)
    ensures r.blue == LastValue(Tokens(subset), Blue, 0)
    ensures r.green == LastValue(Tokens(subset), Green, 0)
  {
    var m := CollectMap(Tokens(subset));
    CollectMapLastWins(Tokens(subset), Red, 0);
    CollectMapLastWins(Tokens(subset), Blue, 0);
    CollectMapLastWins(Tokens(subset), Green, 0);
    Reveal(if Red in m then m[Red] else 0,
           if Blue in m then m[Blue] else 0,
           if Green in m then m[Green] else 0)
  }

  lemma {:induction false} LastValueAbsent<K, V>(pairs: seq<(K, V)>, k: K, default: V)
    requires forall i :: 0 <= i < |pairs| ==> pairs[i].0 != k
    ensures LastValue(pairs, k, default) == default
  {
    if |pairs| > 0 {
      LastValueAbsent(pairs[..|pairs| - 1], k, default);
    }
  }

  /** A colour that no accepted token names counts 0. */
  lemma AbsentColourIsZero(subset: string, c: Colour)
    requires forall i :: 0 <= i < |Tokens(subset)| ==> Tokens(subset)[i].0 != c
    ensures Count(FromSubset(subset), c) == 0
  {
    LastValueAbsent(Tokens(subset), c, 0);
    match c
    case Red =>
    case Blue =>
    case Green =>
  }

  /** The token " <n> <colour>" with `n` written in decimal. */
  function Token(n: nat, c: Colour): string
  {
    " " + ToDigits(n) + " " + Name(c)
  }

  /** The usual rendering of a reveal, " r red, b blue, g green". */
  function Render(r: Reveal): string
  {
    Text.Join([Token(r.red, Red), Token(r.blue, Blue), Token(r.green, Green)], ',')
  }

  lemma NoComma(n: nat, c: Colour)
    ensures ',' !in Token(n, c)
  {
    var t := Token(n, c);
    forall i | 0 <= i < |t|
      ensures t[i] != ','
    {
      if 1 <= i <= |ToDigits(n)| {
        assert t[i] == ToDigits(n)[i - 1];
      }
    }
  }

  lemma TokenRead(n: nat, c: Colour)
    ensures MaybeKeyValue(Token(n, c)) == Some((c, n))
  {
    TokenAccepted(ToDigits(n), c);
    ValueOfToDigits(n);
  }

  lemma TokensOfRender(r: Reveal)
    ensures Tokens(Render(r)) == [(Red, r.red), (Blue, r.blue), (Green, r.green)]
  {
    var a, b, c := Token(r.red, Red), Token(r.blue, Blue), Token(r.green, Green);
    NoComma(r.red, Red);
    NoComma(r.blue, Blue);
    NoComma(r.green, Green);
    SplitThree(a, b, c);
    TokenRead(r.red, Red);
    TokenRead(r.blue, Blue);
    TokenRead(r.green, Green);
    AcceptedThree(a, b, c, (Red, r.red), (Blue, r.blue), (Green, r.green));
  }

  /** Three comma-free pieces joined with commas split back into the same three. */
  lemma SplitThree(a: string, b: string, c: string)
    requires ',' !in a && ',' !in b && ',' !in c
    ensures Text.Split(Text.Join([a, b, c], ','), ',') == [a, b, c]
  {
    var pieces := [a, b, c];
    forall i | 0 <= i < |pieces|
      ensures ',' !in pieces[i]
    {
    }
    Text.SplitJoin(pieces, ',');
  }

  lemma AcceptedThree(a: string, b: string, c: string, ka: (Colour, nat), kb: (Colour, nat), kc: (Colour, nat))
    requires MaybeKeyValue(a) == Some(ka) && MaybeKeyValue(b) == Some(kb) && MaybeKeyValue(c) == Some(kc)
    ensures Accepted([a, b, c]) == [ka, kb, kc]
  {
    assert [a, b, c][1..] == [b, c];
    assert [b, c][1..] == [c];
    assert [c][1..] == [];
    assert Accepted([c]) == [kc];
    assert Accepted([b, c]) == [kb] + [kc];
  }

  /** Reading a rendered reveal gives the reveal back. */
  lemma FromSubsetRender(r: Reveal)
    ensures FromSubset(Render(r)) == r
  {
    TokensOfRender(r);
    LastOfThree(r.red, r.blue, r.green);
  }

  lemma LastOfThree(x: nat, y: nat, z: nat)
    ensures var pairs := [(Red, x), (Blue, y), (Green, z)];
      && LastValue(pairs, Red, 0) == x
      && LastValue(pairs, Blue, 0) == y
      && LastValue(pairs, Green, 0) == z
  {
    var pairs := [(Red, x), (Blue, y), (Green, z)];
    var two := [(Red, x), (Blue, y)];
    var one := [(Red, x)];
    assert pairs[..|pairs| - 1] == two;
    assert two[..|two| - 1] == one;
    assert LastValue(one, Red, 0) == x;
    assert LastValue(two, Red, 0) == x && LastValue(two, Blue, 0) == y;
  }

  /** The bag holds 12 red, 13 green and 14 blue cubes. */
  function Limit(c: Colour): nat
  {
    match c
    case Red => 12
    case Blue => 14
    case Green => 13
  }

  /** `is_possible`: no colour shows more cubes than the bag holds. */
  predicate IsPossible(r: Reveal)
    ensures IsPossible(r) <==> forall c :: Count(r, c) <= Limit(c)
  {
    assert Count(r, Red) == r.red && Count(r, Blue) == r.blue && Count(r, Green) == r.green;
    r.red <= 12 && r.blue <= 14 && r.green <= 13
  }

  datatype Game = Game(id: nat, revealed: seq<Reveal>)

  /** `maybe_id`: a header of exactly the shape "Game <digits>". */
  function MaybeId(header: string): (r: Option<nat>)
    ensures r.Some? ==> exists ds :: |ds| >= 1 && AllDigits(ds) && header == "Game " + ds && r.value == Value(ds)
  {
    if |header| > 5 && header[..5] == "Game " && AllDigits(header[5..]) then
      assert header == "Game " + header[5..];
      Some(Value(header[5..]))
    else None
  }

  /** `Game::from_line`: the header before the first ':' names the game and the text
      between the first and the second ':' is split into reveals at ';'. A line without
      ':' or with a malformed header makes the source panic; that is `None` here. */
  function FromLine(line: string): (g: Option<Game>)
    ensures g.Some? ==> |g.value.revealed| >= 1
    ensures g.Some? <==> |Text.Split(line, ':')| >= 2 && MaybeId(Text.Split(line, ':')[0]).Some?
  {
    var parts := Text.Split(line, ':');
    if |parts| < 2 then None
    else
      match MaybeId(parts[0])
      case None => None
      case Some(id) => Some(Game(id, Reveals(Text.Split(parts[1], ';'))))
  }

  function Reveals(subsets: seq<string>): (rs: seq<Reveal>)
    ensures |rs| == |subsets|
    ensures forall i :: 0 <= i < |subsets| ==> rs[i] == FromSubset(subsets[i])
  {
    if |subsets| == 0 then [] else [FromSubset(subsets[0])] + Reveals(subsets[1..])
  }

  predicate AllPossible(rs: seq<Reveal>)
  {
    forall i :: 0 <= i < |rs| ==> IsPossible(rs[i])
  }

  /** The largest count of colour `c` over the reveals, 0 when there are none. */
  function MaxCount(rs: seq<Reveal>, c: Colour): (m: nat)
    ensures forall i :: 0 <= i < |rs| ==> Count(rs[i], c) <= m
    ensures |rs| == 0 ==> m == 0
    ensures |rs| > 0 ==> exists i :: 0 <= i < |rs| && Count(rs[i], c) == m
  {
    if |rs| == 0 then 0
    else
      var rest := MaxCount(rs[1..], c);
      if |rs| > 1 then
        assert Count(rs[1..][0], c) <= rest;
        var m := if Count(rs[0], c) >= rest then Count(rs[0], c) else rest;
        assert exists i :: 0 <= i < |rs| && Count(rs[i], c) == m by {
          if Count(rs[0], c) < rest {
            var j :| 0 <= j < |rs[1..]| && Count(rs[1..][j], c) == rest;
            assert Count(rs[j + 1], c) == rest;
          }
        }
        m
      else Count(rs[0], c)
  }

  /** No reveal of the game shows colour `c`. */
  predicate NeverShown(rs: seq<Reveal>, c: Colour)
  {
    forall i :: 0 <= i < |rs| ==> Count(rs[i], c) == 0
  }

  /** `minimum_power`: the product of the per-colour maxima. */
  function MinimumPower(g: Game): (p: nat)
    ensures p == MaxCount(g.revealed, Red) * MaxCount(g.revealed, Blue) * MaxCount(g.revealed, Green)
    ensures forall c :: NeverShown(g.revealed, c) ==> p == 0
    ensures forall c :: p > 0 ==> MaxCount(g.revealed, c) > 0
    ensures p == 0 <==> Powerless(g)
  {
    PowerOfMaxima(g.revealed);
    var p := MaxCount(g.revealed, Red) * MaxCount(g.revealed, Blue) * MaxCount(g.revealed, Green);
    if p == 0 then
      ZeroPowerNeverShown(g.revealed);
      p
    else p
  }

  /** A bag of `red`, `blue` and `green` cubes could have produced every reveal. */
  predicate Covers(rs: seq<Reveal>, red: nat, blue: nat, green: nat)
  {
    forall i :: 0 <= i < |rs| ==> Count(rs[i], Red) <= red && Count(rs[i], Blue) <= blue && Count(rs[i], Green) <= green
  }

  /** A count bounds every reveal's count of a colour exactly when it bounds the maximum. */
  lemma MaxCountLeast(rs: seq<Reveal>, c: Colour, n: nat)
    ensures (forall i :: 0 <= i < |rs| ==> Count(rs[i], c) <= n) <==> MaxCount(rs, c) <= n
  {
    if |rs| > 0 && forall i :: 0 <= i < |rs| ==> Count(rs[i], c) <= n {
      var i :| 0 <= i < |rs| && Count(rs[i], c) == MaxCount(rs, c);
    }
  }

  /** The product of three counts grows with each count. */
  lemma ProductMonotone(a: nat, b: nat, c: nat, x: nat, y: nat, z: nat)
    requires a <= x && b <= y && c <= z
    ensures a * b * c <= x * y * z
  {
    assert a * b <= x * b;
    assert x * b <= x * y;
    assert (a * b) * c <= (x * y) * c;
    assert (x * y) * c <= (x * y) * z;
  }

  /** The minimum power is the power of the smallest bag that could have produced
      every reveal: the maxima cover the game, and any covering bag has at least
      their power. */
  lemma MinimumPowerIsLeast(g: Game, red: nat, blue: nat, green: nat)
    ensures Covers(g.revealed, MaxCount(g.revealed, Red), MaxCount(g.revealed, Blue), MaxCount(g.revealed, Green))
    ensures Covers(g.revealed, red, blue, green) ==> MinimumPower(g) <= red * blue * green
  {
    var rs := g.revealed;
    if Covers(rs, red, blue, green) {
      MaxCountLeast(rs, Red, red);
      MaxCountLeast(rs, Blue, blue);
      MaxCountLeast(rs, Green, green);
      ProductMonotone(MaxCount(rs, Red), MaxCount(rs, Blue), MaxCount(rs, Green), red, blue, green);
    }
  }

  /** Some colour never shows in the game, so its minimum bag holds none of it. */
  predicate Powerless(g: Game)
  {
    exists c :: NeverShown(g.revealed, c)
  }

  /** When the product of the maxima is 0, one colour's maximum is 0, and a maximum of 0
      means no reveal shows that colour. */
  lemma ZeroPowerNeverShown(rs: seq<Reveal>)
    requires MaxCount(rs, Red) * MaxCount(rs, Blue) * MaxCount(rs, Green) == 0
    ensures exists c :: NeverShown(rs, c)
  {
    ProductPositive(MaxCount(rs, Red), MaxCount(rs, Blue), MaxCount(rs, Green));
    if MaxCount(rs, Red) == 0 {
      assert NeverShown(rs, Red);
    } else if MaxCount(rs, Blue) == 0 {
      assert NeverShown(rs, Blue);
    } else {
      assert NeverShown(rs, Green);
    }
  }

  lemma PowerOfMaxima(rs: seq<Reveal>)
    ensures var p := MaxCount(rs, Red) * MaxCount(rs, Blue) * MaxCount(rs, Green);
      && p >= 0
      && (forall c :: NeverShown(rs, c) ==> p == 0)
      && (forall c :: p > 0 ==> MaxCount(rs, c) > 0)
  {
    var red, blue, green := MaxCount(rs, Red), MaxCount(rs, Blue), MaxCount(rs, Green);
    ProductPositive(red, blue, green);
    NeverShownMax(rs);
    forall c
      ensures MaxCount(rs, c) == red || MaxCount(rs, c) == blue || MaxCount(rs, c) == green
    {
      match c
      case Red =>
      case Blue =>
      case Green =>
    }
  }

  /** A product of three counts is positive exactly when each count is. */
  lemma ProductPositive(a: nat, b: nat, c: nat)
    ensures a * b * c >= 0
    ensures a * b * c > 0 <==> a > 0 && b > 0 && c > 0
  {
    assert a * b >= 0;
    assert a * b * c >= 0;
    if a > 0 && b > 0 && c > 0 {
      assert a * b >= 1;
      assert a * b * c >= 1;
    } else if a == 0 {
      assert a * b == 0;
    } else if b == 0 {
      assert a * b == 0;
    }
  }

  /** A colour no reveal shows has maximum 0. */
  lemma NeverShownMax(rs: seq<Reveal>)
    ensures forall c :: NeverShown(rs, c) ==> MaxCount(rs, c) == 0
  {
    forall c | NeverShown(rs, c)
      ensures MaxCount(rs, c) == 0
    {
      if |rs| > 0 {
        var i :| 0 <= i < |rs| && Count(rs[i], c) == MaxCount(rs, c);
      }
    }
  }

  /** The cubes of a game fit the bag exactly when its per-colour maxima do: the reveal
      of the maxima is the smallest bag content compatible with the game. */
  lemma PossibleIffMaximaPossible(rs: seq<Reveal>)
    ensures AllPossible(rs) <==> IsPossible(Reveal(MaxCount(rs, Red), MaxCount(rs, Blue), MaxCount(rs, Green)))
  {
    if AllPossible(rs) {
      MaximaPossible(rs);
    }
    if IsPossible(Reveal(MaxCount(rs, Red), MaxCount(rs, Blue), MaxCount(rs, Green))) {
      BelowMaximaPossible(rs);
    }
  }

  lemma MaximaPossible(rs: seq<Reveal>)
    requires AllPossible(rs)
    ensures IsPossible(Reveal(MaxCount(rs, Red), MaxCount(rs, Blue), MaxCount(rs, Green)))
  {
    MaxWithinLimit(rs, Red);
    MaxWithinLimit(rs, Blue);
    MaxWithinLimit(rs, Green);
  }

  lemma MaxWithinLimit(rs: seq<Reveal>, c: Colour)
    requires AllPossible(rs)
    ensures MaxCount(rs, c) <= Limit(c)
  {
    if |rs| > 0 {
      var i :| 0 <= i < |rs| && Count(rs[i], c) == MaxCount(rs, c);
      assert IsPossible(rs[i]);
    }
  }

  lemma BelowMaximaPossible(rs: seq<Reveal>)
    requires IsPossible(Reveal(MaxCount(rs, Red), MaxCount(rs, Blue), MaxCount(rs, Green)))
    ensures AllPossible(rs)
  {
    forall i | 0 <= i < |rs|
      ensures IsPossible(rs[i])
    {
      assert Count(rs[i], Red) <= MaxCount(rs, Red);
      assert Count(rs[i], Blue) <= MaxCount(rs, Blue);
      assert Count(rs[i], Green) <= MaxCount(rs, Green);
    }
  }

  /** Sum of the ids of the games whose every reveal is possible. */
  function PossibleIdSum(games: seq<Game>): (s: nat)
    ensures s <= IdSum(games)
    ensures (forall i :: 0 <= i < |games| ==> AllPossible(games[i].revealed)) ==> s == IdSum(games)
    ensures (forall i :: 0 <= i < |games| ==> !AllPossible(games[i].revealed)) ==> s == 0
  {
    if |games| == 0 then 0
    else (if AllPossible(games[0].revealed) then games[0].id else 0) + PossibleIdSum(games[1..])
  }

  function IdSum(games: seq<Game>): nat
  {
    if |games| == 0 then 0 else games[0].id + IdSum(games[1..])
  }

  lemma {:induction false} PossibleIdSumAppend(a: seq<Game>, b: seq<Game>)
    ensures PossibleIdSum(a + b) == PossibleIdSum(a) + PossibleIdSum(b)
  {
    if |a| == 0 {
      assert a + b == b;
    } else {
      assert (a + b)[1..] == a[1..] + b;
      PossibleIdSumAppend(a[1..], b);
    }
  }

  /** The games of the non-empty lines, when every line is well formed. */
  function Games(lines: seq<string>): (games: seq<Game>)
    requires forall k :: 0 <= k < |lines| ==> FromLine(lines[k]).Some?
    ensures |games| == |lines|
    ensures forall k :: 0 <= k < |lines| ==> games[k] == FromLine(lines[k]).value
  {
    seq(|lines|, k requires 0 <= k < |lines| => FromLine(lines[k]).value)
  }

  /** `part_one`: the sum of the ids of the possible games. */
  function PartOne(input: string): (total: nat)
    requires forall k :: 0 <= k < |Text.Lines(input)| ==> FromLine(Text.Lines(input)[k]).Some?
    ensures total <= IdSum(Games(Text.Lines(input)))
  {
    PossibleIdSum(Games(Text.Lines(input)))
  }

  /** `part_two`: the sum of the minimum powers. */
  function PowerSum(games: seq<Game>): (s: nat)
    ensures (forall i :: 0 <= i < |games| ==> |games[i].revealed| == 0) ==> s == 0
    ensures s == 0 <==> forall i :: 0 <= i < |games| ==> Powerless(games[i])
  {
    if |games| == 0 then 0
    else
      var rest := PowerSum(games[1..]);
      assert (forall i :: 0 <= i < |games| ==> Powerless(games[i])) <==>
        Powerless(games[0]) && forall i :: 0 <= i < |games[1..]| ==> Powerless(games[1..][i]) by {
        if forall i :: 0 <= i < |games[1..]| ==> Powerless(games[1..][i]) {
          forall i | 0 < i < |games|
            ensures Powerless(games[i])
          {
            assert games[i] == games[1..][i - 1];
          }
        }
      }
      MinimumPower(games[0]) + rest
  }

  /** The sum of powers of two lists of games is the sum of their sums. */
  lemma {:induction false} PowerSumAppend(a: seq<Game>, b: seq<Game>)
    ensures PowerSum(a + b) == PowerSum(a) + PowerSum(b)
  {
    if |a| == 0 {
      assert a + b == b;
    } else {
      assert (a + b)[1..] == a[1..] + b;
      PowerSumAppend(a[1..], b);
    }
  }
}

=== FILE: day03_part_numbers.dfy ===
/** Day 3, "Gear Ratios": a number in the engine schematic is a part number when one of
    its digits touches a symbol in any of the eight directions; the answer is the sum
    of the part numbers. Each line is scanned together with the line above and below. */
module PartNumbers {
  import opened Sequences
  import opened Decimal
  import Text

  /** `is_symbol`: anything but a digit or '.'. */
  predicate IsSymbol(c: char)
  {
    !(IsDigit(c) || c == '.')
  }

  /** The character in column `i`, where the '.' padding stands beyond both ends. */
  function At(s: string, i: int): char
  {
    if 0 <= i < |s| then s[i] else '.'
  }

  /** `tuple_windows` over the line padded with one '.' on each side: window `k` holds
      the columns `k - 1`, `k` and `k + 1`. */
  function Windows(s: string): (w: seq<(char, char, char)>)
    ensures |w| == |s|
    ensures forall k :: 0 <= k < |s| ==> w[k] == (At(s, k - 1), At(s, k), At(s, k + 1))
  {
    PaddedTriples(s);
    Triples(['.'] + s + ['.'])
  }

  lemma PaddedTriples(s: string)
    ensures var w := Triples(['.'] + s + ['.']);
      |w| == |s| && forall k :: 0 <= k < |s| ==> w[k] == (At(s, k - 1), At(s, k), At(s, k + 1))
  {
    var p := ['.'] + s + ['.'];
    var w := Triples(p);
    forall k | 0 <= k < |s|
      ensures w[k] == (At(s, k - 1), At(s, k), At(s, k + 1))
    {
      assert w[k] == (p[k], p[k + 1], p[k + 2]);
      assert p[k + 1] == s[k];
      assert k > 0 ==> p[k] == s[k - 1];
      assert k + 1 < |s| ==> p[k + 2] == s[k + 1];
    }
  }

  predicate AnySymbol(w: (char, char, char))
  {
    IsSymbol(w.0) || IsSymbol(w.1) || IsSymbol(w.2)
  }

  /** The flag of one column: a digit with a symbol among its eight neighbours. */
  predicate Flag(above: (char, char, char), here: (char, char, char), below: (char, char, char))
  {
    IsDigit(here.1) && (AnySymbol(above) || IsSymbol(here.0) || IsSymbol(here.2) || AnySymbol(below))
  }

  function FlagsOf(ws: seq<((char, char, char), ((char, char, char), (char, char, char)))>): (f: seq<bool>)
    ensures |f| == |ws|
    ensures forall k :: 0 <= k < |ws| ==> f[k] == Flag(ws[k].1.0, ws[k].0, ws[k].1.1)
  {
    if |ws| == 0 then [] else [Flag(ws[0].1.0, ws[0].0, ws[0].1.1)] + FlagsOf(ws[1..])
  }

  /** The row `dr` steps below the current one (-1 above, 0 here, 1 below). */
  function Row(previous: string, line: string, next: string, dr: int): string
  {
    if dr < 0 then previous else if dr == 0 then line else next
  }

  /** Column `k` of `line` has a symbol among its eight neighbours, where the lines
      `previous` and `next` are above and below it. */
  predicate TouchesSymbol(previous: string, line: string, next: string, k: int)
  {
    exists dr, dc :: -1 <= dr <= 1 && -1 <= dc <= 1 && (dr != 0 || dc != 0) &&
      IsSymbol(Neighbour(previous, line, next, k, dr, dc))
  }

  function Neighbour(previous: string, line: string, next: string, k: int, dr: int, dc: int): char
  {
    At(Row(previous, line, next, dr), k + dc)
  }

  /** The zipped flags: as many as the shortest of the three lines has columns, and
      column `k` is flagged exactly when it is a digit touching a symbol. */
  function Flags(line: string, previous: string, next: string): (f: seq<bool>)
    ensures |f| == Min(|line|, Min(|previous|, |next|))
    ensures forall k :: 0 <= k < |f| ==>
      (f[k] <==> IsDigit(line[k]) && TouchesSymbol(previous, line, next, k))
  {
    var f := FlagsOf(Zip(Windows(line), Zip(Windows(previous), Windows(next))));
    forall k | 0 <= k < |f|
      ensures f[k] <==> IsDigit(line[k]) && TouchesSymbol(previous, line, next, k)
    {
      FlagMeaning(previous, line, next, k);
    }
    f
  }

  function Min(a: int, b: int): int
  {
    if a < b then a else b
  }

  lemma FlagMeaning(previous: string, line: string, next: string, k: int)
    requires 0 <= k < |line|
    ensures Flag((At(previous, k - 1), At(previous, k), At(previous, k + 1)),
                 (At(line, k - 1), At(line, k), At(line, k + 1)),
                 (At(next, k - 1), At(next, k), At(next, k + 1)))
            <==> IsDigit(line[k]) && TouchesSymbol(previous, line, next, k)
  {
    var above := (At(previous, k - 1), At(previous, k), At(previous, k + 1));
    var below := (At(next, k - 1), At(next, k), At(next, k + 1));
    var n := (dr: int, dc: int) => Neighbour(previous, line, next, k, dr, dc);
    assert n(-1, -1) == above.0 && n(-1, 0) == above.1 && n(-1, 1) == above.2;
    assert n(0, -1) == At(line, k - 1) && n(0, 1) == At(line, k + 1);
    assert n(1, -1) == below.0 && n(1, 0) == below.1 && n(1, 1) == below.2;
    if TouchesSymbol(previous, line, next, k) {
      var dr, dc :| -1 <= dr <= 1 && -1 <= dc <= 1 && (dr != 0 || dc != 0) &&
        IsSymbol(Neighbour(previous, line, next, k, dr, dc));
      assert dr == -1 || dr == 0 || dr == 1;
      assert dc == -1 || dc == 0 || dc == 1;
    }
  }

  /** A column of the scanned line with its flag. */
  type Cell = (char, bool)

  predicate IsDigitCell(p: Cell)
  {
    IsDigit(p.0)
  }

  function Chars(run: seq<Cell>): (cs: string)
    ensures |cs| == |run|
    ensures forall i :: 0 <= i < |run| ==> cs[i] == run[i].0
  {
    if |run| == 0 then [] else [run[0].0] + Chars(run[1..])
  }

  predicate AnyFlag(run: seq<Cell>)
  {
    |run| > 0 && (run[0].1 || AnyFlag(run[1..]))
  }

  /** Digits read from the least significant end: digit `j` of `rev` weighs `10^(e+j)`. */
  function Positional(rev: string, e: nat): nat
    requires AllDigits(rev)
  {
    if |rev| == 0 then 0 else DigitValue(rev[0]) * Pow10(e) + Positional(rev[1..], e + 1)
  }

  lemma {:induction false} PositionalShift(rev: string, e: nat)
    requires AllDigits(rev)
    ensures Positional(rev, e + 1) == 10 * Positional(rev, e)
  {
    if |rev| > 0 {
      PositionalShift(rev[1..], e + 1);
      DigitWeightShift(DigitValue(rev[0]), e);
    }
  }

  lemma DigitWeightShift(d: nat, e: nat)
    ensures d * Pow10(e + 1) == 10 * (d * Pow10(e))
  {
    assert Pow10(e + 1) == 10 * Pow10(e);
  }

  /** The reversed, exponent-weighted sum of a digit run is its ordinary decimal value. */
  lemma {:induction false} PositionalIsValue(ds: string)
    requires AllDigits(ds)
    ensures AllDigits(Reverse(ds)) && Positional(Reverse(ds), 0) == Value(ds)
  {
    var r := Reverse(ds);
    if |ds| > 0 {
      var init := ds[..|ds| - 1];
      assert r == [ds[|ds| - 1]] + Reverse(init);
      PositionalIsValue(init);
      PositionalShift(Reverse(init), 0);
      assert r[1..] == Reverse(init);
    }
  }

  /** The value a digit run contributes. */
  function RunValue(run: seq<Cell>): (v: nat)
    requires forall i :: 0 <= i < |run| ==> IsDigitCell(run[i])
    ensures AllDigits(Chars(run)) && v == Value(Chars(run))
  {
    assert AllDigits(Chars(run)) by {
      assert forall i :: 0 <= i < |run| ==> Chars(run)[i] == run[i].0 && IsDigitCell(run[i]);
    }
    PositionalIsValue(Chars(run));
    Positional(Reverse(Chars(run)), 0)
  }

  /** A run of the grouping contributes when it is a run of digits with a flagged digit. */
  function Contribution(run: seq<Cell>): nat
  {
    if |run| > 0 && IsDigitCell(run[0]) && AnyFlag(run) && (forall i :: 0 <= i < |run| ==> IsDigitCell(run[i]))
    then RunValue(run)
    else 0
  }

  function Contributions(groups: seq<seq<Cell>>): nat
  {
    if |groups| == 0 then 0 else Contribution(groups[0]) + Contributions(groups[1..])
  }

  /** `sum_of_part_numbers` for one line and its neighbours: grouping the columns into
      runs and adding up the flagged digit runs is one left-to-right pass over the
      columns with their flags. */
  function SumOfPartNumbers(line: string, previous: string, next: string): (total: nat)
    ensures total == Scan(Zip(line, Flags(line, previous, next)), 0, false)
  {
    ContributionsIsScan(Zip(line, Flags(line, previous, next)));
    Contributions(GroupBy(Zip(line, Flags(line, previous, next)), IsDigitCell))
  }

  function Emit(acc: nat, touched: bool): nat
  {
    if touched then acc else 0
  }

  /** An independent single pass: digits accumulate into a number, which is counted at
      the first non-digit (or the end) if any of its digits was flagged. */
  function Scan(cells: seq<Cell>, acc: nat, touched: bool): nat
  {
    if |cells| == 0 then Emit(acc, touched)
    else if IsDigitCell(cells[0]) then Scan(cells[1..], 10 * acc + DigitValue(cells[0].0), touched || cells[0].1)
    else Emit(acc, touched) + Scan(cells[1..], 0, false)
  }

  /** Scanning a run of digits, with the digits `pre` already read into the
      accumulator, reads the run's digits after them. */
  lemma {:induction false} ScanDigitRun(run: seq<Cell>, rest: seq<Cell>, pre: string, touched: bool)
    requires AllDigits(pre)
    requires forall i :: 0 <= i < |run| ==> IsDigitCell(run[i])
    ensures AllDigits(pre + Chars(run))
    ensures Scan(run + rest, Value(pre), touched)
         == Scan(rest, Value(pre + Chars(run)), touched || AnyFlag(run))
  {
    assert AllDigits(pre + Chars(run));
    if |run| == 0 {
      assert run + rest == rest;
      assert pre + Chars(run) == pre;
    } else {
      var c := run[0].0;
      var tail := run[1..];
      var pre' := pre + [c];
      assert AllDigits(pre');
      assert pre'[..|pre'| - 1] == pre;
      assert Value(pre') == 10 * Value(pre) + DigitValue(c);
      assert (run + rest)[1..] == tail + rest;
      assert Scan(run + rest, Value(pre), touched) == Scan(tail + rest, Value(pre'), touched || run[0].1);
      ScanDigitRun(tail, rest, pre', touched || run[0].1);
      assert AnyFlag(run) == (run[0].1 || AnyFlag(tail));
      assert Chars(run) == [c] + Chars(tail);
      Assoc3(pre, [c], Chars(tail));
    }
  }

  lemma {:induction false} ScanOtherRun(run: seq<Cell>, rest: seq<Cell>)
    requires forall i :: 0 <= i < |run| ==> !IsDigitCell(run[i])
    ensures Scan(run + rest, 0, false) == Scan(rest, 0, false)
  {
    if |run| == 0 {
      assert run + rest == rest;
    } else {
      assert (run + rest)[1..] == run[1..] + rest;
      ScanOtherRun(run[1..], rest);
    }
  }

  lemma ScanBoundary(rest: seq<Cell>, acc: nat, touched: bool)
    requires |rest| == 0 || !IsDigitCell(rest[0])
    ensures Scan(rest, acc, touched) == Emit(acc, touched) + Scan(rest, 0, false)
  {
  }

  /** A run of one kind followed by a cell of the other kind: the pass over both is the
      run's contribution plus the pass over what follows. */
  lemma RunThenScan(run: seq<Cell>, rest: seq<Cell>)
    requires |run| > 0
    requires forall j :: 0 <= j < |run| ==> IsDigitCell(run[j]) == IsDigitCell(run[0])
    requires |rest| > 0 ==> IsDigitCell(rest[0]) != IsDigitCell(run[0])
    ensures Scan(run + rest, 0, false) == Contribution(run) + Scan(rest, 0, false)
  {
    if IsDigitCell(run[0]) {
      assert Value([]) == 0;
      ScanDigitRun(run, rest, [], false);
      assert [] + Chars(run) == Chars(run);
      ScanBoundary(rest, Value(Chars(run)), AnyFlag(run));
    } else {
      ScanOtherRun(run, rest);
    }
  }

  /** Grouping into runs and summing the flagged digit runs is the single pass. */
  lemma {:induction false} ContributionsIsScan(cells: seq<Cell>)
    ensures Contributions(GroupBy(cells, IsDigitCell)) == Scan(cells, 0, false)
    decreases |cells|
  {
    if |cells| > 0 {
      var g := GroupBy(cells, IsDigitCell);
      GroupByHead(cells, IsDigitCell);
      var rest := cells[|g[0]|..];
      ContributionsIsScan(rest);
      RunThenScan(g[0], rest);
    }
  }

  /** Sum over the windows of three consecutive lines of the middle line's part numbers. */
  function WindowSum(ws: seq<(string, string, string)>): nat
  {
    if |ws| == 0 then 0 else SumOfPartNumbers(ws[0].1, ws[0].0, ws[0].2) + WindowSum(ws[1..])
  }

  /** The part numbers of every line that has a line above and a line below it, added
      up line by line from the top. */
  function MiddleSum(lines: seq<string>): nat
    decreases |lines|
  {
    if |lines| < 3 then 0
    else
      var n := |lines|;
      MiddleSum(lines[..n - 1]) + SumOfPartNumbers(lines[n - 2], lines[n - 3], lines[n - 1])
  }

  /** `part_one`: every non-empty line that has a line above and below is scanned. */
  function PartOne(input: string): (total: nat)
    ensures |Text.Lines(input)| < 3 ==> total == 0
    ensures total == MiddleSum(Text.Lines(input))
  {
    WindowSumIsMiddleSum(Text.Lines(input));
    WindowSum(Triples(Text.Lines(input)))
  }

  lemma {:induction false} WindowSumAppend(a: seq<(string, string, string)>, b: seq<(string, string, string)>)
    ensures WindowSum(a + b) == WindowSum(a) + WindowSum(b)
  {
    if |a| == 0 {
      assert a + b == b;
    } else {
      assert (a + b)[1..] == a[1..] + b;
      WindowSumAppend(a[1..], b);
    }
  }

  /** A further line makes the previous last line a middle line and adds its sum, the
      new line itself never being scanned as a middle line. */
  lemma WindowSumExtend(lines: seq<string>, x: string)
    requires |lines| >= 2
    ensures WindowSum(Triples(lines + [x]))
         == WindowSum(Triples(lines)) + SumOfPartNumbers(lines[|lines| - 1], lines[|lines| - 2], x)
  {
    var n := |lines|;
    TriplesSnoc(lines, x);
    WindowSumAppend(Triples(lines), [(lines[n - 2], lines[n - 1], x)]);
  }

  /** Summing over the windows of three lines is summing over the middle lines. */
  lemma {:induction false} WindowSumIsMiddleSum(lines: seq<string>)
    ensures WindowSum(Triples(lines)) == MiddleSum(lines)
    decreases |lines|
  {
    if |lines| >= 3 {
      WindowSumSnoc(lines);
      WindowSumIsMiddleSum(lines[..|lines| - 1]);
    }
  }

  /** `WindowSumExtend` stated for the last line of `lines`. */
  lemma WindowSumSnoc(lines: seq<string>)
    requires |lines| >= 3
    ensures var n := |lines|;
      WindowSum(Triples(lines))
        == WindowSum(Triples(lines[..n - 1])) + SumOfPartNumbers(lines[n - 2], lines[n - 3], lines[n - 1])
  {
    var n := |lines|;
    var init, x := lines[..n - 1], lines[n - 1];
    assert lines == init + [x];
    assert init[n - 2] == lines[n - 2] && init[n - 3] == lines[n - 3];
    WindowSumExtend(init, x);
  }
}

=== FILE: day04_scratchcards.dfy ===
/** Day 4, "Scratchcards": a card scores one point for its first listed number that is
    a winning number and doubles for each further one. */
module Scratchcards {

  /** A card: its winning numbers form a set, its own numbers a list. */
  datatype Card = Card(id: nat, winning: set<nat>, numbers: seq<nat>)

  /** The card built from the parsed lists; the winning list collapses into a set. */
  function FromLists(id: nat, winningList: seq<nat>, numbers: seq<nat>): (c: Card)
    ensures c.id == id && c.numbers == numbers
    ensures forall x :: x in c.winning <==> x in winningList
  {
    Card(id, set x | x in winningList :: x, numbers)
  }

  /** How many of the listed numbers (counting repeats) are winning numbers. */
  function MatchCount(winning: set<nat>, numbers: seq<nat>): (m: nat)
    ensures m <= |numbers|
    ensures m == 0 <==> forall i :: 0 <= i < |numbers| ==> numbers[i] !in winning
    ensures m == |numbers| <==> forall i :: 0 <= i < |numbers| ==> numbers[i] in winning
  {
    if |numbers| == 0 then 0
    else (if numbers[0] in winning then 1 else 0) + MatchCount(winning, numbers[1..])
  }

  function Pow2(k: nat): (p: nat)
    ensures p >= 1
  {
    if k == 0 then 1 else 2 * Pow2(k - 1)
  }

  /** The score for `m` matches: nothing for none, otherwise `2^(m-1)`. */
  function ScoreFor(m: nat): (s: nat)
    ensures s == 0 <==> m == 0
    ensures m > 0 ==> s == Pow2(m - 1)
  {
    if m == 0 then 0 else Pow2(m - 1)
  }

  /** `Card::score`. */
  function Score(c: Card): (s: nat)
    ensures s == 0 <==> forall i :: 0 <= i < |c.numbers| ==> c.numbers[i] !in c.winning
    ensures s == ScoreFor(MatchCount(c.winning, c.numbers))
  {
    var m := MatchCount(c.winning, c.numbers);
    if m == 0 then 0 else Pow2(m - 1)
  }

  /** Each further match doubles the score of a winning card. */
  lemma ScoreDoubles(m: nat)
    requires m >= 1
    ensures ScoreFor(m + 1) == 2 * ScoreFor(m)
  {
  }

  /** More matches never score less. */
  lemma {:induction false} ScoreMonotone(m: nat, n: nat)
    requires m <= n
    ensures ScoreFor(m) <= ScoreFor(n)
    decreases n - m
  {
    if m < n {
      ScoreMonotone(m, n - 1);
      if n - 1 >= 1 {
        ScoreDoubles(n - 1);
      }
    }
  }

  lemma {:induction false} MatchCountAppend(w: set<nat>, a: seq<nat>, b: seq<nat>)
    ensures MatchCount(w, a + b) == MatchCount(w, a) + MatchCount(w, b)
  {
    if |a| == 0 {
      assert a + b == b;
    } else {
      assert (a + b)[1..] == a[1..] + b;
      MatchCountAppend(w, a[1..], b);
    }
  }

  /** Repeated listed numbers count once each: listing a winning number again adds a
      match. */
  lemma RepeatedNumberCounts(w: set<nat>, numbers: seq<nat>, x: nat)
    requires x in w
    ensures MatchCount(w, numbers + [x]) == MatchCount(w, numbers) + 1
  {
    MatchCountAppend(w, numbers, [x]);
  }

  /** Repeated winning numbers collapse: listing a winning number twice builds the same
      card. */
  lemma RepeatedWinnerCollapses(id: nat, winningList: seq<nat>, numbers: seq<nat>, x: nat)
    requires x in winningList
    ensures FromLists(id, winningList + [x], numbers) == FromLists(id, winningList, numbers)
  {
    var a := FromLists(id, winningList + [x], numbers).winning;
    var b := FromLists(id, winningList, numbers).winning;
    assert forall y :: y in a <==> y in b;
  }

  /** The match count depends only on which numbers are listed how often, not on their
      order. */
  lemma {:induction false} MatchCountPermutation(w: set<nat>, a: seq<nat>, b: seq<nat>)
    requires multiset(a) == multiset(b)
    ensures MatchCount(w, a) == MatchCount(w, b)
    decreases |a|
  {
    if |a| > 0 {
      var x := a[0];
      assert x in multiset(b);
      var i :| 0 <= i < |b| && b[i] == x;
      var b' := b[..i] + b[i + 1..];
      assert b == b[..i] + [x] + b[i + 1..];
      assert a == [x] + a[1..];
      assert multiset(a[1..]) == multiset(b') by {
        assert multiset(b) == multiset(b[..i]) + multiset([x]) + multiset(b[i + 1..]);
        assert multiset(a) == multiset([x]) + multiset(a[1..]);
        assert multiset(b') == multiset(b[..i]) + multiset(b[i + 1..]);
        assert multiset(a[1..]) == multiset(a) - multiset([x]);
        assert multiset(b') == multiset(b) - multiset([x]);
      }
      MatchCountPermutation(w, a[1..], b');
      MatchCountAppend(w, b[..i] + [x], b[i + 1..]);
      MatchCountAppend(w, b[..i], [x]);
      MatchCountAppend(w, b[..i], b[i + 1..]);
    } else {
      assert |b| == |multiset(b)|;
    }
  }

  function TotalScore(cards: seq<Card>): nat
  {
    if |cards| == 0 then 0 else Score(cards[0]) + TotalScore(cards[1..])
  }

  /** `part_one` over the parsed cards: only the cards with a match contribute, and a
      card contributes at most `2^(|numbers| - 1)`. */
  lemma {:induction false} TotalScoreBound(cards: seq<Card>)
    ensures TotalScore(cards) <= CardBound(cards)
  {
    if |cards| > 0 {
      TotalScoreBound(cards[1..]);
      var c := cards[0];
      ScoreMonotone(MatchCount(c.winning, c.numbers), |c.numbers|);
    }
  }

  function CardBound(cards: seq<Card>): nat
  {
    if |cards| == 0 then 0 else ScoreFor(|cards[0].numbers|) + CardBound(cards[1..])
  }
}

=== FILE: day05_almanac.dfy ===
/** Day 5, "If You Give A Seed A Fertilizer": each almanac map sends a number through
    the first of its ranges that contains it (or leaves it unchanged); a seed's
    location is the result of passing it through every map in turn. */
module Almanac {
  import opened Sequences
  import opened Decimal
  import opened Parsing

  datatype Range = Range(sourceStart: nat, destinationStart: nat, length: nat)

  /** `Range::contains`: the half-open source interval `[sourceStart, sourceStart + length)`;
      a range of length zero contains nothing. */
  predicate Contains(r: Range, source: nat)
    ensures Contains(r, source) ==> r.length > 0
  {
    r.sourceStart <= source < r.sourceStart + r.length
  }

  /** `Range::get_destination`, defined only inside the range (the source asserts it):
      the offset from the start is kept. */
  function Destination(r: Range, source: nat): (d: nat)
    requires Contains(r, source)
    ensures d - r.destinationStart == source - r.sourceStart
    ensures r.destinationStart <= d < r.destinationStart + r.length
  {
    r.destinationStart + source - r.sourceStart
  }

  /** Within one range the mapping is strictly increasing. */
  lemma DestinationIncreasing(r: Range, a: nat, b: nat)
    requires Contains(r, a) && Contains(r, b) && a < b
    ensures Destination(r, a) < Destination(r, b)
    ensures Destination(r, b) - Destination(r, a) == b - a
  {
  }

  /** `ranges[i]` is the first range, in list order, that contains `source`. */
  predicate IsFirstContaining(ranges: seq<Range>, source: nat, i: int)
  {
    0 <= i < |ranges| && Contains(ranges[i], source) &&
    forall j :: 0 <= j < i ==> !Contains(ranges[j], source)
  }

  /** `Map::get_destination`: the first containing range maps the number; when no range
      contains it, the number maps to itself. */
  function MapDestination(ranges: seq<Range>, source: nat): (d: nat)
    ensures (forall j :: 0 <= j < |ranges| ==> !Contains(ranges[j], source)) ==> d == source
    ensures forall i :: IsFirstContaining(ranges, source, i) ==> d == Destination(ranges[i], source)
  {
    if |ranges| == 0 then source
    else if Contains(ranges[0], source) then Destination(ranges[0], source)
    else
      assert forall i :: IsFirstContaining(ranges, source, i) ==> IsFirstContaining(ranges[1..], source, i - 1);
      MapDestination(ranges[1..], source)
  }

  /** A later range never overrides an earlier one: putting a range containing the
      number in front decides the result. */
  lemma FirstRangeWins(r: Range, ranges: seq<Range>, source: nat)
    requires Contains(r, source)
    ensures MapDestination([r] + ranges, source) == Destination(r, source)
  {
    assert IsFirstContaining([r] + ranges, source, 0);
  }

  datatype Map = Map(sourceCategory: string, destinationCategory: string, ranges: seq<Range>)

  /** Every map is empty. */
  predicate NoRanges(maps: seq<Map>)
  {
    forall i :: 0 <= i < |maps| ==> |maps[i].ranges| == 0
  }

  /** `get_location_for_seed`: the maps applied in file order, a left fold; maps
      without ranges leave every seed where it is. */
  function Location(maps: seq<Map>, seed: nat): (l: nat)
    ensures NoRanges(maps) ==> l == seed
  {
    if |maps| == 0 then seed else Location(maps[1..], MapDestination(maps[0].ranges, seed))
  }

  /** Folding over two lists of maps is folding over the first, then the second. */
  lemma {:induction false} LocationCompose(a: seq<Map>, b: seq<Map>, seed: nat)
    ensures Location(a + b, seed) == Location(b, Location(a, seed))
  {
    if |a| == 0 {
      assert a + b == b;
    } else {
      assert (a + b)[1..] == a[1..] + b;
      LocationCompose(a[1..], b, MapDestination(a[0].ranges, seed));
    }
  }

  /** `parse_range`: "destination source length", in that order, separated by single
      spaces. */
  function ParseRange(s: string): (r: Parsed<Range>)
    ensures r.Ok? ==> |r.rest| < |s|
  {
    match Number(s)
    case Fail => Fail
    case Ok(destination, i1) =>
      match Char(' ', i1)
      case Fail => Fail
      case Ok(_, i2) =>
        match Number(i2)
        case Fail => Fail
        case Ok(source, i3) =>
          match Char(' ', i3)
          case Fail => Fail
          case Ok(_, i4) =>
            match Number(i4)
            case Fail => Fail
            case Ok(length, i5) => Ok(Range(source, destination, length), i5)
  }

  /** The text of a range line in the almanac's field order. */
  function RangeLine(r: Range): string
  {
    ToDigits(r.destinationStart) + " " + ToDigits(r.sourceStart) + " " + ToDigits(r.length)
  }

  /** A written range line reads back as the same range: the first number is the
      destination start and the second the source start. */
  lemma ParseRangeLine(r: Range, t: string)
    requires |t| == 0 || !IsDigit(t[0])
    ensures ParseRange(RangeLine(r) + t) == Ok(r, t)
  {
    var d := ToDigits(r.destinationStart);
    var src := ToDigits(r.sourceStart);
    var len := ToDigits(r.length);
    var i4 := len + t;
    var i3 := " " + i4;
    var i2 := src + i3;
    var i1 := " " + i2;
    assert RangeLine(r) + t == d + i1;
    NumberOfDigits(r.destinationStart, i1);
    NumberOfDigits(r.sourceStart, i3);
    NumberOfDigits(r.length, t);
    ParseRangeSteps(d + i1, i1, i2, i3, i4, t, r);
  }

  lemma ParseRangeSteps(s: string, i1: string, i2: string, i3: string, i4: string, t: string, r: Range)
    requires Number(s) == Ok(r.destinationStart, i1)
    requires i1 == " " + i2
    requires Number(i2) == Ok(r.sourceStart, i3)
    requires i3 == " " + i4
    requires Number(i4) == Ok(r.length, t)
    ensures ParseRange(s) == Ok(r, t)
  {
    assert i1[1..] == i2;
    assert i3[1..] == i4;
  }

  datatype Almanac = Almanac(seeds: seq<nat>, maps: seq<Map>)

  /** `part_one`: the least location of any seed; none without seeds. */
  function PartOne(a: Almanac): (r: Option<nat>)
    ensures r.None? <==> |a.seeds| == 0
    ensures r.Some? ==> exists i :: 0 <= i < |a.seeds| && r.value == Location(a.maps, a.seeds[i])
    ensures r.Some? ==> forall i :: 0 <= i < |a.seeds| ==> r.value <= Location(a.maps, a.seeds[i])
  {
    if |a.seeds| == 0 then None
    else Some(Least(Locations(a.maps, a.seeds)))
  }

  /** The `map` of `part_one`: each seed's location, in order. */
  function Locations(maps: seq<Map>, seeds: seq<nat>): (ls: seq<nat>)
    ensures |ls| == |seeds|
    ensures forall i :: 0 <= i < |seeds| ==> ls[i] == Location(maps, seeds[i])
  {
    seq(|seeds|, i requires 0 <= i < |seeds| => Location(maps, seeds[i]))
  }

  /** The `min` of `part_one`: the least element, attained by some element. */
  function Least(xs: seq<nat>): (m: nat)
    requires |xs| > 0
    ensures exists i :: 0 <= i < |xs| && m == xs[i]
    ensures forall i :: 0 <= i < |xs| ==> m <= xs[i]
  {
    if |xs| == 1 then xs[0]
    else
      var rest := Least(xs[1..]);
      assert forall i :: 1 <= i < |xs| ==> xs[i] == xs[1..][i - 1];
      var m := if xs[0] <= rest then xs[0] else rest;
      assert exists i :: 0 <= i < |xs| && m == xs[i] by {
        if rest < xs[0] {
          var j :| 0 <= j < |xs[1..]| && rest == xs[1..][j];
          assert xs[j + 1] == rest;
        }
      }
      m
  }
}

=== FILE: day07_camel_cards.dfy ===
/** Day 7, "Camel Cards": a hand's category is decided by how often each card occurs,
    the multiplicities taken in descending order. */
module CamelCards {
  import opened Sequences

  /** The thirteen cards in ascending strength. */
  datatype Card = Two | Three | Four | Five | Six | Seven | Eight | Nine | Ten | Jack | Queen | King | Ace

  const AllCards: seq<Card> := [Two, Three, Four, Five, Six, Seven, Eight, Nine, Ten, Jack, Queen, King, Ace]

  /** The `parse_cards` character mapping; any other character makes the source panic. */
  function ParseCard(c: char): (r: Option<Card>)
    ensures r.Some? ==> CardChar(r.value) == c
  {
    match c
    case '2' => Some(Two)
    case '3' => Some(Three)
    case '4' => Some(Four)
    case '5' => Some(Five)
    case '6' => Some(Six)
    case '7' => Some(Seven)
    case '8' => Some(Eight)
    case '9' => Some(Nine)
    case 'T' => Some(Ten)
    case 'J' => Some(Jack)
    case 'Q' => Some(Queen)
    case 'K' => Some(King)
    case 'A' => Some(Ace)
    case _ => None
  }

  function CardChar(card: Card): char
  {
    match card
    case Two => '2'
    case Three => '3'
    case Four => '4'
    case Five => '5'
    case Six => '6'
    case Seven => '7'
    case Eight => '8'
    case Nine => '9'
    case Ten => 'T'
    case Jack => 'J'
    case Queen => 'Q'
    case King => 'K'
    case Ace => 'A'
  }

  /** Every card is read back from its character. */
  lemma ParseCardChar(card: Card)
    ensures ParseCard(CardChar(card)) == Some(card)
  {
  }

  /** The mapping accepts exactly thirteen characters. */
  lemma ParseCardAccepts(c: char)
    ensures ParseCard(c).Some? <==> c in "23456789TJQKA"
  {
  }

  /** The cards of a hand's text, or nothing if some character is not a card. */
  function ParseCards(s: string): (r: Option<seq<Card>>)
    ensures r.Some? <==> forall i :: 0 <= i < |s| ==> ParseCard(s[i]).Some?
    ensures r.Some? ==> |r.value| == |s| && forall i :: 0 <= i < |s| ==> r.value[i] == ParseCard(s[i]).value
  {
    if |s| == 0 then Some([])
    else if ParseCard(s[0]).None? then None
    else
      match ParseCards(s[1..])
      case None =>
        assert exists i :: 1 <= i < |s| && !ParseCard(s[i]).Some? by {
          var j :| 0 <= j < |s[1..]| && !ParseCard(s[1..][j]).Some?;
          assert s[1..][j] == s[j + 1];
        }
        None
      case Some(rest) =>
        assert forall i :: 1 <= i < |s| ==> s[i] == s[1..][i - 1];
        Some([ParseCard(s[0]).value] + rest)
  }

  /** The multiplicities of the card kinds that occur, in the order of `kinds`: every
      entry is the multiplicity of a listed kind, and every listed kind that occurs has
      its multiplicity among the entries. */
  function Tally(m: multiset<Card>, kinds: seq<Card>): (t: seq<nat>)
    ensures forall i :: 0 <= i < |t| ==> t[i] > 0
    ensures forall x :: x in t ==> exists k :: k in kinds && x == m[k]
    ensures forall k :: k in kinds && m[k] > 0 ==> m[k] in t
  {
    if |kinds| == 0 then []
    else
      var rest := Tally(m, kinds[1..]);
      var t := (if m[kinds[0]] > 0 then [m[kinds[0]]] else []) + rest;
      assert forall x :: x in rest ==> x in t;
      assert forall k :: k in kinds[1..] ==> k in kinds;
      assert forall k :: k in kinds ==> k == kinds[0] || k in kinds[1..];
      t
  }

  /** Inserts `x` into a descending sequence. */
  function Insert(x: nat, s: seq<nat>): (r: seq<nat>)
    requires Descending(s)
    ensures Descending(r) && multiset(r) == multiset(s) + multiset{x}
    ensures |r| == |s| + 1 && Sum(r) == x + Sum(s)
  {
    if |s| == 0 || x >= s[0] then
      ConsDescending(x, s);
      [x] + s
    else
      var rest := Insert(x, s[1..]);
      assert s == [s[0]] + s[1..];
      HeadBound(s, x, rest);
      ConsDescending(s[0], rest);
      [s[0]] + rest
  }

  lemma ConsDescending(x: nat, s: seq<nat>)
    requires Descending(s) && (|s| == 0 || x >= s[0])
    ensures Descending([x] + s)
  {
  }

  /** The head of a descending sequence bounds every element of its tail with a
      smaller element inserted. */
  lemma HeadBound(s: seq<nat>, x: nat, rest: seq<nat>)
    requires Descending(s) && |s| > 0 && x < s[0]
    requires |rest| > 0 && multiset(rest) == multiset(s[1..]) + multiset{x}
    ensures s[0] >= rest[0]
  {
    assert rest[0] in multiset(rest);
    if rest[0] != x {
      assert rest[0] in multiset(s[1..]);
      var j :| 0 <= j < |s[1..]| && s[1..][j] == rest[0];
      assert s[j + 1] == rest[0];
    }
  }

  predicate Descending(s: seq<nat>)
  {
    forall i, j :: 0 <= i < j < |s| ==> s[i] >= s[j]
  }

  /** Sorting into descending order (the order of `most_common`). */
  function SortDescending(s: seq<nat>): (r: seq<nat>)
    ensures Descending(r) && multiset(r) == multiset(s)
    ensures |r| == |s| && Sum(r) == Sum(s)
  {
    if |s| == 0 then []
    else
      assert s == [s[0]] + s[1..];
      Insert(s[0], SortDescending(s[1..]))
  }

  /** The multiplicities of the cards, in descending order. */
  function Profile(cards: seq<Card>): (p: seq<nat>)
    ensures Descending(p)
    ensures forall i :: 0 <= i < |p| ==> p[i] > 0
  {
    var t := Tally(multiset(cards), AllCards);
    SortedPositive(t);
    SortDescending(t)
  }

  lemma SortedPositive(t: seq<nat>)
    requires forall i :: 0 <= i < |t| ==> t[i] > 0
    ensures forall i :: 0 <= i < |SortDescending(t)| ==> SortDescending(t)[i] > 0
  {
    var p := SortDescending(t);
    forall i | 0 <= i < |p|
      ensures p[i] > 0
    {
      assert p[i] in multiset(t);
    }
  }

  datatype Category = FiveOfAKind | FourOfAKind | FullHouse | ThreeOfAKind | TwoPair | OnePair | HighCard

  /** `get_category`, by the hand's profile; the source panics on a profile outside
      the seven, which a hand of five cards never has (`FiveCardsHaveCategory`). */
  function GetCategory(cards: seq<Card>): (r: Option<Category>)
    ensures r == Some(FiveOfAKind) <==> Profile(cards) == [5]
    ensures r == Some(FourOfAKind) <==> Profile(cards) == [4, 1]
    ensures r == Some(FullHouse) <==> Profile(cards) == [3, 2]
    ensures r == Some(ThreeOfAKind) <==> Profile(cards) == [3, 1, 1]
    ensures r == Some(TwoPair) <==> Profile(cards) == [2, 2, 1]
    ensures r == Some(OnePair) <==> Profile(cards) == [2, 1, 1, 1]
    ensures r == Some(HighCard) <==> Profile(cards) == [1, 1, 1, 1, 1]
    ensures r.None? <==> !IsPattern(Profile(cards))
  {
    CategoryOf(Profile(cards))
  }

  /** The category a multiplicity pattern names, if it is one of the seven. */
  function CategoryOf(p: seq<nat>): (r: Option<Category>)
    ensures r == Some(FiveOfAKind) <==> p == [5]
    ensures r == Some(FourOfAKind) <==> p == [4, 1]
    ensures r == Some(FullHouse) <==> p == [3, 2]
    ensures r == Some(ThreeOfAKind) <==> p == [3, 1, 1]
    ensures r == Some(TwoPair) <==> p == [2, 2, 1]
    ensures r == Some(OnePair) <==> p == [2, 1, 1, 1]
    ensures r == Some(HighCard) <==> p == [1, 1, 1, 1, 1]
    ensures r.None? <==> !IsPattern(p)
  {
    if p == [5] then Some(FiveOfAKind)
    else if p == [4, 1] then Some(FourOfAKind)
    else if p == [3, 2] then Some(FullHouse)
    else if p == [3, 1, 1] then Some(ThreeOfAKind)
    else if p == [2, 2, 1] then Some(TwoPair)
    else if p == [2, 1, 1, 1] then Some(OnePair)
    else if p == [1, 1, 1, 1, 1] then Some(HighCard)
    else None
  }

  /** The seven patterns cover every hand of five cards, so such a hand always has a
      category. */
  lemma FiveCardsHaveCategory(cards: seq<Card>)
    requires |cards| == 5
    ensures GetCategory(cards).Some?
  {
    ProfileOfFive(cards);
  }

  /** The category does not depend on the order of the cards. */
  lemma CategoryOfPermutation(a: seq<Card>, b: seq<Card>)
    requires multiset(a) == multiset(b)
    ensures GetCategory(a) == GetCategory(b)
  {
    SameProfile(a, b);
  }

  lemma SameProfile(a: seq<Card>, b: seq<Card>)
    requires multiset(a) == multiset(b)
    ensures Profile(a) == Profile(b)
  {
    assert Tally(multiset(a), AllCards) == Tally(multiset(b), AllCards);
  }

  /** The multiplicities of the kinds a multiset may hold add up to its size. */
  lemma {:induction false} TallySum(m: multiset<Card>, kinds: seq<Card>)
    requires forall i, j :: 0 <= i < j < |kinds| ==> kinds[i] != kinds[j]
    requires forall c :: m[c] > 0 ==> c in kinds
    ensures Sum(Tally(m, kinds)) == |m|
  {
    if |kinds| == 0 {
      assert forall c :: m[c] == 0;
      assert m == multiset{};
    } else {
      var k := kinds[0];
      var m' := m[k := 0];
      RemainingKinds(m, kinds);
      TallySum(m', kinds[1..]);
      TallyIgnores(m, k, kinds[1..]);
      SumAppend(if m[k] > 0 then [m[k]] else [], Tally(m, kinds[1..]));
      Without(m, k);
    }
  }

  /** Once the first kind is forgotten, the other kinds cover what is left. */
  lemma RemainingKinds(m: multiset<Card>, kinds: seq<Card>)
    requires |kinds| > 0
    requires forall i, j :: 0 <= i < j < |kinds| ==> kinds[i] != kinds[j]
    requires forall c :: m[c] > 0 ==> c in kinds
    ensures kinds[0] !in kinds[1..]
    ensures forall i, j :: 0 <= i < j < |kinds[1..]| ==> kinds[1..][i] != kinds[1..][j]
    ensures forall c :: m[kinds[0] := 0][c] > 0 ==> c in kinds[1..]
  {
    var m' := m[kinds[0] := 0];
    forall c | m'[c] > 0
      ensures c in kinds[1..]
    {
      var j :| 0 <= j < |kinds| && kinds[j] == c;
      assert j != 0;
      assert kinds[1..][j - 1] == c;
    }
    forall j | 0 <= j < |kinds[1..]|
      ensures kinds[1..][j] != kinds[0]
    {
      assert kinds[1..][j] == kinds[j + 1];
    }
  }

  /** A multiset is its copies of `k` and the rest. */
  lemma Without(m: multiset<Card>, k: Card)
    ensures |m| == m[k] + |m[k := 0]|
  {
    var rest := m[k := 0];
    var ks := multiset{}[k := m[k]];
    assert m == rest + ks;
  }

  /** Forgetting a kind that `kinds` does not list leaves the tally unchanged. */
  lemma {:induction false} TallyIgnores(m: multiset<Card>, k: Card, kinds: seq<Card>)
    requires k !in kinds
    ensures Tally(m[k := 0], kinds) == Tally(m, kinds)
  {
    if |kinds| > 0 {
      assert kinds[0] != k;
      TallyIgnores(m, k, kinds[1..]);
    }
  }

  lemma AllCardsDistinct()
    ensures forall i, j :: 0 <= i < j < |AllCards| ==> AllCards[i] != AllCards[j]
    ensures forall c :: c in AllCards
  {
    forall c
      ensures c in AllCards
    {
      match c
      case Two => assert AllCards[0] == c;
      case Three => assert AllCards[1] == c;
      case Four => assert AllCards[2] == c;
      case Five => assert AllCards[3] == c;
      case Six => assert AllCards[4] == c;
      case Seven => assert AllCards[5] == c;
      case Eight => assert AllCards[6] == c;
      case Nine => assert AllCards[7] == c;
      case Ten => assert AllCards[8] == c;
      case Jack => assert AllCards[9] == c;
      case Queen => assert AllCards[10] == c;
      case King => assert AllCards[11] == c;
      case Ace => assert AllCards[12] == c;
    }
  }

  /** The multiplicities of a hand add up to its length. */
  lemma ProfileSum(cards: seq<Card>)
    ensures Sum(Profile(cards)) == |cards|
  {
    AllCardsDistinct();
    TallySum(multiset(cards), AllCards);
  }

  /** The descending positive sequences adding up to five are the seven patterns. */
  lemma PartitionsOfFive(p: seq<nat>)
    requires Descending(p) && Sum(p) == 5
    requires forall i :: 0 <= i < |p| ==> p[i] > 0
    ensures IsPattern(p)
  {
    SumBounded(p, 1, 5) by {
      forall i | 0 <= i < |p|
        ensures 1 <= p[i] <= 5
      {
        SumElementBound(p, i);
      }
    }
    if |p| == 1 {
      assert p == [p[0]];
    } else if |p| == 2 {
      PartitionsOfTwoParts(p);
    } else if |p| == 3 {
      PartitionsOfThreeParts(p);
    } else if |p| == 4 {
      PartitionsOfFourParts(p);
    } else {
      PartitionsOfFiveParts(p);
    }
  }

  /** `p` is one of the seven multiplicity patterns of a five-card hand. */
  predicate IsPattern(p: seq<nat>)
  {
    p == [5] || p == [4, 1] || p == [3, 2] || p == [3, 1, 1] || p == [2, 2, 1] || p == [2, 1, 1, 1] || p == [1, 1, 1, 1, 1]
  }

  lemma PartitionsOfTwoParts(p: seq<nat>)
    requires |p| == 2 && Descending(p) && Sum(p) == 5 && p[1] > 0
    ensures p == [4, 1] || p == [3, 2]
  {
    SumTwo(p);
    assert p[0] >= p[1];
    assert p == [p[0], p[1]];
  }

  lemma PartitionsOfThreeParts(p: seq<nat>)
    requires |p| == 3 && Descending(p) && Sum(p) == 5 && p[2] > 0
    ensures p == [3, 1, 1] || p == [2, 2, 1]
  {
    SumTwo(p[1..]);
    assert p[0] >= p[1] >= p[2];
    assert p == [p[0], p[1], p[2]];
  }

  lemma PartitionsOfFourParts(p: seq<nat>)
    requires |p| == 4 && Descending(p) && Sum(p) == 5 && p[3] > 0
    ensures p == [2, 1, 1, 1]
  {
    SumTwo(p[2..]);
    assert Sum(p[1..]) == p[1] + Sum(p[2..]);
    assert p[0] >= p[1] >= p[2] >= p[3];
    assert p == [p[0], p[1], p[2], p[3]];
  }

  lemma PartitionsOfFiveParts(p: seq<nat>)
    requires |p| == 5 && Descending(p) && Sum(p) == 5 && p[4] > 0
    ensures p == [1, 1, 1, 1, 1]
  {
    SumFive(p);
    assert p[0] >= p[1] >= p[2] >= p[3] >= p[4];
    assert p[0] == 1 && p[1] == 1 && p[2] == 1 && p[3] == 1 && p[4] == 1;
    assert p == [p[0], p[1], p[2], p[3], p[4]];
  }

  lemma SumFive(p: seq<nat>)
    requires |p| == 5
    ensures Sum(p) == p[0] + p[1] + p[2] + p[3] + p[4]
  {
    SumTwo(p[3..]);
    assert Sum(p[2..]) == p[2] + Sum(p[3..]);
    assert Sum(p[1..]) == p[1] + Sum(p[2..]);
  }

  lemma SumTwo(p: seq<int>)
    requires |p| == 2
    ensures Sum(p) == p[0] + p[1]
  {
    assert Sum(p[1..][1..]) == 0;
  }

  lemma {:induction false} SumElementBound(p: seq<nat>, i: nat)
    requires i < |p|
    ensures p[i] <= Sum(p)
  {
    if i > 0 {
      SumElementBound(p[1..], i - 1);
    } else {
      SumNonNegative(p[1..]);
    }
  }

  /** The profile of a five-card hand is one of the seven patterns. */
  lemma ProfileOfFive(cards: seq<Card>)
    requires |cards| == 5
    ensures IsPattern(Profile(cards))
  {
    ProfileSum(cards);
    PartitionsOfFive(Profile(cards));
  }

  /** A kind occurring as often as the hand is long is the only kind in the hand. */
  lemma {:induction false} FullMultiplicity(cards: seq<Card>, k: Card)
    requires multiset(cards)[k] == |cards|
    ensures forall i :: 0 <= i < |cards| ==> cards[i] == k
  {
    if |cards| > 0 {
      assert cards == [cards[0]] + cards[1..];
      assert multiset(cards[1..])[k] <= |cards[1..]|;
      FullMultiplicity(cards[1..], k);
      forall i | 0 <= i < |cards|
        ensures cards[i] == k
      {
        if i > 0 {
          assert cards[i] == cards[1..][i - 1];
        }
      }
    }
  }

  /** A card repeated at two positions occurs at least twice. */
  lemma RepeatedCard(cards: seq<Card>, i: nat, j: nat)
    requires i < j < |cards| && cards[i] == cards[j]
    ensures multiset(cards)[cards[i]] >= 2
  {
    assert cards == cards[..j] + [cards[j]] + cards[j + 1..];
    assert cards[..j][i] == cards[i];
    assert cards[i] in multiset(cards[..j]);
  }

  /** A hand of five is five of a kind exactly when all its cards are equal. */
  lemma FiveOfAKindIffAllEqual(cards: seq<Card>)
    requires |cards| == 5
    ensures GetCategory(cards) == Some(FiveOfAKind) <==> forall i :: 0 <= i < 5 ==> cards[i] == cards[0]
  {
    if GetCategory(cards) == Some(FiveOfAKind) {
      FiveOfAKindAllEqual(cards);
    }
    if forall i :: 0 <= i < 5 ==> cards[i] == cards[0] {
      AllEqualFiveOfAKind(cards);
    }
  }

  lemma FiveOfAKindAllEqual(cards: seq<Card>)
    requires |cards| == 5 && Profile(cards) == [5]
    ensures forall i :: 0 <= i < 5 ==> cards[i] == cards[0]
  {
    InProfile(cards, 5);
    var k :| multiset(cards)[k] == 5;
    FullMultiplicity(cards, k);
  }

  lemma AllEqualFiveOfAKind(cards: seq<Card>)
    requires |cards| == 5 && forall i :: 0 <= i < 5 ==> cards[i] == cards[0]
    ensures Profile(cards) == [5]
  {
    var k := cards[0];
    assert cards == [k, k, k, k, k];
    assert multiset(cards)[k] == 5;
    InProfile(cards, 5);
    ProfileOfFive(cards);
  }

  /** A hand of five is a high card hand exactly when its five cards are distinct. */
  lemma HighCardIffAllDistinct(cards: seq<Card>)
    requires |cards| == 5
    ensures GetCategory(cards) == Some(HighCard) <==> forall i, j :: 0 <= i < j < 5 ==> cards[i] != cards[j]
  {
    if GetCategory(cards) == Some(HighCard) {
      HighCardDistinct(cards);
    }
    if forall i, j :: 0 <= i < j < 5 ==> cards[i] != cards[j] {
      DistinctHighCard(cards);
    }
  }

  lemma HighCardDistinct(cards: seq<Card>)
    requires |cards| == 5 && Profile(cards) == [1, 1, 1, 1, 1]
    ensures forall i, j :: 0 <= i < j < 5 ==> cards[i] != cards[j]
  {
    forall i, j | 0 <= i < j < 5
      ensures cards[i] != cards[j]
    {
      if cards[i] == cards[j] {
        RepeatedCard(cards, i, j);
        InProfile(cards, multiset(cards)[cards[i]]);
      }
    }
  }

  lemma DistinctHighCard(cards: seq<Card>)
    requires |cards| == 5 && forall i, j :: 0 <= i < j < 5 ==> cards[i] != cards[j]
    ensures Profile(cards) == [1, 1, 1, 1, 1]
  {
    var p := Profile(cards);
    ProfileOfFive(cards);
    InProfile(cards, p[0]);
    var k :| multiset(cards)[k] == p[0];
    DistinctMultiplicity(cards, k);
  }

  /** A multiplicity occurs in the profile exactly when some card occurs that often. */
  lemma InProfile(cards: seq<Card>, x: nat)
    requires x > 0
    ensures x in Profile(cards) <==> exists k :: multiset(cards)[k] == x
  {
    var m := multiset(cards);
    var t := Tally(m, AllCards);
    assert multiset(Profile(cards)) == multiset(t);
    if x in Profile(cards) {
      assert x in multiset(Profile(cards));
      assert x in t;
    }
    if exists k :: m[k] == x {
      var k :| m[k] == x;
      AllCardsDistinct();
      assert x in t;
      assert x in multiset(t);
      assert x in multiset(Profile(cards));
    }
  }

  /** A multiplicity occurs twice in the profile exactly when two different cards
      occur that often. */
  lemma TwiceInProfile(cards: seq<Card>, x: nat)
    requires x > 0
    ensures multiset(Profile(cards))[x] >= 2 <==> exists k1, k2 :: k1 != k2 && multiset(cards)[k1] == x && multiset(cards)[k2] == x
  {
    var m := multiset(cards);
    var t := Tally(m, AllCards);
    assert multiset(Profile(cards)) == multiset(t);
    AllCardsDistinct();
    var mt: multiset<nat> := multiset(t);
    if mt[x] >= 2 {
      var k1, k2 := TallyRepeated(m, AllCards, x);
    }
    if exists k1, k2 :: k1 != k2 && m[k1] == x && m[k2] == x {
      var k1, k2 :| k1 != k2 && m[k1] == x && m[k2] == x;
      TallyTwice(m, AllCards, k1, k2);
    }
  }

  /** A multiplicity the tally holds twice belongs to two different listed kinds. */
  lemma {:induction false} TallyRepeated(m: multiset<Card>, kinds: seq<Card>, x: nat) returns (k1: Card, k2: Card)
    requires forall i, j :: 0 <= i < j < |kinds| ==> kinds[i] != kinds[j]
    requires multiset(Tally(m, kinds))[x] >= 2
    ensures k1 != k2 && m[k1] == x && m[k2] == x
  {
    var rest := Tally(m, kinds[1..]);
    assert Tally(m, kinds) == (if m[kinds[0]] > 0 then [m[kinds[0]]] else []) + rest;
    DistinctTail(kinds);
    var mr: multiset<nat> := multiset(rest);
    if mr[x] >= 2 {
      k1, k2 := TallyRepeated(m, kinds[1..], x);
    } else {
      assert x in rest;
      var k :| k in kinds[1..] && x == m[k];
      k1, k2 := kinds[0], k;
    }
  }

  /** Two different listed kinds that occur equally often put their multiplicity in
      the tally twice. */
  lemma {:induction false} TallyTwice(m: multiset<Card>, kinds: seq<Card>, k1: Card, k2: Card)
    requires forall i, j :: 0 <= i < j < |kinds| ==> kinds[i] != kinds[j]
    requires k1 in kinds && k2 in kinds && k1 != k2 && m[k1] == m[k2] > 0
    ensures multiset(Tally(m, kinds))[m[k1]] >= 2
  {
    var rest := Tally(m, kinds[1..]);
    assert Tally(m, kinds) == (if m[kinds[0]] > 0 then [m[kinds[0]]] else []) + rest;
    DistinctTail(kinds);
    if kinds[0] == k1 {
      assert k2 in kinds[1..];
      assert m[k2] in rest;
    } else if kinds[0] == k2 {
      assert k1 in kinds[1..];
      assert m[k1] in rest;
    } else {
      assert k1 in kinds[1..] && k2 in kinds[1..];
      TallyTwice(m, kinds[1..], k1, k2);
    }
  }

  /** The first of distinct kinds is not among the others, which are distinct too. */
  lemma DistinctTail(kinds: seq<Card>)
    requires |kinds| > 0
    requires forall i, j :: 0 <= i < j < |kinds| ==> kinds[i] != kinds[j]
    ensures kinds[0] !in kinds[1..]
    ensures forall i, j :: 0 <= i < j < |kinds[1..]| ==> kinds[1..][i] != kinds[1..][j]
  {
    forall j | 0 <= j < |kinds[1..]|
      ensures kinds[1..][j] != kinds[0]
    {
      assert kinds[1..][j] == kinds[j + 1];
    }
  }

  /** In a hand of distinct cards no kind occurs twice. */
  lemma {:induction false} DistinctMultiplicity(cards: seq<Card>, k: Card)
    requires forall i, j :: 0 <= i < j < |cards| ==> cards[i] != cards[j]
    ensures multiset(cards)[k] <= 1
  {
    if |cards| > 0 {
      assert cards == [cards[0]] + cards[1..];
      DistinctMultiplicity(cards[1..], k);
      if cards[0] == k {
        assert k !in cards[1..] by {
          forall i | 0 <= i < |cards[1..]|
            ensures cards[1..][i] != k
          {
            assert cards[1..][i] == cards[i + 1];
          }
        }
      }
    }
  }

  /** A hand of five is four of a kind exactly when some card occurs four times. */
  lemma FourOfAKindIff(cards: seq<Card>)
    requires |cards| == 5
    ensures GetCategory(cards) == Some(FourOfAKind) <==> exists k :: multiset(cards)[k] == 4
  {
    ProfileOfFive(cards);
    FourInPattern(Profile(cards));
    InProfile(cards, 4);
  }

  /** A hand of five is a full house exactly when some card occurs three times and
      some card twice. */
  lemma FullHouseIff(cards: seq<Card>)
    requires |cards| == 5
    ensures GetCategory(cards) == Some(FullHouse) <==>
      (exists k :: multiset(cards)[k] == 3) && (exists k :: multiset(cards)[k] == 2)
  {
    ProfileOfFive(cards);
    FullHouseInPattern(Profile(cards));
    InProfile(cards, 3);
    InProfile(cards, 2);
  }

  /** A hand of five is three of a kind exactly when some card occurs three times and
      no card twice. */
  lemma ThreeOfAKindIff(cards: seq<Card>)
    requires |cards| == 5
    ensures GetCategory(cards) == Some(ThreeOfAKind) <==>
      (exists k :: multiset(cards)[k] == 3) && (forall k :: multiset(cards)[k] != 2)
  {
    ProfileOfFive(cards);
    ThreeInPattern(Profile(cards));
    InProfile(cards, 3);
    InProfile(cards, 2);
  }

  /** A hand of five is two pair exactly when two different cards occur twice each. */
  lemma TwoPairIff(cards: seq<Card>)
    requires |cards| == 5
    ensures GetCategory(cards) == Some(TwoPair) <==>
      exists k1, k2 :: k1 != k2 && multiset(cards)[k1] == 2 && multiset(cards)[k2] == 2
  {
    ProfileOfFive(cards);
    TwoPairInPattern(Profile(cards));
    TwiceInProfile(cards, 2);
  }

  /** A hand of five is one pair exactly when some card occurs twice and every other
      card at most once. */
  lemma OnePairIff(cards: seq<Card>)
    requires |cards| == 5
    ensures GetCategory(cards) == Some(OnePair) <==> OnlyPair(multiset(cards))
  {
    if GetCategory(cards) == Some(OnePair) {
      OnePairOnlyPair(cards);
    }
    if OnlyPair(multiset(cards)) {
      OnlyPairOnePair(cards);
    }
  }

  lemma OnePairOnlyPair(cards: seq<Card>)
    requires |cards| == 5 && Profile(cards) == [2, 1, 1, 1]
    ensures OnlyPair(multiset(cards))
  {
    var m := multiset(cards);
    InProfile(cards, 2);
    TwiceInProfile(cards, 2);
    var k :| m[k] == 2;
    forall k' | k' != k
      ensures m[k'] <= 1
    {
      if m[k'] > 1 {
        InProfile(cards, m[k']);
      }
    }
  }

  lemma OnlyPairOnePair(cards: seq<Card>)
    requires |cards| == 5 && OnlyPair(multiset(cards))
    ensures Profile(cards) == [2, 1, 1, 1]
  {
    var m := multiset(cards);
    var p := Profile(cards);
    var k :| m[k] == 2 && forall k' :: k' != k ==> m[k'] <= 1;
    ProfileOfFive(cards);
    InProfile(cards, 2);
    TwiceInProfile(cards, 2);
    InProfile(cards, p[0]);
    OnePairInPattern(p);
  }

  /** Exactly one kind occurs twice and every other kind at most once. */
  predicate OnlyPair(m: multiset<Card>)
  {
    exists k :: m[k] == 2 && forall k' :: k' != k ==> m[k'] <= 1
  }

  lemma FourInPattern(p: seq<nat>)
    requires IsPattern(p)
    ensures p == [4, 1] <==> 4 in p
  {
  }

  lemma FullHouseInPattern(p: seq<nat>)
    requires IsPattern(p)
    ensures p == [3, 2] <==> 3 in p && 2 in p
  {
  }

  lemma ThreeInPattern(p: seq<nat>)
    requires IsPattern(p)
    ensures p == [3, 1, 1] <==> 3 in p && 2 !in p
  {
  }

  lemma TwoPairInPattern(p: seq<nat>)
    requires IsPattern(p)
    ensures p == [2, 2, 1] <==> multiset(p)[2] >= 2
  {
  }

  lemma OnePairInPattern(p: seq<nat>)
    requires IsPattern(p)
    ensures p == [2, 1, 1, 1] <==> 2 in p && multiset(p)[2] < 2 && p[0] <= 2
  {
  }
}

=== FILE: day08_network.dfy ===
/** Day 8, "Haunted Wasteland": starting at node AAA, follow the left/right
    instructions, repeated cyclically, until node ZZZ; the answer is the number of
    steps taken. */
module Network {
  import opened Sequences
  import opened Parsing
  import Text

  datatype Direction = Left | Right

  /** `parse_direction`: 'L' and 'R'; any other character is not a direction. */
  function ParseDirection(c: char): (r: Option<Direction>)
    ensures r == Some(Left) <==> c == 'L'
    ensures r == Some(Right) <==> c == 'R'
    ensures r.None? <==> c != 'L' && c != 'R'
  {
    if c == 'L' then Some(Left) else if c == 'R' then Some(Right) else None
  }

  predicate IsDirectionChar(c: char)
  {
    c == 'L' || c == 'R'
  }

  function DirectionChar(d: Direction): (c: char)
    ensures IsDirectionChar(c) && ParseDirection(c) == Some(d)
  {
    match d
    case Left => 'L'
    case Right => 'R'
  }

  /** `parse_directions`: `many1(parse_direction)`, the longest non-empty run of
      direction letters. */
  function ParseDirections(s: string): (r: Parsed<seq<Direction>>)
    ensures r.Ok? <==> |s| > 0 && IsDirectionChar(s[0])
    ensures r.Ok? ==> |r.value| >= 1 && |r.rest| < |s|
    ensures r.Ok? ==> |r.rest| == 0 || !IsDirectionChar(r.rest[0])
    ensures r.Ok? ==> |r.value| + |r.rest| == |s|
    ensures r.Ok? ==> forall i :: 0 <= i < |r.value| ==> Some(r.value[i]) == ParseDirection(s[i])
  {
    match TakeWhile1(s, IsDirectionChar)
    case Fail => Fail
    case Ok(letters, rest) =>
      assert forall i :: 0 <= i < |letters| ==> s[i] == letters[i];
      Ok(seq(|letters|, i requires 0 <= i < |letters| => ParseDirection(letters[i]).value), rest)
  }

  /** The instructions written as letters. */
  function DirectionsText(ds: seq<Direction>): (t: string)
    ensures |t| == |ds| && forall i :: 0 <= i < |t| ==> t[i] == DirectionChar(ds[i])
  {
    seq(|ds|, i requires 0 <= i < |ds| => DirectionChar(ds[i]))
  }

  /** Written instructions are read back, up to the first non-direction character. */
  lemma DirectionsRoundTrip(ds: seq<Direction>, t: string)
    requires |ds| >= 1
    requires |t| == 0 || !IsDirectionChar(t[0])
    ensures ParseDirections(DirectionsText(ds) + t) == Ok(ds, t)
  {
    var text := DirectionsText(ds);
    TakeWhile1Word(text, t, IsDirectionChar);
    var r := ParseDirections(text + t);
    assert |r.value| == |ds|;
    forall i | 0 <= i < |ds|
      ensures r.value[i] == ds[i]
    {
      assert (text + t)[i] == DirectionChar(ds[i]);
    }
    assert r.value == ds;
  }

  datatype Neighbours = Neighbours(left: string, right: string)

  /** The right-hand side of `parse_entry`: `(LEFT, RIGHT)` with `alpha1` names. */
  function ParseNeighbours(s: string): (r: Parsed<Neighbours>)
    ensures r.Ok? ==> |r.rest| < |s|
  {
    var open := Char('(', s);
    if open.Fail? then Fail else
    var left := TakeWhile1(open.rest, IsAlpha);
    if left.Fail? then Fail else
    var comma := Tag(", ", left.rest);
    if comma.Fail? then Fail else
    var right := TakeWhile1(comma.rest, IsAlpha);
    if right.Fail? then Fail else
    var close := Char(')', right.rest);
    if close.Fail? then Fail else
    Ok(Neighbours(left.value, right.value), close.rest)
  }

  /** `parse_entry`: `NAME = (LEFT, RIGHT)`. */
  function ParseEntry(s: string): (r: Parsed<(string, Neighbours)>)
    ensures r.Ok? ==> |r.rest| < |s|
  {
    var name := TakeWhile1(s, IsAlpha);
    if name.Fail? then Fail else
    var equals := Tag(" = ", name.rest);
    if equals.Fail? then Fail else
    var neighbours := ParseNeighbours(equals.rest);
    if neighbours.Fail? then Fail else
    Ok((name.value, neighbours.value), neighbours.rest)
  }

  predicate IsName(w: string)
  {
    |w| >= 1 && forall i :: 0 <= i < |w| ==> IsAlpha(w[i])
  }

  function NeighboursText(n: Neighbours): string
  {
    "(" + n.left + ", " + n.right + ")"
  }

  function EntryText(name: string, n: Neighbours): string
  {
    name + " = " + NeighboursText(n)
  }

  lemma NeighboursRoundTrip(n: Neighbours, t: string)
    requires IsName(n.left) && IsName(n.right)
    ensures ParseNeighbours(NeighboursText(n) + t) == Ok(n, t)
  {
    var s3 := ")" + t;
    var s2' := n.right + s3;
    var s2 := ", " + s2';
    var s1 := n.left + s2;
    var s := "(" + s1;
    Assoc4("(" + n.left, ", ", n.right, ")" + t);
    Assoc3("(" + n.left + ", " + n.right, ")", t);
    Assoc3("(", n.left, s2);
    assert NeighboursText(n) + t == s;
    assert s[1..] == s1;
    TakeWhile1Word(n.left, s2, IsAlpha);
    TagPrefix(", ", s2');
    TakeWhile1Word(n.right, s3, IsAlpha);
    assert s3[1..] == t;
    NeighboursSteps(s, s1, n.left, s2, s2', n.right, s3, t);
  }

  /** The five steps of `ParseNeighbours`, each succeeding on what the previous one
      left. */
  lemma NeighboursSteps(s: string, s1: string, left: string, s2: string, s2': string,
                        right: string, s3: string, t: string)
    requires Char('(', s) == Ok('(', s1)
    requires TakeWhile1(s1, IsAlpha) == Ok(left, s2)
    requires Tag(", ", s2) == Ok(", ", s2')
    requires TakeWhile1(s2', IsAlpha) == Ok(right, s3)
    requires Char(')', s3) == Ok(')', t)
    ensures ParseNeighbours(s) == Ok(Neighbours(left, right), t)
  {
  }

  /** An entry written with alphabetic names is read back, whatever follows it. */
  lemma EntryRoundTrip(name: string, n: Neighbours, t: string)
    requires IsName(name) && IsName(n.left) && IsName(n.right)
    ensures ParseEntry(EntryText(name, n) + t) == Ok((name, n), t)
  {
    var s1 := NeighboursText(n) + t;
    assert EntryText(name, n) + t == name + (" = " + s1);
    TakeWhile1Word(name, " = " + s1, IsAlpha);
    TagPrefix(" = ", s1);
    NeighboursRoundTrip(n, t);
  }

  lemma EntryShrinks()
    ensures Shrinks(ParseEntry)
  {
  }

  /** The entries in file order collected into a map, so a later entry for the same
      node replaces an earlier one. */
  function Lookup(entries: seq<(string, Neighbours)>): (m: map<string, Neighbours>)
    ensures forall node :: node in m <==> exists i :: 0 <= i < |entries| && entries[i].0 == node
    ensures forall node :: node in m ==> m[node] == LastValue(entries, node, m[node])
  {
    var m := CollectMap(entries);
    forall node | node in m
      ensures m[node] == LastValue(entries, node, m[node])
    {
      CollectMapLastWins(entries, node, m[node]);
    }
    m
  }

  /** `parse_lookup`: entries separated by newlines, collected into a map. */
  function ParseLookup(s: string): (r: Parsed<map<string, Neighbours>>)
    ensures r.Ok? <==> ParseEntry(s).Ok?
  {
    EntryShrinks();
    match SeparatedList1(ParseEntry, '\n', s)
    case Fail => Fail
    case Ok(entries, rest) => Ok(Lookup(entries), rest)
  }

  /** Entries written one per line are read back as the map of their last
      occurrences. */
  lemma LookupRoundTrip(entries: seq<(string, Neighbours)>, after: string)
    requires |entries| >= 1
    requires forall i :: 0 <= i < |entries| ==>
      IsName(entries[i].0) && IsName(entries[i].1.left) && IsName(entries[i].1.right)
    requires |after| == 0 || after[0] != '\n'
    ensures ParseLookup(Text.Join(EntryTexts(entries), '\n') + after) == Ok(Lookup(entries), after)
  {
    EntryShrinks();
    var items := EntryTexts(entries);
    forall i, t | 0 <= i < |items| && Follows(t, '\n', after)
      ensures ParseEntry(items[i] + t) == Ok(entries[i], t)
    {
      EntryRoundTrip(entries[i].0, entries[i].1, t);
    }
    SeparatedList1Join(ParseEntry, '\n', items, entries, after);
  }

  function EntryTexts(entries: seq<(string, Neighbours)>): (texts: seq<string>)
    ensures |texts| == |entries|
    ensures forall i :: 0 <= i < |entries| ==> texts[i] == EntryText(entries[i].0, entries[i].1)
  {
    seq(|entries|, i requires 0 <= i < |entries| => EntryText(entries[i].0, entries[i].1))
  }

  datatype Graph = Graph(directions: seq<Direction>, lookup: map<string, Neighbours>)

  /** `Graph::from_str`: instructions, a blank line, then the entries; text after the
      entries is ignored. */
  function ParseGraph(s: string): (r: Option<Graph>)
    ensures r.Some? ==> |r.value.directions| >= 1
  {
    var directions := ParseDirections(s);
    if directions.Fail? then None else
    var blank := Tag("\n\n", directions.rest);
    if blank.Fail? then None else
    var lookup := ParseLookup(blank.rest);
    if lookup.Fail? then None else
    Some(Graph(directions.value, lookup.value))
  }

  /** A written graph is read back. */
  lemma GraphRoundTrip(ds: seq<Direction>, entries: seq<(string, Neighbours)>)
    requires |ds| >= 1 && |entries| >= 1
    requires forall i :: 0 <= i < |entries| ==>
      IsName(entries[i].0) && IsName(entries[i].1.left) && IsName(entries[i].1.right)
    ensures ParseGraph(DirectionsText(ds) + "\n\n" + Text.Join(EntryTexts(entries), '\n'))
      == Some(Graph(ds, Lookup(entries)))
  {
    var body := Text.Join(EntryTexts(entries), '\n');
    var t := "\n\n" + body;
    assert DirectionsText(ds) + "\n\n" + body == DirectionsText(ds) + t;
    DirectionsRoundTrip(ds, t);
    TagPrefix("\n\n", body);
    LookupRoundTrip(entries, "");
    assert body + "" == body;
  }

  /** A point of the walk: the current node and the index of the next instruction;
      the instructions repeat cyclically. */
  datatype Cursor = Cursor(node: string, next: nat)

  /** One step: follow the next instruction from a node the lookup holds to its left
      or right neighbour, or nothing when the node is missing (the source unwraps the
      lookup and panics). */
  function Advance(g: Graph, c: Cursor): (r: Option<Cursor>)
    requires c.next < |g.directions|
    ensures r.None? <==> c.node !in g.lookup
    ensures r.Some? ==> r.value.next < |g.directions|
    ensures r.Some? && g.directions[c.next] == Left ==> r.value.node == g.lookup[c.node].left
    ensures r.Some? && g.directions[c.next] == Right ==> r.value.node == g.lookup[c.node].right
    ensures r.Some? && c.next + 1 < |g.directions| ==> r.value.next == c.next + 1
    ensures r.Some? && c.next + 1 == |g.directions| ==> r.value.next == 0
  {
    if c.node !in g.lookup then None
    else
      var following := if c.next + 1 == |g.directions| then 0 else c.next + 1;
      var neighbours := g.lookup[c.node];
      var node := if g.directions[c.next] == Left then neighbours.left else neighbours.right;
      Some(Cursor(node, following))
  }

  /** The point reached after `n` steps from `source`, or nothing once a step has left
      a node missing from the lookup. */
  function Position(g: Graph, source: string, n: nat): (p: Option<Cursor>)
    requires |g.directions| > 0
    ensures n == 0 ==> p == Some(Cursor(source, 0))
    ensures p.Some? ==> p.value.next < |g.directions|
  {
    if n == 0 then Some(Cursor(source, 0))
    else
      match Position(g, source, n - 1)
      case None => None
      case Some(c) => Advance(g, c)
  }

  /** The node after `n` steps, if the walk got that far. */
  function NodeAt(g: Graph, source: string, n: nat): (r: Option<string>)
    requires |g.directions| > 0
    ensures r.Some? <==> Position(g, source, n).Some?
  {
    match Position(g, source, n)
    case None => None
    case Some(c) => Some(c.node)
  }

  /** The result of walking: the goal was reached after `steps` steps, the walk got
      stuck at a node missing from the lookup after `at` steps (where the source
      panics), or the goal was not reached within the step budget (where the source
      keeps walking for ever). */
  datatype Walk = Reached(steps: nat) | Stuck(at: nat) | Unfinished

  /** The `fold_while` walk of `part_one`, bounded by `fuel` steps. */
  method WalkToGoal(g: Graph, source: string, goal: string, fuel: nat) returns (r: Walk)
    requires |g.directions| > 0
    ensures r.Reached? ==> r.steps <= fuel && NodeAt(g, source, r.steps) == Some(goal)
    ensures r.Reached? ==> forall k :: 0 <= k < r.steps ==> NotYet(g, source, k, goal)
    ensures r.Stuck? ==> r.at <= fuel && NotYet(g, source, r.at, goal)
    ensures r.Stuck? ==> NodeAt(g, source, r.at).value !in g.lookup
    ensures r.Stuck? ==> forall k :: 0 <= k < r.at ==> NotYet(g, source, k, goal)
    ensures r.Unfinished? ==> forall k :: 0 <= k <= fuel ==> NotYet(g, source, k, goal)
    ensures source == goal ==> r == Reached(0)
  {
    var at := Cursor(source, 0);
    var steps := 0;
    while at.node != goal
      invariant steps <= fuel + 1
      invariant source == goal ==> steps == 0
      invariant Position(g, source, steps) == Some(at)
      invariant forall k :: 0 <= k < steps ==> NotYet(g, source, k, goal)
      decreases fuel + 1 - steps
    {
      if steps == fuel + 1 {
        return Unfinished;
      }
      if at.node !in g.lookup {
        return Stuck(steps);
      }
      at := Advance(g, at).value;
      steps := steps + 1;
    }
    if steps == fuel + 1 {
      return Unfinished;
    }
    return Reached(steps);
  }

  /** After `k` steps the walk is still going and has not met `goal`. */
  predicate NotYet(g: Graph, source: string, k: nat, goal: string)
    requires |g.directions| > 0
  {
    NodeAt(g, source, k).Some? && NodeAt(g, source, k).value != goal
  }

  /** `part_one`: the number of steps from AAA to the first visit of ZZZ, or nothing
      when the input does not parse. */
  method PartOne(input: string, fuel: nat) returns (r: Option<Walk>)
    ensures r.None? <==> ParseGraph(input).None?
    ensures r.Some? && r.value.Reached? ==>
      NodeAt(ParseGraph(input).value, "AAA", r.value.steps) == Some("ZZZ")
    ensures r.Some? && r.value.Reached? ==> forall k :: 0 <= k < r.value.steps ==>
      NodeAt(ParseGraph(input).value, "AAA", k) != Some("ZZZ")
  {
    match ParseGraph(input)
    case None => return None;
    case Some(g) =>
      var w := WalkToGoal(g, "AAA", "ZZZ", fuel);
      if w.Reached? {
        forall k | 0 <= k < w.steps
          ensures NodeAt(g, "AAA", k) != Some("ZZZ")
        {
          assert NotYet(g, "AAA", k, "ZZZ");
        }
      }
      return Some(w);
  }

  /** The instruction used at step `k` is instruction `k mod |directions|`. */
  lemma {:induction false} InstructionCycles(g: Graph, source: string, k: nat)
    requires |g.directions| > 0
    requires Position(g, source, k).Some?
    ensures Position(g, source, k).value.next == k % |g.directions|
  {
    if k > 0 {
      InstructionCycles(g, source, k - 1);
      var n := |g.directions|;
      var i := (k - 1) % n;
      assert k - 1 == ((k - 1) / n) * n + i;
      if i + 1 == n {
        DivisionUnique(k, n, (k - 1) / n + 1, 0);
      } else {
        DivisionUnique(k, n, (k - 1) / n, i + 1);
      }
    }
  }

  lemma {:induction false} MulAtLeast(a: nat, n: nat)
    requires a >= 1
    ensures a * n >= n
  {
    if a > 1 {
      MulAtLeast(a - 1, n);
      assert a * n == (a - 1) * n + n;
    }
  }

  /** Euclidean division is unique: `q * n + i` with `0 <= i < n` leaves remainder `i`. */
  lemma DivisionUnique(x: int, n: nat, q: int, i: int)
    requires n > 0 && 0 <= i < n && x == q * n + i
    ensures x % n == i && x / n == q
  {
    var r := x % n;
    var p := x / n;
    assert x == p * n + r;
    assert (q - p) * n == r - i;
    if q > p {
      MulAtLeast(q - p, n);
    } else if q < p {
      MulAtLeast(p - q, n);
    }
  }

  /** The walk is determined by its current point: two steps that reach the same point
      continue identically. */
  lemma {:induction false} PositionShift(g: Graph, source: string, m: nat, n: nat, j: nat)
    requires |g.directions| > 0
    requires Position(g, source, m) == Position(g, source, n)
    ensures Position(g, source, m + j) == Position(g, source, n + j)
  {
    if j > 0 {
      PositionShift(g, source, m, n, j - 1);
    }
  }

  /** A walk that returns to an earlier point without having met the goal never meets
      it: this is the case where the source keeps walking for ever. */
  lemma {:induction false} CycleNeverNotYet(g: Graph, source: string, goal: string, m: nat, n: nat, k: nat)
    requires |g.directions| > 0
    requires m < n && Position(g, source, m) == Position(g, source, n)
    requires forall i :: 0 <= i < n ==> NotYet(g, source, i, goal)
    ensures NotYet(g, source, k, goal)
    decreases k
  {
    if k >= n {
      PositionShift(g, source, m, n, k - n);
      CycleNeverNotYet(g, source, goal, m, n, m + (k - n));
    }
  }
}

=== FILE: day09_extrapolation.dfy ===
/** Day 9, "Mirage Maintenance": each history is extended one step forwards and one
    step backwards by repeatedly taking differences until they vanish. */
module Extrapolation {
  import opened Sequences
  import opened Decimal
  import opened Parsing
  import Text

  /** `differences`: the differences of consecutive values (`tuple_windows`), one
      fewer than the values, none for fewer than two. */
  function Differences(v: seq<int>): (d: seq<int>)
    ensures |d| == if |v| == 0 then 0 else |v| - 1
    ensures forall i :: 0 <= i < |d| ==> d[i] == v[i + 1] - v[i]
  {
    if |v| == 0 then [] else seq(|v| - 1, i requires 0 <= i < |v| - 1 => v[i + 1] - v[i])
  }

  predicate AllZero(v: seq<int>)
  {
    forall i :: 0 <= i < |v| ==> v[i] == 0
  }

  /** The values the forward `scan` yields: the last value of each row of the
      difference pyramid, down to the first row that is all zero. */
  function Lasts(v: seq<int>): seq<int>
    decreases |v|
  {
    if AllZero(v) then [] else [v[|v| - 1]] + Lasts(Differences(v))
  }

  /** The values the backward `scan` yields: the first value of each row. */
  function Firsts(v: seq<int>): seq<int>
    decreases |v|
  {
    if AllZero(v) then [] else [v[0]] + Firsts(Differences(v))
  }

  /** `a0 - a1 + a2 - ...`: the `reduce` whose sign flips at each step. */
  function AlternatingSum(xs: seq<int>): int
  {
    if |xs| == 0 then 0 else xs[0] - AlternatingSum(xs[1..])
  }

  /** The value that continues `v`, zero when the pyramid is already all zero. */
  function NextValue(v: seq<int>): int
  {
    Sum(Lasts(v))
  }

  /** The value that precedes `v`, zero when the pyramid is already all zero. */
  function PreviousValue(v: seq<int>): int
  {
    AlternatingSum(Firsts(v))
  }

  /** `extrapolated_future_value`: the `reduce` has nothing to reduce (and the source
      unwraps nothing) when the history is all zero. */
  function FutureValue(v: seq<int>): (r: int)
    requires !AllZero(v)
    ensures r == v[|v| - 1] + NextValue(Differences(v))
  {
    NextValue(v)
  }

  /** `extrapolated_past_value`. */
  function PastValue(v: seq<int>): (r: int)
    requires !AllZero(v)
    ensures r == v[0] - PreviousValue(Differences(v))
  {
    PreviousValue(v)
  }

  lemma DifferencesOfZeros(v: seq<int>)
    requires AllZero(v)
    ensures AllZero(Differences(v)) && NextValue(v) == 0 && PreviousValue(v) == 0
  {
  }

  /** Appending `x` appends its difference from the last value. */
  lemma DifferencesSnoc(v: seq<int>, x: int)
    requires |v| >= 1
    ensures Differences(v + [x]) == Differences(v) + [x - v[|v| - 1]]
  {
    var w := v + [x];
    var l, r := Differences(w), Differences(v) + [x - v[|v| - 1]];
    assert |l| == |r|;
    forall i | 0 <= i < |l|
      ensures l[i] == r[i]
    {
      assert l[i] == w[i + 1] - w[i];
      if i < |v| - 1 {
        assert w[i] == v[i] && w[i + 1] == v[i + 1];
      } else {
        assert w[i] == v[|v| - 1] && w[i + 1] == x;
      }
    }
  }

  /** Prepending `x` prepends the first value's difference from it. */
  lemma DifferencesCons(x: int, v: seq<int>)
    requires |v| >= 1
    ensures Differences([x] + v) == [v[0] - x] + Differences(v)
  {
    var w := [x] + v;
    var l, r := Differences(w), [v[0] - x] + Differences(v);
    assert |l| == |r|;
    forall i | 0 <= i < |l|
      ensures l[i] == r[i]
    {
      assert l[i] == w[i + 1] - w[i];
      if i == 0 {
        assert w[0] == x && w[1] == v[0];
      } else {
        assert w[i] == v[i - 1] && w[i + 1] == v[i];
        assert r[i] == Differences(v)[i - 1];
      }
    }
  }

  /** One row of the pyramid: the next value is the last value plus the next value
      of the differences, also when everything is zero. */
  lemma NextStep(v: seq<int>)
    requires |v| >= 1
    ensures NextValue(v) == v[|v| - 1] + NextValue(Differences(v))
  {
    if AllZero(v) {
      DifferencesOfZeros(v);
      DifferencesOfZeros(Differences(v));
    }
  }

  lemma PreviousStep(v: seq<int>)
    requires |v| >= 1
    ensures PreviousValue(v) == v[0] - PreviousValue(Differences(v))
  {
    if AllZero(v) {
      DifferencesOfZeros(v);
      DifferencesOfZeros(Differences(v));
    }
  }

  /** The forward extrapolation is consistent with the whole pyramid: the next value
      extends the differences by the next value of the differences. */
  lemma ExtendsPyramid(v: seq<int>)
    requires |v| >= 1
    ensures Differences(v + [NextValue(v)]) == Differences(v) + [NextValue(Differences(v))]
  {
    NextStep(v);
    DifferencesSnoc(v, NextValue(v));
  }

  /** The backward extrapolation is consistent with the whole pyramid. */
  lemma ExtendsPyramidBackwards(v: seq<int>)
    requires |v| >= 1
    ensures Differences([PreviousValue(v)] + v) == [PreviousValue(Differences(v))] + Differences(v)
  {
    PreviousStep(v);
    DifferencesCons(PreviousValue(v), v);
  }

  /** A constant non-empty history continues with its constant. */
  lemma ConstantNext(v: seq<int>, c: int)
    requires |v| >= 1 && forall i :: 0 <= i < |v| ==> v[i] == c
    ensures NextValue(v) == c
  {
    DifferencesOfZeros(Differences(v));
  }

  /** An arithmetic history `a, a + d, a + 2d, ...` of at least two values continues
      with `a + |v| * d`. */
  lemma ArithmeticNext(v: seq<int>, a: int, d: int)
    requires |v| >= 2 && forall i :: 0 <= i < |v| ==> v[i] == a + i * d
    ensures NextValue(v) == a + |v| * d
  {
    ArithmeticDifferences(v, a, d);
    ConstantNext(Differences(v), d);
    NextStep(v);
    var n := |v| - 1;
    assert v[n] == a + n * d;
    MulStep(n, d);
  }

  lemma MulStep(n: int, d: int)
    ensures n * d + d == (n + 1) * d
  {
  }

  lemma ArithmeticDifferences(v: seq<int>, a: int, d: int)
    requires forall i :: 0 <= i < |v| ==> v[i] == a + i * d
    ensures forall i :: 0 <= i < |Differences(v)| ==> Differences(v)[i] == d
  {
    var diffs := Differences(v);
    forall i | 0 <= i < |diffs|
      ensures diffs[i] == d
    {
      assert v[i + 1] - v[i] == (a + (i + 1) * d) - (a + i * d);
    }
  }

  function Negate(v: seq<int>): (w: seq<int>)
    ensures |w| == |v| && forall i :: 0 <= i < |v| ==> w[i] == -v[i]
  {
    seq(|v|, i requires 0 <= i < |v| => -v[i])
  }

  /** Extrapolation is linear: negating the history negates the next value. */
  lemma {:induction false} NextOfNegation(v: seq<int>)
    ensures NextValue(Negate(v)) == -NextValue(v)
    decreases |v|
  {
    var w := Negate(v);
    assert AllZero(w) <==> AllZero(v) by {
      assert forall i :: 0 <= i < |v| ==> (w[i] == 0 <==> v[i] == 0);
    }
    if !AllZero(v) {
      assert Differences(w) == Negate(Differences(v));
      NextOfNegation(Differences(v));
    }
  }

  /** The differences of the reversed history are the negated reversed differences. */
  lemma DifferencesOfReverse(v: seq<int>)
    ensures Differences(Reverse(v)) == Negate(Reverse(Differences(v)))
  {
    var r := Reverse(v);
    var lhs := Differences(r);
    var rhs := Negate(Reverse(Differences(v)));
    assert |lhs| == |rhs|;
    forall i | 0 <= i < |lhs|
      ensures lhs[i] == rhs[i]
    {
      assert lhs[i] == r[i + 1] - r[i];
      assert r[i + 1] == v[|v| - 2 - i] && r[i] == v[|v| - 1 - i];
    }
  }

  /** Extrapolating backwards is extrapolating the reversed history forwards. */
  lemma {:induction false} PastIsFutureOfReverse(v: seq<int>)
    ensures PreviousValue(v) == NextValue(Reverse(v))
    decreases |v|
  {
    if |v| == 0 {
      assert Reverse(v) == [];
    } else {
      var r := Reverse(v);
      var d := Differences(v);
      PreviousStep(v);
      PastIsFutureOfReverse(d);
      NextStep(r);
      DifferencesOfReverse(v);
      NextOfNegation(Reverse(d));
      assert r[|r| - 1] == v[0];
    }
  }

  /** `parse_value`: an optional minus sign followed by decimal digits. */
  function ParseValue(s: string): (r: Parsed<int>)
    ensures r.Ok? ==> |r.rest| < |s|
  {
    var negative := |s| > 0 && s[0] == '-';
    var digits := Number(if negative then s[1..] else s);
    if digits.Fail? then Fail
    else Ok(if negative then -(digits.value as int) else digits.value as int, digits.rest)
  }

  function ValueText(x: int): string
  {
    if x < 0 then "-" + ToDigits(-x) else ToDigits(x)
  }

  /** A written value is read back when no digit follows it. */
  lemma ValueRoundTrip(x: int, t: string)
    requires |t| == 0 || !IsDigit(t[0])
    ensures ParseValue(ValueText(x) + t) == Ok(x, t)
  {
    if x < 0 {
      NegativeRoundTrip(-x, t);
    } else {
      var d := ToDigits(x) + t;
      NumberOfDigits(x, t);
      assert d[0] != '-' by { assert IsDigit(ToDigits(x)[0]); }
      UnsignedValue(d, x, t);
    }
  }

  lemma NegativeRoundTrip(n: nat, t: string)
    requires n > 0
    requires |t| == 0 || !IsDigit(t[0])
    ensures ParseValue(ValueText(-(n as int)) + t) == Ok(-(n as int), t)
  {
    NegativeText(-(n as int), t);
    NegativeParse(n, t);
  }

  lemma NegativeParse(n: nat, t: string)
    requires |t| == 0 || !IsDigit(t[0])
    ensures ParseValue(['-'] + (ToDigits(n) + t)) == Ok(-(n as int), t)
  {
    NumberOfDigits(n, t);
    NegativeValue(ToDigits(n) + t, n, t);
  }

  lemma NegativeText(x: int, t: string)
    requires x < 0
    ensures ValueText(x) + t == ['-'] + (ToDigits(-x) + t)
  {
  }

  lemma NegativeValue(d: string, v: nat, rest: string)
    requires Number(d) == Ok(v, rest)
    ensures ParseValue(['-'] + d) == Ok(-(v as int), rest)
  {
    assert (['-'] + d)[1..] == d;
  }

  lemma UnsignedValue(d: string, v: nat, rest: string)
    requires |d| > 0 && d[0] != '-'
    requires Number(d) == Ok(v, rest)
    ensures ParseValue(d) == Ok(v as int, rest)
  {
  }

  lemma ValueShrinks()
    ensures Shrinks(ParseValue)
  {
  }

  /** `parse_history`: values separated by single spaces. */
  function ParseHistory(s: string): (r: Parsed<seq<int>>)
    ensures r.Ok? ==> |r.value| >= 1 && |r.rest| < |s|
  {
    ValueShrinks();
    match SeparatedList1(ParseValue, ' ', s)
    case Fail => Fail
    case Ok(values, rest) =>
      assert |rest| < |s| by { assert ParseValue(s).Ok?; }
      Ok(values, rest)
  }

  lemma HistoryShrinks()
    ensures Shrinks(ParseHistory)
  {
  }

  /** `Report::from_str`: histories separated by newlines; text after them is
      ignored. */
  function ParseReport(s: string): (r: Option<seq<seq<int>>>)
    ensures r.Some? <==> ParseHistory(s).Ok?
    ensures r.Some? ==> |r.value| >= 1
  {
    HistoryShrinks();
    match SeparatedList1(ParseHistory, '\n', s)
    case Fail => None
    case Ok(histories, _) => Some(histories)
  }

  function ValueTexts(values: seq<int>): (texts: seq<string>)
    ensures |texts| == |values| && forall i :: 0 <= i < |values| ==> texts[i] == ValueText(values[i])
  {
    seq(|values|, i requires 0 <= i < |values| => ValueText(values[i]))
  }

  function HistoryText(values: seq<int>): string
    requires |values| >= 1
  {
    Text.Join(ValueTexts(values), ' ')
  }

  /** A written history is read back when neither a digit nor a space follows it. */
  lemma HistoryRoundTrip(values: seq<int>, t: string)
    requires |values| >= 1
    requires |t| == 0 || (t[0] != ' ' && !IsDigit(t[0]))
    ensures ParseHistory(HistoryText(values) + t) == Ok(values, t)
  {
    ValueShrinks();
    var items := ValueTexts(values);
    forall i, t' | 0 <= i < |items| && Follows(t', ' ', t)
      ensures ParseValue(items[i] + t') == Ok(values[i], t')
    {
      ValueRoundTrip(values[i], t');
    }
    SeparatedList1Join(ParseValue, ' ', items, values, t);
  }

  function HistoryTexts(histories: seq<seq<int>>): (texts: seq<string>)
    requires forall i :: 0 <= i < |histories| ==> |histories[i]| >= 1
    ensures |texts| == |histories|
    ensures forall i :: 0 <= i < |histories| ==> texts[i] == HistoryText(histories[i])
  {
    seq(|histories|, i requires 0 <= i < |histories| => HistoryText(histories[i]))
  }

  /** A written report, one history per line, is read back. */
  lemma ReportRoundTrip(histories: seq<seq<int>>)
    requires |histories| >= 1 && forall i :: 0 <= i < |histories| ==> |histories[i]| >= 1
    ensures ParseReport(Text.Join(HistoryTexts(histories), '\n')) == Some(histories)
  {
    HistoryShrinks();
    var items := HistoryTexts(histories);
    forall i, t | 0 <= i < |items| && Follows(t, '\n', "")
      ensures ParseHistory(items[i] + t) == Ok(histories[i], t)
    {
      HistoryRoundTrip(histories[i], t);
    }
    SeparatedList1Join(ParseHistory, '\n', items, histories, "");
    assert Text.Join(items, '\n') + "" == Text.Join(items, '\n');
  }

  /** No history is all zero (the source unwraps an empty `reduce` otherwise). */
  predicate Extrapolable(histories: seq<seq<int>>)
  {
    forall i :: 0 <= i < |histories| ==> !AllZero(histories[i])
  }

  function FutureTotal(histories: seq<seq<int>>): int
    requires Extrapolable(histories)
  {
    if |histories| == 0 then 0 else FutureValue(histories[0]) + FutureTotal(histories[1..])
  }

  function PastTotal(histories: seq<seq<int>>): int
    requires Extrapolable(histories)
  {
    if |histories| == 0 then 0 else PastValue(histories[0]) + PastTotal(histories[1..])
  }

  function Reversed(histories: seq<seq<int>>): (r: seq<seq<int>>)
    ensures |r| == |histories| && forall i :: 0 <= i < |r| ==> r[i] == Reverse(histories[i])
  {
    seq(|histories|, i requires 0 <= i < |histories| => Reverse(histories[i]))
  }

  lemma ReverseAllZero(v: seq<int>)
    ensures AllZero(Reverse(v)) <==> AllZero(v)
  {
    var r := Reverse(v);
    assert forall i :: 0 <= i < |v| ==> r[i] == v[|v| - 1 - i];
    assert forall i :: 0 <= i < |v| ==> v[i] == r[|v| - 1 - i];
  }

  /** The answer to part two is the answer to part one on the reversed histories. */
  lemma {:induction false} PastTotalIsFutureTotalOfReversed(histories: seq<seq<int>>)
    requires Extrapolable(histories)
    ensures Extrapolable(Reversed(histories))
    ensures PastTotal(histories) == FutureTotal(Reversed(histories))
  {
    var r := Reversed(histories);
    forall i | 0 <= i < |histories|
      ensures !AllZero(r[i])
    {
      ReverseAllZero(histories[i]);
    }
    if |histories| > 0 {
      PastTotalIsFutureTotalOfReversed(histories[1..]);
      assert Reversed(histories[1..]) == r[1..];
      PastIsFutureOfReverse(histories[0]);
    }
  }

  /** Appending `x` to `v` extends the differences of `v` by their own extrapolation. */
  predicate ExtendsBy(v: seq<int>, x: int)
  {
    Differences(v + [x]) == Differences(v) + [NextValue(Differences(v))]
  }

  /** The forward extrapolation of each history: the value whose appending extends
      the history's differences by their own extrapolation. */
  function Extrapolations(histories: seq<seq<int>>): (xs: seq<int>)
    requires Extrapolable(histories)
    ensures |xs| == |histories|
    ensures forall i :: 0 <= i < |histories| ==> ExtendsBy(histories[i], xs[i])
  {
    if |histories| == 0 then []
    else
      var rest := Extrapolations(histories[1..]);
      NextExtends(histories[0]);
      PairwiseCons(ExtendsBy, histories, NextValue(histories[0]), rest);
      [NextValue(histories[0])] + rest
  }

  /** Appending the next value extends the pyramid. */
  lemma NextExtends(v: seq<int>)
    requires !AllZero(v)
    ensures ExtendsBy(v, NextValue(v))
  {
    ExtendsPyramid(v);
  }

  /** The total of part one adds up the extrapolations. */
  lemma {:induction false} FutureTotalIsSum(histories: seq<seq<int>>)
    requires Extrapolable(histories)
    ensures FutureTotal(histories) == Sum(Extrapolations(histories))
  {
    if |histories| > 0 {
      FutureTotalIsSum(histories[1..]);
      var xs := Extrapolations(histories);
      assert xs[1..] == Extrapolations(histories[1..]);
    }
  }

  /** `part_one`: the sum of the forward extrapolations; nothing when the input does
      not parse. */
  function PartOne(input: string): (r: Option<int>)
    requires ParseReport(input).Some? ==> Extrapolable(ParseReport(input).value)
    ensures r.None? <==> ParseReport(input).None?
    ensures r.Some? ==> r.value == Sum(Extrapolations(ParseReport(input).value))
  {
    match ParseReport(input)
    case None => None
    case Some(histories) =>
      FutureTotalIsSum(histories);
      Some(FutureTotal(histories))
  }

  /** `part_two`: the sum of the backward extrapolations, which is the total of part
      one for the reversed histories. */
  function PartTwo(input: string): (r: Option<int>)
    requires ParseReport(input).Some? ==> Extrapolable(ParseReport(input).value)
    ensures r.None? <==> ParseReport(input).None?
    ensures r.Some? ==> Extrapolable(Reversed(ParseReport(input).value))
    ensures r.Some? ==> r.value == FutureTotal(Reversed(ParseReport(input).value))
  {
    match ParseReport(input)
    case None => None
    case Some(histories) =>
      PastTotalIsFutureTotalOfReversed(histories);
      Some(PastTotal(histories))
  }
}

=== FILE: day10_pipe_maze.dfy ===
/** Day 10, "Pipe Maze": a grid of pipe tiles with one start tile; the model covers
    reading the maze and working out which pipe hides under the start tile. */
module PipeMaze {
  import opened Sequences
  import opened Parsing
  import Text

  /** Declaration order is the derived ordering: North < South < East < West. */
  datatype Direction = North | South | East | West

  function Rank(d: Direction): nat
  {
    match d
    case North => 0
    case South => 1
    case East => 2
    case West => 3
  }

  /** `reversed`: the opposite direction. */
  function Reversed(d: Direction): (r: Direction)
    ensures r != d
    ensures (d == North || d == South) <==> (r == North || r == South)
  {
    match d
    case North => South
    case South => North
    case East => West
    case West => East
  }

  lemma ReversedInvolution(d: Direction)
    ensures Reversed(Reversed(d)) == d
  {
  }

  datatype Tile = Ground | Link(from: Direction, to: Direction) | Start

  /** The tiles the maze can hold: a link joins two different directions, listed in
      the derived order. */
  predicate IsValidTile(t: Tile)
  {
    t.Link? ==> Rank(t.from) < Rank(t.to)
  }

  predicate IsTileChar(c: char)
  {
    c in ".|-JLF7S"
  }

  /** `parse_tile`. */
  function ParseTile(c: char): (r: Option<Tile>)
    ensures r.Some? <==> IsTileChar(c)
    ensures r.Some? ==> IsValidTile(r.value)
  {
    match c
    case '.' => Some(Ground)
    case '|' => Some(Link(North, South))
    case '-' => Some(Link(East, West))
    case 'J' => Some(Link(North, West))
    case 'L' => Some(Link(North, East))
    case 'F' => Some(Link(South, East))
    case '7' => Some(Link(South, West))
    case 'S' => Some(Start)
    case _ => None
  }

  /** The character of a tile. */
  function TileChar(t: Tile): (c: char)
    requires IsValidTile(t)
    ensures IsTileChar(c)
  {
    match t
    case Ground => '.'
    case Start => 'S'
    case Link(North, South) => '|'
    case Link(East, West) => '-'
    case Link(North, West) => 'J'
    case Link(North, East) => 'L'
    case Link(South, East) => 'F'
    case Link(South, West) => '7'
  }

  /** Every tile the maze can hold has exactly one character: the eight characters and
      the valid tiles correspond one to one. */
  lemma TileCharRoundTrip(t: Tile, c: char)
    ensures IsValidTile(t) ==> ParseTile(TileChar(t)) == Some(t)
    ensures ParseTile(c).Some? ==> TileChar(ParseTile(c).value) == c
  {
  }

  /** A position `(row, column)`; the source's `usize` pair, here unbounded so that
      leaving the grid can be stated. */
  datatype Index = Index(row: int, col: int)

  function Abs(x: int): nat
  {
    if x < 0 then -x else x
  }

  /** The Manhattan distance between two positions. */
  function Distance(a: Index, b: Index): nat
  {
    Abs(a.row - b.row) + Abs(a.col - b.col)
  }

  /** `adjacent_index_at`: the neighbouring position one step in `direction`. */
  function Adjacent(d: Direction, ix: Index): (r: Index)
    ensures Distance(r, ix) == 1
    ensures d == North ==> r.row < ix.row
    ensures d == South ==> r.row > ix.row
    ensures d == East ==> r.col > ix.col
    ensures d == West ==> r.col < ix.col
  {
    match d
    case North => Index(ix.row - 1, ix.col)
    case South => Index(ix.row + 1, ix.col)
    case East => Index(ix.row, ix.col + 1)
    case West => Index(ix.row, ix.col - 1)
  }

  /** Stepping back the opposite way returns to the start. */
  lemma AdjacentReversed(d: Direction, ix: Index)
    ensures Adjacent(Reversed(d), Adjacent(d, ix)) == ix
  {
  }

  /** The maze: `height` rows of `width` tiles (the source names these `width` and
      `depth`), and the position of the start tile. */
  datatype Maze = Maze(height: nat, width: nat, tiles: seq<seq<Tile>>, start: Index)

  predicate Inside(m: Maze, ix: Index)
  {
    0 <= ix.row < m.height && 0 <= ix.col < m.width
  }

  predicate IsRectangular(rows: seq<seq<Tile>>, width: nat)
  {
    forall i :: 0 <= i < |rows| ==> |rows[i]| == width
  }

  predicate WellFormed(m: Maze)
  {
    m.height == |m.tiles| >= 1 && m.width >= 1 && IsRectangular(m.tiles, m.width) &&
    Inside(m, m.start) && m.tiles[m.start.row][m.start.col] == Start
  }

  /** `tile_at`. */
  function TileAt(m: Maze, ix: Index): (t: Tile)
    requires WellFormed(m) && Inside(m, ix)
  {
    m.tiles[ix.row][ix.col]
  }

  /** No start tile in `row`. */
  predicate NoStart(row: seq<Tile>)
  {
    forall j :: 0 <= j < |row| ==> row[j] != Start
  }

  /** The first start tile of a row. */
  function FindInRow(row: seq<Tile>): (r: Option<nat>)
    ensures r.None? <==> NoStart(row)
    ensures r.Some? ==> r.value < |row| && row[r.value] == Start && NoStart(row[..r.value])
  {
    if |row| == 0 then None
    else if row[0] == Start then Some(0)
    else
      match FindInRow(row[1..])
      case None => None
      case Some(j) =>
        assert row[..j + 1] == [row[0]] + row[1..][..j];
        Some(j + 1)
  }

  /** `(i, j)` comes before `ix` in row-major order. */
  predicate Precedes(i: int, j: int, ix: Index)
  {
    i < ix.row || (i == ix.row && j < ix.col)
  }

  /** The position of the first start tile in row-major order (the order of
      `indexed_iter`), if there is one. */
  function FindStart(rows: seq<seq<Tile>>): (r: Option<Index>)
    ensures r.None? <==> forall i :: 0 <= i < |rows| ==> NoStart(rows[i])
    ensures r.Some? ==> 0 <= r.value.row < |rows| && 0 <= r.value.col < |rows[r.value.row]|
    ensures r.Some? ==> rows[r.value.row][r.value.col] == Start
    ensures r.Some? ==> forall i, j :: 0 <= i < |rows| && 0 <= j < |rows[i]| && Precedes(i, j, r.value) ==>
      rows[i][j] != Start
  {
    if |rows| == 0 then None
    else
      match FindInRow(rows[0])
      case Some(j) =>
        assert forall k :: 0 <= k < j ==> rows[0][..j][k] == rows[0][k];
        Some(Index(0, j))
      case None =>
        match FindStart(rows[1..])
        case None => None
        case Some(ix) =>
          assert forall i :: 1 <= i < |rows| ==> rows[i] == rows[1..][i - 1];
          Some(Index(ix.row + 1, ix.col))
  }

  /** `parse_row`: `many1(parse_tile)`. */
  function ParseRow(s: string): (r: Parsed<seq<Tile>>)
    ensures r.Ok? <==> |s| > 0 && IsTileChar(s[0])
    ensures r.Ok? ==> |r.value| >= 1 && |r.value| + |r.rest| == |s|
    ensures r.Ok? ==> forall j :: 0 <= j < |r.value| ==> Some(r.value[j]) == ParseTile(s[j])
  {
    match TakeWhile1(s, IsTileChar)
    case Fail => Fail
    case Ok(cs, rest) =>
      assert forall j :: 0 <= j < |cs| ==> cs[j] == s[j];
      Ok(seq(|cs|, j requires 0 <= j < |cs| => ParseTile(cs[j]).value), rest)
  }

  lemma RowShrinks()
    ensures Shrinks(ParseRow)
  {
  }

  /** At least one row, all of the same non-zero length. */
  predicate IsTileGrid(rows: seq<seq<Tile>>)
  {
    |rows| >= 1 && |rows[0]| >= 1 && IsRectangular(rows, |rows[0]|)
  }

  /** `parse_maze`: rows separated by newlines; the source asserts that the rows have
      equal lengths and unwraps the start position, which the model turns into
      nothing. The maze holds exactly the rows read, and its start is their first
      start tile in row-major order. */
  function ParseMaze(s: string): (r: Option<Maze>)
    ensures r.Some? ==> WellFormed(r.value)
    ensures r.Some? ==> forall i, j ::
      0 <= i < r.value.height && 0 <= j < r.value.width && Precedes(i, j, r.value.start) ==>
        r.value.tiles[i][j] != Start
    ensures r.Some? <==>
      && SeparatedList1(ParseRow, '\n', s).Ok?
      && IsTileGrid(SeparatedList1(ParseRow, '\n', s).value)
      && !(forall i :: 0 <= i < |SeparatedList1(ParseRow, '\n', s).value| ==>
             NoStart(SeparatedList1(ParseRow, '\n', s).value[i]))
    ensures r.Some? ==> r.value.tiles == SeparatedList1(ParseRow, '\n', s).value
  {
    RowShrinks();
    match SeparatedList1(ParseRow, '\n', s)
    case Fail => None
    case Ok(rows, _) =>
      if !IsRectangular(rows, |rows[0]|) || |rows[0]| == 0 then None
      else
        match FindStart(rows)
        case None => None
        case Some(ix) => Some(Maze(|rows|, |rows[0]|, rows, ix))
  }

  function RowText(row: seq<Tile>): (t: string)
    requires forall j :: 0 <= j < |row| ==> IsValidTile(row[j])
    ensures |t| == |row| && forall j :: 0 <= j < |row| ==> t[j] == TileChar(row[j])
  {
    seq(|row|, j requires 0 <= j < |row| => TileChar(row[j]))
  }

  /** A written row is read back, up to the first character that is not a tile. */
  lemma RowRoundTrip(row: seq<Tile>, t: string)
    requires |row| >= 1 && forall j :: 0 <= j < |row| ==> IsValidTile(row[j])
    requires |t| == 0 || !IsTileChar(t[0])
    ensures ParseRow(RowText(row) + t) == Ok(row, t)
  {
    var text := RowText(row);
    TakeWhile1Word(text, t, IsTileChar);
    var r := ParseRow(text + t);
    forall j | 0 <= j < |row|
      ensures r.value[j] == row[j]
    {
      assert (text + t)[j] == TileChar(row[j]);
      TileCharRoundTrip(row[j], 'x');
    }
    assert r.value == row;
  }

  /** Rows written one per line. */
  function MazeText(rows: seq<seq<Tile>>): string
    requires |rows| >= 1
    requires forall i, j :: 0 <= i < |rows| && 0 <= j < |rows[i]| ==> IsValidTile(rows[i][j])
  {
    Text.Join(seq(|rows|, i requires 0 <= i < |rows| => RowText(rows[i])), '\n')
  }

  /** Non-empty rows written one per line are read back, whatever their lengths. */
  lemma RowsRoundTrip(rows: seq<seq<Tile>>, t: string)
    requires |rows| >= 1 && forall i :: 0 <= i < |rows| ==> |rows[i]| >= 1
    requires forall i, j :: 0 <= i < |rows| && 0 <= j < |rows[i]| ==> IsValidTile(rows[i][j])
    requires |t| == 0 || (t[0] != '\n' && !IsTileChar(t[0]))
    ensures SeparatedList1(ParseRow, '\n', MazeText(rows) + t) == Ok(rows, t)
  {
    var items := seq(|rows|, i requires 0 <= i < |rows| => RowText(rows[i]));
    RowShrinks();
    forall i, t' | 0 <= i < |items| && Follows(t', '\n', t)
      ensures ParseRow(items[i] + t') == Ok(rows[i], t')
    {
      RowRoundTrip(rows[i], t');
    }
    SeparatedList1Join(ParseRow, '\n', items, rows, t);
  }

  /** Two positions that are both first in row-major order coincide. */
  lemma FirstStartUnique(rows: seq<seq<Tile>>, a: Index, b: Index)
    requires 0 <= a.row < |rows| && 0 <= a.col < |rows[a.row]| && rows[a.row][a.col] == Start
    requires 0 <= b.row < |rows| && 0 <= b.col < |rows[b.row]| && rows[b.row][b.col] == Start
    requires forall i, j :: 0 <= i < |rows| && 0 <= j < |rows[i]| && Precedes(i, j, a) ==> rows[i][j] != Start
    requires forall i, j :: 0 <= i < |rows| && 0 <= j < |rows[i]| && Precedes(i, j, b) ==> rows[i][j] != Start
    ensures a == b
  {
  }

  /** A written maze is read back, its start being the first start tile. */
  lemma MazeRoundTrip(m: Maze, t: string)
    requires WellFormed(m)
    requires forall i, j :: 0 <= i < m.height && 0 <= j < m.width ==> IsValidTile(m.tiles[i][j])
    requires forall i, j :: 0 <= i < m.height && 0 <= j < m.width && Precedes(i, j, m.start) ==>
      m.tiles[i][j] != Start
    requires |t| == 0 || (t[0] != '\n' && !IsTileChar(t[0]))
    ensures ParseMaze(MazeText(m.tiles) + t) == Some(m)
  {
    RowsRoundTrip(m.tiles, t);
    assert !NoStart(m.tiles[m.start.row]);
    var ix := FindStart(m.tiles).value;
    FirstStartUnique(m.tiles, ix, m.start);
  }

  /** Written rows of different lengths make the source's assertion fail. */
  lemma RaggedMazePanics(rows: seq<seq<Tile>>, t: string)
    requires |rows| >= 1 && forall i :: 0 <= i < |rows| ==> |rows[i]| >= 1
    requires forall i, j :: 0 <= i < |rows| && 0 <= j < |rows[i]| ==> IsValidTile(rows[i][j])
    requires !IsTileGrid(rows)
    requires |t| == 0 || (t[0] != '\n' && !IsTileChar(t[0]))
    ensures ParseMaze(MazeText(rows) + t).None?
  {
    RowsRoundTrip(rows, t);
  }

  /** Written rows without a start tile make the source's `unwrap` panic. */
  lemma StartlessMazePanics(rows: seq<seq<Tile>>, t: string)
    requires |rows| >= 1 && forall i :: 0 <= i < |rows| ==> |rows[i]| >= 1
    requires forall i, j :: 0 <= i < |rows| && 0 <= j < |rows[i]| ==> IsValidTile(rows[i][j])
    requires forall i :: 0 <= i < |rows| ==> NoStart(rows[i])
    requires |t| == 0 || (t[0] != '\n' && !IsTileChar(t[0]))
    ensures ParseMaze(MazeText(rows) + t).None?
  {
    RowsRoundTrip(rows, t);
  }

  /** `available_directions_at_start` AS WRITTEN: the directions towards the grid's
      interior from each corner, edge and interior position, matched in the source's
      order. With a single row (or column) the first matching arm names a direction
      that leaves the grid. */
  function AvailableAsWritten(height: nat, width: nat, ix: Index): (r: seq<Direction>)
    requires height >= 1 && width >= 1
    requires 0 <= ix.row < height && 0 <= ix.col < width
    ensures height >= 2 && width >= 2 ==> forall d :: d in r <==>
      0 <= Adjacent(d, ix).row < height && 0 <= Adjacent(d, ix).col < width
  {
    var n := height - 1;
    var m := width - 1;
    var i := ix.row;
    var j := ix.col;
    if i == 0 && j == 0 then [South, East]
    else if i == 0 && j == m then [South, West]
    else if i == n && j == 0 then [North, East]
    else if i == n && j == m then [North, West]
    else if i == 0 && 1 <= j < m then [South, East, West]
    else if j == 0 && 1 <= i < n then [North, South, East]
    else if i == n && 1 <= j < m then [North, East, West]
    else if j == m && 1 <= i < n then [North, South, West]
    else [North, South, East, West]
  }

  /** In a single-row maze the start tile at the left end is offered South, which
      leaves the grid (where the source indexes out of bounds and panics). */
  lemma AvailableAsWrittenLeaves()
    ensures South in AvailableAsWritten(1, 2, Index(0, 0))
    ensures !Inside(Maze(1, 2, [[Start, Ground]], Index(0, 0)), Adjacent(South, Index(0, 0)))
  {
  }

  /** Available directions, corrected: those of North, South, East, West (in this
      order) whose neighbour lies inside the grid. */
  function Available(m: Maze, ix: Index): (r: seq<Direction>)
    ensures forall d :: d in r <==> Inside(m, Adjacent(d, ix))
    ensures Ordered(r)
  {
    Keep(m, ix, [North, South, East, West])
  }

  /** Strictly increasing in the derived order. */
  predicate Ordered(s: seq<Direction>)
  {
    forall a, b :: 0 <= a < b < |s| ==> Rank(s[a]) < Rank(s[b])
  }

  function Keep(m: Maze, ix: Index, ds: seq<Direction>): (r: seq<Direction>)
    requires Ordered(ds)
    ensures forall d :: d in r <==> d in ds && Inside(m, Adjacent(d, ix))
    ensures Ordered(r)
  {
    if |ds| == 0 then []
    else
      var rest := Keep(m, ix, ds[1..]);
      assert forall k :: 0 <= k < |rest| ==> Rank(ds[0]) < Rank(rest[k]) by {
        forall k | 0 <= k < |rest|
          ensures Rank(ds[0]) < Rank(rest[k])
        {
          assert rest[k] in ds[1..];
        }
      }
      if Inside(m, Adjacent(ds[0], ix)) then [ds[0]] + rest else rest
  }

  /** Where the grid is at least two by two, the corrected directions are those of the
      source. */
  lemma AvailableAgrees(m: Maze, ix: Index)
    requires m.height >= 2 && m.width >= 2 && Inside(m, ix)
    ensures forall d :: d in Available(m, ix) <==> d in AvailableAsWritten(m.height, m.width, ix)
  {
    forall d
      ensures d in Available(m, ix) <==> d in AvailableAsWritten(m.height, m.width, ix)
    {
    }
  }

  /** The neighbour of the start in direction `d` is a pipe with an end pointing back
      at the start. */
  predicate Connects(m: Maze, d: Direction)
    requires WellFormed(m)
  {
    var ix := Adjacent(d, m.start);
    Inside(m, ix) &&
    match TileAt(m, ix)
    case Link(a, b) => a == Reversed(d) || b == Reversed(d)
    case _ => false
  }

  function Connecting(m: Maze, ds: seq<Direction>): (r: seq<Direction>)
    requires WellFormed(m)
    requires Ordered(ds)
    ensures forall d :: d in r <==> d in ds && Connects(m, d)
    ensures Ordered(r)
  {
    if |ds| == 0 then []
    else
      var rest := Connecting(m, ds[1..]);
      assert forall k :: 0 <= k < |rest| ==> Rank(ds[0]) < Rank(rest[k]) by {
        forall k | 0 <= k < |rest|
          ensures Rank(ds[0]) < Rank(rest[k])
        {
          assert rest[k] in ds[1..];
        }
      }
      if Connects(m, ds[0]) then [ds[0]] + rest else rest
  }

  /** `tile_at_start`: the pipe under the start tile, joining the two neighbours that
      point back at it; nothing (the source panics) unless exactly two do. */
  function TileAtStart(m: Maze): (r: Option<Tile>)
    requires WellFormed(m)
    ensures r.Some? ==> r.value.Link? && IsValidTile(r.value)
    ensures r.Some? ==> Connects(m, r.value.from) && Connects(m, r.value.to)
    ensures r.Some? ==> forall d :: Connects(m, d) ==> d == r.value.from || d == r.value.to
  {
    var valid := Connecting(m, Available(m, m.start));
    if |valid| == 2 then
      StartPair(m, valid);
      Some(Link(valid[0], valid[1]))
    else None
  }

  /** Two connecting directions, in order, are the only ones. */
  lemma StartPair(m: Maze, valid: seq<Direction>)
    requires WellFormed(m)
    requires valid == Connecting(m, Available(m, m.start)) && |valid| == 2
    ensures Rank(valid[0]) < Rank(valid[1])
    ensures Connects(m, valid[0]) && Connects(m, valid[1])
    ensures forall d :: Connects(m, d) ==> d == valid[0] || d == valid[1]
  {
    ConnectingComplete(m);
    assert valid[0] in valid && valid[1] in valid;
    PairMembers(valid);
  }

  lemma PairMembers<T>(s: seq<T>)
    requires |s| == 2
    ensures forall x :: x in s ==> x == s[0] || x == s[1]
  {
    assert s == [s[0], s[1]];
  }

  /** Every connecting direction is among the connecting available ones. */
  lemma ConnectingComplete(m: Maze)
    requires WellFormed(m)
    ensures forall d :: Connects(m, d) ==> d in Connecting(m, Available(m, m.start))
  {
    var ds := Available(m, m.start);
    forall d | Connects(m, d)
      ensures d in ds
    {
      assert Inside(m, Adjacent(d, m.start));
    }
  }

  /** When exactly two neighbours point back at the start, the start's pipe is found. */
  lemma TileAtStartFound(m: Maze, a: Direction, b: Direction)
    requires WellFormed(m)
    requires Rank(a) < Rank(b) && Connects(m, a) && Connects(m, b)
    requires forall d :: Connects(m, d) ==> d == a || d == b
    ensures TileAtStart(m) == Some(Link(a, b))
  {
    var valid := Connecting(m, Available(m, m.start));
    ConnectingComplete(m);
    DistinctTwo(valid, a, b);
  }

  /** A strictly rank-ordered sequence holding exactly `a` and `b` is `[a, b]`. */
  lemma DistinctTwo(s: seq<Direction>, a: Direction, b: Direction)
    requires Rank(a) < Rank(b) && a in s && b in s
    requires forall d :: d in s ==> d == a || d == b
    requires Ordered(s)
    ensures s == [a, b]
  {
    var i :| 0 <= i < |s| && s[i] == a;
    var j :| 0 <= j < |s| && s[j] == b;
    assert |s| >= 2 by {
      assert i != j;
    }
    assert s[0] in s && s[1] in s;
    assert Rank(s[0]) < Rank(s[1]);
    assert s[0] == a && s[1] == b;
    assert s[|s| - 1] in s;
    assert |s| <= 2;
  }
}

=== FILE: day11_expansion.dfy ===
/** Day 11, "Cosmic Expansion": the distance between two galaxies of an image grows
    by one (part one) or by 999999 (part two) for every empty row and every empty
    column it crosses; the answer sums it over all pairs of galaxies. */
module Expansion {
  import opened Sequences
  import opened Parsing
  import Text

  datatype Pixel = Space | Galaxy

  predicate IsPixelChar(c: char)
  {
    c == '.' || c == '#'
  }

  /** `parse_pixel`. */
  function ParsePixel(c: char): (r: Option<Pixel>)
    ensures r.Some? <==> IsPixelChar(c)
    ensures r == Some(Galaxy) <==> c == '#'
  {
    if c == '.' then Some(Space) else if c == '#' then Some(Galaxy) else None
  }

  /** `parse_row`: `many1(parse_pixel)`. */
  function ParseRow(s: string): (r: Parsed<seq<Pixel>>)
    ensures r.Ok? <==> |s| > 0 && IsPixelChar(s[0])
    ensures r.Ok? ==> |r.value| >= 1 && |r.value| + |r.rest| == |s|
    ensures r.Ok? ==> forall j :: 0 <= j < |r.value| ==> Some(r.value[j]) == ParsePixel(s[j])
  {
    match TakeWhile1(s, IsPixelChar)
    case Fail => Fail
    case Ok(cs, rest) =>
      assert forall j :: 0 <= j < |cs| ==> cs[j] == s[j];
      Ok(seq(|cs|, j requires 0 <= j < |cs| => ParsePixel(cs[j]).value), rest)
  }

  lemma RowShrinks()
    ensures Shrinks(ParseRow)
  {
  }

  function PixelChar(p: Pixel): (c: char)
    ensures IsPixelChar(c) && ParsePixel(c) == Some(p)
  {
    match p
    case Space => '.'
    case Galaxy => '#'
  }

  function RowText(row: seq<Pixel>): (t: string)
    ensures |t| == |row| && forall j :: 0 <= j < |row| ==> t[j] == PixelChar(row[j])
  {
    seq(|row|, j requires 0 <= j < |row| => PixelChar(row[j]))
  }

  /** A written row is read back, up to the first character that is not a pixel. */
  lemma RowRoundTrip(row: seq<Pixel>, t: string)
    requires |row| >= 1
    requires |t| == 0 || !IsPixelChar(t[0])
    ensures ParseRow(RowText(row) + t) == Ok(row, t)
  {
    var text := RowText(row);
    assert forall j :: 0 <= j < |text| ==> IsPixelChar(text[j]);
    TakeWhile1Word(text, t, IsPixelChar);
    var r := ParseRow(text + t);
    assert r.Ok? && r.rest == t && |r.value| == |row|;
    forall j | 0 <= j < |row|
      ensures r.value[j] == row[j]
    {
      assert (text + t)[j] == PixelChar(row[j]);
    }
    assert r.value == row;
  }

  datatype Index = Index(row: nat, col: nat)

  function Abs(x: int): nat
  {
    if x < 0 then -x else x
  }

  /** `distance`: the Manhattan distance. */
  function Distance(a: Index, b: Index): (d: nat)
    ensures d == 0 <==> a == b
  {
    Abs(b.row - a.row) + Abs(b.col - a.col)
  }

  predicate IsRectangular(pixels: seq<seq<Pixel>>, width: nat)
  {
    forall i :: 0 <= i < |pixels| ==> |pixels[i]| == width
  }

  predicate IsEmptyRow(row: seq<Pixel>)
  {
    forall j :: 0 <= j < |row| ==> row[j] == Space
  }

  predicate IsEmptyColumn(pixels: seq<seq<Pixel>>, j: nat)
    requires |pixels| > 0 && IsRectangular(pixels, |pixels[0]|) && j < |pixels[0]|
  {
    forall i :: 0 <= i < |pixels| ==> pixels[i][j] == Space
  }

  predicate Increasing(s: seq<nat>)
  {
    forall a, b :: 0 <= a < b < |s| ==> s[a] < s[b]
  }

  /** The empty rows from row `i` on, in increasing order. */
  function EmptyRows(pixels: seq<seq<Pixel>>, i: nat): (r: seq<nat>)
    requires i <= |pixels|
    ensures forall k :: k in r <==> i <= k < |pixels| && IsEmptyRow(pixels[k])
    ensures Increasing(r)
    decreases |pixels| - i
  {
    if i == |pixels| then []
    else
      var rest := EmptyRows(pixels, i + 1);
      assert forall k :: 0 <= k < |rest| ==> rest[k] in rest;
      if IsEmptyRow(pixels[i]) then [i] + rest else rest
  }

  /** The empty columns from column `j` on, in increasing order. */
  function EmptyColumns(pixels: seq<seq<Pixel>>, j: nat): (r: seq<nat>)
    requires |pixels| > 0 && IsRectangular(pixels, |pixels[0]|) && j <= |pixels[0]|
    ensures forall k :: k in r <==> j <= k < |pixels[0]| && IsEmptyColumn(pixels, k)
    ensures Increasing(r)
    decreases |pixels[0]| - j
  {
    if j == |pixels[0]| then []
    else
      var rest := EmptyColumns(pixels, j + 1);
      assert forall k :: 0 <= k < |rest| ==> rest[k] in rest;
      if IsEmptyColumn(pixels, j) then [j] + rest else rest
  }

  /** The galaxies of row `i` from column `j` on. */
  function RowGalaxies(row: seq<Pixel>, i: nat, j: nat): (r: seq<Index>)
    requires j <= |row|
    ensures forall g :: g in r <==> g.row == i && j <= g.col < |row| && row[g.col] == Galaxy
    decreases |row| - j
  {
    if j == |row| then []
    else
      var rest := RowGalaxies(row, i, j + 1);
      if row[j] == Galaxy then [Index(i, j)] + rest else rest
  }

  /** The galaxies from row `i` on, in row-major order (the order of `indexed_iter`). */
  function Galaxies(pixels: seq<seq<Pixel>>, i: nat): (r: seq<Index>)
    requires i <= |pixels|
    ensures forall g :: g in r <==>
      i <= g.row < |pixels| && g.col < |pixels[g.row]| && pixels[g.row][g.col] == Galaxy
    decreases |pixels| - i
  {
    if i == |pixels| then [] else RowGalaxies(pixels[i], i, 0) + Galaxies(pixels, i + 1)
  }

  /** What `parse_image` keeps of the image. */
  datatype Image = Image(pixels: seq<seq<Pixel>>, emptyRows: seq<nat>, emptyColumns: seq<nat>,
                         galaxies: seq<Index>)

  /** A galaxy's row and column are never empty. */
  lemma GalaxyLinesNotEmpty(pixels: seq<seq<Pixel>>, g: Index)
    requires |pixels| > 0 && IsRectangular(pixels, |pixels[0]|)
    requires g in Galaxies(pixels, 0)
    ensures g.row !in EmptyRows(pixels, 0) && g.col !in EmptyColumns(pixels, 0)
  {
  }

  /** `parse_image`: rows of pixels separated by newlines; the source asserts that
      the rows have equal lengths, which the model turns into nothing. The image
      holds exactly the rows read. */
  function ParseImage(s: string): (r: Option<Image>)
    ensures r.Some? ==> |r.value.pixels| > 0 && IsRectangular(r.value.pixels, |r.value.pixels[0]|)
    ensures r.Some? ==> r.value.emptyRows == EmptyRows(r.value.pixels, 0)
    ensures r.Some? ==> r.value.emptyColumns == EmptyColumns(r.value.pixels, 0)
    ensures r.Some? ==> r.value.galaxies == Galaxies(r.value.pixels, 0)
    ensures r.Some? <==>
      && SeparatedList1(ParseRow, '\n', s).Ok?
      && IsRectangular(SeparatedList1(ParseRow, '\n', s).value, |SeparatedList1(ParseRow, '\n', s).value[0]|)
    ensures r.Some? ==> r.value.pixels == SeparatedList1(ParseRow, '\n', s).value
  {
    RowShrinks();
    match SeparatedList1(ParseRow, '\n', s)
    case Fail => None
    case Ok(rows, _) =>
      if !IsRectangular(rows, |rows[0]|) then None
      else Some(Image(rows, EmptyRows(rows, 0), EmptyColumns(rows, 0), Galaxies(rows, 0)))
  }

  /** Rows written one per line. */
  function ImageText(rows: seq<seq<Pixel>>): string
    requires |rows| >= 1
  {
    Text.Join(seq(|rows|, i requires 0 <= i < |rows| => RowText(rows[i])), '\n')
  }

  /** Non-empty rows written one per line are read back, whatever their lengths. */
  lemma RowsRoundTrip(rows: seq<seq<Pixel>>, t: string)
    requires |rows| >= 1 && forall i :: 0 <= i < |rows| ==> |rows[i]| >= 1
    requires |t| == 0 || (t[0] != '\n' && !IsPixelChar(t[0]))
    ensures SeparatedList1(ParseRow, '\n', ImageText(rows) + t) == Ok(rows, t)
  {
    var items := seq(|rows|, i requires 0 <= i < |rows| => RowText(rows[i]));
    RowShrinks();
    forall i, t' | 0 <= i < |items| && Follows(t', '\n', t)
      ensures ParseRow(items[i] + t') == Ok(rows[i], t')
    {
      RowRoundTrip(rows[i], t');
    }
    SeparatedList1Join(ParseRow, '\n', items, rows, t);
  }

  /** A written image is read back: its pixels, and the empty lines and galaxies
      found in them. */
  lemma ImageRoundTrip(pixels: seq<seq<Pixel>>, t: string)
    requires |pixels| >= 1 && |pixels[0]| >= 1 && IsRectangular(pixels, |pixels[0]|)
    requires |t| == 0 || (t[0] != '\n' && !IsPixelChar(t[0]))
    ensures ParseImage(ImageText(pixels) + t).Some?
    ensures ParseImage(ImageText(pixels) + t).value.pixels == pixels
  {
    RowsRoundTrip(pixels, t);
  }

  /** Written rows of different lengths make the source's assertion fail. */
  lemma RaggedImagePanics(rows: seq<seq<Pixel>>, t: string)
    requires |rows| >= 1 && forall i :: 0 <= i < |rows| ==> |rows[i]| >= 1
    requires !IsRectangular(rows, |rows[0]|)
    requires |t| == 0 || (t[0] != '\n' && !IsPixelChar(t[0]))
    ensures ParseImage(ImageText(rows) + t).None?
  {
    RowsRoundTrip(rows, t);
  }

  /** How many of `s` lie in the closed interval `[lo, hi]`. */
  function CountBetween(s: seq<nat>, lo: int, hi: int): nat
  {
    if |s| == 0 then 0
    else (if lo <= s[0] <= hi then 1 else 0) + CountBetween(s[1..], lo, hi)
  }

  /** How many of `s` lie below `x`. */
  function CountBelow(s: seq<nat>, x: int): nat
  {
    if |s| == 0 then 0 else (if s[0] < x then 1 else 0) + CountBelow(s[1..], x)
  }

  /** `row_dilation` and `column_dilation`: the empty lines in the closed interval
      between the two coordinates, and none when they are equal. */
  function LineDilation(empty: seq<nat>, from: nat, to: nat): (d: nat)
    ensures d <= |empty|
  {
    CountBounded(empty, from, to);
    CountBounded(empty, to, from);
    if from < to then CountBetween(empty, from, to)
    else if from == to then 0
    else CountBetween(empty, to, from)
  }

  lemma {:induction false} CountBounded(s: seq<nat>, lo: int, hi: int)
    ensures CountBetween(s, lo, hi) <= |s|
  {
    if |s| > 0 {
      CountBounded(s[1..], lo, hi);
    }
  }

  /** `dilation`: the empty rows plus the empty columns crossed. */
  function Dilation(image: Image, a: Index, b: Index): (d: nat)
    ensures d <= |image.emptyRows| + |image.emptyColumns|
  {
    LineDilation(image.emptyRows, a.row, b.row) + LineDilation(image.emptyColumns, a.col, b.col)
  }

  /** `dilated_distance` (factor 2) and `mega_dilated_distance` (factor 1000000):
      every empty line crossed counts `factor` times instead of once. */
  function DilatedDistance(image: Image, a: Index, b: Index, factor: nat): (d: nat)
    requires factor >= 1
    ensures d >= Distance(a, b)
  {
    var k: nat := factor - 1;
    var crossed := Dilation(image, a, b);
    ScaledNonNegative(k, crossed);
    Distance(a, b) + k * crossed
  }

  lemma ScaledNonNegative(k: nat, x: nat)
    ensures k * x >= 0
  {
  }

  /** Distances do not depend on the direction of travel. */
  lemma DilatedDistanceSymmetric(image: Image, a: Index, b: Index, factor: nat)
    requires factor >= 1
    ensures DilatedDistance(image, a, b, factor) == DilatedDistance(image, b, a, factor)
  {
  }

  /** The count of a sorted-or-not list below `b` is the count below `a` plus the count
      in `[a, b]`, when `b` itself is not in the list. */
  lemma {:induction false} CountBelowSplit(s: seq<nat>, a: nat, b: nat)
    requires a <= b && b !in s
    ensures CountBelow(s, b) == CountBelow(s, a) + CountBetween(s, a, b)
  {
    if |s| > 0 {
      CountBelowSplit(s[1..], a, b);
    }
  }

  /** The coordinate a line moves to when every empty line before it is widened to
      `factor` lines. */
  function Expanded(empty: seq<nat>, x: nat, factor: nat): int
  {
    x + (factor - 1) * CountBelow(empty, x)
  }

  /** Counting dilation is measuring in the expanded universe: for coordinates of
      non-empty lines, the dilated gap is the gap between the expanded coordinates. */
  lemma LineDilationIsExpansion(empty: seq<nat>, x: nat, y: nat, factor: nat)
    requires factor >= 1 && x !in empty && y !in empty
    ensures Abs(Expanded(empty, y, factor) - Expanded(empty, x, factor))
      == Abs(y - x) + (factor - 1) * LineDilation(empty, x, y)
  {
    if x < y {
      ExpansionGap(empty, x, y, factor);
    } else if y < x {
      ExpansionGap(empty, y, x, factor);
    }
  }

  /** Between two non-empty lines `lo < hi`, the expanded gap grows by `factor - 1` for
      each empty line in between. */
  lemma ExpansionGap(empty: seq<nat>, lo: nat, hi: nat, factor: nat)
    requires factor >= 1 && lo < hi && hi !in empty
    ensures Expanded(empty, hi, factor) - Expanded(empty, lo, factor)
      == (hi - lo) + (factor - 1) * CountBetween(empty, lo, hi)
  {
    CountBelowSplit(empty, lo, hi);
    ScaledGap(factor - 1, CountBelow(empty, hi), CountBelow(empty, lo), CountBetween(empty, lo, hi));
  }

  lemma ScaledGap(k: nat, big: nat, small: nat, gap: nat)
    requires big == small + gap
    ensures k * big == k * small + k * gap
  {
  }

  /** The expanded position of a galaxy. */
  function ExpandedIndex(image: Image, g: Index, factor: nat): (int, int)
  {
    (Expanded(image.emptyRows, g.row, factor), Expanded(image.emptyColumns, g.col, factor))
  }

  /** For two galaxies, the dilated distance is the Manhattan distance between their
      positions in the expanded universe. */
  lemma DilatedDistanceIsExpansion(image: Image, a: Index, b: Index, factor: nat)
    requires factor >= 1
    requires a.row !in image.emptyRows && b.row !in image.emptyRows
    requires a.col !in image.emptyColumns && b.col !in image.emptyColumns
    ensures DilatedDistance(image, a, b, factor) ==
      Abs(ExpandedIndex(image, b, factor).0 - ExpandedIndex(image, a, factor).0) +
      Abs(ExpandedIndex(image, b, factor).1 - ExpandedIndex(image, a, factor).1)
  {
    LineDilationIsExpansion(image.emptyRows, a.row, b.row, factor);
    LineDilationIsExpansion(image.emptyColumns, a.col, b.col, factor);
    ScaledSum(factor - 1, LineDilation(image.emptyRows, a.row, b.row),
              LineDilation(image.emptyColumns, a.col, b.col));
  }

  lemma ScaledSum(k: nat, x: nat, y: nat)
    ensures k * (x + y) == k * x + k * y
  {
  }

  /** Part two's distance exceeds part one's by 999998 per empty line crossed. */
  lemma MegaExceedsPlain(image: Image, a: Index, b: Index)
    ensures DilatedDistance(image, a, b, 1000000) ==
      DilatedDistance(image, a, b, 2) + 999998 * Dilation(image, a, b)
  {
  }

  /** The sum over all pairs `i < j` (the order of `combinations(2)`). */
  function PairSum(image: Image, gs: seq<Index>, factor: nat): nat
    requires factor >= 1
  {
    if |gs| == 0 then 0 else FromFirst(image, gs[0], gs[1..], factor) + PairSum(image, gs[1..], factor)
  }

  function FromFirst(image: Image, g: Index, others: seq<Index>, factor: nat): nat
    requires factor >= 1
  {
    if |others| == 0 then 0
    else DilatedDistance(image, g, others[0], factor) + FromFirst(image, g, others[1..], factor)
  }

  /** The Manhattan distance between two galaxies' positions in the expanded universe. */
  function ExpandedDistance(image: Image, a: Index, b: Index, factor: nat): nat
  {
    Abs(ExpandedIndex(image, b, factor).0 - ExpandedIndex(image, a, factor).0) +
    Abs(ExpandedIndex(image, b, factor).1 - ExpandedIndex(image, a, factor).1)
  }

  /** The sum of expanded distances over all pairs `i < j`: the answer stated in the
      expanded universe rather than by counting crossed lines. */
  function ExpandedPairSum(image: Image, gs: seq<Index>, factor: nat): nat
  {
    if |gs| == 0 then 0
    else ExpandedFromFirst(image, gs[0], gs[1..], factor) + ExpandedPairSum(image, gs[1..], factor)
  }

  function ExpandedFromFirst(image: Image, g: Index, others: seq<Index>, factor: nat): nat
  {
    if |others| == 0 then 0
    else ExpandedDistance(image, g, others[0], factor) + ExpandedFromFirst(image, g, others[1..], factor)
  }

  /** No galaxy of `gs` lies on an empty row or column. */
  predicate OnFullLines(image: Image, gs: seq<Index>)
  {
    forall k :: 0 <= k < |gs| ==> gs[k].row !in image.emptyRows && gs[k].col !in image.emptyColumns
  }

  /** Counting the empty lines each pair crosses gives the expanded universe's sum of
      pairwise distances. */
  lemma {:induction false} PairSumIsExpansion(image: Image, gs: seq<Index>, factor: nat)
    requires factor >= 1 && OnFullLines(image, gs)
    ensures PairSum(image, gs, factor) == ExpandedPairSum(image, gs, factor)
  {
    if |gs| > 0 {
      FromFirstIsExpansion(image, gs[0], gs[1..], factor);
      PairSumIsExpansion(image, gs[1..], factor);
    }
  }

  lemma {:induction false} FromFirstIsExpansion(image: Image, g: Index, others: seq<Index>, factor: nat)
    requires factor >= 1 && OnFullLines(image, [g] + others)
    ensures FromFirst(image, g, others, factor) == ExpandedFromFirst(image, g, others, factor)
  {
    if |others| > 0 {
      var all := [g] + others;
      assert all[0] == g && all[1] == others[0];
      DilatedDistanceIsExpansion(image, g, others[0], factor);
      assert [g] + others[1..] == [g] + all[2..];
      FromFirstIsExpansion(image, g, others[1..], factor);
    }
  }

  /** `part_one` (factor 2) and `part_two` (factor 1000000): the sum over all pairs of
      galaxies of their distance in the expanded universe. */
  function Total(input: string, factor: nat): (r: Option<nat>)
    requires factor >= 1
    ensures r.None? <==> ParseImage(input).None?
    ensures r.Some? ==> var image := ParseImage(input).value;
      r.value == ExpandedPairSum(image, image.galaxies, factor)
  {
    match ParseImage(input)
    case None => None
    case Some(image) =>
      forall k | 0 <= k < |image.galaxies|
        ensures image.galaxies[k].row !in image.emptyRows && image.galaxies[k].col !in image.emptyColumns
      {
        GalaxyLinesNotEmpty(image.pixels, image.galaxies[k]);
      }
      PairSumIsExpansion(image, image.galaxies, factor);
      Some(PairSum(image, image.galaxies, factor))
  }

  /** Without expansion (factor 1), the answer is the plain Manhattan distance summed
      over the pairs. */
  lemma {:induction false} FromFirstUnexpanded(image: Image, g: Index, others: seq<Index>)
    ensures FromFirst(image, g, others, 1) == PlainFromFirst(g, others)
  {
    if |others| > 0 {
      FromFirstUnexpanded(image, g, others[1..]);
    }
  }

  function PlainFromFirst(g: Index, others: seq<Index>): nat
  {
    if |others| == 0 then 0 else Distance(g, others[0]) + PlainFromFirst(g, others[1..])
  }
}

=== FILE: day12_springs.dfy ===
/** Day 12, "Hot Springs": a row of springs, each operational, damaged or unknown, and
    the lengths of the runs of damaged springs; the answer counts the ways to resolve
    the unknown springs so that the runs come out as recorded. */
module Springs {
  import opened Sequences
  import opened Decimal
  import opened Parsing
  import Text

  datatype Status = Unknown | Damaged | Operational

  predicate IsStatusChar(c: char)
  {
    c == '?' || c == '#' || c == '.'
  }

  /** `parse_status`. */
  function ParseStatus(c: char): (r: Option<Status>)
    ensures r.Some? <==> IsStatusChar(c)
  {
    match c
    case '?' => Some(Unknown)
    case '#' => Some(Damaged)
    case '.' => Some(Operational)
    case _ => None
  }

  function StatusChar(s: Status): (c: char)
    ensures ParseStatus(c) == Some(s)
  {
    match s
    case Unknown => '?'
    case Damaged => '#'
    case Operational => '.'
  }

  // ---------------------------------------------------------------------------
  // The counting of `cached_arrangements`
  // ---------------------------------------------------------------------------

  predicate NoOperational(s: seq<Status>)
  {
    forall i :: 0 <= i < |s| ==> s[i] != Operational
  }

  /** `arrangments_given_possible_match`: the next `run` springs can all be damaged and
      the spring after them (if any) can end the run; the count then continues after
      the run and its gap. */
  function Matched(run: nat, statuses: seq<Status>, runs: seq<nat>): (n: nat)
    requires |runs| >= 1 && run == runs[0] && run <= |statuses| && |statuses| >= 1
    decreases |statuses|, 0
  {
    if NoOperational(statuses[..run]) && (|statuses| == run || statuses[run] != Damaged) then
      if |statuses| == run then Arrangements(statuses[run..], runs[1..])
      else Arrangements(statuses[run + 1..], runs[1..])
    else 0
  }

  /** `cached_arrangements`: the number of ways to resolve `statuses` into the damaged
      runs `runs` (memoisation does not change the value and is not modelled). */
  function Arrangements(statuses: seq<Status>, runs: seq<nat>): (n: nat)
    decreases |statuses|, 1
  {
    if |statuses| == 0 then (if |runs| == 0 then 1 else 0)
    else if |runs| == 0 then (if Damaged in statuses then 0 else 1)
    else if |statuses| < Sum(runs) + |runs| - 1 then 0
    else if statuses[0] == Operational then Arrangements(statuses[1..], runs)
    else
      FirstRunFits(runs);
      if statuses[0] == Damaged then Matched(runs[0], statuses, runs)
      else Arrangements(statuses[1..], runs) + Matched(runs[0], statuses, runs)
  }

  /** The first run is no longer than all runs with their gaps. */
  lemma FirstRunFits(runs: seq<nat>)
    requires |runs| >= 1
    ensures runs[0] <= Sum(runs) + |runs| - 1
  {
    SumNonNegative(runs[1..]);
  }

  // ---------------------------------------------------------------------------
  // The brute-force reference: try every resolution of the unknown springs
  // ---------------------------------------------------------------------------

  /** The damaged runs of `k` damaged springs followed by the springs of `c`, read left
      to right; `k` is the length of the run in progress. */
  function RunsFrom(c: seq<Status>, k: nat): (r: seq<nat>)
    ensures forall i :: 0 <= i < |r| ==> r[i] >= 1
  {
    if |c| == 0 then (if k > 0 then [k] else [])
    else if c[0] == Damaged then RunsFrom(c[1..], k + 1)
    else (if k > 0 then [k] else []) + RunsFrom(c[1..], 0)
  }

  /** The lengths of the maximal runs of damaged springs, in order. */
  function RunsOf(c: seq<Status>): seq<nat>
  {
    RunsFrom(c, 0)
  }

  /** `c` resolves every unknown spring of `s` and keeps the known ones. */
  predicate Resolves(c: seq<Status>, s: seq<Status>)
  {
    |c| == |s| && forall i :: 0 <= i < |s| ==> c[i] != Unknown && (s[i] != Unknown ==> c[i] == s[i])
  }

  function Prefixed(x: Status, cs: seq<seq<Status>>): (r: seq<seq<Status>>)
    ensures |r| == |cs| && forall i :: 0 <= i < |cs| ==> r[i] == [x] + cs[i]
  {
    seq(|cs|, i requires 0 <= i < |cs| => [x] + cs[i])
  }

  /** Every resolution of `s`: an unknown spring becomes operational or damaged. */
  function Resolutions(s: seq<Status>): (r: seq<seq<Status>>)
    ensures forall i :: 0 <= i < |r| ==> Resolves(r[i], s)
  {
    if |s| == 0 then [[]]
    else
      var rest := Resolutions(s[1..]);
      if s[0] == Unknown then Prefixed(Operational, rest) + Prefixed(Damaged, rest)
      else Prefixed(s[0], rest)
  }

  /** How many of `cs`, read after a run of `k` damaged springs, have the runs `runs`. */
  function CountRuns(cs: seq<seq<Status>>, runs: seq<nat>, k: nat): nat
  {
    if |cs| == 0 then 0
    else (if RunsFrom(cs[0], k) == runs then 1 else 0) + CountRuns(cs[1..], runs, k)
  }

  /** The brute-force count: the resolutions of `s` whose damaged runs are `runs`. */
  function BruteForce(s: seq<Status>, runs: seq<nat>): nat
  {
    CountRuns(Resolutions(s), runs, 0)
  }

  /** The count after a run of `k` damaged springs. */
  function Pending(s: seq<Status>, runs: seq<nat>, k: nat): nat
  {
    CountRuns(Resolutions(s), runs, k)
  }

  lemma {:induction false} CountRunsAppend(a: seq<seq<Status>>, b: seq<seq<Status>>, runs: seq<nat>, k: nat)
    ensures CountRuns(a + b, runs, k) == CountRuns(a, runs, k) + CountRuns(b, runs, k)
  {
    if |a| == 0 {
      assert a + b == b;
    } else {
      assert (a + b)[1..] == a[1..] + b;
      CountRunsAppend(a[1..], b, runs, k);
    }
  }

  /** A damaged spring lengthens the run in progress. */
  lemma {:induction false} CountPrefixedDamaged(cs: seq<seq<Status>>, runs: seq<nat>, k: nat)
    ensures CountRuns(Prefixed(Damaged, cs), runs, k) == CountRuns(cs, runs, k + 1)
  {
    if |cs| > 0 {
      assert Prefixed(Damaged, cs)[1..] == Prefixed(Damaged, cs[1..]);
      assert ([Damaged] + cs[0])[1..] == cs[0];
      CountPrefixedDamaged(cs[1..], runs, k);
    }
  }

  /** What remains to count once an operational spring ends the run in progress. */
  function Closed(cs: seq<seq<Status>>, runs: seq<nat>, k: nat): nat
  {
    if k == 0 then CountRuns(cs, runs, 0)
    else if |runs| > 0 && runs[0] == k then CountRuns(cs, runs[1..], 0)
    else 0
  }

  /** An operational spring ends the run in progress, which must be the next run. */
  lemma {:induction false} CountPrefixedOperational(cs: seq<seq<Status>>, runs: seq<nat>, k: nat)
    ensures CountRuns(Prefixed(Operational, cs), runs, k) == Closed(cs, runs, k)
  {
    if |cs| > 0 {
      assert Prefixed(Operational, cs)[1..] == Prefixed(Operational, cs[1..]);
      var c := [Operational] + cs[0];
      assert c[1..] == cs[0];
      CountPrefixedOperational(cs[1..], runs, k);
      if k > 0 && |runs| > 0 && runs[0] == k {
        assert RunsFrom(c, k) == runs <==> RunsFrom(cs[0], 0) == runs[1..] by {
          assert RunsFrom(c, k) == [k] + RunsFrom(cs[0], 0);
          assert runs == [k] + runs[1..];
        }
      }
    }
  }

  /** The brute-force count, one spring at a time. */
  lemma PendingStep(s: seq<Status>, runs: seq<nat>, k: nat)
    requires |s| >= 1
    ensures s[0] == Damaged ==> Pending(s, runs, k) == Pending(s[1..], runs, k + 1)
    ensures s[0] == Operational ==> Pending(s, runs, k) == Closed(Resolutions(s[1..]), runs, k)
    ensures s[0] == Unknown ==>
      Pending(s, runs, k) == Closed(Resolutions(s[1..]), runs, k) + Pending(s[1..], runs, k + 1)
  {
    var rest := Resolutions(s[1..]);
    CountPrefixedDamaged(rest, runs, k);
    CountPrefixedOperational(rest, runs, k);
    if s[0] == Unknown {
      CountRunsAppend(Prefixed(Operational, rest), Prefixed(Damaged, rest), runs, k);
    }
  }

  /** With no spring left, only the run in progress remains to be checked. */
  lemma PendingEmpty(runs: seq<nat>, k: nat)
    ensures Pending([], runs, k) == if RunsFrom([], k) == runs then 1 else 0
  {
    var none: seq<Status> := [];
    assert Resolutions([]) == [none];
    assert [none][1..] == [];
    assert CountRuns([none], runs, k) ==
      (if RunsFrom(none, k) == runs then 1 else 0) + CountRuns([none][1..], runs, k);
  }

  /** A run in progress longer than the next expected run (or with none expected)
      cannot be completed. */
  lemma {:induction false} PendingOverfull(s: seq<Status>, runs: seq<nat>, k: nat)
    requires k > 0 && (|runs| == 0 || k > runs[0])
    ensures Pending(s, runs, k) == 0
  {
    if |s| > 0 {
      PendingStep(s, runs, k);
      PendingOverfull(s[1..], runs, k + 1);
    } else {
      PendingEmpty(runs, k);
    }
  }

  /** With no runs expected, the only resolution that fits makes every spring
      operational, which works exactly when none is known to be damaged. */
  lemma {:induction false} PendingNoRuns(s: seq<Status>)
    ensures Pending(s, [], 0) == if Damaged in s then 0 else 1
  {
    if |s| == 0 {
      PendingEmpty([], 0);
    } else {
      PendingStep(s, [], 0);
      PendingNoRuns(s[1..]);
      PendingOverfull(s[1..], [], 1);
      assert Damaged in s <==> s[0] == Damaged || Damaged in s[1..] by {
        assert s == [s[0]] + s[1..];
      }
    }
  }

  /** Runs and their single-spring gaps need at least `Sum(runs) + |runs| - 1`
      springs; a shorter row admits no resolution. */
  lemma {:induction false} PendingTooShort(s: seq<Status>, runs: seq<nat>, k: nat)
    requires |runs| >= 1 && |s| + k < Sum(runs) + |runs| - 1
    ensures Pending(s, runs, k) == 0
  {
    if |s| == 0 {
      PendingEmpty(runs, k);
      assert RunsFrom([], k) != runs;
    } else {
      PendingStep(s, runs, k);
      PendingTooShort(s[1..], runs, k + 1);
      if k == 0 {
        PendingTooShort(s[1..], runs, 0);
      } else if runs[0] == k {
        SumNonNegative(runs[1..]);
        assert Sum(runs) == k + Sum(runs[1..]);
        PendingTooShort(s[1..], runs[1..], 0);
      }
    }
  }

  /** The count once the next `m` springs must be damaged and the one after them (if
      any) must end the run: the shape of `arrangments_given_possible_match`. */
  function AfterRun(s: seq<Status>, m: nat, rest: seq<nat>): nat
    requires m <= |s|
  {
    if NoOperational(s[..m]) && (|s| == m || s[m] != Damaged) then
      if |s| == m then Pending(s[m..], rest, 0) else Pending(s[m + 1..], rest, 0)
    else 0
  }

  /** Inside a run of `k` of the `r` damaged springs expected, the brute-force count
      forces the remaining `r - k` springs and the gap. */
  lemma {:induction false} PendingInsideRun(s: seq<Status>, r: nat, rest: seq<nat>, k: nat)
    requires 1 <= k <= r && |s| >= r - k
    ensures Pending(s, [r] + rest, k) == AfterRun(s, r - k, rest)
    decreases r - k
  {
    if k == r {
      PendingRunComplete(s, r, rest);
    } else {
      PendingInsideRun(s[1..], r, rest, k + 1);
      PendingRunContinues(s, r, rest, k);
    }
  }

  /** A complete run must be followed by the end of the row or an operational spring. */
  lemma PendingRunComplete(s: seq<Status>, r: nat, rest: seq<nat>)
    requires r >= 1
    ensures Pending(s, [r] + rest, r) == AfterRun(s, 0, rest)
  {
    var runs := [r] + rest;
    assert runs[1..] == rest;
    assert s[..0] == [];
    if |s| == 0 {
      PendingEmpty(runs, r);
      PendingEmpty(rest, 0);
      assert RunsFrom([], r) == [r];
      assert s[0..] == [];
    } else {
      PendingStep(s, runs, r);
      PendingOverfull(s[1..], runs, r + 1);
      assert s[0 + 1..] == s[1..];
    }
  }

  /** Before the run is complete, the next spring must be damaged. */
  lemma PendingRunContinues(s: seq<Status>, r: nat, rest: seq<nat>, k: nat)
    requires 1 <= k < r && |s| >= r - k
    requires Pending(s[1..], [r] + rest, k + 1) == AfterRun(s[1..], r - k - 1, rest)
    ensures Pending(s, [r] + rest, k) == AfterRun(s, r - k, rest)
  {
    var runs := [r] + rest;
    PendingStep(s, runs, k);
    AfterRunStep(s, r - k, rest);
    if s[0] != Damaged {
      assert runs[0] == r;
      assert Closed(Resolutions(s[1..]), runs, k) == 0;
    }
  }

  /** A spring that must be damaged: an operational one admits nothing, any other
      leaves one spring fewer to force. */
  lemma AfterRunStep(s: seq<Status>, m: nat, rest: seq<nat>)
    requires 1 <= m <= |s|
    ensures s[0] == Operational ==> AfterRun(s, m, rest) == 0
    ensures s[0] != Operational ==> AfterRun(s, m, rest) == AfterRun(s[1..], m - 1, rest)
  {
    var t := s[1..];
    assert s[..m] == [s[0]] + t[..m - 1];
    assert s[0] == Operational ==> !NoOperational(s[..m]);
    assert s[0] != Operational ==> (NoOperational(s[..m]) <==> NoOperational(t[..m - 1])) by {
      assert forall i :: 1 <= i < m ==> s[..m][i] == t[..m - 1][i - 1];
    }
    assert s[m..] == t[m - 1..];
    assert |s| > m ==> s[m + 1..] == t[m..] && s[m] == t[m - 1];
  }

  /** The dynamic programme of `cached_arrangements` counts exactly the resolutions
      whose damaged runs are the recorded ones, for runs of positive length. */
  lemma {:induction false} ArrangementsIsBruteForce(s: seq<Status>, runs: seq<nat>)
    requires forall i :: 0 <= i < |runs| ==> runs[i] >= 1
    ensures Arrangements(s, runs) == BruteForce(s, runs)
    decreases |s|, 1
  {
    if |s| == 0 {
      PendingEmpty(runs, 0);
    } else if |runs| == 0 {
      PendingNoRuns(s);
    } else if |s| < Sum(runs) + |runs| - 1 {
      PendingTooShort(s, runs, 0);
    } else {
      PendingStep(s, runs, 0);
      if s[0] == Operational {
        ArrangementsIsBruteForce(s[1..], runs);
      } else {
        FirstRunFits(runs);
        MatchedIsBruteForce(s, runs);
        if s[0] == Unknown {
          ArrangementsIsBruteForce(s[1..], runs);
        }
      }
    }
  }

  /** The match step agrees with the brute-force count of the resolutions that make
      the first spring damaged. */
  lemma {:induction false} MatchedIsBruteForce(s: seq<Status>, runs: seq<nat>)
    requires forall i :: 0 <= i < |runs| ==> runs[i] >= 1
    requires |runs| >= 1 && 1 <= runs[0] <= |s| && s[0] != Operational
    ensures Matched(runs[0], s, runs) == Pending(s[1..], runs, 1)
    decreases |s|, 0
  {
    var r := runs[0];
    var rest := runs[1..];
    assert runs == [r] + rest;
    PendingInsideRun(s[1..], r, rest, 1);
    var t := s[1..];
    assert s[..r] == [s[0]] + t[..r - 1];
    assert NoOperational(s[..r]) <==> NoOperational(t[..r - 1]) by {
      assert forall i :: 1 <= i < r ==> s[..r][i] == t[..r - 1][i - 1];
    }
    assert |s| > r ==> s[r] == t[r - 1] && s[r + 1..] == t[r..];
    assert s[r..] == t[r - 1..];
    forall i | 0 <= i < |rest|
      ensures rest[i] >= 1
    {
      assert rest[i] == runs[i + 1];
    }
    if NoOperational(s[..r]) && (|s| == r || s[r] != Damaged) {
      if |s| == r {
        ArrangementsIsBruteForce(s[r..], rest);
      } else {
        ArrangementsIsBruteForce(s[r + 1..], rest);
      }
    }
  }

  /** Every resolution of `s` is among those the brute force tries. */
  lemma {:induction false} ResolutionsComplete(c: seq<Status>, s: seq<Status>)
    requires Resolves(c, s)
    ensures c in Resolutions(s)
  {
    if |s| == 0 {
      assert c == [];
    } else {
      ResolvesTail(c, s);
      ResolutionsComplete(c[1..], s[1..]);
      ResolutionsCons(c, s);
    }
  }

  lemma ResolvesTail(c: seq<Status>, s: seq<Status>)
    requires Resolves(c, s) && |s| > 0
    ensures Resolves(c[1..], s[1..])
    ensures c[0] != Unknown && (s[0] != Unknown ==> c[0] == s[0])
  {
  }

  /** A resolution of the first spring in front of a resolution the brute force tries
      for the rest is tried as well. */
  lemma ResolutionsCons(c: seq<Status>, s: seq<Status>)
    requires |c| > 0 && |s| > 0 && c[1..] in Resolutions(s[1..])
    requires c[0] != Unknown && (s[0] != Unknown ==> c[0] == s[0])
    ensures c in Resolutions(s)
  {
    var rest := Resolutions(s[1..]);
    assert c == [c[0]] + c[1..];
    PrefixedHolds(c[0], rest, c[1..]);
    if s[0] == Unknown {
      assert Resolutions(s) == Prefixed(Operational, rest) + Prefixed(Damaged, rest);
      if c[0] == Operational {
        InAppend(c, Prefixed(Operational, rest), Prefixed(Damaged, rest));
      } else {
        InAppend(c, Prefixed(Damaged, rest), Prefixed(Operational, rest));
      }
    } else {
      assert Resolutions(s) == Prefixed(s[0], rest);
    }
  }

  lemma PrefixedHolds(x: Status, cs: seq<seq<Status>>, c: seq<Status>)
    requires c in cs
    ensures [x] + c in Prefixed(x, cs)
  {
    var i :| 0 <= i < |cs| && cs[i] == c;
    assert Prefixed(x, cs)[i] == [x] + c;
  }

  lemma InAppend<T>(x: T, a: seq<T>, b: seq<T>)
    requires x in a
    ensures x in a + b && x in b + a
  {
    var i :| 0 <= i < |a| && a[i] == x;
    assert (a + b)[i] == x;
    assert (b + a)[|b| + i] == x;
  }

  function DamagedCount(c: seq<Status>): nat
  {
    if |c| == 0 then 0 else (if c[0] == Damaged then 1 else 0) + DamagedCount(c[1..])
  }

  /** The runs account for every damaged spring (and the run in progress). */
  lemma {:induction false} RunsCoverDamaged(c: seq<Status>, k: nat)
    ensures Sum(RunsFrom(c, k)) == k + DamagedCount(c)
  {
    if |c| > 0 {
      RunsCoverDamaged(c[1..], if c[0] == Damaged then k + 1 else 0);
      if c[0] != Damaged {
        var tail := RunsFrom(c[1..], 0);
        if k > 0 {
          SumAppend([k], tail);
          assert Sum([k]) == k;
        } else {
          assert RunsFrom(c, k) == tail;
        }
      }
    }
  }

  // ---------------------------------------------------------------------------
  // Unfolding, parsing and the answers
  // ---------------------------------------------------------------------------

  /** The spring at position `i` of the joined copies of `s`: every `|s| + 1`-th one is
      the joining unknown spring, the rest repeat `s`. */
  function CopyAt(s: seq<Status>, i: nat): Status
  {
    var k := i % (|s| + 1);
    if k == |s| then Unknown else s[k]
  }

  /** `n` copies of `s`, with an unknown spring between consecutive copies. */
  function Copies(s: seq<Status>, n: nat): (r: seq<Status>)
    requires n >= 1
    ensures |r| == n * |s| + n - 1
    ensures r[..|s|] == s
    ensures forall i :: 0 <= i < |r| ==> r[i] == CopyAt(s, i)
  {
    if n == 1 then
      forall i | 0 <= i < |s|
        ensures CopyAt(s, i) == s[i]
      {
        ModSmall(i, |s| + 1);
      }
      s
    else
      var rest := Copies(s, n - 1);
      CopiesStep(s, rest);
      s + [Unknown] + rest
  }

  /** Prefixing one copy and a joining unknown spring keeps the copy pattern. */
  lemma CopiesStep(s: seq<Status>, rest: seq<Status>)
    requires forall i :: 0 <= i < |rest| ==> rest[i] == CopyAt(s, i)
    ensures forall i :: 0 <= i < |s + [Unknown] + rest| ==> (s + [Unknown] + rest)[i] == CopyAt(s, i)
  {
    var r := s + [Unknown] + rest;
    var m := |s| + 1;
    forall i | 0 <= i < |r|
      ensures r[i] == CopyAt(s, i)
    {
      if i <= |s| {
        ModSmall(i, m);
      } else {
        ModShift(i - m, m);
        assert r[i] == rest[i - m];
      }
    }
  }

  lemma ModSmall(j: nat, m: nat)
    requires j < m
    ensures j % m == j
  {
    ModUnique(j, m, 0, j);
  }

  lemma ModShift(j: nat, m: nat)
    requires m > 0
    ensures (j + m) % m == j % m
  {
    ModUnique(j + m, m, j / m + 1, j % m);
  }

  /** Euclidean division has one quotient and remainder. */
  lemma ModUnique(j: nat, m: nat, q: int, rem: int)
    requires 0 <= rem < m && j == q * m + rem
    ensures j % m == rem
  {
    var q' := j / m;
    assert (q - q') * m == j % m - rem;
    if q - q' >= 1 {
      MulAtLeast(q - q', m);
    } else if q - q' <= -1 {
      MulAtLeast(q' - q, m);
    }
  }

  lemma MulAtLeast(k: int, m: nat)
    requires k >= 1
    ensures k * m >= m
  {
  }

  /** `n` copies of the runs, one after the other. */
  function Repeated(runs: seq<nat>, n: nat): (r: seq<nat>)
    ensures |r| == n * |runs|
    ensures |runs| > 0 ==> forall i :: 0 <= i < |r| ==> r[i] == runs[i % |runs|]
  {
    if n == 0 then []
    else
      var rest := Repeated(runs, n - 1);
      if |runs| > 0 then RepeatedStep(runs, rest); runs + rest
      else runs + rest
  }

  /** Prefixing one more copy keeps the cyclic pattern. */
  lemma RepeatedStep(runs: seq<nat>, rest: seq<nat>)
    requires |runs| > 0
    requires forall i :: 0 <= i < |rest| ==> rest[i] == runs[i % |runs|]
    ensures forall i :: 0 <= i < |runs + rest| ==> (runs + rest)[i] == runs[i % |runs|]
  {
    var r := runs + rest;
    forall i | 0 <= i < |r|
      ensures r[i] == runs[i % |runs|]
    {
      if i < |runs| {
        ModSmall(i, |runs|);
      } else {
        ModShift(i - |runs|, |runs|);
        assert r[i] == rest[i - |runs|];
      }
    }
  }

  /** `Record::unfolded`: five copies of the springs joined by unknown springs, and
      five copies of the runs. */
  function Unfolded(statuses: seq<Status>, runs: seq<nat>): (r: (seq<Status>, seq<nat>))
    ensures |r.0| == 5 * |statuses| + 4 && |r.1| == 5 * |runs|
    ensures forall i :: 0 <= i < |r.0| ==> r.0[i] == CopyAt(statuses, i)
    ensures |runs| > 0 ==> forall i :: 0 <= i < |r.1| ==> r.1[i] == runs[i % |runs|]
  {
    (Copies(statuses, 5), Repeated(runs, 5))
  }

  /** Unfolding keeps every run positive, so the count of an unfolded record is the
      brute-force count as well; the expected damaged springs grow fivefold. */
  lemma UnfoldedRuns(runs: seq<nat>, n: nat)
    ensures Sum(Repeated(runs, n)) == n * Sum(runs)
    ensures (forall i :: 0 <= i < |runs| ==> runs[i] >= 1) ==>
      forall i :: 0 <= i < |Repeated(runs, n)| ==> Repeated(runs, n)[i] >= 1
  {
    RepeatedSum(runs, n);
    if forall i :: 0 <= i < |runs| ==> runs[i] >= 1 {
      RepeatedPositive(runs, n);
    }
  }

  lemma {:induction false} RepeatedSum(runs: seq<nat>, n: nat)
    ensures Sum(Repeated(runs, n)) == n * Sum(runs)
  {
    if n > 0 {
      RepeatedSum(runs, n - 1);
      SumAppend(runs, Repeated(runs, n - 1));
      var total := Sum(runs);
      assert Sum(Repeated(runs, n)) == total + (n - 1) * total;
      MulSucc(n - 1, total);
    }
  }

  lemma MulSucc(m: nat, x: int)
    ensures x + m * x == (m + 1) * x
  {
  }

  lemma {:induction false} RepeatedPositive(runs: seq<nat>, n: nat)
    requires forall i :: 0 <= i < |runs| ==> runs[i] >= 1
    ensures forall i :: 0 <= i < |Repeated(runs, n)| ==> Repeated(runs, n)[i] >= 1
  {
    if n > 0 {
      RepeatedPositive(runs, n - 1);
      var r := Repeated(runs, n);
      assert r == runs + Repeated(runs, n - 1);
      forall i | 0 <= i < |r|
        ensures r[i] >= 1
      {
        if i >= |runs| {
          assert r[i] == Repeated(runs, n - 1)[i - |runs|];
        }
      }
    }
  }

  /** `parse_row`: `many1(parse_status)`. */
  function ParseRow(s: string): (r: Parsed<seq<Status>>)
    ensures r.Ok? <==> |s| > 0 && IsStatusChar(s[0])
    ensures r.Ok? ==> |r.value| >= 1 && |r.value| + |r.rest| == |s|
    ensures r.Ok? ==> forall j :: 0 <= j < |r.value| ==> Some(r.value[j]) == ParseStatus(s[j])
  {
    match TakeWhile1(s, IsStatusChar)
    case Fail => Fail
    case Ok(cs, rest) =>
      assert forall j :: 0 <= j < |cs| ==> cs[j] == s[j];
      Ok(seq(|cs|, j requires 0 <= j < |cs| => ParseStatus(cs[j]).value), rest)
  }

  lemma NumberShrinks()
    ensures Shrinks(Number)
  {
  }

  /** `parse_record`: the springs, a space, and the runs separated by commas. */
  function ParseRecord(s: string): (r: Parsed<(seq<Status>, seq<nat>)>)
    ensures r.Ok? ==> |r.rest| < |s|
  {
    var row := ParseRow(s);
    if row.Fail? then Fail else
    var space := Char(' ', row.rest);
    if space.Fail? then Fail else
    NumberShrinks();
    var runs := SeparatedList1(Number, ',', space.rest);
    if runs.Fail? then Fail else
    Ok((row.value, runs.value), runs.rest)
  }

  lemma RecordShrinks()
    ensures Shrinks(ParseRecord)
  {
  }

  /** `Report::from_str`: records separated by newlines. */
  function ParseReport(s: string): (r: Option<seq<(seq<Status>, seq<nat>)>>)
    ensures r.Some? <==> ParseRecord(s).Ok?
  {
    RecordShrinks();
    match SeparatedList1(ParseRecord, '\n', s)
    case Fail => None
    case Ok(records, _) => Some(records)
  }

  function RowText(row: seq<Status>): (t: string)
    ensures |t| == |row| && forall j :: 0 <= j < |row| ==> t[j] == StatusChar(row[j])
  {
    seq(|row|, j requires 0 <= j < |row| => StatusChar(row[j]))
  }

  function RunTexts(runs: seq<nat>): (t: seq<string>)
    ensures |t| == |runs| && forall i :: 0 <= i < |runs| ==> t[i] == ToDigits(runs[i])
  {
    seq(|runs|, i requires 0 <= i < |runs| => ToDigits(runs[i]))
  }

  function RecordText(row: seq<Status>, runs: seq<nat>): string
    requires |runs| >= 1
  {
    RowText(row) + " " + Text.Join(RunTexts(runs), ',')
  }

  /** A written record is read back when it is followed by the end of the input or a
      newline. */
  lemma RecordRoundTrip(row: seq<Status>, runs: seq<nat>, t: string)
    requires |row| >= 1 && |runs| >= 1
    requires |t| == 0 || t[0] == '\n'
    ensures ParseRecord(RecordText(row, runs) + t) == Ok((row, runs), t)
  {
    var numbers := Text.Join(RunTexts(runs), ',') + t;
    var after := " " + numbers;
    assert RecordText(row, runs) + t == RowText(row) + after;
    TakeWhile1Word(RowText(row), after, IsStatusChar);
    var parsed := ParseRow(RowText(row) + after);
    forall j | 0 <= j < |row|
      ensures parsed.value[j] == row[j]
    {
      assert (RowText(row) + after)[j] == StatusChar(row[j]);
    }
    assert parsed.value == row;
    assert after[1..] == numbers;
    NumberShrinks();
    forall i, t' | 0 <= i < |runs| && Follows(t', ',', t)
      ensures Number(RunTexts(runs)[i] + t') == Ok(runs[i], t')
    {
      NumberOfDigits(runs[i], t');
    }
    SeparatedList1Join(Number, ',', RunTexts(runs), runs, t);
  }

  /** `part_one`: the arrangements summed over the records. */
  function PartOne(records: seq<(seq<Status>, seq<nat>)>): nat
  {
    if |records| == 0 then 0
    else Arrangements(records[0].0, records[0].1) + PartOne(records[1..])
  }

  /** `part_two`: the arrangements of the unfolded records. */
  function PartTwo(records: seq<(seq<Status>, seq<nat>)>): nat
  {
    if |records| == 0 then 0
    else
      var u := Unfolded(records[0].0, records[0].1);
      Arrangements(u.0, u.1) + PartTwo(records[1..])
  }

  /** Record by record, part one counts the resolutions that match. */
  lemma {:induction false} PartOneIsBruteForce(records: seq<(seq<Status>, seq<nat>)>)
    requires forall k, i :: 0 <= k < |records| && 0 <= i < |records[k].1| ==> records[k].1[i] >= 1
    ensures PartOne(records) == BruteForceTotal(records)
  {
    if |records| > 0 {
      ArrangementsIsBruteForce(records[0].0, records[0].1);
      PartOneIsBruteForce(records[1..]);
    }
  }

  function BruteForceTotal(records: seq<(seq<Status>, seq<nat>)>): nat
  {
    if |records| == 0 then 0
    else BruteForce(records[0].0, records[0].1) + BruteForceTotal(records[1..])
  }

  /** Every record unfolded. */
  function UnfoldAll(records: seq<(seq<Status>, seq<nat>)>): (u: seq<(seq<Status>, seq<nat>)>)
    ensures |u| == |records|
    ensures forall k :: 0 <= k < |records| ==> u[k] == Unfolded(records[k].0, records[k].1)
  {
    seq(|records|, k requires 0 <= k < |records| => Unfolded(records[k].0, records[k].1))
  }

  /** Part two is part one of the unfolded records. */
  lemma {:induction false} PartTwoIsPartOneUnfolded(records: seq<(seq<Status>, seq<nat>)>)
    ensures PartTwo(records) == PartOne(UnfoldAll(records))
  {
    if |records| > 0 {
      assert UnfoldAll(records)[1..] == UnfoldAll(records[1..]);
      PartTwoIsPartOneUnfolded(records[1..]);
    }
  }

  /** Record by record, part two counts the resolutions of the unfolded record that
      match the unfolded runs. */
  lemma PartTwoIsBruteForce(records: seq<(seq<Status>, seq<nat>)>)
    requires forall k, i :: 0 <= k < |records| && 0 <= i < |records[k].1| ==> records[k].1[i] >= 1
    ensures PartTwo(records) == BruteForceTotal(UnfoldAll(records))
  {
    var u := UnfoldAll(records);
    PartTwoIsPartOneUnfolded(records);
    forall k, i | 0 <= k < |u| && 0 <= i < |u[k].1|
      ensures u[k].1[i] >= 1
    {
      var runs := records[k].1;
      assert runs[i % |runs|] >= 1;
    }
    PartOneIsBruteForce(u);
  }
}

=== FILE: day13_mirrors.dfy ===
/** Day 13, "Point of Incidence": each pattern of ash and rocks has a line of
    reflection between two rows or two columns; its score is the number of columns
    left of a vertical line plus 100 times the number of rows above a horizontal one. */
module Mirrors {
  import opened Sequences
  import opened Parsing
  import Text

  datatype Feature = Ash | Rock

  /** `parse_feature`. */
  function ParseFeature(c: char): (r: Option<Feature>)
    ensures r.Some? <==> c == '.' || c == '#'
    ensures r == Some(Rock) <==> c == '#'
  {
    if c == '.' then Some(Ash) else if c == '#' then Some(Rock) else None
  }

  /** A pattern: at least one row, all rows of the same positive length. */
  predicate IsPattern(p: seq<seq<Feature>>)
  {
    |p| >= 1 && |p[0]| >= 1 && forall i :: 0 <= i < |p| ==> |p[i]| == |p[0]|
  }

  function Min(a: int, b: int): int
  {
    if a < b then a else b
  }

  /** The line between rows `i - 1` and `i` reflects the pattern: the `h` rows above it,
      read upwards, equal the `h` rows below it, read downwards, where `h` is the
      distance to the nearer edge. */
  predicate IsRowMirror(p: seq<seq<Feature>>, i: nat)
    requires 1 <= i < |p|
  {
    forall k :: 0 <= k < Min(i, |p| - i) ==> RowsReflect(p, i, k)
  }

  /** Row `k` above the line between rows `i - 1` and `i` equals row `k` below it. */
  predicate RowsReflect(p: seq<seq<Feature>>, i: nat, k: nat)
  {
    k < i && i + k < |p| && p[i - 1 - k] == p[i + k]
  }

  /** In row `r`, column `k` left of the line between columns `j - 1` and `j` equals
      column `k` right of it. */
  predicate CellsReflect(p: seq<seq<Feature>>, r: nat, j: nat, k: nat)
  {
    r < |p| && k < j && j + k < |p[r]| && p[r][j - 1 - k] == p[r][j + k]
  }

  /** The same between columns `j - 1` and `j`, in every row. */
  predicate IsColumnMirror(p: seq<seq<Feature>>, j: nat)
    requires IsPattern(p) && 1 <= j < |p[0]|
  {
    forall r, k :: 0 <= r < |p| && 0 <= k < Min(j, |p[0]| - j) ==> CellsReflect(p, r, j, k)
  }

  /** The first row mirror at or after `i`, or 0 when there is none. */
  function FirstRowMirror(p: seq<seq<Feature>>, i: nat): (r: nat)
    requires 1 <= i <= |p|
    ensures r == 0 ==> forall i' :: i <= i' < |p| ==> !IsRowMirror(p, i')
    ensures r != 0 ==> i <= r < |p| && IsRowMirror(p, r)
    ensures r != 0 ==> forall i' :: i <= i' < r ==> !IsRowMirror(p, i')
    decreases |p| - i
  {
    if i == |p| then 0
    else if IsRowMirror(p, i) then i
    else FirstRowMirror(p, i + 1)
  }

  /** `horizontal_line_of_reflection_score`: the first row mirror from the top, or
      0. */
  function HorizontalScore(p: seq<seq<Feature>>): (r: nat)
    requires |p| >= 1
    ensures r < |p|
  {
    FirstRowMirror(p, 1)
  }

  /** The first column mirror at or after `j`, or 0 when there is none. */
  function FirstColumnMirror(p: seq<seq<Feature>>, j: nat): (r: nat)
    requires IsPattern(p) && 1 <= j <= |p[0]|
    ensures r == 0 ==> forall j' :: j <= j' < |p[0]| ==> !IsColumnMirror(p, j')
    ensures r != 0 ==> j <= r < |p[0]| && IsColumnMirror(p, r)
    ensures r != 0 ==> forall j' :: j <= j' < r ==> !IsColumnMirror(p, j')
    decreases |p[0]| - j
  {
    if j == |p[0]| then 0
    else if IsColumnMirror(p, j) then j
    else FirstColumnMirror(p, j + 1)
  }

  /** `vertical_line_of_reflection_score`: the first column mirror from the left, or
      0. */
  function VerticalScore(p: seq<seq<Feature>>): (r: nat)
    requires IsPattern(p)
    ensures r < |p[0]|
  {
    FirstColumnMirror(p, 1)
  }

  /** `score`: columns left of the vertical mirror plus 100 times the rows above the
      horizontal one. */
  function Score(p: seq<seq<Feature>>): (s: nat)
    requires IsPattern(p)
    ensures s < |p[0]| + 100 * |p|
  {
    VerticalScore(p) + 100 * HorizontalScore(p)
  }

  /** The transposed pattern: columns become rows. */
  function Transpose(p: seq<seq<Feature>>): (t: seq<seq<Feature>>)
    requires IsPattern(p)
    ensures IsPattern(t) && |t| == |p[0]| && |t[0]| == |p|
    ensures forall j, i :: 0 <= j < |t| && 0 <= i < |p| ==> t[j][i] == p[i][j]
  {
    seq(|p[0]|, j requires 0 <= j < |p[0]| => seq(|p|, i requires 0 <= i < |p| => p[i][j]))
  }

  /** A column mirror is a row mirror of the transposed pattern. */
  lemma ColumnMirrorIsRowMirror(p: seq<seq<Feature>>, j: nat)
    requires IsPattern(p) && 1 <= j < |p[0]|
    ensures IsColumnMirror(p, j) <==> IsRowMirror(Transpose(p), j)
  {
    var t := Transpose(p);
    var h := Min(j, |p[0]| - j);
    if IsColumnMirror(p, j) {
      forall k: nat | k < h
        ensures RowsReflect(t, j, k)
      {
        var above, below := t[j - 1 - k], t[j + k];
        forall r | 0 <= r < |p|
          ensures above[r] == below[r]
        {
          assert CellsReflect(p, r, j, k);
        }
        assert above == below;
      }
    }
    if IsRowMirror(t, j) {
      forall r: nat, k: nat | r < |p| && k < h
        ensures CellsReflect(p, r, j, k)
      {
        assert RowsReflect(t, j, k);
        assert t[j - 1 - k][r] == t[j + k][r];
      }
    }
  }

  /** The vertical score is the horizontal score of the transposed pattern. */
  lemma {:induction false} VerticalIsTransposedHorizontal(p: seq<seq<Feature>>)
    requires IsPattern(p)
    ensures VerticalScore(p) == HorizontalScore(Transpose(p))
  {
    FirstMirrorsAgree(p, 1);
  }

  lemma {:induction false} FirstMirrorsAgree(p: seq<seq<Feature>>, j: nat)
    requires IsPattern(p) && 1 <= j <= |p[0]|
    ensures FirstColumnMirror(p, j) == FirstRowMirror(Transpose(p), j)
    decreases |p[0]| - j
  {
    if j < |p[0]| {
      ColumnMirrorIsRowMirror(p, j);
      FirstMirrorsAgree(p, j + 1);
    }
  }

  /** A mirror line halfway down a pattern with an even number of rows reflects every
      row; mirroring the rows of a pattern onto itself gives a mirror there. */
  lemma MirroredPatternHasMirror(top: seq<seq<Feature>>)
    requires |top| >= 1
    ensures IsRowMirror(top + Reverse(top), |top|)
  {
    var p := top + Reverse(top);
    var n := |top|;
    forall k: nat | k < Min(n, |p| - n)
      ensures RowsReflect(p, n, k)
    {
      MirroredRow(top, Reverse(top), k);
    }
  }

  lemma MirroredRow(top: seq<seq<Feature>>, bottom: seq<seq<Feature>>, k: nat)
    requires |bottom| == |top| && k < |top|
    requires forall i :: 0 <= i < |top| ==> bottom[i] == top[|top| - 1 - i]
    ensures RowsReflect(top + bottom, |top|, k)
  {
    var p := top + bottom;
    var n := |top|;
    assert p[n - 1 - k] == top[n - 1 - k];
    assert p[n + k] == bottom[k];
  }

  /** When the rows repeat a pattern `a b b a`, the first mirror is found no later than
      the middle. */
  lemma HorizontalScoreAtMost(p: seq<seq<Feature>>, i: nat)
    requires 1 <= i < |p| && IsRowMirror(p, i)
    ensures 1 <= HorizontalScore(p) <= i
  {
  }

  /** `part_one`: the scores summed over the patterns. */
  function PartOne(patterns: seq<seq<seq<Feature>>>): (r: nat)
    requires forall k :: 0 <= k < |patterns| ==> IsPattern(patterns[k])
    ensures forall k :: 0 <= k < |patterns| ==> Score(patterns[k]) <= r
  {
    if |patterns| == 0 then 0
    else
      var r := Score(patterns[0]) + PartOne(patterns[1..]);
      assert forall k :: 1 <= k < |patterns| ==> patterns[k] == patterns[1..][k - 1];
      r
  }

  /** The answer for notes read in two parts is the sum of the answers for the parts. */
  lemma {:induction false} PartOneAppend(a: seq<seq<seq<Feature>>>, b: seq<seq<seq<Feature>>>)
    requires forall k :: 0 <= k < |a| ==> IsPattern(a[k])
    requires forall k :: 0 <= k < |b| ==> IsPattern(b[k])
    ensures forall k :: 0 <= k < |a + b| ==> IsPattern((a + b)[k])
    ensures PartOne(a + b) == PartOne(a) + PartOne(b)
    decreases |a|
  {
    assert forall k :: 0 <= k < |a + b| ==> IsPattern((a + b)[k]) by {
      forall k | 0 <= k < |a + b| ensures IsPattern((a + b)[k]) {
        if k < |a| { assert (a + b)[k] == a[k]; } else { assert (a + b)[k] == b[k - |a|]; }
      }
    }
    if |a| == 0 {
      assert a + b == b;
    } else {
      assert (a + b)[1..] == a[1..] + b;
      PartOneAppend(a[1..], b);
    }
  }

  predicate IsFeatureChar(c: char)
  {
    c == '.' || c == '#'
  }

  /** `parse_row`: `many1(parse_feature)`. */
  function ParseRow(s: string): (r: Parsed<seq<Feature>>)
    ensures r.Ok? <==> |s| > 0 && IsFeatureChar(s[0])
    ensures r.Ok? ==> |r.value| >= 1 && |r.value| + |r.rest| == |s|
    ensures r.Ok? ==> forall j :: 0 <= j < |r.value| ==> Some(r.value[j]) == ParseFeature(s[j])
  {
    match TakeWhile1(s, IsFeatureChar)
    case Fail => Fail
    case Ok(cs, rest) =>
      assert forall j :: 0 <= j < |cs| ==> cs[j] == s[j];
      Ok(seq(|cs|, j requires 0 <= j < |cs| => ParseFeature(cs[j]).value), rest)
  }

  lemma RowShrinks()
    ensures Shrinks(ParseRow)
  {
  }

  /** `parse_rows`: rows separated by single newlines. */
  function ParseRows(s: string): (r: Parsed<seq<seq<Feature>>>)
    ensures r.Ok? <==> |s| > 0 && IsFeatureChar(s[0])
    ensures r.Ok? ==> |r.value| >= 1 && |r.value[0]| >= 1 && |r.rest| < |s|
  {
    RowShrinks();
    var r := SeparatedList1(ParseRow, '\n', s);
    assert r.Ok? ==> ParseRow(s).Ok? && r.value[0] == ParseRow(s).value;
    r
  }

  /** `parse_pattern`. `None` is the source's assertion failure: the rows read have
      different lengths. `Some(Fail)` is nom's recoverable error: no row can be read. */
  function ParsePattern(s: string): (r: Option<Parsed<seq<seq<Feature>>>>)
    ensures r.None? <==> ParseRows(s).Ok? && !IsPattern(ParseRows(s).value)
    ensures r == Some(Fail) <==> ParseRows(s).Fail?
    ensures r.Some? && r.value.Ok? ==> r.value == ParseRows(s) && IsPattern(r.value.value)
    ensures r.Some? && r.value.Ok? ==> |r.value.rest| < |s|
  {
    match ParseRows(s)
    case Fail => Some(Fail)
    case Ok(rows, rest) =>
      if forall i :: 0 <= i < |rows| ==> |rows[i]| == |rows[0]| then Some(Ok(rows, rest))
      else None
  }

  /** `parse_notes`: patterns separated by two newlines (`separated_list1` with
      `count(newline, 2)`). The list ends before a separator that no row follows, and
      the whole read is `None` as soon as one pattern's assertion fails. */
  function ParseNotes(s: string): (r: Option<Parsed<seq<seq<seq<Feature>>>>>)
    ensures ParsePattern(s).None? ==> r.None?
    ensures r.Some? ==> (r.value.Ok? <==> ParsePattern(s).value.Ok?)
    ensures r.Some? && r.value.Ok? ==>
      |r.value.value| >= 1 && (forall k :: 0 <= k < |r.value.value| ==> IsPattern(r.value.value[k]))
    ensures r.Some? && r.value.Ok? ==> r.value.value[0] == ParsePattern(s).value.value
    ensures r.Some? && r.value.Ok? ==> |r.value.rest| < |s|
    decreases |s|
  {
    match ParsePattern(s)
    case None => None
    case Some(Fail) => Some(Fail)
    case Some(Ok(first, rest)) =>
      if |rest| >= 2 && rest[..2] == "\n\n" then
        match ParseNotes(rest[2..])
        case None => None
        case Some(Fail) => Some(Ok([first], rest))
        case Some(Ok(others, rest')) => Some(Ok([first] + others, rest'))
      else Some(Ok([first], rest))
  }

  function FeatureChar(f: Feature): char
  {
    if f == Rock then '#' else '.'
  }

  /** A row written as its characters. */
  function RowText(row: seq<Feature>): (t: string)
    ensures |t| == |row| && forall j :: 0 <= j < |row| ==> t[j] == FeatureChar(row[j])
  {
    seq(|row|, j requires 0 <= j < |row| => FeatureChar(row[j]))
  }

  /** Non-empty rows written one per line; a pattern is written this way. */
  function PatternText(p: seq<seq<Feature>>): string
    requires |p| >= 1
  {
    Text.Join(seq(|p|, i requires 0 <= i < |p| => RowText(p[i])), '\n')
  }

  /** Patterns written with a blank line between consecutive patterns. */
  function NotesText(patterns: seq<seq<seq<Feature>>>): string
    requires |patterns| >= 1 && forall k :: 0 <= k < |patterns| ==> |patterns[k]| >= 1
  {
    if |patterns| == 1 then PatternText(patterns[0])
    else PatternText(patterns[0]) + "\n\n" + NotesText(patterns[1..])
  }

  /** Text that can follow the last row of a pattern: it starts with no feature, and
      a newline at its start is not followed by a feature. */
  predicate EndsPattern(t: string)
  {
    (|t| == 0 || !IsFeatureChar(t[0])) && (|t| <= 1 || t[0] != '\n' || !IsFeatureChar(t[1]))
  }

  lemma RowRoundTrip(row: seq<Feature>, t: string)
    requires |row| >= 1
    requires |t| == 0 || !IsFeatureChar(t[0])
    ensures ParseRow(RowText(row) + t) == Ok(row, t)
  {
    var text := RowText(row);
    assert forall j :: 0 <= j < |text| ==> IsFeatureChar(text[j]);
    TakeWhile1Word(text, t, IsFeatureChar);
    var r := ParseRow(text + t);
    assert r.Ok? && r.rest == t && |r.value| == |row|;
    forall j | 0 <= j < |row|
      ensures r.value[j] == row[j]
    {
      assert text[j] == FeatureChar(row[j]);
    }
    assert r.value == row;
  }

  /** Non-empty rows written one per line are read back, whatever their lengths. */
  lemma RowsRoundTrip(rows: seq<seq<Feature>>, after: string)
    requires |rows| >= 1 && forall i :: 0 <= i < |rows| ==> |rows[i]| >= 1
    requires EndsPattern(after)
    ensures ParseRows(PatternText(rows) + after) == Ok(rows, after)
  {
    var items := seq(|rows|, i requires 0 <= i < |rows| => RowText(rows[i]));
    RowShrinks();
    forall i, t | 0 <= i < |items| && Follows(t, '\n', after)
      ensures ParseRow(items[i] + t) == Ok(rows[i], t)
    {
      RowRoundTrip(rows[i], t);
    }
    assert Stops(ParseRow, '\n', after) by {
      if |after| >= 1 && after[0] == '\n' {
        assert |after[1..]| == 0 || !IsFeatureChar(after[1..][0]);
      }
    }
    SeparatedList1Join(ParseRow, '\n', items, rows, after);
  }

  /** A written pattern is read back. */
  lemma PatternRoundTrip(p: seq<seq<Feature>>, after: string)
    requires IsPattern(p)
    requires EndsPattern(after)
    ensures ParsePattern(PatternText(p) + after) == Some(Ok(p, after))
  {
    RowsRoundTrip(p, after);
  }

  /** Written rows of different lengths make the source's assertion fail. */
  lemma RaggedPatternPanics(rows: seq<seq<Feature>>, after: string)
    requires |rows| >= 1 && forall i :: 0 <= i < |rows| ==> |rows[i]| >= 1
    requires !IsPattern(rows)
    requires EndsPattern(after)
    ensures ParsePattern(PatternText(rows) + after).None?
  {
    RowsRoundTrip(rows, after);
  }

  /** After a pattern and a blank line, the notes parser reads the rest of the notes
      and puts the pattern in front of them; a failed assertion in the rest fails the
      whole read. */
  lemma NotesCons(s: string, p: seq<seq<Feature>>, tail: string)
    requires ParsePattern(s + ("\n\n" + tail)) == Some(Ok(p, "\n\n" + tail))
    ensures ParseNotes(tail).None? ==> ParseNotes(s + ("\n\n" + tail)).None?
    ensures ParseNotes(tail).Some? && ParseNotes(tail).value.Ok? ==>
      ParseNotes(s + ("\n\n" + tail)) == Some(Ok([p] + ParseNotes(tail).value.value, ParseNotes(tail).value.rest))
  {
    var after := "\n\n" + tail;
    assert after[..2] == "\n\n" && after[2..] == tail;
  }

  /** The notes parser stops after a pattern that no blank line follows. */
  lemma NotesStop(s: string, first: seq<seq<Feature>>, rest: string)
    requires ParsePattern(s) == Some(Ok(first, rest))
    requires !(|rest| >= 2 && rest[0] == '\n' && rest[1] == '\n')
    ensures ParseNotes(s) == Some(Ok([first], rest))
  {
    assert |rest| >= 2 ==> (rest[..2] == "\n\n" <==> rest[0] == '\n' && rest[1] == '\n');
  }

  /** Notes of several patterns are the first pattern, a blank line and the rest. */
  lemma NotesTextCons(p: seq<seq<Feature>>, others: seq<seq<seq<Feature>>>, t: string)
    requires |p| >= 1 && |others| >= 1 && forall k :: 0 <= k < |others| ==> |others[k]| >= 1
    ensures forall k :: 0 <= k < |[p] + others| ==> |([p] + others)[k]| >= 1
    ensures NotesText([p] + others) + t == PatternText(p) + ("\n\n" + (NotesText(others) + t))
  {
    assert forall k :: 1 <= k < |[p] + others| ==> ([p] + others)[k] == others[k - 1];
    assert ([p] + others)[1..] == others;
    Sequences.Assoc4(PatternText(p), "\n\n", NotesText(others), t);
  }

  /** Written notes are read back, up to a text after them that neither continues
      the last pattern nor starts with a blank line. */
  lemma {:induction false} NotesRoundTrip(patterns: seq<seq<seq<Feature>>>, t: string)
    requires |patterns| >= 1 && forall k :: 0 <= k < |patterns| ==> IsPattern(patterns[k])
    requires EndsPattern(t) && !(|t| >= 2 && t[0] == '\n' && t[1] == '\n')
    ensures forall k :: 0 <= k < |patterns| ==> |patterns[k]| >= 1
    ensures ParseNotes(NotesText(patterns) + t) == Some(Ok(patterns, t))
    decreases |patterns|
  {
    assert forall k :: 0 <= k < |patterns| ==> |patterns[k]| >= 1 by {
      forall k | 0 <= k < |patterns| ensures |patterns[k]| >= 1 {
        assert IsPattern(patterns[k]);
      }
    }
    if |patterns| == 1 {
      PatternRoundTrip(patterns[0], t);
      NotesStop(PatternText(patterns[0]) + t, patterns[0], t);
      assert [patterns[0]] == patterns;
    } else {
      assert [patterns[0]] + patterns[1..] == patterns;
      NotesRoundTrip(patterns[1..], t);
      NotesRoundTripStep(patterns[0], patterns[1..], t);
    }
  }

  /** The step of the round trip: a pattern in front of notes that are read back. */
  lemma NotesRoundTripStep(p: seq<seq<Feature>>, others: seq<seq<seq<Feature>>>, t: string)
    requires IsPattern(p)
    requires |others| >= 1 && forall k :: 0 <= k < |others| ==> |others[k]| >= 1
    requires ParseNotes(NotesText(others) + t) == Some(Ok(others, t))
    ensures forall k :: 0 <= k < |[p] + others| ==> |([p] + others)[k]| >= 1
    ensures ParseNotes(NotesText([p] + others) + t) == Some(Ok([p] + others, t))
  {
    var tail := NotesText(others) + t;
    NotesTextCons(p, others, t);
    PatternRoundTrip(p, "\n\n" + tail);
    NotesCons(PatternText(p), p, tail);
  }

  /** A ragged pattern after a blank line makes the whole read fail, rather than
      ending the list before it. */
  lemma LaterRaggedPatternPanics(p: seq<seq<Feature>>, rows: seq<seq<Feature>>, t: string)
    requires IsPattern(p)
    requires |rows| >= 1 && forall i :: 0 <= i < |rows| ==> |rows[i]| >= 1
    requires !IsPattern(rows)
    requires EndsPattern(t)
    ensures ParseNotes(PatternText(p) + "\n\n" + PatternText(rows) + t).None?
  {
    var tail := PatternText(rows) + t;
    Sequences.Assoc4(PatternText(p), "\n\n", PatternText(rows), t);
    PatternRoundTrip(p, "\n\n" + tail);
    RaggedPatternPanics(rows, t);
    NotesCons(PatternText(p), p, tail);
  }
}

=== FILE: day14_tilting.dfy ===
/** Day 14, "Parabolic Reflector Dish": a platform of round rocks, which roll, and
    cube-shaped rocks, which stay put. Tilting the platform rolls every round rock as
    far as it goes; the load on the north support beams weighs each round rock by its
    distance from the south edge. */
module Tilting {
  import opened Sequences
  import opened Parsing
  import Text

  /** A cell of the platform: the source's `Option<Rock>`, with `None` as `Empty`. */
  datatype Cell = Empty | Round | Cubic

  datatype Direction = North | South | East | West

  /** The derived order of `Option<Rock>`: `None < Some(Round) < Some(Cubic)`. */
  function Rank(c: Cell): nat
  {
    match c
    case Empty => 0
    case Round => 1
    case Cubic => 2
  }

  predicate IsCubic(c: Cell)
  {
    c == Cubic
  }

  predicate IsCellChar(c: char)
  {
    c == '.' || c == 'O' || c == '#'
  }

  /** `parse_maybe_rock`. */
  function ParseCell(c: char): (r: Option<Cell>)
    ensures r.Some? <==> IsCellChar(c)
  {
    match c
    case '.' => Some(Empty)
    case 'O' => Some(Round)
    case '#' => Some(Cubic)
    case _ => None
  }

  function CellChar(c: Cell): (ch: char)
    ensures IsCellChar(ch) && ParseCell(ch) == Some(c)
  {
    match c
    case Empty => '.'
    case Round => 'O'
    case Cubic => '#'
  }

  // ---------------------------------------------------------------------------
  // Sorting a run of cells

  predicate Ascending(s: seq<Cell>)
  {
    forall i :: 0 < i < |s| ==> Rank(s[i - 1]) <= Rank(s[i])
  }

  /** Inserts `x` into an ascending sequence. */
  function Insert(x: Cell, s: seq<Cell>): (r: seq<Cell>)
    requires Ascending(s)
    ensures |r| == |s| + 1
    ensures Ascending(r) && multiset(r) == multiset(s) + multiset{x}
    ensures r[0] == x || (|s| > 0 && r[0] == s[0])
  {
    if |s| == 0 || Rank(x) <= Rank(s[0]) then [x] + s
    else
      assert s == [s[0]] + s[1..];
      [s[0]] + Insert(x, s[1..])
  }

  /** `sorted()`: the cells in ascending order. */
  function Sort(s: seq<Cell>): (r: seq<Cell>)
    ensures |r| == |s|
    ensures Ascending(r) && multiset(r) == multiset(s)
  {
    if |s| == 0 then []
    else
      assert s == [s[0]] + s[1..];
      Insert(s[0], Sort(s[1..]))
  }

  /** The first element of an ascending sequence is its least. */
  lemma {:induction false} AscendingLeast(s: seq<Cell>, i: nat)
    requires Ascending(s) && i < |s|
    ensures Rank(s[0]) <= Rank(s[i])
  {
    if i > 0 {
      AscendingLeast(s, i - 1);
    }
  }

  /** An ascending arrangement of a multiset is unique. */
  lemma {:induction false} AscendingUnique(a: seq<Cell>, b: seq<Cell>)
    requires Ascending(a) && Ascending(b) && multiset(a) == multiset(b)
    ensures a == b
  {
    assert |a| == |multiset(a)| == |multiset(b)| == |b|;
    if |a| > 0 {
      AscendingSameHead(a, b);
      SameTails(a, b);
      AscendingUnique(a[1..], b[1..]);
      assert a == [a[0]] + a[1..];
      assert b == [b[0]] + b[1..];
    }
  }

  lemma AscendingSameHead(a: seq<Cell>, b: seq<Cell>)
    requires Ascending(a) && Ascending(b) && multiset(a) == multiset(b)
    requires |a| > 0 && |b| > 0
    ensures a[0] == b[0]
  {
    assert a[0] in multiset(b);
    assert b[0] in multiset(a);
    var i :| 0 <= i < |b| && b[i] == a[0];
    var j :| 0 <= j < |a| && a[j] == b[0];
    AscendingLeast(b, i);
    AscendingLeast(a, j);
  }

  /** Removing the same first element from equal multisets leaves equal multisets. */
  lemma SameTails(a: seq<Cell>, b: seq<Cell>)
    requires |a| > 0 && |b| > 0 && a[0] == b[0] && multiset(a) == multiset(b)
    ensures multiset(a[1..]) == multiset(b[1..])
  {
    assert a == [a[0]] + a[1..];
    assert b == [b[0]] + b[1..];
    assert multiset(a) == multiset{a[0]} + multiset(a[1..]);
    assert multiset(b) == multiset{b[0]} + multiset(b[1..]);
    assert multiset(a[1..]) == multiset(a) - multiset{a[0]};
    assert multiset(b[1..]) == multiset(b) - multiset{b[0]};
  }

  /** Sorting an ascending sequence leaves it as it is. */
  lemma SortAscending(s: seq<Cell>)
    requires Ascending(s)
    ensures Sort(s) == s
  {
    AscendingUnique(Sort(s), s);
  }

  // ---------------------------------------------------------------------------
  // Tilting one line

  /** A round rock at `after` could still roll onto `before` when the line is tilted
      towards its start (North, West) or towards its end (South, East). */
  predicate CanRoll(before: Cell, after: Cell, towardStart: bool)
  {
    if towardStart then before == Empty && after == Round else before == Round && after == Empty
  }

  /** No round rock in `s` can roll any further. */
  predicate Settled(s: seq<Cell>, towardStart: bool)
  {
    forall i :: 0 < i < |s| ==> !CanRoll(s[i - 1], s[i], towardStart)
  }

  /** One segment after tilting: `sorted()` towards the end, `sorted().rev()` towards
      the start. */
  function Arranged(g: seq<Cell>, towardStart: bool): (r: seq<Cell>)
    ensures |r| == |g| && multiset(r) == multiset(g)
  {
    if towardStart then
      ReverseMultiset(Sort(g));
      Reverse(Sort(g))
    else Sort(g)
  }

  /** All cells of `g` are cube rocks, or none is. */
  predicate Homogeneous(g: seq<Cell>)
  {
    |g| > 0 && forall i :: 0 <= i < |g| ==> IsCubic(g[i]) == IsCubic(g[0])
  }

  /** The segments of a line between the cube rocks: homogeneous runs that alternate
      between cube rocks and the rest. */
  predicate Segments(gs: seq<seq<Cell>>)
  {
    && (forall k :: 0 <= k < |gs| ==> Homogeneous(gs[k]))
    && (forall k :: 0 < k < |gs| ==> IsCubic(gs[k][0]) != IsCubic(gs[k - 1][0]))
  }

  lemma GroupingSegments(gs: seq<seq<Cell>>, s: seq<Cell>)
    requires IsGrouping(gs, s, IsCubic)
    ensures Segments(gs)
  {
  }

  /** Arranging a homogeneous segment keeps it homogeneous and leaves it settled. */
  lemma ArrangedSegment(g: seq<Cell>, towardStart: bool)
    requires Homogeneous(g)
    ensures Homogeneous(Arranged(g, towardStart))
    ensures forall i :: 0 <= i < |g| ==> (IsCubic(Arranged(g, towardStart)[i]) <==> IsCubic(g[0]))
    ensures Settled(Arranged(g, towardStart), towardStart)
  {
    ArrangedKind(g, towardStart);
    if towardStart {
      ReversedSettled(Sort(g));
    }
  }

  lemma ArrangedKind(g: seq<Cell>, towardStart: bool)
    requires Homogeneous(g)
    ensures forall i :: 0 <= i < |g| ==> (IsCubic(Arranged(g, towardStart)[i]) <==> IsCubic(g[0]))
  {
    var r := Arranged(g, towardStart);
    forall i | 0 <= i < |r|
      ensures IsCubic(r[i]) <==> IsCubic(g[0])
    {
      assert r[i] in multiset(g);
    }
  }

  /** An ascending line, reversed, is settled towards its start. */
  lemma ReversedSettled(s: seq<Cell>)
    requires Ascending(s)
    ensures Settled(Reverse(s), true)
  {
    var r := Reverse(s);
    forall i | 0 < i < |r|
      ensures !CanRoll(r[i - 1], r[i], true)
    {
      assert r[i - 1] == s[|s| - i] && r[i] == s[|s| - 1 - i];
    }
  }

  /** The segments, each arranged. */
  function ArrangeAll(gs: seq<seq<Cell>>, towardStart: bool): (r: seq<seq<Cell>>)
    ensures |r| == |gs| && forall k :: 0 <= k < |gs| ==> r[k] == Arranged(gs[k], towardStart)
  {
    if |gs| == 0 then [] else [Arranged(gs[0], towardStart)] + ArrangeAll(gs[1..], towardStart)
  }

  /** Two settled lines stay settled when joined where a cube rock blocks the seam. */
  lemma SettledConcat(a: seq<Cell>, b: seq<Cell>, towardStart: bool)
    requires Settled(a, towardStart) && Settled(b, towardStart)
    requires |a| > 0 && |b| > 0 ==> IsCubic(a[|a| - 1]) || IsCubic(b[0])
    ensures Settled(a + b, towardStart)
  {
    var c := a + b;
    forall i | 0 < i < |c|
      ensures !CanRoll(c[i - 1], c[i], towardStart)
    {
      if i < |a| {
        assert c[i - 1] == a[i - 1] && c[i] == a[i];
      } else if i > |a| {
        assert c[i - 1] == b[i - 1 - |a|] && c[i] == b[i - |a|];
      }
    }
  }

  /** Arranging each segment keeps the cells' count and the cube rocks where they
      were, and leaves the whole line settled. */
  lemma ArrangeAllProperties(gs: seq<seq<Cell>>, towardStart: bool)
    requires Segments(gs)
    ensures |Flatten(ArrangeAll(gs, towardStart))| == |Flatten(gs)|
    ensures multiset(Flatten(ArrangeAll(gs, towardStart))) == multiset(Flatten(gs))
    ensures forall i :: 0 <= i < |Flatten(gs)| ==>
      (IsCubic(Flatten(ArrangeAll(gs, towardStart))[i]) <==> IsCubic(Flatten(gs)[i]))
    ensures Settled(Flatten(ArrangeAll(gs, towardStart)), towardStart)
    ensures |gs| > 0 ==>
      (|Flatten(gs)| > 0 && (IsCubic(Flatten(ArrangeAll(gs, towardStart))[0]) <==> IsCubic(gs[0][0])))
  {
    ArrangeAllKinds(gs, towardStart);
    ArrangeAllSettled(gs, towardStart);
  }

  lemma SegmentsTail(gs: seq<seq<Cell>>)
    requires Segments(gs) && |gs| > 0
    ensures Segments(gs[1..])
  {
    assert forall k :: 0 < k < |gs| - 1 ==> gs[1..][k] == gs[k + 1] && gs[1..][k - 1] == gs[k];
  }

  /** Arranging each segment keeps the line's length, its rocks and the places of its
      cube rocks. */
  lemma {:induction false} ArrangeAllKinds(gs: seq<seq<Cell>>, towardStart: bool)
    requires Segments(gs)
    ensures |Flatten(ArrangeAll(gs, towardStart))| == |Flatten(gs)|
    ensures multiset(Flatten(ArrangeAll(gs, towardStart))) == multiset(Flatten(gs))
    ensures forall i :: 0 <= i < |Flatten(gs)| ==>
      (IsCubic(Flatten(ArrangeAll(gs, towardStart))[i]) <==> IsCubic(Flatten(gs)[i]))
    ensures |gs| > 0 ==>
      (|Flatten(gs)| > 0 && (IsCubic(Flatten(ArrangeAll(gs, towardStart))[0]) <==> IsCubic(gs[0][0])))
  {
    if |gs| > 0 {
      var rs := ArrangeAll(gs, towardStart);
      var head := rs[0];
      assert rs[1..] == ArrangeAll(gs[1..], towardStart);
      var tail := Flatten(rs[1..]);
      var source := Flatten(gs[1..]);
      SegmentsTail(gs);
      ArrangeAllKinds(gs[1..], towardStart);
      ArrangedKind(gs[0], towardStart);
      assert Flatten(rs) == head + tail;
      assert Flatten(gs) == gs[0] + source;
      SameKindsConcat(head, gs[0], tail, source);
    }
  }

  /** Arranging each segment leaves the whole line settled. */
  lemma {:induction false} ArrangeAllSettled(gs: seq<seq<Cell>>, towardStart: bool)
    requires Segments(gs)
    ensures Settled(Flatten(ArrangeAll(gs, towardStart)), towardStart)
  {
    if |gs| > 0 {
      var rs := ArrangeAll(gs, towardStart);
      var head := rs[0];
      assert rs[1..] == ArrangeAll(gs[1..], towardStart);
      var tail := Flatten(rs[1..]);
      SegmentsTail(gs);
      ArrangeAllSettled(gs[1..], towardStart);
      ArrangedSegment(gs[0], towardStart);
      assert Flatten(rs) == head + tail;
      if |gs| > 1 {
        ArrangeAllKinds(gs[1..], towardStart);
        assert gs[1..][0] == gs[1];
        assert IsCubic(head[|head| - 1]) <==> IsCubic(gs[0][0]);
      }
      SettledConcat(head, tail, towardStart);
    }
  }

  /** Lines with cube rocks in the same places, joined, have them in the same places. */
  lemma SameKindsConcat(a: seq<Cell>, b: seq<Cell>, c: seq<Cell>, d: seq<Cell>)
    requires |a| == |b| && forall i :: 0 <= i < |a| ==> (IsCubic(a[i]) <==> IsCubic(b[i]))
    requires |c| == |d| && forall i :: 0 <= i < |c| ==> (IsCubic(c[i]) <==> IsCubic(d[i]))
    ensures forall i :: 0 <= i < |a + c| ==> (IsCubic((a + c)[i]) <==> IsCubic((b + d)[i]))
  {
    forall i | 0 <= i < |a + c|
      ensures IsCubic((a + c)[i]) <==> IsCubic((b + d)[i])
    {
      if i < |a| {
        assert (a + c)[i] == a[i] && (b + d)[i] == b[i];
      } else {
        assert (a + c)[i] == c[i - |a|] && (b + d)[i] == d[i - |a|];
      }
    }
  }

  /** Tilting one row or column: each segment between cube rocks is sorted, the round
      rocks to the start of the segment or to its end. */
  function TiltLine(line: seq<Cell>, towardStart: bool): (r: seq<Cell>)
    ensures |r| == |line| && multiset(r) == multiset(line)
    ensures forall i :: 0 <= i < |line| ==> (IsCubic(r[i]) <==> IsCubic(line[i]))
    ensures Settled(r, towardStart)
  {
    var gs := GroupBy(line, IsCubic);
    ArrangeAllProperties(gs, towardStart);
    Flatten(ArrangeAll(gs, towardStart))
  }

  /** Round rocks never pass a cube rock: the segments of the tilted line are the
      original segments, each rearranged. */
  lemma TiltKeepsSegments(line: seq<Cell>, towardStart: bool)
    ensures |GroupBy(TiltLine(line, towardStart), IsCubic)| == |GroupBy(line, IsCubic)|
    ensures forall k :: 0 <= k < |GroupBy(line, IsCubic)| ==>
      multiset(GroupBy(TiltLine(line, towardStart), IsCubic)[k]) == multiset(GroupBy(line, IsCubic)[k])
  {
    var gs := GroupBy(line, IsCubic);
    var rs := ArrangeAll(gs, towardStart);
    assert TiltLine(line, towardStart) == Flatten(rs);
    ArrangedIsGrouping(gs, towardStart);
    GroupByOfGrouping(rs, Flatten(rs), IsCubic);
    assert GroupBy(TiltLine(line, towardStart), IsCubic) == rs;
    forall k | 0 <= k < |gs|
      ensures multiset(rs[k]) == multiset(gs[k])
    {
      assert rs[k] == Arranged(gs[k], towardStart);
    }
  }

  /** The arranged segments are the grouping of their concatenation. */
  lemma ArrangedIsGrouping(gs: seq<seq<Cell>>, towardStart: bool)
    requires Segments(gs)
    ensures IsGrouping(ArrangeAll(gs, towardStart), Flatten(ArrangeAll(gs, towardStart)), IsCubic)
  {
    var rs := ArrangeAll(gs, towardStart);
    forall k | 0 <= k < |rs|
      ensures Homogeneous(rs[k])
      ensures IsCubic(rs[k][0]) == IsCubic(gs[k][0])
    {
      ArrangedSegment(gs[k], towardStart);
    }
    forall k, j | 0 <= k < |rs| && 0 <= j < |rs[k]|
      ensures IsCubic(rs[k][j]) == IsCubic(rs[k][0])
    {
      assert Homogeneous(rs[k]);
    }
  }

  /** A settled homogeneous segment is its own arrangement. */
  lemma ArrangedSettled(g: seq<Cell>, towardStart: bool)
    requires Homogeneous(g) && Settled(g, towardStart)
    ensures Arranged(g, towardStart) == g
  {
    if towardStart {
      var rg := Reverse(g);
      forall i | 0 < i < |rg|
        ensures Rank(rg[i - 1]) <= Rank(rg[i])
      {
        assert rg[i - 1] == g[|g| - i] && rg[i] == g[|g| - 1 - i];
        assert IsCubic(g[|g| - i]) == IsCubic(g[|g| - 1 - i]);
      }
      ReverseMultiset(g);
      AscendingUnique(Sort(g), rg);
      ReverseReverse(g);
    } else {
      forall i | 0 < i < |g|
        ensures Rank(g[i - 1]) <= Rank(g[i])
      {
        assert IsCubic(g[i - 1]) == IsCubic(g[i]);
      }
      SortAscending(g);
    }
  }

  /** Each segment of a settled line is settled. */
  lemma {:induction false} SettledSegments(gs: seq<seq<Cell>>, towardStart: bool)
    requires Segments(gs) && Settled(Flatten(gs), towardStart)
    ensures ArrangeAll(gs, towardStart) == gs
  {
    if |gs| > 0 {
      var s := Flatten(gs);
      assert s == gs[0] + Flatten(gs[1..]);
      assert Settled(gs[0], towardStart) by {
        forall i | 0 < i < |gs[0]|
          ensures !CanRoll(gs[0][i - 1], gs[0][i], towardStart)
        {
          assert s[i - 1] == gs[0][i - 1] && s[i] == gs[0][i];
        }
      }
      var t := Flatten(gs[1..]);
      assert Settled(t, towardStart) by {
        forall i | 0 < i < |t|
          ensures !CanRoll(t[i - 1], t[i], towardStart)
        {
          assert s[|gs[0]| + i - 1] == t[i - 1] && s[|gs[0]| + i] == t[i];
        }
      }
      assert Segments(gs[1..]) by {
        assert forall k :: 0 < k < |gs| - 1 ==> gs[1..][k] == gs[k + 1] && gs[1..][k - 1] == gs[k];
      }
      SettledSegments(gs[1..], towardStart);
      ArrangedSettled(gs[0], towardStart);
      assert ArrangeAll(gs, towardStart) == [gs[0]] + gs[1..];
    }
  }

  /** Tilting a settled line changes nothing. */
  lemma TiltSettled(line: seq<Cell>, towardStart: bool)
    requires Settled(line, towardStart)
    ensures TiltLine(line, towardStart) == line
  {
    var gs := GroupBy(line, IsCubic);
    SettledSegments(gs, towardStart);
  }

  /** Tilting twice in one direction is tilting once. */
  lemma TiltIdempotent(line: seq<Cell>, towardStart: bool)
    ensures TiltLine(TiltLine(line, towardStart), towardStart) == TiltLine(line, towardStart)
  {
    TiltSettled(TiltLine(line, towardStart), towardStart);
  }

  // ---------------------------------------------------------------------------
  // The platform

  /** A platform: at least one row, every row of the same non-zero length. */
  predicate IsGrid(g: seq<seq<Cell>>)
  {
    |g| >= 1 && |g[0]| >= 1 && forall i :: 0 <= i < |g| ==> |g[i]| == |g[0]|
  }

  function Column(g: seq<seq<Cell>>, j: nat): (c: seq<Cell>)
    requires IsGrid(g) && j < |g[0]|
    ensures |c| == |g| && forall i :: 0 <= i < |g| ==> c[i] == g[i][j]
  {
    seq(|g|, i requires 0 <= i < |g| => g[i][j])
  }

  /** Rows become columns: the `.f()` (column-major) reshape of the tilted columns. */
  function Transpose(g: seq<seq<Cell>>): (t: seq<seq<Cell>>)
    requires IsGrid(g)
    ensures IsGrid(t) && |t| == |g[0]| && |t[0]| == |g|
    ensures forall j, i :: 0 <= j < |t| && 0 <= i < |g| ==> t[j][i] == g[i][j]
  {
    seq(|g[0]|, j requires 0 <= j < |g[0]| => Column(g, j))
  }

  function TowardStart(d: Direction): bool
  {
    d == North || d == West
  }

  predicate IsVertical(d: Direction)
  {
    d == North || d == South
  }

  /** No round rock can roll any further along any column. */
  predicate ColumnsSettled(g: seq<seq<Cell>>, towardStart: bool)
    requires IsGrid(g)
  {
    forall j :: 0 <= j < |g[0]| ==> Settled(Column(g, j), towardStart)
  }

  /** No round rock can roll any further along any row. */
  predicate RowsSettled(g: seq<seq<Cell>>, towardStart: bool)
  {
    forall i :: 0 <= i < |g| ==> Settled(g[i], towardStart)
  }

  /** No round rock can roll any further in direction `d`. */
  predicate SettledIn(g: seq<seq<Cell>>, d: Direction)
    requires IsGrid(g)
  {
    if IsVertical(d) then ColumnsSettled(g, TowardStart(d)) else RowsSettled(g, TowardStart(d))
  }

  /** The platform keeps its shape and its cube rocks. */
  predicate SameFrame(r: seq<seq<Cell>>, g: seq<seq<Cell>>)
    requires IsGrid(g)
  {
    && IsGrid(r) && |r| == |g| && |r[0]| == |g[0]|
    && forall i, j :: 0 <= i < |g| && 0 <= j < |g[0]| ==> (IsCubic(r[i][j]) <==> IsCubic(g[i][j]))
  }

  /** Tilting North (towards the first row) or South: every column tilted, keeping
      its rocks. */
  function TiltColumns(g: seq<seq<Cell>>, towardStart: bool): (r: seq<seq<Cell>>)
    requires IsGrid(g)
    ensures SameFrame(r, g) && ColumnsSettled(r, towardStart)
    ensures forall j :: 0 <= j < |g[0]| ==> Column(r, j) == TiltLine(Column(g, j), towardStart)
    ensures forall j :: 0 <= j < |g[0]| ==> multiset(Column(r, j)) == multiset(Column(g, j))
  {
    var columns := seq(|g[0]|, j requires 0 <= j < |g[0]| => TiltLine(Column(g, j), towardStart));
    TransposedColumns(g, towardStart, columns);
    Transpose(columns)
  }

  /** Putting the tilted columns back as columns. */
  lemma TransposedColumns(g: seq<seq<Cell>>, towardStart: bool, columns: seq<seq<Cell>>)
    requires IsGrid(g)
    requires |columns| == |g[0]|
    requires forall j :: 0 <= j < |g[0]| ==> columns[j] == TiltLine(Column(g, j), towardStart)
    ensures IsGrid(columns)
    ensures SameFrame(Transpose(columns), g)
    ensures forall j :: 0 <= j < |g[0]| ==> Column(Transpose(columns), j) == columns[j]
  {
    assert forall j :: 0 <= j < |g[0]| ==> |columns[j]| == |g|;
    ColumnsOfTranspose(columns);
    var r := Transpose(columns);
    forall i, j | 0 <= i < |g| && 0 <= j < |g[0]|
      ensures IsCubic(r[i][j]) <==> IsCubic(g[i][j])
    {
      assert r[i][j] == columns[j][i];
      assert Column(g, j)[i] == g[i][j];
    }
  }

  /** The columns of a transposed grid are its rows. */
  lemma ColumnsOfTranspose(g: seq<seq<Cell>>)
    requires IsGrid(g)
    ensures forall j :: 0 <= j < |g| ==> Column(Transpose(g), j) == g[j]
  {
    var t := Transpose(g);
    forall j | 0 <= j < |g|
      ensures Column(t, j) == g[j]
    {
      assert |Column(t, j)| == |g[j]|;
    }
  }

  /** Tilting West (towards the first column) or East: every row tilted, keeping its
      rocks. */
  function TiltRows(g: seq<seq<Cell>>, towardStart: bool): (r: seq<seq<Cell>>)
    requires IsGrid(g)
    ensures SameFrame(r, g) && RowsSettled(r, towardStart)
    ensures forall i :: 0 <= i < |g| ==> r[i] == TiltLine(g[i], towardStart)
    ensures forall i :: 0 <= i < |g| ==> multiset(r[i]) == multiset(g[i])
  {
    var r := seq(|g|, i requires 0 <= i < |g| => TiltLine(g[i], towardStart));
    TiltedRows(g, towardStart, r);
    r
  }

  lemma TiltedRows(g: seq<seq<Cell>>, towardStart: bool, r: seq<seq<Cell>>)
    requires IsGrid(g)
    requires |r| == |g| && forall i :: 0 <= i < |g| ==> r[i] == TiltLine(g[i], towardStart)
    ensures SameFrame(r, g) && RowsSettled(r, towardStart)
  {
    forall i, j | 0 <= i < |g| && 0 <= j < |g[0]|
      ensures IsCubic(r[i][j]) <==> IsCubic(g[i][j])
    {
      assert r[i] == TiltLine(g[i], towardStart);
    }
  }

  /** `tilted_in`: the platform keeps its shape and its cube rocks, every row (East,
      West) or column (North, South) keeps its rocks, no round rock can roll any
      further, and each row or column is tilted on its own, segment by segment
      between its cube rocks (`TiltKeepsSegments`). */
  function TiltedIn(g: seq<seq<Cell>>, d: Direction): (r: seq<seq<Cell>>)
    requires IsGrid(g)
    ensures SameFrame(r, g) && SettledIn(r, d)
    ensures !IsVertical(d) ==> forall i :: 0 <= i < |g| ==> multiset(r[i]) == multiset(g[i])
    ensures IsVertical(d) ==> forall j :: 0 <= j < |g[0]| ==> multiset(Column(r, j)) == multiset(Column(g, j))
    ensures !IsVertical(d) ==> forall i :: 0 <= i < |g| ==> r[i] == TiltLine(g[i], TowardStart(d))
    ensures IsVertical(d) ==> forall j :: 0 <= j < |g[0]| ==> Column(r, j) == TiltLine(Column(g, j), TowardStart(d))
  {
    if IsVertical(d) then TiltColumns(g, TowardStart(d)) else TiltRows(g, TowardStart(d))
  }

  /** Tilting a platform on which nothing can roll changes nothing. */
  lemma TiltedSettled(g: seq<seq<Cell>>, d: Direction)
    requires IsGrid(g) && SettledIn(g, d)
    ensures TiltedIn(g, d) == g
  {
    if IsVertical(d) {
      ColumnsTiltSettled(g, TowardStart(d));
    } else {
      RowsTiltSettled(g, TowardStart(d));
    }
  }

  /** A cube rock stops a round rock: tilting the row `O#.` East leaves it as it is. */
  lemma CubeStopsRoundRock(line: seq<Cell>)
    requires line == [Round, Cubic, Empty]
    ensures TiltedIn([line], East) == [line]
  {
    assert Settled(line, false);
    SettledRowStays([line], East);
  }

  /** A platform of one row stays as it is when tilted along a row that is settled;
      proved from the row-by-row ensures of `TiltedIn` alone. */
  lemma SettledRowStays(g: seq<seq<Cell>>, d: Direction)
    requires IsGrid(g) && |g| == 1 && !IsVertical(d) && Settled(g[0], TowardStart(d))
    ensures TiltedIn(g, d) == g
  {
    var r := TiltedIn(g, d);
    assert |r| == 1;
    TiltSettled(g[0], TowardStart(d));
    assert r == [r[0]] && g == [g[0]];
  }

  lemma ColumnsTiltSettled(g: seq<seq<Cell>>, towardStart: bool)
    requires IsGrid(g) && ColumnsSettled(g, towardStart)
    ensures TiltColumns(g, towardStart) == g
  {
    var r := TiltColumns(g, towardStart);
    forall i | 0 <= i < |g|
      ensures r[i] == g[i]
    {
      forall j | 0 <= j < |g[0]|
        ensures r[i][j] == g[i][j]
      {
        TiltSettled(Column(g, j), towardStart);
        assert Column(r, j)[i] == r[i][j];
      }
    }
  }

  lemma RowsTiltSettled(g: seq<seq<Cell>>, towardStart: bool)
    requires IsGrid(g) && RowsSettled(g, towardStart)
    ensures TiltRows(g, towardStart) == g
  {
    var r := TiltRows(g, towardStart);
    forall i | 0 <= i < |g|
      ensures r[i] == g[i]
    {
      TiltSettled(g[i], towardStart);
    }
  }

  /** Tilting twice in one direction is tilting once. */
  lemma TiltedIdempotent(g: seq<seq<Cell>>, d: Direction)
    requires IsGrid(g)
    ensures TiltedIn(TiltedIn(g, d), d) == TiltedIn(g, d)
  {
    TiltedSettled(TiltedIn(g, d), d);
  }

  /** `successor` in part two: one spin cycle, tilting North, West, South, East. */
  function Successor(g: seq<seq<Cell>>): (r: seq<seq<Cell>>)
    requires IsGrid(g)
    ensures SameFrame(r, g) && SettledIn(r, East)
  {
    var north := TiltedIn(g, North);
    var west := TiltedIn(north, West);
    var south := TiltedIn(west, South);
    TiltedIn(south, East)
  }

  // ---------------------------------------------------------------------------
  // Load

  /** Round rocks in `row` from position `j` on. */
  function RoundsFrom(row: seq<Cell>, j: nat): nat
    decreases |row| - j
  {
    if j >= |row| then 0 else (if row[j] == Round then 1 else 0) + RoundsFrom(row, j + 1)
  }

  /** `load` over the rows from `i` on: a row at index `i` weighs `row_count - i` per
      round rock. */
  function LoadFrom(g: seq<seq<Cell>>, i: nat): nat
    decreases |g| - i
  {
    if i >= |g| then 0 else (|g| - i) * RoundsFrom(g[i], 0) + LoadFrom(g, i + 1)
  }

  function Load(g: seq<seq<Cell>>): (l: nat)
    ensures IsGrid(g) ==> l == ColumnsLoadFrom(g, 0, 0)
  {
    if IsGrid(g) then LoadByColumns(g, 0); LoadFrom(g, 0)
    else LoadFrom(g, 0)
  }

  /** The load of one column from position `i` on: each round rock weighs its distance
      from the south edge. */
  function ColumnLoadFrom(column: seq<Cell>, i: nat): nat
    decreases |column| - i
  {
    if i >= |column| then 0
    else (if column[i] == Round then |column| - i else 0) + ColumnLoadFrom(column, i + 1)
  }

  /** Column loads of the columns from `j` on, counting rows from `i` on. */
  function ColumnsLoadFrom(g: seq<seq<Cell>>, j: nat, i: nat): nat
    requires IsGrid(g)
    decreases |g[0]| - j
  {
    if j >= |g[0]| then 0 else ColumnLoadFrom(Column(g, j), i) + ColumnsLoadFrom(g, j + 1, i)
  }

  /** Row `i`'s contribution to the columns from `j` on. */
  function RowWeight(g: seq<seq<Cell>>, i: nat, j: nat): nat
    requires IsGrid(g) && i < |g|
    decreases |g[0]| - j
  {
    if j >= |g[0]| then 0
    else (if g[i][j] == Round then |g| - i else 0) + RowWeight(g, i, j + 1)
  }

  lemma {:induction false} RowWeightIsScaled(g: seq<seq<Cell>>, i: nat, j: nat)
    requires IsGrid(g) && i < |g|
    ensures RowWeight(g, i, j) == (|g| - i) * RoundsFrom(g[i], j)
    decreases |g[0]| - j
  {
    if j < |g[0]| {
      RowWeightIsScaled(g, i, j + 1);
      var n := |g| - i;
      var rest := RoundsFrom(g[i], j + 1);
      assert n * ((if g[i][j] == Round then 1 else 0) + rest)
          == n * (if g[i][j] == Round then 1 else 0) + n * rest;
    }
  }

  lemma {:induction false} ColumnsLoadStep(g: seq<seq<Cell>>, j: nat, i: nat)
    requires IsGrid(g) && i < |g|
    ensures ColumnsLoadFrom(g, j, i) == RowWeight(g, i, j) + ColumnsLoadFrom(g, j, i + 1)
    decreases |g[0]| - j
  {
    if j < |g[0]| {
      ColumnsLoadStep(g, j + 1, i);
    }
  }

  lemma {:induction false} ColumnsLoadPast(g: seq<seq<Cell>>, j: nat)
    requires IsGrid(g)
    ensures ColumnsLoadFrom(g, j, |g|) == 0
    decreases |g[0]| - j
  {
    if j < |g[0]| {
      ColumnsLoadPast(g, j + 1);
    }
  }

  /** The load counted row by row, as the source does, equals the load counted column
      by column, each round rock weighing its distance from the south edge. */
  lemma {:induction false} LoadByColumns(g: seq<seq<Cell>>, i: nat)
    requires IsGrid(g) && i <= |g|
    ensures LoadFrom(g, i) == ColumnsLoadFrom(g, 0, i)
    decreases |g| - i
  {
    if i < |g| {
      LoadByColumns(g, i + 1);
      ColumnsLoadStep(g, 0, i);
      RowWeightIsScaled(g, i, 0);
    } else {
      ColumnsLoadPast(g, 0);
    }
  }

  /** The load after tilting north is the sum over the columns of each tilted column's
      load. */
  lemma NorthLoadByColumns(g: seq<seq<Cell>>)
    requires IsGrid(g)
    ensures Load(TiltedIn(g, North)) == ColumnsLoadFrom(TiltedIn(g, North), 0, 0)
    ensures forall j :: 0 <= j < |g[0]| ==> Column(TiltedIn(g, North), j) == TiltLine(Column(g, j), true)
  {
    LoadByColumns(TiltedIn(g, North), 0);
  }

  // ---------------------------------------------------------------------------
  // Parsing

  /** `parse_rank`: `many1(parse_maybe_rock)`. */
  function ParseRank(s: string): (r: Parsed<seq<Cell>>)
    ensures r.Ok? <==> |s| > 0 && IsCellChar(s[0])
    ensures r.Ok? ==> |r.value| >= 1 && |r.rest| < |s|
  {
    match TakeWhile1(s, IsCellChar)
    case Fail => Fail
    case Ok(cs, rest) => Ok(seq(|cs|, j requires 0 <= j < |cs| => ParseCell(cs[j]).value), rest)
  }

  lemma RankShrinks()
    ensures Shrinks(ParseRank)
  {
  }

  /** `State::from_str`: the ranks separated by newlines; what follows them is
      ignored. A ragged platform fails the source's assertion, and fails here. */
  function ParseState(s: string): (r: Option<seq<seq<Cell>>>)
    ensures r.Some? ==> IsGrid(r.value)
    ensures r.Some? <==> SeparatedList1(ParseRank, '\n', s).Ok? && IsGrid(SeparatedList1(ParseRank, '\n', s).value)
  {
    RankShrinks();
    match SeparatedList1(ParseRank, '\n', s)
    case Fail => None
    case Ok(ranks, _) =>
      if forall i :: 0 <= i < |ranks| ==> |ranks[i]| == |ranks[0]| then
        assert ParseRank(s).Ok?;
        Some(ranks)
      else None
  }

  function RankText(row: seq<Cell>): (t: string)
    ensures |t| == |row| && forall j :: 0 <= j < |row| ==> t[j] == CellChar(row[j])
  {
    seq(|row|, j requires 0 <= j < |row| => CellChar(row[j]))
  }

  function GridText(g: seq<seq<Cell>>): string
    requires |g| >= 1
  {
    Text.Join(seq(|g|, i requires 0 <= i < |g| => RankText(g[i])), '\n')
  }

  lemma RankRoundTrip(row: seq<Cell>, t: string)
    requires |row| >= 1
    requires |t| == 0 || !IsCellChar(t[0])
    ensures ParseRank(RankText(row) + t) == Ok(row, t)
  {
    var text := RankText(row);
    assert forall j :: 0 <= j < |text| ==> IsCellChar(text[j]);
    TakeWhile1Word(text, t, IsCellChar);
    var r := ParseRank(text + t);
    assert r.Ok? && r.rest == t && |r.value| == |row|;
    forall j | 0 <= j < |row|
      ensures r.value[j] == row[j]
    {
      assert text[j] == CellChar(row[j]);
    }
    assert r.value == row;
  }

  /** Non-empty rows written one per line are read back as ranks, whatever their lengths. */
  lemma RanksRoundTrip(rows: seq<seq<Cell>>, t: string)
    requires |rows| >= 1 && forall i :: 0 <= i < |rows| ==> |rows[i]| >= 1
    requires |t| == 0 || (t[0] != '\n' && !IsCellChar(t[0]))
    ensures SeparatedList1(ParseRank, '\n', GridText(rows) + t) == Ok(rows, t)
  {
    var items := seq(|rows|, i requires 0 <= i < |rows| => RankText(rows[i]));
    RankShrinks();
    forall i, t' | 0 <= i < |items| && Follows(t', '\n', t)
      ensures ParseRank(items[i] + t') == Ok(rows[i], t')
    {
      RankRoundTrip(rows[i], t');
    }
    SeparatedList1Join(ParseRank, '\n', items, rows, t);
  }

  /** A written platform is read back. */
  lemma StateRoundTrip(g: seq<seq<Cell>>, t: string)
    requires IsGrid(g)
    requires |t| == 0 || (t[0] != '\n' && !IsCellChar(t[0]))
    ensures ParseState(GridText(g) + t) == Some(g)
  {
    RanksRoundTrip(g, t);
  }

  /** Written rows of different lengths make the source's assertion fail. */
  lemma RaggedStatePanics(rows: seq<seq<Cell>>, t: string)
    requires |rows| >= 1 && forall i :: 0 <= i < |rows| ==> |rows[i]| >= 1
    requires !IsGrid(rows)
    requires |t| == 0 || (t[0] != '\n' && !IsCellChar(t[0]))
    ensures ParseState(GridText(rows) + t).None?
  {
    RanksRoundTrip(rows, t);
  }

  /** `part_one`: the load on the north beams after tilting the platform north. */
  function PartOne(input: string): (r: Option<nat>)
    ensures r.Some? <==> ParseState(input).Some?
    ensures r.Some? ==> r.value == ColumnsLoadFrom(TiltedIn(ParseState(input).value, North), 0, 0)
  {
    match ParseState(input)
    case None => None
    case Some(g) =>
      NorthLoadByColumns(g);
      Some(Load(TiltedIn(g, North)))
  }
}

=== FILE: day15_hashing.dfy ===
/** Day 15, "Lens Library": the HASH algorithm over the comma-separated steps of an
    initialisation sequence, and the sum of the steps' hashes. */
module Hashing {
  import opened Sequences
  import opened Parsing
  import Text

  /** One character of HASH: add the character's code, multiply by 17, keep the
      remainder modulo 256. From a value below 256 the intermediate product stays
      below 2^32, so the source's `u32` arithmetic never wraps. */
  function HashStep(acc: nat, c: char): (r: nat)
    requires acc < 256
    ensures r < 256
    ensures (acc + c as int) * 17 < 0x1_0000_0000
  {
    ((acc + c as int) * 17) % 256
  }

  /** The fold of `HashStep` over `s`, starting from `acc`. */
  function HashFrom(acc: nat, s: string): (r: nat)
    requires acc < 256
    ensures r < 256
    ensures |s| == 0 ==> r == acc
    decreases |s|
  {
    if |s| == 0 then acc else HashFrom(HashStep(acc, s[0]), s[1..])
  }

  /** `Step::hash`. */
  function Hash(s: string): (r: nat)
    ensures r < 256
  {
    HashFrom(0, s)
  }

  /** Hashing a concatenation continues from the hash of the first part. */
  lemma {:induction false} HashFromAppend(acc: nat, a: string, b: string)
    requires acc < 256
    ensures HashFrom(acc, a + b) == HashFrom(HashFrom(acc, a), b)
    decreases |a|
  {
    if |a| > 0 {
      assert (a + b)[0] == a[0];
      assert (a + b)[1..] == a[1..] + b;
      HashFromAppend(HashStep(acc, a[0]), a[1..], b);
    } else {
      assert a + b == b;
    }
  }

  function Pow17(k: nat): (p: nat)
    ensures p >= 1
  {
    if k == 0 then 1 else 17 * Pow17(k - 1)
  }

  /** The unreduced polynomial: character `i` of `s` weighted by `17^(|s| - i)`. */
  function Polynomial(s: string): nat
  {
    if |s| == 0 then 0 else (s[0] as int) * Pow17(|s|) + Polynomial(s[1..])
  }

  /** Adding a multiple of 256 does not change a remainder modulo 256. */
  lemma ModMultiple(x: nat, k: nat)
    ensures (x + 256 * k) % 256 == x % 256
  {
  }

  lemma Distribute(a: int, b: int, p: int)
    ensures (a + b) * p == a * p + b * p
  {
  }

  lemma Associate(a: int, b: int, p: int)
    ensures a * b * p == a * (b * p)
  {
  }

  /** One step of the fold, with the remainder written out: the product before the
      reduction is `256 * q` plus the reduced value. */
  lemma HashStepQuotient(acc: nat, c: char) returns (q: nat)
    requires acc < 256
    ensures (acc + c as int) * 17 == 256 * q + HashStep(acc, c)
  {
    q := (acc + c as int) * 17 / 256;
  }

  /** Reducing modulo 256 after every character gives the same result as reducing
      once at the end. */
  lemma {:induction false} HashFromIsPolynomial(acc: nat, s: string)
    requires acc < 256
    ensures HashFrom(acc, s) == (acc * Pow17(|s|) + Polynomial(s)) % 256
    decreases |s|
  {
    if |s| > 0 {
      var c := s[0] as int;
      var next := HashStep(acc, s[0]);
      HashFromIsPolynomial(next, s[1..]);
      var q := HashStepQuotient(acc, s[0]);
      var p := Pow17(|s| - 1);
      var tail := Polynomial(s[1..]);
      assert Pow17(|s|) == 17 * p;
      assert Polynomial(s) == c * (17 * p) + tail;
      PolynomialStep(acc, c, next, q, p, tail);
      ModMultiple(next * p + tail, q * p);
    }
  }

  /** The unreduced form of one step: the reduction's quotient scaled by the remaining
      weight is all that separates the two sides. */
  lemma PolynomialStep(acc: int, c: int, next: int, q: int, p: int, tail: int)
    requires (acc + c) * 17 == 256 * q + next
    ensures acc * (17 * p) + (c * (17 * p) + tail) == next * p + tail + 256 * (q * p)
  {
    var full := (acc + c) * 17;
    assert full * p == acc * (17 * p) + c * (17 * p) by {
      Associate(acc + c, 17, p);
      Distribute(acc, c, 17 * p);
    }
    assert full * p == next * p + 256 * (q * p) by {
      Distribute(256 * q, next, p);
      Associate(256, q, p);
    }
  }

  /** The hash of a string is its polynomial modulo 256. */
  lemma HashIsPolynomial(s: string)
    ensures Hash(s) == Polynomial(s) % 256
  {
    HashFromIsPolynomial(0, s);
  }

  // ---------------------------------------------------------------------------
  // Parsing

  /** `is_not(",\n")`'s character class. */
  predicate IsStepChar(c: char)
  {
    c != ',' && c != '\n'
  }

  /** `parse_step`: a non-empty run of characters other than comma and newline. */
  function ParseStep(s: string): (r: Parsed<string>)
    ensures r.Ok? <==> |s| > 0 && IsStepChar(s[0])
    ensures r.Ok? ==> |r.value| >= 1 && r.value + r.rest == s
    ensures r.Ok? ==> |r.rest| == 0 || !IsStepChar(r.rest[0])
  {
    TakeWhile1(s, IsStepChar)
  }

  lemma StepShrinks()
    ensures Shrinks(ParseStep)
  {
  }

  /** `Sequence::from_str`: steps separated by commas, ended by a newline. What
      follows the newline is ignored. */
  function ParseSequence(s: string): (r: Option<seq<string>>)
    ensures r.Some? ==> |r.value| >= 1
  {
    StepShrinks();
    match SeparatedList1(ParseStep, ',', s)
    case Fail => None
    case Ok(steps, rest) =>
      if Char('\n', rest).Ok? then Some(steps) else None
  }

  /** A well-formed step: non-empty, no comma, no newline. */
  predicate IsStep(step: string)
  {
    |step| >= 1 && forall i :: 0 <= i < |step| ==> IsStepChar(step[i])
  }

  /** Steps written with commas between them and a final newline are read back. */
  lemma SequenceRoundTrip(steps: seq<string>, t: string)
    requires |steps| >= 1 && forall k :: 0 <= k < |steps| ==> IsStep(steps[k])
    ensures ParseSequence(Text.Join(steps, ',') + "\n" + t) == Some(steps)
  {
    StepShrinks();
    var after := "\n" + t;
    StepsReadBack(steps, after);
    SeparatedList1Join(ParseStep, ',', steps, steps, after);
    Assoc3(Text.Join(steps, ','), "\n", t);
  }

  /** Each step is read back whatever may follow it in the list. */
  lemma StepsReadBack(steps: seq<string>, after: string)
    requires forall k :: 0 <= k < |steps| ==> IsStep(steps[k])
    requires |after| > 0 && after[0] == '\n'
    ensures forall k, t' :: 0 <= k < |steps| && Follows(t', ',', after) ==>
      ParseStep(steps[k] + t') == Ok(steps[k], t')
  {
    forall k, t' | 0 <= k < |steps| && Follows(t', ',', after)
      ensures ParseStep(steps[k] + t') == Ok(steps[k], t')
    {
      TakeWhile1Word(steps[k], t', IsStepChar);
    }
  }

  /** The sum of the hashes of `steps`. */
  function HashTotal(steps: seq<string>): (total: nat)
    ensures total <= 255 * |steps|
  {
    if |steps| == 0 then 0 else Hash(steps[0]) + HashTotal(steps[1..])
  }

  /** `part_one`: the sum of the steps' hashes; missing when the input does not parse. */
  function PartOne(input: string): (r: Option<nat>)
    ensures r.Some? <==> ParseSequence(input).Some?
    ensures r.Some? ==> r.value <= 255 * |ParseSequence(input).value|
  {
    match ParseSequence(input)
    case None => None
    case Some(steps) => Some(HashTotal(steps))
  }

  /** The answer for a written sequence is the sum of its steps' hashes. */
  lemma PartOneOfSteps(steps: seq<string>)
    requires |steps| >= 1 && forall k :: 0 <= k < |steps| ==> IsStep(steps[k])
    ensures PartOne(Text.Join(steps, ',') + "\n") == Some(HashTotal(steps))
  {
    SequenceRoundTrip(steps, "");
    assert Text.Join(steps, ',') + "\n" + "" == Text.Join(steps, ',') + "\n";
  }
}

=== FILE: day16_beams.dfy ===
/** Day 16, "The Floor Will Be Lava": a beam of light enters a grid of mirrors and
    splitters; the tiles it passes through are energised. The source walks the
    beam's states with an explicit stack and a set of visited states; the model
    proves that the visited states are exactly the reachable ones inside the grid. */
module Beams {
  import opened Sequences
  import opened Parsing
  import Text

  datatype Direction = North | South | East | West

  /** A splitter's orientation: `|` is vertical, `-` horizontal. */
  datatype Cardinal = Vertical | Horizontal

  /** A mirror's orientation: `\` is diagonal, `/` anti-diagonal. */
  datatype Ordinal = Diagonal | AntiDiagonal

  /** A tile: the source's `Option<Device>`, with `None` as `Empty`. */
  datatype Tile = Empty | Mirror(ordinal: Ordinal) | Splitter(cardinal: Cardinal)

  datatype Index = Index(row: int, col: int)

  /** A beam at a tile, heading in a direction. */
  datatype State = State(index: Index, heading: Direction)

  function Reverse(d: Direction): Direction
  {
    match d
    case North => South
    case South => North
    case East => West
    case West => East
  }

  predicate IsVerticalHeading(d: Direction)
  {
    d == North || d == South
  }

  /** The neighbouring index in direction `d`. */
  function Step(ix: Index, d: Direction): (r: Index)
    ensures IsVerticalHeading(d) ==> r.col == ix.col && r.row == ix.row + (if d == South then 1 else -1)
    ensures !IsVerticalHeading(d) ==> r.row == ix.row && r.col == ix.col + (if d == East then 1 else -1)
  {
    match d
    case North => Index(ix.row - 1, ix.col)
    case South => Index(ix.row + 1, ix.col)
    case East => Index(ix.row, ix.col + 1)
    case West => Index(ix.row, ix.col - 1)
  }

  /** Stepping forward and then back returns to the start. */
  lemma StepReverse(ix: Index, d: Direction)
    ensures Step(Step(ix, d), Reverse(d)) == ix
  {
  }

  /** `propagated_state`: one step on in the same heading; a step back against the
      heading returns to where the beam was. */
  function Propagated(s: State): (r: State)
    ensures r.heading == s.heading
    ensures Step(r.index, Reverse(r.heading)) == s.index
  {
    State(Step(s.index, s.heading), s.heading)
  }

  /** The heading after a mirror: `\` swaps North with West and South with East, `/`
      swaps North with East and South with West. */
  function ReflectedHeading(o: Ordinal, d: Direction): (r: Direction)
    ensures IsVerticalHeading(r) != IsVerticalHeading(d)
  {
    match (o, d)
    case (Diagonal, North) => West
    case (Diagonal, South) => East
    case (Diagonal, East) => South
    case (Diagonal, West) => North
    case (AntiDiagonal, North) => East
    case (AntiDiagonal, South) => West
    case (AntiDiagonal, East) => North
    case (AntiDiagonal, West) => South
  }

  /** Light paths through a mirror are reversible: a beam sent back along the
      reflected heading leaves along the reverse of the arriving heading. */
  lemma ReflectionReversible(o: Ordinal, d: Direction)
    ensures ReflectedHeading(o, Reverse(ReflectedHeading(o, d))) == Reverse(d)
  {
  }

  /** The two mirrors send a beam in opposite directions. */
  lemma MirrorsOpposite(d: Direction)
    ensures ReflectedHeading(AntiDiagonal, d) == Reverse(ReflectedHeading(Diagonal, d))
  {
  }

  /** `reflected_state`: turn at the mirror by a right angle and step on; a step
      back against the new heading returns to the mirror. */
  function Reflected(s: State, o: Ordinal): (r: State)
    ensures r.heading == ReflectedHeading(o, s.heading)
    ensures IsVerticalHeading(r.heading) != IsVerticalHeading(s.heading)
    ensures Step(r.index, Reverse(r.heading)) == s.index
  {
    var d := ReflectedHeading(o, s.heading);
    State(Step(s.index, d), d)
  }

  /** The splitter's orientation agrees with the heading: the beam passes. */
  predicate Parallel(c: Cardinal, d: Direction)
  {
    (c == Vertical) == IsVerticalHeading(d)
  }

  /** `split_states`: a beam along the splitter passes on; a beam across it splits
      into two beams leaving along the splitter, North then South or West then East. */
  function Split(s: State, c: Cardinal): (r: seq<State>)
    ensures Parallel(c, s.heading) ==> r == [Propagated(s)]
    ensures !Parallel(c, s.heading) ==> |r| == 2 && r[0].heading == Reverse(r[1].heading)
    ensures forall k :: 0 <= k < |r| ==> Parallel(c, r[k].heading) && r[k].index == Step(s.index, r[k].heading)
  {
    var ix := s.index;
    match c
    case Vertical =>
      if IsVerticalHeading(s.heading) then [Propagated(s)]
      else [State(Index(ix.row - 1, ix.col), North), State(Index(ix.row + 1, ix.col), South)]
    case Horizontal =>
      if IsVerticalHeading(s.heading) then
        [State(Index(ix.row, ix.col - 1), West), State(Index(ix.row, ix.col + 1), East)]
      else [Propagated(s)]
  }

  /** The states pushed after visiting `s` on `tile`. */
  function Successors(s: State, tile: Tile): (r: seq<State>)
    ensures 1 <= |r| <= 2
    ensures forall k :: 0 <= k < |r| ==> r[k].index == Step(s.index, r[k].heading)
    ensures tile.Empty? ==> r == [Propagated(s)]
  {
    match tile
    case Empty => [Propagated(s)]
    case Mirror(o) => [Reflected(s, o)]
    case Splitter(c) => Split(s, c)
  }

  // ---------------------------------------------------------------------------
  // The grid

  /** At least one rank, all of the same non-zero length. */
  predicate IsGrid(g: seq<seq<Tile>>)
  {
    |g| >= 1 && |g[0]| >= 1 && forall i :: 0 <= i < |g| ==> |g[i]| == |g[0]|
  }

  predicate Inside(g: seq<seq<Tile>>, s: State)
    requires IsGrid(g)
  {
    0 <= s.index.row < |g| && 0 <= s.index.col < |g[0]|
  }

  /** `tile_at`. */
  function TileAt(g: seq<seq<Tile>>, s: State): Tile
    requires IsGrid(g) && Inside(g, s)
  {
    g[s.index.row][s.index.col]
  }

  const Directions: set<Direction> := {North, South, East, West}

  /** Every state inside the grid. */
  function Universe(g: seq<seq<Tile>>): (u: set<State>)
    requires IsGrid(g)
    ensures forall s :: Inside(g, s) ==> s in u
  {
    var u := set i: int, j: int, d: Direction | 0 <= i < |g| && 0 <= j < |g[0]| && d in Directions ::
      State(Index(i, j), d);
    forall s | Inside(g, s)
      ensures s in u
    {
      assert s.heading in Directions by {
        assert s.heading.North? || s.heading.South? || s.heading.East? || s.heading.West?;
      }
      assert s == State(Index(s.index.row, s.index.col), s.heading);
    }
    u
  }

  /** The states a beam from `start` reaches within `n` moves (states outside the
      grid included, though nothing moves on from them). */
  function ReachableIn(g: seq<seq<Tile>>, start: State, n: nat): (r: set<State>)
    requires IsGrid(g)
    ensures start in r
  {
    if n == 0 then {start}
    else
      var before := ReachableIn(g, start, n - 1);
      before + BeamsOf(g, before)
  }

  /** The beams leaving the inside states of `states`. */
  function BeamsOf(g: seq<seq<Tile>>, states: set<State>): set<State>
    requires IsGrid(g)
  {
    set s, k | s in states && Inside(g, s) && 0 <= k < |Successors(s, TileAt(g, s))| ::
      Successors(s, TileAt(g, s))[k]
  }

  /** A state reached within `n` moves passes its beam on within `n + 1`. */
  lemma ReachableStep(g: seq<seq<Tile>>, start: State, n: nat, s: State, k: nat)
    requires IsGrid(g) && s in ReachableIn(g, start, n) && Inside(g, s)
    requires k < |Successors(s, TileAt(g, s))|
    ensures Successors(s, TileAt(g, s))[k] in ReachableIn(g, start, n + 1)
  {
  }

  /** `visited` holds every inside state that a beam reaches. */
  ghost predicate Closed(g: seq<seq<Tile>>, visited: set<State>)
    requires IsGrid(g)
  {
    forall s, k :: s in visited ==> BeamKept(g, visited, s, k)
  }

  /** Beam `k` leaving the inside state `s` (if there is one) is in `visited` or has
      left the grid. */
  predicate BeamKept(g: seq<seq<Tile>>, visited: set<State>, s: State, k: int)
    requires IsGrid(g)
  {
    Inside(g, s) && 0 <= k < |Successors(s, TileAt(g, s))| ==>
      Successors(s, TileAt(g, s))[k] in visited || !Inside(g, Successors(s, TileAt(g, s))[k])
  }

  /** A closed set of inside states that holds the start holds everything reachable. */
  lemma {:induction false} ClosedHoldsReachable(g: seq<seq<Tile>>, start: State, visited: set<State>, n: nat)
    requires IsGrid(g) && Closed(g, visited)
    requires Inside(g, start) ==> start in visited
    ensures forall s :: s in ReachableIn(g, start, n) && Inside(g, s) ==> s in visited
  {
    HeldUpTo(g, start, visited, n);
  }

  /** `visited` holds the inside states a beam from `start` reaches within `n` moves. */
  ghost predicate HoldsWithin(g: seq<seq<Tile>>, start: State, visited: set<State>, n: nat)
    requires IsGrid(g)
  {
    forall s :: s in ReachableIn(g, start, n) && Inside(g, s) ==> s in visited
  }

  lemma {:induction false} HeldUpTo(g: seq<seq<Tile>>, start: State, visited: set<State>, n: nat)
    requires IsGrid(g) && Closed(g, visited)
    requires Inside(g, start) ==> start in visited
    ensures HoldsWithin(g, start, visited, n)
  {
    if n == 0 {
      HeldAtStart(g, start, visited);
    } else {
      HeldUpTo(g, start, visited, n - 1);
      ClosedHoldsNext(g, start, visited, n);
    }
  }

  lemma HeldAtStart(g: seq<seq<Tile>>, start: State, visited: set<State>)
    requires IsGrid(g)
    requires Inside(g, start) ==> start in visited
    ensures HoldsWithin(g, start, visited, 0)
  {
    assert ReachableIn(g, start, 0) == {start};
  }

  /** The induction step: holding the states reached within `n - 1` moves, a closed
      set holds those reached within `n`. */
  lemma ClosedHoldsNext(g: seq<seq<Tile>>, start: State, visited: set<State>, n: nat)
    requires IsGrid(g) && Closed(g, visited) && n > 0
    requires HoldsWithin(g, start, visited, n - 1)
    ensures HoldsWithin(g, start, visited, n)
  {
    var before := ReachableIn(g, start, n - 1);
    ClosedKeepsBeams(g, visited, before);
    assert ReachableIn(g, start, n) == before + BeamsOf(g, before);
  }

  /** A closed set that holds the inside states of `states` holds their inside beams. */
  lemma ClosedKeepsBeams(g: seq<seq<Tile>>, visited: set<State>, states: set<State>)
    requires IsGrid(g) && Closed(g, visited)
    requires forall s :: s in states && Inside(g, s) ==> s in visited
    ensures forall s :: s in BeamsOf(g, states) && Inside(g, s) ==> s in visited
  {
    forall s | s in BeamsOf(g, states) && Inside(g, s)
      ensures s in visited
    {
      var p, k :| p in states && Inside(g, p) && 0 <= k < |Successors(p, TileAt(g, p))| &&
        Successors(p, TileAt(g, p))[k] == s;
      ClosedStep(g, visited, p, k);
    }
  }

  lemma ClosedStep(g: seq<seq<Tile>>, visited: set<State>, p: State, k: nat)
    requires IsGrid(g) && Closed(g, visited) && p in visited && Inside(g, p)
    requires k < |Successors(p, TileAt(g, p))|
    ensures Successors(p, TileAt(g, p))[k] in visited || !Inside(g, Successors(p, TileAt(g, p))[k])
  {
    assert BeamKept(g, visited, p, k);
  }

  ghost predicate Reached(g: seq<seq<Tile>>, start: State, s: State)
    requires IsGrid(g)
  {
    exists n: nat :: s in ReachableIn(g, start, n)
  }

  /** The energised indexes of the visited states. */
  function Indexes(visited: set<State>): set<Index>
  {
    set s | s in visited :: s.index
  }

  /** The indexes of the first `rows` rows of a grid `cols` wide. */
  function GridIndexes(rows: nat, cols: nat): (r: set<Index>)
    ensures forall ix :: ix in r <==> 0 <= ix.row < rows && 0 <= ix.col < cols
    ensures |r| == rows * cols
  {
    if rows == 0 then {}
    else
      var above := GridIndexes(rows - 1, cols);
      var row := RowIndexes(rows - 1, cols);
      assert above * row == {};
      above + row
  }

  /** The first `cols` indexes of row `i`. */
  function RowIndexes(i: int, cols: nat): (r: set<Index>)
    ensures forall ix :: ix in r <==> ix.row == i && 0 <= ix.col < cols
    ensures |r| == cols
  {
    if cols == 0 then {}
    else
      var left := RowIndexes(i, cols - 1);
      assert Index(i, cols - 1) !in left;
      left + {Index(i, cols - 1)}
  }

  /** A beam inside the grid energises at most every tile of it. */
  lemma {:induction false} EnergisedBound(g: seq<seq<Tile>>, visited: set<State>)
    requires IsGrid(g)
    requires forall s :: s in visited ==> Inside(g, s)
    ensures |Indexes(visited)| <= |g| * |g[0]|
  {
    var all := GridIndexes(|g|, |g[0]|);
    assert Indexes(visited) <= all;
    SubsetSize(Indexes(visited), all);
  }

  lemma {:induction false} SubsetSize<T>(a: set<T>, b: set<T>)
    requires a <= b
    ensures |a| <= |b|
    decreases |a|
  {
    if a != {} {
      var x :| x in a;
      SubsetSize(a - {x}, b - {x});
    }
  }

  /** What the beam iterator keeps true: every visited state and every pending state
      is reached, the start is visited or pending, and every beam leaving a visited
      state is visited, pending, or has left the grid. */
  ghost predicate Frontier(g: seq<seq<Tile>>, start: State, visited: set<State>, stack: seq<State>)
    requires IsGrid(g)
  {
    && (forall s :: s in visited ==> Inside(g, s) && Reached(g, start, s))
    && (forall k :: 0 <= k < |stack| ==> Reached(g, start, stack[k]))
    && (Inside(g, start) ==> start in visited || start in stack)
    && (forall s, k :: s in visited ==> BeamPending(g, visited, stack, s, k))
  }

  /** Beam `k` leaving the inside state `s` (if there is one) is visited, pending, or
      has left the grid. */
  predicate BeamPending(g: seq<seq<Tile>>, visited: set<State>, stack: seq<State>, s: State, k: int)
    requires IsGrid(g)
  {
    Inside(g, s) && 0 <= k < |Successors(s, TileAt(g, s))| ==>
      Successors(s, TileAt(g, s))[k] in visited || Successors(s, TileAt(g, s))[k] in stack ||
      !Inside(g, Successors(s, TileAt(g, s))[k])
  }

  /** Popping a state that is outside the grid or already visited keeps the frontier. */
  lemma SkipKeepsFrontier(g: seq<seq<Tile>>, start: State, visited: set<State>, stack: seq<State>)
    requires IsGrid(g) && |stack| > 0 && Frontier(g, start, visited, stack)
    requires !Inside(g, stack[|stack| - 1]) || stack[|stack| - 1] in visited
    ensures Frontier(g, start, visited, stack[..|stack| - 1])
  {
    var s := stack[|stack| - 1];
    var rest := stack[..|stack| - 1];
    PopMembers(stack);
    forall t, k | t in visited
      ensures BeamPending(g, visited, rest, t, k)
    {
      assert BeamPending(g, visited, stack, t, k);
    }
  }

  /** With nothing pending, the visited states are closed and hold the start. */
  lemma FrontierDone(g: seq<seq<Tile>>, start: State, visited: set<State>)
    requires IsGrid(g) && Frontier(g, start, visited, [])
    ensures Closed(g, visited)
    ensures Inside(g, start) ==> start in visited
  {
    forall t, k | t in visited
      ensures BeamKept(g, visited, t, k)
    {
      assert BeamPending(g, visited, [], t, k);
    }
  }

  /** Visiting a new inside state and pushing its beams keeps the frontier. */
  lemma VisitKeepsFrontier(g: seq<seq<Tile>>, start: State, visited: set<State>, stack: seq<State>)
    requires IsGrid(g) && |stack| > 0 && Frontier(g, start, visited, stack)
    requires Inside(g, stack[|stack| - 1]) && stack[|stack| - 1] !in visited
    ensures Frontier(g, start, visited + {stack[|stack| - 1]},
                     stack[..|stack| - 1] + Successors(stack[|stack| - 1], TileAt(g, stack[|stack| - 1])))
  {
    var s := stack[|stack| - 1];
    var rest := stack[..|stack| - 1];
    var next := Successors(s, TileAt(g, s));
    var stack' := rest + next;
    PopMembers(stack);
    assert Reached(g, start, s);
    var n: nat :| s in ReachableIn(g, start, n);
    forall k | 0 <= k < |stack'|
      ensures Reached(g, start, stack'[k])
    {
      if k < |rest| {
        assert stack'[k] == stack[k];
      } else {
        ReachableStep(g, start, n, s, k - |rest|);
      }
    }
    assert forall t :: t in stack ==> t == s || t in stack' by {
      assert forall t :: t in rest ==> t in stack';
    }
    forall t, k | t in visited + {s}
      ensures BeamPending(g, visited + {s}, stack', t, k)
    {
      if t == s {
        if 0 <= k < |next| {
          assert next[k] == stack'[|rest| + k];
        }
      } else {
        assert BeamPending(g, visited, stack, t, k);
      }
    }
  }

  /** `energised_count_from`: runs the beam iterator from `start` and counts the
      distinct indexes it yields. The visited states are exactly the inside states
      the beam reaches, and the count is the number of their distinct indexes. */
  method EnergisedCount(g: seq<seq<Tile>>, start: State) returns (count: nat, visited: set<State>)
    requires IsGrid(g)
    ensures forall s :: s in visited ==> Inside(g, s) && Reached(g, start, s)
    ensures forall n: nat, s :: s in ReachableIn(g, start, n) && Inside(g, s) ==> s in visited
    ensures count == |Indexes(visited)|
    ensures count <= |g| * |g[0]|
  {
    var stack := [start];
    visited := {};
    var energised: set<Index> := {};
    count := 0;
    assert start in ReachableIn(g, start, 0);
    while |stack| > 0
      invariant count == |energised| && energised == Indexes(visited)
      invariant Frontier(g, start, visited, stack)
      decreases Universe(g) - visited, |stack|
    {
      var s := stack[|stack| - 1];
      if Inside(g, s) && s !in visited {
        VisitKeepsFrontier(g, start, visited, stack);
        if s.index !in energised {
          count := count + 1;
        }
        energised := energised + {s.index};
        visited := visited + {s};
        stack := stack[..|stack| - 1] + Successors(s, TileAt(g, s));
      } else {
        SkipKeepsFrontier(g, start, visited, stack);
        stack := stack[..|stack| - 1];
      }
    }
    FrontierDone(g, start, visited);
    ClosedHoldsReachableAll(g, start, visited);
    EnergisedBound(g, visited);
  }

  lemma ClosedHoldsReachableAll(g: seq<seq<Tile>>, start: State, visited: set<State>)
    requires IsGrid(g) && Closed(g, visited)
    requires Inside(g, start) ==> start in visited
    ensures forall n: nat, s :: s in ReachableIn(g, start, n) && Inside(g, s) ==> s in visited
  {
    forall n: nat
      ensures forall s :: s in ReachableIn(g, start, n) && Inside(g, s) ==> s in visited
    {
      ClosedHoldsReachable(g, start, visited, n);
    }
  }

  // ---------------------------------------------------------------------------
  // Parsing

  predicate IsTileChar(c: char)
  {
    c == '.' || c == '|' || c == '-' || c == '/' || c == '\\'
  }

  /** `parse_tile`. */
  function ParseTile(c: char): (r: Option<Tile>)
    ensures r.Some? <==> IsTileChar(c)
  {
    match c
    case '.' => Some(Empty)
    case '|' => Some(Splitter(Vertical))
    case '-' => Some(Splitter(Horizontal))
    case '\\' => Some(Mirror(Diagonal))
    case '/' => Some(Mirror(AntiDiagonal))
    case _ => None
  }

  function TileChar(t: Tile): (c: char)
    ensures IsTileChar(c) && ParseTile(c) == Some(t)
  {
    match t
    case Empty => '.'
    case Splitter(Vertical) => '|'
    case Splitter(Horizontal) => '-'
    case Mirror(Diagonal) => '\\'
    case Mirror(AntiDiagonal) => '/'
  }

  /** `parse_rank`: `many1(parse_tile)`. */
  function ParseRank(s: string): (r: Parsed<seq<Tile>>)
    ensures r.Ok? <==> |s| > 0 && IsTileChar(s[0])
    ensures r.Ok? ==> |r.value| >= 1 && |r.rest| < |s|
  {
    match TakeWhile1(s, IsTileChar)
    case Fail => Fail
    case Ok(cs, rest) => Ok(seq(|cs|, j requires 0 <= j < |cs| => ParseTile(cs[j]).value), rest)
  }

  lemma RankShrinks()
    ensures Shrinks(ParseRank)
  {
  }

  /** `Grid::from_str`: ranks separated by newlines; what follows is ignored. A ragged
      grid fails the source's assertion, and fails here. */
  function ParseGrid(s: string): (r: Option<seq<seq<Tile>>>)
    ensures r.Some? ==> IsGrid(r.value)
    ensures r.Some? <==> SeparatedList1(ParseRank, '\n', s).Ok? && IsGrid(SeparatedList1(ParseRank, '\n', s).value)
  {
    RankShrinks();
    match SeparatedList1(ParseRank, '\n', s)
    case Fail => None
    case Ok(ranks, _) =>
      if forall i :: 0 <= i < |ranks| ==> |ranks[i]| == |ranks[0]| then
        assert ParseRank(s).Ok?;
        Some(ranks)
      else None
  }

  function RankText(row: seq<Tile>): (t: string)
    ensures |t| == |row| && forall j :: 0 <= j < |row| ==> t[j] == TileChar(row[j])
  {
    seq(|row|, j requires 0 <= j < |row| => TileChar(row[j]))
  }

  function GridText(g: seq<seq<Tile>>): string
    requires |g| >= 1
  {
    Text.Join(seq(|g|, i requires 0 <= i < |g| => RankText(g[i])), '\n')
  }

  lemma RankRoundTrip(row: seq<Tile>, t: string)
    requires |row| >= 1
    requires |t| == 0 || !IsTileChar(t[0])
    ensures ParseRank(RankText(row) + t) == Ok(row, t)
  {
    var text := RankText(row);
    assert forall j :: 0 <= j < |text| ==> IsTileChar(text[j]);
    TakeWhile1Word(text, t, IsTileChar);
    var r := ParseRank(text + t);
    assert r.Ok? && r.rest == t && |r.value| == |row|;
    forall j | 0 <= j < |row|
      ensures r.value[j] == row[j]
    {
      assert text[j] == TileChar(row[j]);
    }
    assert r.value == row;
  }

  /** A written grid is read back. */
  lemma GridRoundTrip(g: seq<seq<Tile>>, t: string)
    requires IsGrid(g)
    requires |t| == 0 || (t[0] != '\n' && !IsTileChar(t[0]))
    ensures ParseGrid(GridText(g) + t) == Some(g)
  {
    RanksRoundTrip(g, t);
  }

  /** Non-empty rows written one per line are read back as ranks, whatever their lengths. */
  lemma RanksRoundTrip(rows: seq<seq<Tile>>, t: string)
    requires |rows| >= 1 && forall i :: 0 <= i < |rows| ==> |rows[i]| >= 1
    requires |t| == 0 || (t[0] != '\n' && !IsTileChar(t[0]))
    ensures SeparatedList1(ParseRank, '\n', GridText(rows) + t) == Ok(rows, t)
  {
    var items := seq(|rows|, i requires 0 <= i < |rows| => RankText(rows[i]));
    RankShrinks();
    forall i, t' | 0 <= i < |items| && Follows(t', '\n', t)
      ensures ParseRank(items[i] + t') == Ok(rows[i], t')
    {
      RankRoundTrip(rows[i], t');
    }
    SeparatedList1Join(ParseRank, '\n', items, rows, t);
  }

  /** Written rows of different lengths make the source's assertion fail. */
  lemma RaggedGridPanics(rows: seq<seq<Tile>>, t: string)
    requires |rows| >= 1 && forall i :: 0 <= i < |rows| ==> |rows[i]| >= 1
    requires !IsGrid(rows)
    requires |t| == 0 || (t[0] != '\n' && !IsTileChar(t[0]))
    ensures ParseGrid(GridText(rows) + t).None?
  {
    RanksRoundTrip(rows, t);
  }

  /** `part_one`: the number of tiles energised by a beam entering the top-left tile
      heading East; missing when the input does not parse. */
  method PartOne(input: string) returns (r: Option<nat>)
    ensures r.Some? <==> ParseGrid(input).Some?
    ensures r.Some? ==> exists visited: set<State> ::
      && (forall s :: s in visited <==>
            (Inside(ParseGrid(input).value, s) && Reached(ParseGrid(input).value, State(Index(0, 0), East), s)))
      && r.value == |Indexes(visited)|
    ensures r.Some? ==> r.value <= |ParseGrid(input).value| * |ParseGrid(input).value[0]|
  {
    match ParseGrid(input)
    case None => r := None;
    case Some(g) =>
      var count, visited := EnergisedCount(g, State(Index(0, 0), East));
      r := Some(count);
  }
}

=== FILE: day17_crucible.dfy ===
/** Day 17, "Clumsy Crucible": a crucible moves block by block through a city of heat
    loss costs. A plain crucible goes at most three blocks straight; an ultra crucible
    at least four and at most ten before it turns (or stops at the goal). This module
    models the move rules that feed the shortest-path search; the search itself is a
    library call. */
module Crucible {
  import opened Sequences
  import opened Parsing
  import Decimal
  import Text

  datatype Heading = North | South | East | West

  /** A crucible at block `(row, col)`, heading one way, having gone `run` blocks
      that way. */
  datatype State = State(row: nat, col: nat, heading: Heading, run: nat)

  /** A city: at least one street, all of the same non-zero length, every block's
      heat loss a digit from 1 to 9. */
  predicate IsCity(blocks: seq<seq<nat>>)
  {
    && |blocks| >= 1 && |blocks[0]| >= 1
    && (forall i :: 0 <= i < |blocks| ==> |blocks[i]| == |blocks[0]|)
    && (forall i, j :: 0 <= i < |blocks| && 0 <= j < |blocks[i]| ==> 1 <= blocks[i][j] <= 9)
  }

  predicate InCity(blocks: seq<seq<nat>>, s: State)
    requires IsCity(blocks)
  {
    s.row < |blocks| && s.col < |blocks[0]|
  }

  function Reverse(h: Heading): Heading
  {
    match h
    case North => South
    case South => North
    case East => West
    case West => East
  }

  /** A quarter turn anticlockwise. */
  function TurnLeft(h: Heading): Heading
  {
    match h
    case North => West
    case West => South
    case South => East
    case East => North
  }

  /** A quarter turn clockwise. */
  function TurnRight(h: Heading): Heading
  {
    match h
    case North => East
    case East => South
    case South => West
    case West => North
  }

  /** Turning right undoes turning left, and either turn changes the heading without
      reversing it. */
  lemma TurnsAreQuarterTurns(h: Heading)
    ensures TurnRight(TurnLeft(h)) == h && TurnLeft(TurnRight(h)) == h
    ensures TurnLeft(h) != h && TurnLeft(h) != Reverse(h)
    ensures TurnRight(h) == Reverse(TurnLeft(h))
  {
  }

  /** The block one step from `(row, col)` in heading `h`, as signed coordinates. */
  function NeighbourRow(row: nat, h: Heading): int
  {
    if h == North then row - 1 else if h == South then row + 1 else row
  }

  function NeighbourCol(col: nat, h: Heading): int
  {
    if h == West then col - 1 else if h == East then col + 1 else col
  }

  /** A move from `s` into the block at heading `h` stays inside the city. */
  predicate CanMove(blocks: seq<seq<nat>>, s: State, h: Heading)
    requires IsCity(blocks)
  {
    0 <= NeighbourRow(s.row, h) < |blocks| && 0 <= NeighbourCol(s.col, h) < |blocks[0]|
  }

  /** The state after moving from `s` into the next block at heading `h` with run
      length `run`. */
  function Moved(blocks: seq<seq<nat>>, s: State, h: Heading, run: nat): (t: State)
    requires IsCity(blocks) && CanMove(blocks, s, h)
    ensures InCity(blocks, t) && t.heading == h && t.run == run
  {
    State(NeighbourRow(s.row, h), NeighbourCol(s.col, h), h, run)
  }

  /** `maybe_state_ahead`: one block on in the same heading, the run one longer; none
      at the edge of the city. */
  function Ahead(blocks: seq<seq<nat>>, s: State): (r: Option<State>)
    requires IsCity(blocks) && InCity(blocks, s)
    ensures r.Some? <==> CanMove(blocks, s, s.heading)
    ensures r.Some? ==> r.value == Moved(blocks, s, s.heading, s.run + 1)
  {
    var i, j := s.row, s.col;
    match s.heading
    case North => if i > 0 then Some(State(i - 1, j, North, s.run + 1)) else None
    case South => if i < |blocks| - 1 then Some(State(i + 1, j, South, s.run + 1)) else None
    case East => if j < |blocks[0]| - 1 then Some(State(i, j + 1, East, s.run + 1)) else None
    case West => if j > 0 then Some(State(i, j - 1, West, s.run + 1)) else None
  }

  /** `maybe_state_on_left`: one block to the left, a new run of one. */
  function OnLeft(blocks: seq<seq<nat>>, s: State): (r: Option<State>)
    requires IsCity(blocks) && InCity(blocks, s)
    ensures r.Some? <==> CanMove(blocks, s, TurnLeft(s.heading))
    ensures r.Some? ==> r.value == Moved(blocks, s, TurnLeft(s.heading), 1)
  {
    var i, j := s.row, s.col;
    match s.heading
    case North => if j > 0 then Some(State(i, j - 1, West, 1)) else None
    case South => if j < |blocks[0]| - 1 then Some(State(i, j + 1, East, 1)) else None
    case East => if i > 0 then Some(State(i - 1, j, North, 1)) else None
    case West => if i < |blocks| - 1 then Some(State(i + 1, j, South, 1)) else None
  }

  /** `maybe_state_on_right`: one block to the right, a new run of one. */
  function OnRight(blocks: seq<seq<nat>>, s: State): (r: Option<State>)
    requires IsCity(blocks) && InCity(blocks, s)
    ensures r.Some? <==> CanMove(blocks, s, TurnRight(s.heading))
    ensures r.Some? ==> r.value == Moved(blocks, s, TurnRight(s.heading), 1)
  {
    var i, j := s.row, s.col;
    match s.heading
    case North => if j < |blocks[0]| - 1 then Some(State(i, j + 1, East, 1)) else None
    case South => if j > 0 then Some(State(i, j - 1, West, 1)) else None
    case East => if i < |blocks| - 1 then Some(State(i + 1, j, South, 1)) else None
    case West => if i > 0 then Some(State(i - 1, j, North, 1)) else None
  }

  /** The kind of crucible: the run lengths at which it may go on or turn. */
  datatype Kind = Plain | Ultra

  /** Longest run a crucible may extend by one more block. */
  function MaxRunBeforeAhead(k: Kind): nat
  {
    if k == Plain then 2 else 9
  }

  /** Shortest run after which a crucible may turn. */
  function MinRunBeforeTurn(k: Kind): nat
  {
    if k == Plain then 1 else 4
  }

  /** Run lengths the source's matches accept without panicking. */
  predicate ValidRun(k: Kind, run: nat)
  {
    if k == Plain then 1 <= run <= 3 else 1 <= run <= 10
  }

  /** `maybe_plain_state_ahead` and `maybe_ultra_state_ahead`. */
  function KindAhead(blocks: seq<seq<nat>>, k: Kind, s: State): (r: Option<State>)
    requires IsCity(blocks) && InCity(blocks, s) && ValidRun(k, s.run)
    ensures r.Some? ==> InCity(blocks, r.value) && Legal(blocks, k, s, r.value)
  {
    if k == Plain then (if s.run <= 2 then Ahead(blocks, s) else None)
    else (if s.run <= 9 then Ahead(blocks, s) else None)
  }

  /** `maybe_plain_state_on_left` and `maybe_ultra_state_on_left`. */
  function KindLeft(blocks: seq<seq<nat>>, k: Kind, s: State): (r: Option<State>)
    requires IsCity(blocks) && InCity(blocks, s) && ValidRun(k, s.run)
    ensures r.Some? ==> InCity(blocks, r.value) && Legal(blocks, k, s, r.value)
  {
    if k == Plain then OnLeft(blocks, s)
    else (if s.run <= 3 then None else OnLeft(blocks, s))
  }

  /** `maybe_plain_state_on_right` and `maybe_ultra_state_on_right`. */
  function KindRight(blocks: seq<seq<nat>>, k: Kind, s: State): (r: Option<State>)
    requires IsCity(blocks) && InCity(blocks, s) && ValidRun(k, s.run)
    ensures r.Some? ==> InCity(blocks, r.value) && Legal(blocks, k, s, r.value)
  {
    if k == Plain then OnRight(blocks, s)
    else (if s.run <= 3 then None else OnRight(blocks, s))
  }

  /** The present values, in order (`flatten` over options). */
  function Somes(xs: seq<Option<State>>): (r: seq<State>)
    ensures |r| <= |xs|
    ensures forall t :: t in r <==> Some(t) in xs
  {
    if |xs| == 0 then []
    else
      var rest := Somes(xs[1..]);
      assert forall t :: Some(t) in xs <==> xs[0] == Some(t) || Some(t) in xs[1..];
      if xs[0].Some? then [xs[0].value] + rest else rest
  }

  /** `flatten` of one option: a present value becomes itself, an absent one disappears. */
  lemma SomesOne(o: Option<State>)
    ensures o.Some? ==> Somes([o]) == [o.value]
    ensures o.None? ==> Somes([o]) == []
  {
    assert [o][1..] == [];
  }

  /** `flatten` keeps the order of the options: the results of two halves are
      concatenated. */
  lemma {:induction false} SomesAppend(a: seq<Option<State>>, b: seq<Option<State>>)
    ensures Somes(a + b) == Somes(a) + Somes(b)
    decreases |a|
  {
    if |a| == 0 {
      assert a + b == b;
    } else {
      var xs := a + b;
      assert xs[0] == a[0];
      assert xs[1..] == a[1..] + b;
      SomesAppend(a[1..], b);
      assert Somes(xs) == (if a[0].Some? then [a[0].value] else []) + Somes(xs[1..]);
      assert Somes(a) == (if a[0].Some? then [a[0].value] else []) + Somes(a[1..]);
    }
  }

  /** `next_plain_states_with_losses` and `next_ultra_states_with_losses`: the states
      ahead, on the left and on the right that exist, each with the heat loss of the
      block it enters. */
  function Next(blocks: seq<seq<nat>>, k: Kind, s: State): (r: seq<(State, nat)>)
    requires IsCity(blocks) && InCity(blocks, s) && ValidRun(k, s.run)
    ensures |r| <= 3
    ensures forall m :: 0 <= m < |r| ==>
      InCity(blocks, r[m].0) && r[m].1 == blocks[r[m].0.row][r[m].0.col] && 1 <= r[m].1 <= 9
  {
    var opts := [KindAhead(blocks, k, s), KindLeft(blocks, k, s), KindRight(blocks, k, s)];
    var states := Somes(opts);
    assert forall m :: 0 <= m < |states| ==> Some(states[m]) in opts;
    seq(|states|, m requires 0 <= m < |states| => (states[m], blocks[states[m].row][states[m].col]))
  }

  /** The move rule, stated on its own: a crucible enters the neighbouring block,
      never reversing; going straight extends the run, which must not exceed the
      kind's limit; turning starts a new run of one and needs the kind's minimum run. */
  predicate Legal(blocks: seq<seq<nat>>, k: Kind, s: State, t: State)
    requires IsCity(blocks)
  {
    && CanMove(blocks, s, t.heading)
    && t.row == NeighbourRow(s.row, t.heading) && t.col == NeighbourCol(s.col, t.heading)
    && t.heading != Reverse(s.heading)
    && (t.heading == s.heading ==> s.run <= MaxRunBeforeAhead(k) && t.run == s.run + 1)
    && (t.heading != s.heading ==> s.run >= MinRunBeforeTurn(k) && t.run == 1)
  }

  /** The successors are exactly the legal moves. */
  lemma NextIsLegal(blocks: seq<seq<nat>>, k: Kind, s: State, t: State)
    requires IsCity(blocks) && InCity(blocks, s) && ValidRun(k, s.run)
    ensures (exists m :: 0 <= m < |Next(blocks, k, s)| && Next(blocks, k, s)[m].0 == t) <==> Legal(blocks, k, s, t)
  {
    InNextIsOption(blocks, k, s, t);
    if Legal(blocks, k, s, t) {
      LegalIsOption(blocks, k, s, t);
    }
  }

  /** The states of `Next` are the present options. */
  lemma InNextIsOption(blocks: seq<seq<nat>>, k: Kind, s: State, t: State)
    requires IsCity(blocks) && InCity(blocks, s) && ValidRun(k, s.run)
    ensures (exists m :: 0 <= m < |Next(blocks, k, s)| && Next(blocks, k, s)[m].0 == t)
        <==> Some(t) in [KindAhead(blocks, k, s), KindLeft(blocks, k, s), KindRight(blocks, k, s)]
  {
    var opts := [KindAhead(blocks, k, s), KindLeft(blocks, k, s), KindRight(blocks, k, s)];
    var states := Somes(opts);
    var r := Next(blocks, k, s);
    assert |r| == |states|;
    assert forall m :: 0 <= m < |r| ==> r[m].0 == states[m];
    if t in states {
      var m :| 0 <= m < |states| && states[m] == t;
      assert r[m].0 == t;
    }
  }

  /** Every legal move is one of the three options. */
  lemma LegalIsOption(blocks: seq<seq<nat>>, k: Kind, s: State, t: State)
    requires IsCity(blocks) && InCity(blocks, s) && ValidRun(k, s.run)
    requires Legal(blocks, k, s, t)
    ensures Some(t) in [KindAhead(blocks, k, s), KindLeft(blocks, k, s), KindRight(blocks, k, s)]
  {
    var opts := [KindAhead(blocks, k, s), KindLeft(blocks, k, s), KindRight(blocks, k, s)];
    TurnsAreQuarterTurns(s.heading);
    if t.heading == s.heading {
      assert opts[0] == Some(t);
    } else if t.heading == TurnLeft(s.heading) {
      assert opts[1] == Some(t);
    } else {
      assert t.heading == TurnRight(s.heading) by {
        assert t.heading.North? || t.heading.South? || t.heading.East? || t.heading.West?;
      }
      assert opts[2] == Some(t);
    }
  }

  /** The moves keep a crucible inside the city and its run length in the range the
      source accepts, so no successor ever makes the source panic. */
  lemma NextStaysValid(blocks: seq<seq<nat>>, k: Kind, s: State)
    requires IsCity(blocks) && InCity(blocks, s) && ValidRun(k, s.run)
    ensures forall m :: 0 <= m < |Next(blocks, k, s)| ==> ValidRun(k, Next(blocks, k, s)[m].0.run)
  {
    forall m | 0 <= m < |Next(blocks, k, s)|
      ensures ValidRun(k, Next(blocks, k, s)[m].0.run)
    {
      NextIsLegal(blocks, k, s, Next(blocks, k, s)[m].0);
    }
  }

  /** `did_reach_plain_goal` and `did_reach_ultra_goal`: the bottom-right block; an
      ultra crucible must also have gone at least four blocks straight. */
  predicate IsGoal(blocks: seq<seq<nat>>, k: Kind, s: State)
    requires IsCity(blocks)
    ensures IsGoal(blocks, k, s) ==> InCity(blocks, s)
    ensures IsGoal(blocks, k, s) && k == Ultra ==> s.run >= MinRunBeforeTurn(k)
  {
    s.row == |blocks| - 1 && s.col == |blocks[0]| - 1 && (k == Ultra ==> s.run >= 4)
  }

  // ---------------------------------------------------------------------------
  // Paths and the start states

  /** A sequence of states in which every state is a legal move from the one before. */
  ghost predicate IsPath(blocks: seq<seq<nat>>, k: Kind, p: seq<State>)
    requires IsCity(blocks)
  {
    |p| >= 1 && forall m :: 0 < m < |p| ==> Legal(blocks, k, p[m - 1], p[m])
  }

  /** The number of blocks moved in the heading of `p[m]` since the last turn (or
      since the start). */
  function Straight(p: seq<State>, m: nat): nat
    requires m < |p|
  {
    if m == 0 then 0
    else if p[m].heading == p[m - 1].heading then Straight(p, m - 1) + 1
    else 1
  }

  /** The source starts both searches at the top-left block with a run length of
      one, heading East or South, before any block has been moved. */
  function StartAsWritten(h: Heading): State
  {
    State(0, 0, h, 1)
  }

  /** AS WRITTEN, an ultra crucible may turn after three blocks from the start: in a
      4 x 4 city it goes East three blocks and turns South, although the run-length
      guards say a turn needs four. */
  lemma UltraTurnsEarlyAsWritten()
    ensures var blocks := [[1, 1, 1, 1], [1, 1, 1, 1], [1, 1, 1, 1], [1, 1, 1, 1]];
      var p := [StartAsWritten(East), State(0, 1, East, 2), State(0, 2, East, 3), State(0, 3, East, 4),
                State(1, 3, South, 1)];
      IsCity(blocks) && IsPath(blocks, Ultra, p) && p[4].heading != p[3].heading && Straight(p, 3) == 3
  {
    var blocks := [[1, 1, 1, 1], [1, 1, 1, 1], [1, 1, 1, 1], [1, 1, 1, 1]];
    var p := [StartAsWritten(East), State(0, 1, East, 2), State(0, 2, East, 3), State(0, 3, East, 4),
              State(1, 3, South, 1)];
    assert IsCity(blocks);
    assert Legal(blocks, Ultra, p[0], p[1]);
    assert Legal(blocks, Ultra, p[1], p[2]);
    assert Legal(blocks, Ultra, p[2], p[3]);
    assert Legal(blocks, Ultra, p[3], p[4]);
  }

  /** The corrected start: no block has been moved yet, so the run length is zero. */
  function Start(h: Heading): State
  {
    State(0, 0, h, 0)
  }

  /** From the corrected start, the run length of every state on a path is the number
      of blocks moved straight; so a plain crucible never goes more than three blocks
      straight and an ultra crucible turns only after four. */
  lemma {:induction false} RunCountsStraightMoves(blocks: seq<seq<nat>>, k: Kind, h: Heading, p: seq<State>, m: nat)
    requires IsCity(blocks) && IsPath(blocks, k, p) && p[0] == Start(h)
    requires m < |p|
    ensures p[m].run == Straight(p, m)
    ensures 0 < m < |p| - 1 && p[m + 1].heading != p[m].heading ==> Straight(p, m) >= MinRunBeforeTurn(k)
    ensures Straight(p, m) <= MaxRunBeforeAhead(k) + 1
  {
    if m > 0 {
      RunCountsStraightMoves(blocks, k, h, p, m - 1);
      assert Legal(blocks, k, p[m - 1], p[m]);
    }
    if 0 < m < |p| - 1 {
      assert Legal(blocks, k, p[m], p[m + 1]);
    }
  }

  // ---------------------------------------------------------------------------
  // Parsing

  predicate IsBlockChar(c: char)
  {
    '1' <= c <= '9'
  }

  /** `parse_block`: a digit from 1 to 9 and its value. */
  function ParseBlock(c: char): (r: Option<nat>)
    ensures r.Some? <==> IsBlockChar(c)
    ensures r.Some? ==> 1 <= r.value <= 9 && Decimal.DigitChar(r.value) == c
  {
    if IsBlockChar(c) then Some(Decimal.DigitValue(c)) else None
  }

  predicate IsStreet(street: seq<nat>)
  {
    forall j :: 0 <= j < |street| ==> 1 <= street[j] <= 9
  }

  /** `parse_street`: `many1(parse_block)`. */
  function ParseStreet(s: string): (r: Parsed<seq<nat>>)
    ensures r.Ok? <==> |s| > 0 && IsBlockChar(s[0])
    ensures r.Ok? ==> |r.value| >= 1 && |r.rest| < |s|
    ensures r.Ok? ==> IsStreet(r.value)
  {
    match TakeWhile1(s, IsBlockChar)
    case Fail => Fail
    case Ok(cs, rest) => Ok(seq(|cs|, j requires 0 <= j < |cs| => ParseBlock(cs[j]).value), rest)
  }

  lemma StreetShrinks()
    ensures Shrinks(ParseStreet)
  {
  }

  /** `City::from_str`: streets separated by newlines; what follows is ignored. A
      ragged city fails the source's assertion, and fails here. */
  function ParseCity(s: string): (r: Option<seq<seq<nat>>>)
    ensures r.Some? ==> IsCity(r.value)
    ensures r.Some? <==> SeparatedList1(ParseStreet, '\n', s).Ok? && IsCity(SeparatedList1(ParseStreet, '\n', s).value)
  {
    StreetShrinks();
    match SeparatedList1(ParseStreet, '\n', s)
    case Fail => None
    case Ok(streets, _) =>
      if forall i :: 0 <= i < |streets| ==> |streets[i]| == |streets[0]| then
        assert ParseStreet(s).Ok?;
        SeparatedList1Values(ParseStreet, '\n', s, IsStreet);
        Some(streets)
      else None
  }

  function StreetText(street: seq<nat>): (t: string)
    requires forall j :: 0 <= j < |street| ==> 1 <= street[j] <= 9
    ensures |t| == |street| && forall j :: 0 <= j < |street| ==> t[j] == Decimal.DigitChar(street[j])
  {
    seq(|street|, j requires 0 <= j < |street| => Decimal.DigitChar(street[j]))
  }

  lemma StreetRoundTrip(street: seq<nat>, t: string)
    requires |street| >= 1 && forall j :: 0 <= j < |street| ==> 1 <= street[j] <= 9
    requires |t| == 0 || !IsBlockChar(t[0])
    ensures ParseStreet(StreetText(street) + t) == Ok(street, t)
  {
    var text := StreetText(street);
    assert forall j :: 0 <= j < |text| ==> IsBlockChar(text[j]);
    TakeWhile1Word(text, t, IsBlockChar);
    var r := ParseStreet(text + t);
    assert r.Ok? && r.rest == t && |r.value| == |street|;
    forall j | 0 <= j < |street|
      ensures r.value[j] == street[j]
    {
      assert text[j] == Decimal.DigitChar(street[j]);
    }
    assert r.value == street;
  }

  /** A written city is read back. */
  lemma CityRoundTrip(blocks: seq<seq<nat>>, t: string)
    requires IsCity(blocks)
    requires |t| == 0 || (t[0] != '\n' && !IsBlockChar(t[0]))
    ensures ParseCity(CityText(blocks) + t) == Some(blocks)
  {
    StreetsRoundTrip(blocks, t);
  }

  /** Streets of heat-loss digits, one per line. */
  function CityText(streets: seq<seq<nat>>): string
    requires IsStreets(streets)
  {
    Text.Join(seq(|streets|, i requires 0 <= i < |streets| => StreetText(streets[i])), '\n')
  }

  /** At least one street, each non-empty and of digits 1 to 9, whatever their lengths. */
  predicate IsStreets(streets: seq<seq<nat>>)
  {
    && |streets| >= 1
    && (forall i :: 0 <= i < |streets| ==> |streets[i]| >= 1)
    && (forall i, j :: 0 <= i < |streets| && 0 <= j < |streets[i]| ==> 1 <= streets[i][j] <= 9)
  }

  /** Streets written one per line are read back, whatever their lengths. */
  lemma StreetsRoundTrip(streets: seq<seq<nat>>, t: string)
    requires IsStreets(streets)
    requires |t| == 0 || (t[0] != '\n' && !IsBlockChar(t[0]))
    ensures SeparatedList1(ParseStreet, '\n', CityText(streets) + t) == Ok(streets, t)
  {
    var items := seq(|streets|, i requires 0 <= i < |streets| => StreetText(streets[i]));
    StreetShrinks();
    forall i, t' | 0 <= i < |items| && Follows(t', '\n', t)
      ensures ParseStreet(items[i] + t') == Ok(streets[i], t')
    {
      StreetRoundTrip(streets[i], t');
    }
    SeparatedList1Join(ParseStreet, '\n', items, streets, t);
  }

  /** Written streets of different lengths make the source's assertion fail. */
  lemma RaggedCityPanics(streets: seq<seq<nat>>, t: string)
    requires IsStreets(streets)
    requires !IsCity(streets)
    requires |t| == 0 || (t[0] != '\n' && !IsBlockChar(t[0]))
    ensures ParseCity(CityText(streets) + t).None?
  {
    StreetsRoundTrip(streets, t);
  }
}

=== FILE: day18_lagoon.dfy ===
/** Day 18, "Lavender Lagoon": the dig plan, the trench it digs from the origin, the
    order on trench cells (top rank first, then left to right), the runs of adjacent
    trench cells within a rank, and the capacity the program reports. */
module Lagoon {
  import opened Sequences
  import opened Parsing
  import opened Decimal
  import Text

  datatype Direction = Up | Down | Left | Right

  /** A dig instruction. The colour is kept as the hex digits between `(#` and `)`. */
  datatype Instruction = Instruction(direction: Direction, increment: nat, color: string)

  /** A cell: `x` grows rightwards and `y` grows upwards. */
  datatype Index = Index(x: int, y: int)

  datatype Ordering = Less | Equal | Greater

  // ---------------------------------------------------------------------------
  // The order on cells

  /** `Index::cmp`: the larger `y` comes first; within a rank the smaller `x` does. The
      order agrees with the lexicographic order on (−y, x), and `Equal` is equality
      (`Index::eq` compares both coordinates). */
  function Compare(a: Index, b: Index): (o: Ordering)
    ensures o == Less <==> LexBefore(a, b)
    ensures o == Greater <==> LexBefore(b, a)
    ensures o == Equal <==> a == b
  {
    if b.y < a.y then Less
    else if b.y > a.y then Greater
    else if a.x < b.x then Less
    else if a.x > b.x then Greater
    else Equal
  }

  function Flip(o: Ordering): Ordering
  {
    match o
    case Less => Greater
    case Equal => Equal
    case Greater => Less
  }

  /** The lexicographic order on (−y, x), an independent statement of the same order. */
  predicate LexBefore(a: Index, b: Index)
  {
    -a.y < -b.y || (-a.y == -b.y && a.x < b.x)
  }

  /** Swapping the arguments flips the result. */
  lemma CompareFlips(a: Index, b: Index)
    ensures Compare(b, a) == Flip(Compare(a, b))
  {
  }

  lemma CompareTransitive(a: Index, b: Index, c: Index)
    requires Compare(a, b) != Greater && Compare(b, c) != Greater
    ensures Compare(a, c) != Greater
    ensures Compare(a, c) == Equal ==> a == b == c
  {
  }

  // ---------------------------------------------------------------------------
  // Moving the cursor

  /** The unit vector of a direction. */
  function Dx(d: Direction): int
  {
    match d
    case Left => -1
    case Right => 1
    case _ => 0
  }

  function Dy(d: Direction): int
  {
    match d
    case Up => 1
    case Down => -1
    case _ => 0
  }

  function Opposite(d: Direction): (o: Direction)
    ensures Dx(o) == -Dx(d) && Dy(o) == -Dy(d)
  {
    match d
    case Up => Down
    case Down => Up
    case Left => Right
    case Right => Left
  }

  /** `Index::incremented`: `k` cells in direction `d`. */
  function Incremented(i: Index, k: int, d: Direction): (r: Index)
    ensures r.x == i.x + k * Dx(d) && r.y == i.y + k * Dy(d)
    ensures d == Up || d == Down ==> r.x == i.x
    ensures d == Left || d == Right ==> r.y == i.y
  {
    match d
    case Up => Index(i.x, i.y + k)
    case Down => Index(i.x, i.y - k)
    case Left => Index(i.x - k, i.y)
    case Right => Index(i.x + k, i.y)
  }

  /** Two moves in one direction make one move of the summed length. */
  lemma IncrementedCompose(i: Index, a: int, b: int, d: Direction)
    ensures Incremented(Incremented(i, a, d), b, d) == Incremented(i, a + b, d)
  {
  }

  /** A move followed by the same move in the opposite direction returns to the start;
      in particular `Up` then `Down` by the same amount. */
  lemma IncrementedUndone(i: Index, k: int, d: Direction)
    ensures Incremented(Incremented(i, k, d), k, Opposite(d)) == i
  {
  }

  /** `a` and `b` are four-neighbours. */
  predicate Adjacent(a: Index, b: Index)
  {
    (a.x == b.x && (a.y - b.y == 1 || b.y - a.y == 1)) ||
    (a.y == b.y && (a.x - b.x == 1 || b.x - a.x == 1))
  }

  // ---------------------------------------------------------------------------
  // Digging the trench

  /** The cells one instruction digs from `from`: distances 1 to `n` in direction `d`. */
  function Segment(from: Index, d: Direction, n: nat): (r: seq<Index>)
    ensures |r| == n
    ensures forall k :: 0 <= k < n ==> r[k] == Incremented(from, k + 1, d)
  {
    if n == 0 then [] else Segment(from, d, n - 1) + [Incremented(from, n, d)]
  }

  /** The cursor after following the whole plan from `from`. */
  function Cursor(from: Index, plan: seq<Instruction>): Index
    decreases |plan|
  {
    if |plan| == 0 then from
    else Cursor(Incremented(from, plan[0].increment, plan[0].direction), plan[1..])
  }

  /** The `scan` and `flatten` of `Lagoon::from_plan`, before sorting: the cells every
      instruction digs, in plan order. */
  function Dig(from: Index, plan: seq<Instruction>): (cells: seq<Index>)
    ensures |cells| == Length(plan)
    decreases |plan|
  {
    if |plan| == 0 then []
    else
      var ins := plan[0];
      Segment(from, ins.direction, ins.increment)
        + Dig(Incremented(from, ins.increment, ins.direction), plan[1..])
  }

  /** The sum of the plan's increments. */
  function Length(plan: seq<Instruction>): nat
  {
    if |plan| == 0 then 0 else plan[0].increment + Length(plan[1..])
  }

  /** The trench walks the plan cell by cell: it has one cell per unit of increment,
      its first cell neighbours the start, each cell neighbours the one before, and it
      ends where the cursor ends. */
  ghost predicate IsWalk(from: Index, cells: seq<Index>, to: Index)
  {
    && (|cells| == 0 ==> to == from)
    && (|cells| > 0 ==> Adjacent(from, cells[0]) && cells[|cells| - 1] == to)
    && (forall k :: 0 < k < |cells| ==> Adjacent(cells[k - 1], cells[k]))
  }

  lemma SegmentIsWalk(from: Index, d: Direction, n: nat)
    ensures IsWalk(from, Segment(from, d, n), Incremented(from, n, d))
  {
    var s := Segment(from, d, n);
    forall k | 0 < k < n
      ensures Adjacent(s[k - 1], s[k])
    {
      IncrementedCompose(from, k, 1, d);
    }
  }

  lemma WalkConcat(a: Index, s: seq<Index>, b: Index, t: seq<Index>, c: Index)
    requires IsWalk(a, s, b) && IsWalk(b, t, c)
    ensures IsWalk(a, s + t, c)
  {
    var u := s + t;
    forall k | 0 < k < |u|
      ensures Adjacent(u[k - 1], u[k])
    {
      if k < |s| {
        assert u[k - 1] == s[k - 1] && u[k] == s[k];
      } else if k == |s| {
        assert u[k] == t[0];
      } else {
        assert u[k - 1] == t[k - 1 - |s|] && u[k] == t[k - |s|];
      }
    }
  }

  lemma {:induction false} DigIsWalk(from: Index, plan: seq<Instruction>)
    ensures |Dig(from, plan)| == Length(plan)
    ensures IsWalk(from, Dig(from, plan), Cursor(from, plan))
    decreases |plan|
  {
    if |plan| > 0 {
      var ins := plan[0];
      var next := Incremented(from, ins.increment, ins.direction);
      SegmentIsWalk(from, ins.direction, ins.increment);
      DigIsWalk(next, plan[1..]);
      WalkConcat(from, Segment(from, ins.direction, ins.increment), next,
                 Dig(next, plan[1..]), Cursor(next, plan[1..]));
    }
  }

  // ---------------------------------------------------------------------------
  // Sorting the trench

  predicate Sorted(s: seq<Index>)
  {
    forall i :: 0 < i < |s| ==> Compare(s[i - 1], s[i]) != Greater
  }

  function Insert(x: Index, s: seq<Index>): (r: seq<Index>)
    requires Sorted(s)
    ensures |r| == |s| + 1
    ensures Sorted(r) && multiset(r) == multiset(s) + multiset{x}
    ensures r[0] == x || (|s| > 0 && r[0] == s[0])
  {
    if |s| == 0 || Compare(x, s[0]) != Greater then [x] + s
    else
      assert s == [s[0]] + s[1..];
      [s[0]] + Insert(x, s[1..])
  }

  /** `sorted()`: the cells in the `Index` order. */
  function Sort(s: seq<Index>): (r: seq<Index>)
    ensures |r| == |s|
    ensures Sorted(r) && multiset(r) == multiset(s)
  {
    if |s| == 0 then []
    else
      assert s == [s[0]] + s[1..];
      Insert(s[0], Sort(s[1..]))
  }

  /** The first element of a sorted sequence is its least. */
  lemma {:induction false} SortedLeast(s: seq<Index>, i: nat)
    requires Sorted(s) && i < |s|
    ensures Compare(s[0], s[i]) != Greater
  {
    if i > 0 {
      SortedLeast(s, i - 1);
      CompareTransitive(s[0], s[i - 1], s[i]);
    }
  }

  /** Two sorted arrangements of one multiset start with the same cell. */
  lemma SortedHeads(a: seq<Index>, b: seq<Index>)
    requires Sorted(a) && Sorted(b) && multiset(a) == multiset(b) && |a| > 0
    ensures |b| > 0 && a[0] == b[0]
  {
    assert a[0] in multiset(b);
    assert b[0] in multiset(a);
    var i :| 0 <= i < |b| && b[i] == a[0];
    var j :| 0 <= j < |a| && a[j] == b[0];
    SortedLeast(b, i);
    SortedLeast(a, j);
    CompareFlips(a[0], b[0]);
  }

  /** Removing the same first element leaves equal multisets. */
  lemma TailMultiset(a: seq<Index>, b: seq<Index>)
    requires |a| > 0 && |b| > 0 && a[0] == b[0] && multiset(a) == multiset(b)
    ensures multiset(a[1..]) == multiset(b[1..])
  {
    assert a == [a[0]] + a[1..];
    assert b == [b[0]] + b[1..];
    calc {
      multiset(a[1..]);
      multiset(a) - multiset{a[0]};
      multiset(b) - multiset{b[0]};
      multiset(b[1..]);
    }
  }

  /** There is one sorted arrangement of a multiset of cells, since the order is
      total and `Equal` only for equal cells; so any stable or unstable sort gives the
      result `Sort` does. */
  lemma {:induction false} SortedUnique(a: seq<Index>, b: seq<Index>)
    requires Sorted(a) && Sorted(b) && multiset(a) == multiset(b)
    ensures a == b
    decreases |a|
  {
    if |a| > 0 {
      SortedHeads(a, b);
      TailMultiset(a, b);
      SortedUnique(a[1..], b[1..]);
      assert a == [a[0]] + a[1..];
      assert b == [b[0]] + b[1..];
    } else {
      assert |b| == |multiset(b)| == 0;
    }
  }

  /** Sorting a sorted trench leaves it as it is. */
  lemma SortSorted(s: seq<Index>)
    requires Sorted(s)
    ensures Sort(s) == s
  {
    SortedUnique(Sort(s), s);
  }

  // ---------------------------------------------------------------------------
  // Ranks and runs

  /** No cell occurs twice. */
  predicate NoRepeats(s: seq<Index>)
  {
    forall i, j :: 0 <= i < j < |s| ==> s[i] != s[j]
  }

  lemma {:induction false} NoRepeatsMultiset(s: seq<Index>)
    requires NoRepeats(s)
    ensures forall c :: multiset(s)[c] <= 1
  {
    if |s| > 0 {
      assert s == [s[0]] + s[1..];
      NoRepeatsMultiset(s[1..]);
      assert s[0] !in s[1..];
    }
  }

  lemma MultisetNoRepeats(s: seq<Index>)
    requires forall c :: multiset(s)[c] <= 1
    ensures NoRepeats(s)
  {
    forall i, j | 0 <= i < j < |s|
      ensures s[i] != s[j]
    {
      assert s == s[..j] + s[j..];
      assert s[..j][i] == s[i] && s[j..][0] == s[j];
      CountSplit(s[..j], s[j..], s[i]);
      assert multiset(s[j..])[s[j]] >= 1;
      assert multiset(s)[s[i]] <= 1;
    }
  }

  lemma CountSplit(a: seq<Index>, b: seq<Index>, c: Index)
    requires c in a
    ensures multiset(a + b)[c] >= 1 + multiset(b)[c]
  {
    assert multiset(a + b) == multiset(a) + multiset(b);
  }

  /** Cells in strictly ascending order: neighbours are `Less`. */
  predicate StrictlySorted(s: seq<Index>)
  {
    forall i :: 0 < i < |s| ==> Compare(s[i - 1], s[i]) == Less
  }

  lemma SortedNoRepeats(s: seq<Index>)
    requires Sorted(s) && NoRepeats(s)
    ensures StrictlySorted(s)
  {
    forall i | 0 < i < |s|
      ensures Compare(s[i - 1], s[i]) == Less
    {
      assert s[i - 1] != s[i];
    }
  }

  function RankOf(i: Index): int
  {
    i.y
  }

  /** `group_by(|index| index.y)` over the sorted trench: its ranks. */
  function Ranks(trench: seq<Index>): (ranks: seq<seq<Index>>)
    ensures IsGrouping(ranks, trench, RankOf)
  {
    GroupBy(trench, RankOf)
  }

  /** The `x` of every cell of a rank. */
  function Xs(rank: seq<Index>): (xs: seq<int>)
    ensures |xs| == |rank| && forall j :: 0 <= j < |rank| ==> xs[j] == rank[j].x
  {
    if |rank| == 0 then [] else [rank[0].x] + Xs(rank[1..])
  }

  /** Strictly ascending integers. */
  predicate Increasing(xs: seq<int>)
  {
    forall j :: 0 < j < |xs| ==> xs[j - 1] < xs[j]
  }

  /** The ranks of a sorted trench run from the top rank down, and the cells of a rank
      from left to right; without repeated cells, strictly so. */
  lemma RanksOrdered(trench: seq<Index>)
    requires Sorted(trench)
    ensures forall k :: 0 < k < |Ranks(trench)| ==> Ranks(trench)[k - 1][0].y > Ranks(trench)[k][0].y
    ensures NoRepeats(trench) ==> forall k :: 0 <= k < |Ranks(trench)| ==> Increasing(Xs(Ranks(trench)[k]))
  {
    var ranks: seq<seq<Index>> := Ranks(trench);
    var ordered := (a: Index, b: Index) => Compare(a, b) != Greater;
    FlattenNeighbours(ranks, ordered);
    forall k | 0 < k < |ranks|
      ensures ranks[k - 1][0].y > ranks[k][0].y
    {
      var last := ranks[k - 1][|ranks[k - 1]| - 1];
      assert ordered(last, ranks[k][0]);
      assert RankOf(last) == RankOf(ranks[k - 1][0]);
    }
    if NoRepeats(trench) {
      SortedNoRepeats(trench);
      var before := (a: Index, b: Index) => Compare(a, b) == Less;
      FlattenNeighbours(ranks, before);
      forall k | 0 <= k < |ranks|
        ensures Increasing(Xs(ranks[k]))
      {
        forall j | 0 < j < |ranks[k]|
          ensures ranks[k][j - 1].x < ranks[k][j].x
        {
          assert before(ranks[k][j - 1], ranks[k][j]);
          assert RankOf(ranks[k][j - 1]) == RankOf(ranks[k][0]) == RankOf(ranks[k][j]);
        }
      }
    }
  }

  /** `enumerate()`, with positions counted from `start`. */
  function Enumerate(xs: seq<int>, start: int): (e: seq<(int, int)>)
    ensures |e| == |xs| && forall j :: 0 <= j < |xs| ==> e[j] == (start + j, xs[j])
  {
    if |xs| == 0 then [] else [(start, xs[0])] + Enumerate(xs[1..], start + 1)
  }

  /** The run key `x - i`: it stays the same along a run of consecutive `x`. */
  function RunKey(p: (int, int)): int
  {
    p.1 - p.0
  }

  function Values(g: seq<(int, int)>): (v: seq<int>)
    ensures |v| == |g| && forall j :: 0 <= j < |g| ==> v[j] == g[j].1
  {
    if |g| == 0 then [] else [g[0].1] + Values(g[1..])
  }

  lemma {:induction false} FlattenValues(g: seq<seq<(int, int)>>, v: seq<seq<int>>)
    requires |v| == |g| && forall k :: 0 <= k < |g| ==> v[k] == Values(g[k])
    ensures Flatten(v) == Values(Flatten(g))
  {
    if |g| > 0 {
      assert forall k :: 0 <= k < |g[1..]| ==> v[1..][k] == v[k + 1];
      FlattenValues(g[1..], v[1..]);
      ValuesAppend(g[0], Flatten(g[1..]));
    }
  }

  lemma ValuesAppend(a: seq<(int, int)>, b: seq<(int, int)>)
    ensures Values(a + b) == Values(a) + Values(b)
  {
    var l, r := Values(a + b), Values(a) + Values(b);
    assert |l| == |r|;
    forall j | 0 <= j < |l|
      ensures l[j] == r[j]
    {
      if j < |a| {
        assert (a + b)[j] == a[j];
      } else {
        assert (a + b)[j] == b[j - |a|];
      }
    }
  }

  /** Consecutive integers. */
  predicate Consecutive(run: seq<int>)
  {
    forall j :: 0 < j < |run| ==> run[j] == run[j - 1] + 1
  }

  /** `runs` splits `xs` into maximal runs of consecutive integers: non-empty runs that
      concatenate to `xs`, and no run continues where the one before it ended. */
  ghost predicate IsRunSplit(runs: seq<seq<int>>, xs: seq<int>)
  {
    && Flatten(runs) == xs
    && (forall k :: 0 <= k < |runs| ==> |runs[k]| > 0 && Consecutive(runs[k]))
    && (forall k :: 0 < k < |runs| ==> runs[k][0] != runs[k - 1][|runs[k - 1]| - 1] + 1)
  }

  /** The `enumerate` and `group_by(x - i)` inside `Lagoon::from_plan`: a rank's `x`s cut
      into maximal runs of consecutive values. */
  function Runs(xs: seq<int>): (runs: seq<seq<int>>)
    ensures IsRunSplit(runs, xs)
  {
    var e := Enumerate(xs, 0);
    var g := GroupBy(e, RunKey);
    var runs := seq(|g|, k requires 0 <= k < |g| => Values(g[k]));
    RunsSplit(xs, g, runs);
    runs
  }

  lemma RunsSplit(xs: seq<int>, g: seq<seq<(int, int)>>, runs: seq<seq<int>>)
    requires IsGrouping(g, Enumerate(xs, 0), RunKey)
    requires |runs| == |g| && forall k :: 0 <= k < |g| ==> runs[k] == Values(g[k])
    ensures IsRunSplit(runs, xs)
  {
    FlattenValues(g, runs);
    assert Values(Enumerate(xs, 0)) == xs;
    RunsConsecutive(xs, g, runs);
    RunsBoundaries(xs, g, runs);
  }

  /** Inside a group the key `x - i` is constant while `i` goes up by one. */
  lemma RunsConsecutive(xs: seq<int>, g: seq<seq<(int, int)>>, runs: seq<seq<int>>)
    requires IsGrouping(g, Enumerate(xs, 0), RunKey)
    requires |runs| == |g| && forall k :: 0 <= k < |g| ==> runs[k] == Values(g[k])
    ensures forall k :: 0 <= k < |runs| ==> |runs[k]| > 0 && Consecutive(runs[k])
  {
    var next := (p: (int, int), q: (int, int)) => q.0 == p.0 + 1;
    FlattenNeighbours(g, next);
    forall k | 0 <= k < |runs|
      ensures |runs[k]| > 0 && Consecutive(runs[k])
    {
      forall j | 0 < j < |runs[k]|
        ensures runs[k][j] == runs[k][j - 1] + 1
      {
        assert next(g[k][j - 1], g[k][j]);
        assert RunKey(g[k][j - 1]) == RunKey(g[k][0]) == RunKey(g[k][j]);
      }
    }
  }

  /** Across a group boundary the key changes while `i` goes up by one. */
  lemma RunsBoundaries(xs: seq<int>, g: seq<seq<(int, int)>>, runs: seq<seq<int>>)
    requires IsGrouping(g, Enumerate(xs, 0), RunKey)
    requires |runs| == |g| && forall k :: 0 <= k < |g| ==> runs[k] == Values(g[k])
    requires forall k :: 0 <= k < |runs| ==> |runs[k]| > 0
    ensures forall k :: 0 < k < |runs| ==> runs[k][0] != runs[k - 1][|runs[k - 1]| - 1] + 1
  {
    var next := (p: (int, int), q: (int, int)) => q.0 == p.0 + 1;
    FlattenNeighbours(g, next);
    forall k | 0 < k < |runs|
      ensures runs[k][0] != runs[k - 1][|runs[k - 1]| - 1] + 1
    {
      var last := g[k - 1][|g[k - 1]| - 1];
      assert next(last, g[k][0]);
      assert RunKey(last) == RunKey(g[k - 1][0]);
    }
  }

  /** Runs of an increasing sequence are separated by at least one missing value. */
  lemma RunsApart(xs: seq<int>)
    requires Increasing(xs)
    ensures forall k :: 0 < k < |Runs(xs)| ==> Runs(xs)[k][0] >= Runs(xs)[k - 1][|Runs(xs)[k - 1]| - 1] + 2
  {
    SplitApart(Runs(xs), xs);
  }

  lemma SplitApart(runs: seq<seq<int>>, xs: seq<int>)
    requires IsRunSplit(runs, xs) && Increasing(xs)
    ensures forall k :: 0 < k < |runs| ==> runs[k][0] >= runs[k - 1][|runs[k - 1]| - 1] + 2
  {
    var less := (a: int, b: int) => a < b;
    forall i | 0 < i < |Flatten(runs)|
      ensures less(Flatten(runs)[i - 1], Flatten(runs)[i])
    {
      assert xs[i - 1] < xs[i];
    }
    FlattenNeighbours(runs, less);
    forall k | 0 < k < |runs|
      ensures runs[k][0] >= runs[k - 1][|runs[k - 1]| - 1] + 2
    {
      assert less(runs[k - 1][|runs[k - 1]| - 1], runs[k][0]);
    }
  }

  // ---------------------------------------------------------------------------
  // The lagoon and its capacity

  /** `Lagoon`: the sorted trench and, per rank, its runs of `x`. */
  datatype Lagoon = Lagoon(trench: seq<Index>, runs: seq<seq<seq<int>>>)

  /** Every run is non-empty, so `first()` and `last()` never fail. */
  predicate WellFormed(l: Lagoon)
  {
    forall r, k :: 0 <= r < |l.runs| && 0 <= k < |l.runs[r]| ==> |l.runs[r][k]| > 0
  }

  const Origin := Index(0, 0)

  /** `Lagoon::from_plan`. */
  function FromPlan(plan: seq<Instruction>): (l: Lagoon)
    ensures WellFormed(l)
    ensures Sorted(l.trench) && multiset(l.trench) == multiset(Dig(Origin, plan))
    ensures |l.runs| == |Ranks(l.trench)|
    ensures forall r :: 0 <= r < |l.runs| ==> IsRunSplit(l.runs[r], Xs(Ranks(l.trench)[r]))
  {
    var trench := Sort(Dig(Origin, plan));
    Lagoon(trench, RankRuns(trench))
  }

  /** The runs of every rank of a sorted trench. */
  function RankRuns(trench: seq<Index>): (runs: seq<seq<seq<int>>>)
    ensures |runs| == |Ranks(trench)|
    ensures forall r :: 0 <= r < |runs| ==> IsRunSplit(runs[r], Xs(Ranks(trench)[r]))
  {
    var ranks := Ranks(trench);
    seq(|ranks|, r requires 0 <= r < |ranks| => Runs(Xs(ranks[r])))
  }

  /** `Lagoon::trench_capacity`: one per dug cell, repeats included. */
  function TrenchCapacity(l: Lagoon): nat
  {
    |l.trench|
  }

  /** The cells strictly between the end of run `a` and the start of run `b`. */
  function Gap(a: seq<int>, b: seq<int>): int
    requires |a| > 0 && |b| > 0
  {
    b[0] - a[|a| - 1] - 1
  }

  /** `tuples()` over a rank's runs: the gaps after the 1st, 3rd, 5th, … run; an
      unpaired last run adds nothing. */
  function PairedGaps(runs: seq<seq<int>>): int
    requires forall k :: 0 <= k < |runs| ==> |runs[k]| > 0
  {
    if |runs| < 2 then 0 else Gap(runs[0], runs[1]) + PairedGaps(runs[2..])
  }

  function RankGaps(runs: seq<seq<seq<int>>>): int
    requires forall r, k :: 0 <= r < |runs| && 0 <= k < |runs[r]| ==> |runs[r][k]| > 0
  {
    if |runs| == 0 then 0 else PairedGaps(runs[0]) + RankGaps(runs[1..])
  }

  /** Within every rank, consecutive runs leave at least one cell between them. */
  predicate RunsSeparated(runs: seq<seq<seq<int>>>)
    requires forall r, k :: 0 <= r < |runs| && 0 <= k < |runs[r]| ==> |runs[r][k]| > 0
  {
    forall r, k :: 0 <= r < |runs| && 0 < k < |runs[r]| ==>
      runs[r][k][0] >= runs[r][k - 1][|runs[r][k - 1]| - 1] + 2
  }

  /** `Lagoon::capacity`: the trench plus the cells between paired runs; when the runs
      are separated, no paired gap is negative and the capacity is at least the
      trench's. */
  function Capacity(l: Lagoon): (c: int)
    requires WellFormed(l)
    ensures RunsSeparated(l.runs) ==> c >= TrenchCapacity(l)
  {
    if RunsSeparated(l.runs) then RankGapsBound(l.runs); RankGaps(l.runs) + TrenchCapacity(l)
    else RankGaps(l.runs) + TrenchCapacity(l)
  }

  lemma {:induction false} PairedGapsBound(runs: seq<seq<int>>)
    requires forall k :: 0 <= k < |runs| ==> |runs[k]| > 0
    requires forall k :: 0 < k < |runs| ==> runs[k][0] >= runs[k - 1][|runs[k - 1]| - 1] + 2
    ensures PairedGaps(runs) >= |runs| / 2
  {
    if |runs| >= 2 {
      PairedGapsBound(runs[2..]);
    }
  }

  lemma {:induction false} RankGapsBound(runs: seq<seq<seq<int>>>)
    requires forall r, k :: 0 <= r < |runs| && 0 <= k < |runs[r]| ==> |runs[r][k]| > 0
    requires forall r, k :: 0 <= r < |runs| && 0 < k < |runs[r]| ==>
      runs[r][k][0] >= runs[r][k - 1][|runs[r][k - 1]| - 1] + 2
    ensures RankGaps(runs) >= 0
  {
    if |runs| > 0 {
      PairedGapsBound(runs[0]);
      RankGapsBound(runs[1..]);
    }
  }

  /** The trench has one cell per unit of the plan's increments; when the plan never
      digs a cell twice, every paired gap is at least one cell wide, so the capacity
      is at least the trench's. */
  lemma CapacityBound(plan: seq<Instruction>)
    ensures TrenchCapacity(FromPlan(plan)) == Length(plan)
    ensures NoRepeats(Dig(Origin, plan)) ==> Capacity(FromPlan(plan)) >= TrenchCapacity(FromPlan(plan))
  {
    TrenchLength(plan);
    if NoRepeats(Dig(Origin, plan)) {
      GapsNonNegative(plan);
    }
  }

  lemma TrenchLength(plan: seq<Instruction>)
    ensures |FromPlan(plan).trench| == Length(plan)
  {
    var l := FromPlan(plan);
    DigIsWalk(Origin, plan);
    assert |l.trench| == |multiset(l.trench)| == |Dig(Origin, plan)|;
  }

  lemma GapsNonNegative(plan: seq<Instruction>)
    requires NoRepeats(Dig(Origin, plan))
    ensures RankGaps(FromPlan(plan).runs) >= 0
  {
    PlanTrenchDistinct(plan);
    LagoonGapsNonNegative(FromPlan(plan));
  }

  lemma PlanTrenchDistinct(plan: seq<Instruction>)
    requires NoRepeats(Dig(Origin, plan))
    ensures Sorted(FromPlan(plan).trench) && NoRepeats(FromPlan(plan).trench)
    ensures FromPlan(plan).runs == RankRuns(FromPlan(plan).trench)
  {
    NoRepeatsMultiset(Dig(Origin, plan));
    MultisetNoRepeats(FromPlan(plan).trench);
  }

  lemma LagoonGapsNonNegative(l: Lagoon)
    requires Sorted(l.trench) && NoRepeats(l.trench)
    requires l.runs == RankRuns(l.trench)
    ensures RankGaps(l.runs) >= 0
  {
    AllRunsApart(l);
    RankGapsBound(l.runs);
  }

  lemma AllRunsApart(l: Lagoon)
    requires Sorted(l.trench) && NoRepeats(l.trench)
    requires l.runs == RankRuns(l.trench)
    ensures forall r, k :: 0 <= r < |l.runs| && 0 < k < |l.runs[r]| ==>
      l.runs[r][k][0] >= l.runs[r][k - 1][|l.runs[r][k - 1]| - 1] + 2
  {
    forall r | 0 <= r < |l.runs|
      ensures forall k :: 0 < k < |l.runs[r]| ==>
        l.runs[r][k][0] >= l.runs[r][k - 1][|l.runs[r][k - 1]| - 1] + 2
    {
      RankRunsApart(l, r);
    }
  }

  lemma RankRunsApart(l: Lagoon, r: nat)
    requires Sorted(l.trench) && NoRepeats(l.trench)
    requires |l.runs| == |Ranks(l.trench)| && r < |l.runs|
    requires l.runs[r] == Runs(Xs(Ranks(l.trench)[r]))
    ensures forall k :: 0 < k < |l.runs[r]| ==>
      l.runs[r][k][0] >= l.runs[r][k - 1][|l.runs[r][k - 1]| - 1] + 2
  {
    RanksOrdered(l.trench);
    RunsApart(Xs(Ranks(l.trench)[r]));
  }

  // ---------------------------------------------------------------------------
  // Parsing

  function DirectionChar(d: Direction): char
  {
    match d
    case Up => 'U'
    case Down => 'D'
    case Left => 'L'
    case Right => 'R'
  }

  /** `parse_direction`: one of `U`, `D`, `L`, `R`. */
  function ParseDirection(s: string): (r: Parsed<Direction>)
    ensures r.Ok? <==> |s| > 0 && s[0] in "UDLR"
    ensures r.Ok? ==> r.rest == s[1..] && DirectionChar(r.value) == s[0]
  {
    if |s| == 0 then Fail
    else if s[0] == 'U' then Ok(Up, s[1..])
    else if s[0] == 'D' then Ok(Down, s[1..])
    else if s[0] == 'L' then Ok(Left, s[1..])
    else if s[0] == 'R' then Ok(Right, s[1..])
    else Fail
  }

  /** `hex_digit1`'s character class. */
  predicate IsHexDigit(c: char)
  {
    IsDigit(c) || 'a' <= c <= 'f' || 'A' <= c <= 'F'
  }

  /** A colour as the plan writes it: a non-empty run of hex digits. */
  predicate IsColor(color: string)
  {
    |color| >= 1 && forall i :: 0 <= i < |color| ==> IsHexDigit(color[i])
  }

  /** `parse_color`: `(#`, hex digits, `)`. */
  function ParseColor(s: string): (r: Parsed<string>)
    ensures r.Ok? ==> IsColor(r.value) && |r.rest| < |s|
  {
    match Char('(', s)
    case Fail => Fail
    case Ok(_, s1) =>
      match Char('#', s1)
      case Fail => Fail
      case Ok(_, s2) =>
        match TakeWhile1(s2, IsHexDigit)
        case Fail => Fail
        case Ok(hex, s3) =>
          match Char(')', s3)
          case Fail => Fail
          case Ok(_, s4) => Ok(hex, s4)
  }

  /** The inner `separated_pair` of `parse_instruction`: increment, space, colour. */
  function ParseAmount(s: string): (r: Parsed<(nat, string)>)
    ensures r.Ok? ==> |r.rest| < |s| && IsColor(r.value.1)
  {
    match Number(s)
    case Fail => Fail
    case Ok(n, s1) =>
      match Char(' ', s1)
      case Fail => Fail
      case Ok(_, s2) =>
        match ParseColor(s2)
        case Fail => Fail
        case Ok(color, s3) => Ok((n, color), s3)
  }

  /** `parse_instruction`: direction, space, increment, space, colour. */
  function ParseInstruction(s: string): (r: Parsed<Instruction>)
    ensures r.Ok? ==> |r.rest| < |s| && IsColor(r.value.color)
  {
    match ParseDirection(s)
    case Fail => Fail
    case Ok(d, s1) =>
      match Char(' ', s1)
      case Fail => Fail
      case Ok(_, s2) =>
        match ParseAmount(s2)
        case Fail => Fail
        case Ok(amount, s3) => Ok(Instruction(d, amount.0, amount.1), s3)
  }

  lemma InstructionShrinks()
    ensures Shrinks(ParseInstruction)
  {
  }

  /** `parse_instructions`: one or more instructions separated by newlines. */
  function ParseInstructions(s: string): (r: Parsed<seq<Instruction>>)
    ensures r.Ok? ==> |r.value| >= 1
    ensures r.Ok? ==> forall k :: 0 <= k < |r.value| ==> IsColor(r.value[k].color)
  {
    InstructionShrinks();
    SeparatedList1Values(ParseInstruction, '\n', s, (ins: Instruction) => IsColor(ins.color));
    SeparatedList1(ParseInstruction, '\n', s)
  }

  /** `Plan::from_str`: the instructions, then a newline. What follows is ignored. */
  function ParsePlan(s: string): (r: Option<seq<Instruction>>)
    ensures r.Some? ==> |r.value| >= 1
    ensures r.Some? ==> forall k :: 0 <= k < |r.value| ==> IsColor(r.value[k].color)
  {
    match ParseInstructions(s)
    case Fail => None
    case Ok(plan, rest) =>
      if Char('\n', rest).Ok? then Some(plan) else None
  }

  function InstructionText(ins: Instruction): string
  {
    [DirectionChar(ins.direction)] + " " + ToDigits(ins.increment) + " (#" + ins.color + ")"
  }

  /** A colour written out is read back. */
  lemma ColorRoundTrip(color: string, t: string)
    requires IsColor(color)
    ensures ParseColor("(#" + color + ")" + t) == Ok(color, t)
  {
    var s := "(#" + color + ")" + t;
    assert s[1..][1..] == color + (")" + t);
    TakeWhile1Word(color, ")" + t, IsHexDigit);
  }

  lemma AmountRoundTrip(n: nat, color: string, t: string)
    requires IsColor(color)
    ensures ParseAmount(ToDigits(n) + " (#" + color + ")" + t) == Ok((n, color), t)
  {
    var s2 := "(#" + color + ")" + t;
    var s1 := " " + s2;
    var s := ToDigits(n) + " (#" + color + ")" + t;
    assert s == ToDigits(n) + s1;
    NumberOfDigits(n, s1);
    assert Number(s) == Ok(n, s1);
    assert Char(' ', s1) == Ok(' ', s2);
    ColorRoundTrip(color, t);
    assert ParseColor(s2) == Ok(color, t);
  }

  /** An instruction written out is read back, whatever text follows it. */
  lemma InstructionRoundTrip(ins: Instruction, t: string)
    requires IsColor(ins.color)
    ensures ParseInstruction(InstructionText(ins) + t) == Ok(ins, t)
  {
    var s2 := ToDigits(ins.increment) + " (#" + ins.color + ")" + t;
    var s1 := " " + s2;
    var s := InstructionText(ins) + t;
    assert s == [DirectionChar(ins.direction)] + s1;
    assert ParseDirection(s) == Ok(ins.direction, s1) by {
      assert s[1..] == s1;
    }
    assert Char(' ', s1) == Ok(' ', s2);
    AmountRoundTrip(ins.increment, ins.color, t);
    assert ParseAmount(s2) == Ok((ins.increment, ins.color), t);
  }

  function InstructionTexts(plan: seq<Instruction>): (texts: seq<string>)
    ensures |texts| == |plan| && forall k :: 0 <= k < |plan| ==> texts[k] == InstructionText(plan[k])
  {
    if |plan| == 0 then [] else [InstructionText(plan[0])] + InstructionTexts(plan[1..])
  }

  /** A plan written one instruction per line, each line ended by a newline. */
  function PlanText(plan: seq<Instruction>): string
    requires |plan| >= 1
  {
    Text.Join(InstructionTexts(plan), '\n') + "\n"
  }

  /** A written plan is read back, as long as what follows it does not begin with
      another instruction. */
  lemma PlanRoundTrip(plan: seq<Instruction>, t: string)
    requires |plan| >= 1 && forall k :: 0 <= k < |plan| ==> IsColor(plan[k].color)
    requires ParseInstruction(t).Fail?
    ensures ParsePlan(PlanText(plan) + t) == Some(plan)
  {
    var after := "\n" + t;
    InstructionsRoundTrip(plan, after);
    assert PlanText(plan) + t == Text.Join(InstructionTexts(plan), '\n') + after;
    assert Char('\n', after).Ok?;
  }

  lemma InstructionsRoundTrip(plan: seq<Instruction>, after: string)
    requires |plan| >= 1 && forall k :: 0 <= k < |plan| ==> IsColor(plan[k].color)
    requires |after| > 0 && after[0] == '\n' && ParseInstruction(after[1..]).Fail?
    ensures ParseInstructions(Text.Join(InstructionTexts(plan), '\n') + after) == Ok(plan, after)
  {
    InstructionShrinks();
    var texts := InstructionTexts(plan);
    forall k, t' | 0 <= k < |plan| && Follows(t', '\n', after)
      ensures ParseInstruction(texts[k] + t') == Ok(plan[k], t')
    {
      InstructionRoundTrip(plan[k], t');
    }
    SeparatedList1Join(ParseInstruction, '\n', texts, plan, after);
  }

  /** `part_one`: the capacity of the lagoon the plan digs; missing when the input
      does not parse. */
  function PartOne(input: string): (r: Option<int>)
    ensures r.Some? <==> ParsePlan(input).Some?
    ensures r.Some? ==> r.value == Capacity(FromPlan(ParsePlan(input).value))
    ensures r.Some? ==> r.value == RankGaps(FromPlan(ParsePlan(input).value).runs) + Length(ParsePlan(input).value)
    ensures r.Some? && NoRepeats(Dig(Origin, ParsePlan(input).value)) ==> r.value >= Length(ParsePlan(input).value)
  {
    match ParsePlan(input)
    case None => None
    case Some(plan) =>
      CapacityBound(plan);
      Some(Capacity(FromPlan(plan)))
  }

  /** For a plan that never digs a cell twice, the answer is at least the number of
      trench cells. */
  lemma PartOneBound(plan: seq<Instruction>)
    requires |plan| >= 1 && forall k :: 0 <= k < |plan| ==> IsColor(plan[k].color)
    requires NoRepeats(Dig(Origin, plan))
    ensures PartOne(PlanText(plan)) == Some(Capacity(FromPlan(plan)))
    ensures Capacity(FromPlan(plan)) >= Length(plan)
  {
    PlanRoundTrip(plan, "");
    assert PlanText(plan) + "" == PlanText(plan);
    CapacityBound(plan);
  }
}

=== FILE: day19_workflows.dfy ===
/** Day 19, "Aplenty": the grammar of the workflows and parts a processor reads. A
    workflow is a name and a braced, comma-separated list of rules; a rule is an
    optional `category operator threshold` test followed by `:` and an outcome, or a
    bare outcome; a part is a braced list of `category=rating` entries. */
module Workflows {
  import opened Sequences
  import opened Parsing
  import opened Decimal
  import Text

  datatype Category = ExtremelyCool | Musical | Aerodynamic | Shiny

  datatype Operator = LessThan | GreaterThan

  datatype Predicate = Predicate(category: Category, operator: Operator, threshold: nat)

  datatype Outcome = Accept | Reject | Delegate(name: string)

  datatype Rule = Rule(condition: Option<Predicate>, outcome: Outcome)

  datatype Workflow = Workflow(name: string, rules: seq<Rule>)

  /** A part's ratings: the entries collected into a map, so a repeated category keeps
      its last rating. */
  type Part = map<Category, nat>

  datatype Processor = Processor(workflows: seq<Workflow>, parts: seq<Part>)

  // ---------------------------------------------------------------------------
  // Single characters

  function CategoryChar(c: Category): char
  {
    match c
    case ExtremelyCool => 'x'
    case Musical => 'm'
    case Aerodynamic => 'a'
    case Shiny => 's'
  }

  /** `parse_category`: `x`, `m`, `a` or `s`. */
  function ParseCategory(s: string): (r: Parsed<Category>)
    ensures r.Ok? <==> |s| > 0 && s[0] in "xmas"
    ensures r.Ok? ==> r.rest == s[1..] && CategoryChar(r.value) == s[0]
  {
    if |s| == 0 then Fail
    else if s[0] == 'x' then Ok(ExtremelyCool, s[1..])
    else if s[0] == 'm' then Ok(Musical, s[1..])
    else if s[0] == 'a' then Ok(Aerodynamic, s[1..])
    else if s[0] == 's' then Ok(Shiny, s[1..])
    else Fail
  }

  /** Each category is read back from its letter. */
  lemma CategoryRoundTrip(c: Category, t: string)
    ensures ParseCategory([CategoryChar(c)] + t) == Ok(c, t)
  {
    assert ([CategoryChar(c)] + t)[1..] == t;
  }

  function OperatorChar(o: Operator): char
  {
    match o
    case LessThan => '<'
    case GreaterThan => '>'
  }

  /** `parse_operator`: `<` or `>`. */
  function ParseOperator(s: string): (r: Parsed<Operator>)
    ensures r.Ok? <==> |s| > 0 && (s[0] == '<' || s[0] == '>')
    ensures r.Ok? ==> r.rest == s[1..] && OperatorChar(r.value) == s[0]
  {
    if |s| == 0 then Fail
    else if s[0] == '<' then Ok(LessThan, s[1..])
    else if s[0] == '>' then Ok(GreaterThan, s[1..])
    else Fail
  }

  lemma OperatorRoundTrip(o: Operator, t: string)
    ensures ParseOperator([OperatorChar(o)] + t) == Ok(o, t)
  {
    assert ([OperatorChar(o)] + t)[1..] == t;
  }

  // ---------------------------------------------------------------------------
  // Predicates, names and outcomes

  /** `parse_predicate`: category, operator, threshold, with nothing between them. */
  function ParsePredicate(s: string): (r: Parsed<Predicate>)
    ensures r.Ok? ==> |r.rest| < |s| && (|r.rest| == 0 || !IsDigit(r.rest[0]))
  {
    match ParseCategory(s)
    case Fail => Fail
    case Ok(c, s1) =>
      match ParseOperator(s1)
      case Fail => Fail
      case Ok(o, s2) =>
        match Number(s2)
        case Fail => Fail
        case Ok(n, s3) => Ok(Predicate(c, o, n), s3)
  }

  function PredicateText(p: Predicate): string
  {
    [CategoryChar(p.category), OperatorChar(p.operator)] + ToDigits(p.threshold)
  }

  lemma PredicateRoundTrip(p: Predicate, t: string)
    requires |t| == 0 || !IsDigit(t[0])
    ensures ParsePredicate(PredicateText(p) + t) == Ok(p, t)
  {
    var s2 := ToDigits(p.threshold) + t;
    var s := PredicateText(p) + t;
    assert s == [CategoryChar(p.category)] + ([OperatorChar(p.operator)] + s2);
    CategoryRoundTrip(p.category, [OperatorChar(p.operator)] + s2);
    OperatorRoundTrip(p.operator, s2);
    NumberOfDigits(p.threshold, t);
  }

  /** A name: a non-empty run of ASCII letters. */
  predicate IsName(name: string)
  {
    |name| >= 1 && forall i :: 0 <= i < |name| ==> IsAlpha(name[i])
  }

  /** `parse_name`: `alpha1`. */
  function ParseName(s: string): (r: Parsed<string>)
    ensures r.Ok? <==> |s| > 0 && IsAlpha(s[0])
    ensures r.Ok? ==> IsName(r.value) && r.value + r.rest == s
    ensures r.Ok? ==> |r.rest| == 0 || !IsAlpha(r.rest[0])
  {
    TakeWhile1(s, IsAlpha)
  }

  /** `parse_outcome`: a leading `A` is Accept and a leading `R` is Reject, one character
      each, whatever follows; otherwise a name is a delegation to that workflow. So
      no delegation is ever read to a name that starts with `A` or `R`. */
  function ParseOutcome(s: string): (r: Parsed<Outcome>)
    ensures r.Ok? <==> |s| > 0 && IsAlpha(s[0])
    ensures (r.Ok? && r.value == Accept) <==> |s| > 0 && s[0] == 'A'
    ensures (r.Ok? && r.value == Reject) <==> |s| > 0 && s[0] == 'R'
    ensures r.Ok? && !r.value.Delegate? ==> r.rest == s[1..]
    ensures r.Ok? && r.value.Delegate? ==>
      IsName(r.value.name) && r.value.name[0] != 'A' && r.value.name[0] != 'R' &&
      r.value.name + r.rest == s && (|r.rest| == 0 || !IsAlpha(r.rest[0]))
  {
    if |s| > 0 && s[0] == 'A' then Ok(Accept, s[1..])
    else if |s| > 0 && s[0] == 'R' then Ok(Reject, s[1..])
    else
      match ParseName(s)
      case Fail => Fail
      case Ok(name, rest) =>
        assert name[0] == s[0];
        Ok(Delegate(name), rest)
  }

  /** An outcome that the grammar can write: a delegation names a workflow whose name
      does not start with `A` or `R`. */
  predicate IsWritable(o: Outcome)
  {
    o.Delegate? ==> IsName(o.name) && o.name[0] != 'A' && o.name[0] != 'R'
  }

  function OutcomeText(o: Outcome): string
  {
    match o
    case Accept => "A"
    case Reject => "R"
    case Delegate(name) => name
  }

  lemma OutcomeRoundTrip(o: Outcome, t: string)
    requires IsWritable(o)
    requires |t| == 0 || !IsAlpha(t[0])
    ensures ParseOutcome(OutcomeText(o) + t) == Ok(o, t)
  {
    var s := OutcomeText(o) + t;
    match o
    case Accept => assert s[1..] == t;
    case Reject => assert s[1..] == t;
    case Delegate(name) => TakeWhile1Word(name, t, IsAlpha);
  }

  /** A workflow named with a leading `A` is read as Accept followed by the rest of
      the name, which the rule list then cannot continue from. */
  lemma OutcomeShadowsNames()
    ensures ParseOutcome("Ab}") == Ok(Accept, "b}")
    ensures ParseOutcome("Rb}") == Ok(Reject, "b}")
  {
  }

  // ---------------------------------------------------------------------------
  // Rules

  /** `separated_pair(parse_predicate, char(':'), parse_outcome)`. */
  function ParseTest(s: string): (r: Parsed<(Predicate, Outcome)>)
    ensures r.Ok? ==> |r.rest| < |s|
  {
    match ParsePredicate(s)
    case Fail => Fail
    case Ok(p, s1) =>
      match Char(':', s1)
      case Fail => Fail
      case Ok(_, s2) =>
        match ParseOutcome(s2)
        case Fail => Fail
        case Ok(o, s3) => Ok((p, o), s3)
  }

  /** `parse_rule`: a test and its outcome when they parse; otherwise the ORIGINAL
      input is read again as a bare outcome, without a predicate. */
  function ParseRule(s: string): (r: Parsed<Rule>)
    ensures ParseTest(s).Ok? ==>
      r == Ok(Rule(Some(ParseTest(s).value.0), ParseTest(s).value.1), ParseTest(s).rest)
    ensures ParseTest(s).Fail? ==>
      (r.Ok? <==> ParseOutcome(s).Ok?) &&
      (r.Ok? ==> r == Ok(Rule(None, ParseOutcome(s).value), ParseOutcome(s).rest))
    ensures r.Ok? ==> |r.rest| < |s|
  {
    match ParseTest(s)
    case Ok(test, rest) => Ok(Rule(Some(test.0), test.1), rest)
    case Fail =>
      match ParseOutcome(s)
      case Fail => Fail
      case Ok(o, rest) => Ok(Rule(None, o), rest)
  }

  /** A test whose `:` is missing falls back to reading the category letter as the
      name of a workflow to delegate to. */
  lemma RuleFallbackQuirk()
    ensures ParseRule("a<5}") == Ok(Rule(None, Delegate("a")), "<5}")
  {
    QuirkPredicate();
    assert ParseTest("a<5}").Fail?;
    QuirkOutcome();
  }

  lemma QuirkOutcome()
    ensures ParseOutcome("a<5}") == Ok(Delegate("a"), "<5}")
  {
    assert "a<5}" == "a" + "<5}";
    TakeWhile1Word("a", "<5}", IsAlpha);
  }

  lemma QuirkPredicate()
    ensures ParsePredicate("a<5}") == Ok(Predicate(Aerodynamic, LessThan, 5), "}")
  {
    assert ParseCategory("a<5}") == Ok(Aerodynamic, "<5}");
    assert ParseOperator("<5}") == Ok(LessThan, "5}");
    assert "5}" == ToDigits(5) + "}";
    NumberOfDigits(5, "}");
  }

  function RuleText(rule: Rule): string
  {
    match rule.condition
    case Some(p) => PredicateText(p) + ":" + OutcomeText(rule.outcome)
    case None => OutcomeText(rule.outcome)
  }

  /** A rule written out is read back, in front of a comma, a closing brace or the
      end. A bare outcome is never mistaken for a test: it has no `:` after a number. */
  lemma RuleRoundTrip(rule: Rule, t: string)
    requires IsWritable(rule.outcome)
    requires |t| == 0 || t[0] == ',' || t[0] == '}'
    ensures ParseRule(RuleText(rule) + t) == Ok(rule, t)
  {
    match rule.condition
    case Some(p) => TestRoundTrip(p, rule.outcome, t);
    case None =>
      OutcomeRoundTrip(rule.outcome, t);
      BareOutcomeIsNoTest(rule.outcome, t);
  }

  lemma TestRoundTrip(p: Predicate, o: Outcome, t: string)
    requires IsWritable(o)
    requires |t| == 0 || t[0] == ',' || t[0] == '}'
    ensures ParseTest(PredicateText(p) + ":" + OutcomeText(o) + t) == Ok((p, o), t)
  {
    var s2 := OutcomeText(o) + t;
    OutcomeRoundTrip(o, t);
    TestAfterPredicate(p, s2, o, t);
    Assoc4(PredicateText(p), ":", OutcomeText(o), t);
  }

  lemma TestAfterPredicate(p: Predicate, s2: string, o: Outcome, t: string)
    requires ParseOutcome(s2) == Ok(o, t)
    ensures ParseTest(PredicateText(p) + (":" + s2)) == Ok((p, o), t)
  {
    var s1 := ":" + s2;
    PredicateRoundTrip(p, s1);
    DropFirst(':', s2);
    TestSteps(PredicateText(p) + s1, p, s1, o, s2, t);
  }

  /** `ParseTest` in terms of what its three parsers read. */
  lemma TestSteps(s: string, p: Predicate, s1: string, o: Outcome, s2: string, t: string)
    requires ParsePredicate(s) == Ok(p, s1)
    requires Char(':', s1) == Ok(':', s2)
    requires ParseOutcome(s2) == Ok(o, t)
    ensures ParseTest(s) == Ok((p, o), t)
  {
  }

  lemma BareOutcomeIsNoTest(o: Outcome, t: string)
    requires IsWritable(o)
    requires |t| == 0 || t[0] == ',' || t[0] == '}'
    ensures ParseTest(OutcomeText(o) + t).Fail?
  {
    var text := OutcomeText(o);
    var s := text + t;
    TestNeedsOperator(s);
    assert |text| >= 1;
    if |s| >= 2 {
      if |text| >= 2 {
        assert s[1] == text[1] && IsAlpha(text[1]);
      } else {
        assert s[1] == t[0];
      }
    }
  }

  /** A test has its operator in second place. */
  lemma TestNeedsOperator(s: string)
    ensures ParseTest(s).Ok? ==> |s| >= 2 && (s[1] == '<' || s[1] == '>')
  {
  }

  lemma RuleShrinks()
    ensures Shrinks(ParseRule)
  {
  }

  /** `parse_rules`: one or more rules separated by commas. */
  function ParseRules(s: string): (r: Parsed<seq<Rule>>)
    ensures r.Ok? ==> |r.value| >= 1 && |r.rest| < |s|
    ensures r.Ok? <==> ParseRule(s).Ok?
  {
    RuleShrinks();
    match SeparatedList1(ParseRule, ',', s)
    case Fail => Fail
    case Ok(rules, rest) =>
      assert |rest| < |s| by {
        ListTailShrinks(ParseRule, ',', ParseRule(s).rest);
      }
      Ok(rules, rest)
  }

  lemma ListTailShrinks<T>(p: string -> Parsed<T>, sep: char, s: string)
    requires Shrinks(p)
    ensures |ListTail(p, sep, s).rest| <= |s|
  {
  }

  /** A workflow: its name, then its rules in braces. */
  function ParseWorkflow(s: string): (r: Parsed<Workflow>)
    ensures r.Ok? ==> |r.rest| < |s| && IsName(r.value.name) && |r.value.rules| >= 1
  {
    match ParseName(s)
    case Fail => Fail
    case Ok(name, s1) =>
      match Char('{', s1)
      case Fail => Fail
      case Ok(_, s2) =>
        match ParseRules(s2)
        case Fail => Fail
        case Ok(rules, s3) =>
          match Char('}', s3)
          case Fail => Fail
          case Ok(_, s4) => Ok(Workflow(name, rules), s4)
  }

  function RuleTexts(rules: seq<Rule>): (texts: seq<string>)
    ensures |texts| == |rules| && forall k :: 0 <= k < |rules| ==> texts[k] == RuleText(rules[k])
  {
    if |rules| == 0 then [] else [RuleText(rules[0])] + RuleTexts(rules[1..])
  }

  /** A workflow the grammar can write: a name and at least one writable rule. */
  predicate IsWritableWorkflow(w: Workflow)
  {
    IsName(w.name) && |w.rules| >= 1 && forall k :: 0 <= k < |w.rules| ==> IsWritable(w.rules[k].outcome)
  }

  function WorkflowText(w: Workflow): string
    requires IsWritableWorkflow(w)
  {
    w.name + "{" + Text.Join(RuleTexts(w.rules), ',') + "}"
  }

  lemma RulesRoundTrip(rules: seq<Rule>, t: string)
    requires |rules| >= 1 && forall k :: 0 <= k < |rules| ==> IsWritable(rules[k].outcome)
    ensures ParseRules(Text.Join(RuleTexts(rules), ',') + "}" + t) == Ok(rules, "}" + t)
  {
    RuleShrinks();
    var after := "}" + t;
    forall k, t' | 0 <= k < |rules| && Follows(t', ',', after)
      ensures ParseRule(RuleTexts(rules)[k] + t') == Ok(rules[k], t')
    {
      RuleRoundTrip(rules[k], t');
    }
    SeparatedList1Join(ParseRule, ',', RuleTexts(rules), rules, after);
    Assoc3(Text.Join(RuleTexts(rules), ','), "}", t);
    RulesOfList(Text.Join(RuleTexts(rules), ',') + after, rules, after);
  }

  lemma RulesOfList(s: string, rules: seq<Rule>, rest: string)
    requires Shrinks(ParseRule)
    requires SeparatedList1(ParseRule, ',', s) == Ok(rules, rest)
    ensures ParseRules(s) == Ok(rules, rest)
  {
  }

  /** A written workflow is read back, whatever follows it. */
  lemma WorkflowRoundTrip(w: Workflow, t: string)
    requires IsWritableWorkflow(w)
    ensures ParseWorkflow(WorkflowText(w) + t) == Ok(w, t)
  {
    var body := Text.Join(RuleTexts(w.rules), ',');
    var s2 := body + "}" + t;
    var s1 := "{" + s2;
    Regroup5(w.name, "{", body, "}", t);
    TakeWhile1Word(w.name, s1, IsAlpha);
    DropFirst('{', s2);
    RulesRoundTrip(w.rules, t);
    DropFirst('}', t);
    WorkflowSteps(w.name + s1, w.name, s1, s2, w.rules, "}" + t, t);
  }

  lemma Regroup5(a: string, b: string, c: string, d: string, t: string)
    ensures a + b + c + d + t == a + (b + (c + d + t))
  {
    Assoc4(a, b, c, d);
    Assoc3(a, b + (c + d), t);
    Assoc3(b, c + d, t);
    Assoc3(c, d, t);
  }

  /** `ParseWorkflow` in terms of what its four parsers read. */
  lemma WorkflowSteps(s: string, name: string, s1: string, s2: string, rules: seq<Rule>, s3: string, t: string)
    requires ParseName(s) == Ok(name, s1)
    requires Char('{', s1) == Ok('{', s2)
    requires ParseRules(s2) == Ok(rules, s3)
    requires Char('}', s3) == Ok('}', t)
    ensures ParseWorkflow(s) == Ok(Workflow(name, rules), t)
  {
  }

  lemma WorkflowShrinks()
    ensures Shrinks(ParseWorkflow)
  {
  }

  /** `parse_workflows`: one or more workflows separated by newlines. */
  function ParseWorkflows(s: string): (r: Parsed<seq<Workflow>>)
    ensures r.Ok? ==> |r.value| >= 1 && |r.rest| <= |s|
  {
    WorkflowShrinks();
    SeparatedList1(ParseWorkflow, '\n', s)
  }

  // ---------------------------------------------------------------------------
  // Parts

  /** `parse_entry`: `category=rating`. */
  function ParseEntry(s: string): (r: Parsed<(Category, nat)>)
    ensures r.Ok? ==> |r.rest| < |s|
  {
    match ParseCategory(s)
    case Fail => Fail
    case Ok(c, s1) =>
      match Char('=', s1)
      case Fail => Fail
      case Ok(_, s2) =>
        match Number(s2)
        case Fail => Fail
        case Ok(n, s3) => Ok((c, n), s3)
  }

  function EntryText(e: (Category, nat)): string
  {
    [CategoryChar(e.0), '='] + ToDigits(e.1)
  }

  lemma EntryRoundTrip(e: (Category, nat), t: string)
    requires |t| == 0 || !IsDigit(t[0])
    ensures ParseEntry(EntryText(e) + t) == Ok(e, t)
  {
    NumberOfDigits(e.1, t);
    EntryAfterDigits(e, ToDigits(e.1) + t, t);
    Assoc3([CategoryChar(e.0), '='], ToDigits(e.1), t);
  }

  lemma EntryAfterDigits(e: (Category, nat), s2: string, t: string)
    requires Number(s2) == Ok(e.1, t)
    ensures ParseEntry([CategoryChar(e.0), '='] + s2) == Ok(e, t)
  {
    var s1 := ['='] + s2;
    assert [CategoryChar(e.0), '='] + s2 == [CategoryChar(e.0)] + s1;
    CategoryRoundTrip(e.0, s1);
    DropFirst('=', s2);
    EntrySteps([CategoryChar(e.0)] + s1, e.0, s1, s2, e.1, t);
  }

  /** `ParseEntry` in terms of what its three parsers read. */
  lemma EntrySteps(s: string, c: Category, s1: string, s2: string, n: nat, t: string)
    requires ParseCategory(s) == Ok(c, s1)
    requires Char('=', s1) == Ok('=', s2)
    requires Number(s2) == Ok(n, t)
    ensures ParseEntry(s) == Ok((c, n), t)
  {
  }

  lemma EntryShrinks()
    ensures Shrinks(ParseEntry)
  {
  }

  /** The entries of a part, inside the braces. */
  function ParseEntries(s: string): (r: Parsed<seq<(Category, nat)>>)
    ensures r.Ok? ==> |r.value| >= 1 && |r.rest| < |s|
  {
    EntryShrinks();
    match SeparatedList1(ParseEntry, ',', s)
    case Fail => Fail
    case Ok(entries, rest) =>
      assert |rest| < |s| by {
        ListTailShrinks(ParseEntry, ',', ParseEntry(s).rest);
      }
      Ok(entries, rest)
  }

  /** `parse_part`: braced entries collected into a map; a category given twice keeps
      its last rating, and a category never given has no rating. */
  function ParsePart(s: string): (r: Parsed<Part>)
    ensures r.Ok? ==> |r.rest| < |s|
    ensures r.Ok? ==> ParseEntries(s[1..]).Ok? && r.value == CollectMap(ParseEntries(s[1..]).value)
  {
    match Char('{', s)
    case Fail => Fail
    case Ok(_, s1) =>
      match ParseEntries(s1)
      case Fail => Fail
      case Ok(entries, s2) =>
        match Char('}', s2)
        case Fail => Fail
        case Ok(_, s3) => Ok(CollectMap(entries), s3)
  }

  function EntryTexts(entries: seq<(Category, nat)>): (texts: seq<string>)
    ensures |texts| == |entries| && forall k :: 0 <= k < |entries| ==> texts[k] == EntryText(entries[k])
  {
    if |entries| == 0 then [] else [EntryText(entries[0])] + EntryTexts(entries[1..])
  }

  function PartText(entries: seq<(Category, nat)>): string
    requires |entries| >= 1
  {
    "{" + Text.Join(EntryTexts(entries), ',') + "}"
  }

  lemma EntriesRoundTrip(entries: seq<(Category, nat)>, t: string)
    requires |entries| >= 1
    ensures ParseEntries(Text.Join(EntryTexts(entries), ',') + "}" + t) == Ok(entries, "}" + t)
  {
    EntryShrinks();
    var after := "}" + t;
    forall k, t' | 0 <= k < |entries| && Follows(t', ',', after)
      ensures ParseEntry(EntryTexts(entries)[k] + t') == Ok(entries[k], t')
    {
      EntryRoundTrip(entries[k], t');
    }
    SeparatedList1Join(ParseEntry, ',', EntryTexts(entries), entries, after);
    Assoc3(Text.Join(EntryTexts(entries), ','), "}", t);
    EntriesOfList(Text.Join(EntryTexts(entries), ',') + after, entries, after);
  }

  lemma EntriesOfList(s: string, entries: seq<(Category, nat)>, rest: string)
    requires Shrinks(ParseEntry)
    requires SeparatedList1(ParseEntry, ',', s) == Ok(entries, rest)
    ensures ParseEntries(s) == Ok(entries, rest)
  {
  }

  /** A written part is read back as the map of its entries, whatever follows it. */
  lemma PartRoundTrip(entries: seq<(Category, nat)>, t: string)
    requires |entries| >= 1
    ensures ParsePart(PartText(entries) + t) == Ok(CollectMap(entries), t)
  {
    var body := Text.Join(EntryTexts(entries), ',');
    var s1 := body + "}" + t;
    Regroup("{", body, "}", t);
    DropFirst('{', s1);
    EntriesRoundTrip(entries, t);
    DropFirst('}', t);
    PartSteps(PartText(entries) + t, s1, entries, "}" + t, t);
  }

  /** `ParsePart` in terms of what its three parsers read. */
  lemma PartSteps(s: string, s1: string, entries: seq<(Category, nat)>, s2: string, t: string)
    requires Char('{', s) == Ok('{', s1)
    requires ParseEntries(s1) == Ok(entries, s2)
    requires Char('}', s2) == Ok('}', t)
    ensures ParsePart(s) == Ok(CollectMap(entries), t)
  {
  }

  lemma Regroup(a: string, b: string, c: string, t: string)
    ensures a + b + c + t == a + (b + c + t)
  {
  }

  lemma DropFirst(c: char, s: string)
    ensures Char(c, [c] + s) == Ok(c, s)
  {
    assert ([c] + s)[1..] == s;
  }

  /** A category's rating in a written part is the rating of its last entry. */
  lemma PartKeepsLastRating(entries: seq<(Category, nat)>, c: Category, t: string)
    requires |entries| >= 1
    ensures ParsePart(PartText(entries) + t).Ok?
    ensures var part := ParsePart(PartText(entries) + t).value;
      (c in part <==> exists k :: 0 <= k < |entries| && entries[k].0 == c) &&
      (c in part ==> part[c] == LastValue(entries, c, 0))
  {
    PartRoundTrip(entries, t);
    CollectMapLastWins(entries, c, 0);
  }

  lemma PartShrinks()
    ensures Shrinks(ParsePart)
  {
  }

  /** `parse_parts`: one or more parts separated by newlines. */
  function ParseParts(s: string): (r: Parsed<seq<Part>>)
    ensures r.Ok? ==> |r.value| >= 1
  {
    PartShrinks();
    SeparatedList1(ParsePart, '\n', s)
  }

  // ---------------------------------------------------------------------------
  // The processor

  /** `parse_processor`: the workflows, exactly two newlines, then the parts. */
  function ParseProcessor(s: string): (r: Parsed<Processor>)
    ensures r.Ok? ==> |r.value.workflows| >= 1 && |r.value.parts| >= 1
    ensures r.Ok? ==> ParseWorkflows(s).Ok? && r.value.workflows == ParseWorkflows(s).value
  {
    match ParseWorkflows(s)
    case Fail => Fail
    case Ok(workflows, s1) =>
      match Tag("\n\n", s1)
      case Fail => Fail
      case Ok(_, s2) =>
        match ParseParts(s2)
        case Fail => Fail
        case Ok(parts, s3) => Ok(Processor(workflows, parts), s3)
  }

  function WorkflowTexts(ws: seq<Workflow>): (texts: seq<string>)
    requires forall k :: 0 <= k < |ws| ==> IsWritableWorkflow(ws[k])
    ensures |texts| == |ws| && forall k :: 0 <= k < |ws| ==> texts[k] == WorkflowText(ws[k])
  {
    if |ws| == 0 then [] else [WorkflowText(ws[0])] + WorkflowTexts(ws[1..])
  }

  function PartTexts(ps: seq<seq<(Category, nat)>>): (texts: seq<string>)
    requires forall k :: 0 <= k < |ps| ==> |ps[k]| >= 1
    ensures |texts| == |ps| && forall k :: 0 <= k < |ps| ==> texts[k] == PartText(ps[k])
  {
    if |ps| == 0 then [] else [PartText(ps[0])] + PartTexts(ps[1..])
  }

  function PartMaps(ps: seq<seq<(Category, nat)>>): (maps: seq<Part>)
    ensures |maps| == |ps| && forall k :: 0 <= k < |ps| ==> maps[k] == CollectMap(ps[k])
  {
    if |ps| == 0 then [] else [CollectMap(ps[0])] + PartMaps(ps[1..])
  }

  /** The workflows, a blank line, then the parts, one per line. */
  function ProcessorText(ws: seq<Workflow>, ps: seq<seq<(Category, nat)>>): string
    requires |ws| >= 1 && forall k :: 0 <= k < |ws| ==> IsWritableWorkflow(ws[k])
    requires |ps| >= 1 && forall k :: 0 <= k < |ps| ==> |ps[k]| >= 1
  {
    Text.Join(WorkflowTexts(ws), '\n') + "\n\n" + Text.Join(PartTexts(ps), '\n')
  }

  /** Written workflows are read back, up to a newline that no workflow follows. */
  lemma WorkflowsRoundTrip(ws: seq<Workflow>, after: string)
    requires |ws| >= 1 && forall k :: 0 <= k < |ws| ==> IsWritableWorkflow(ws[k])
    requires |after| > 0 && after[0] == '\n' && (|after| == 1 || !IsAlpha(after[1]))
    ensures ParseWorkflows(Text.Join(WorkflowTexts(ws), '\n') + after) == Ok(ws, after)
  {
    WorkflowShrinks();
    WorkflowNeedsName(after[1..]);
    WorkflowsReadBack(ws, after);
    SeparatedList1Join(ParseWorkflow, '\n', WorkflowTexts(ws), ws, after);
  }

  lemma WorkflowNeedsName(s: string)
    ensures ParseWorkflow(s).Ok? ==> |s| > 0 && IsAlpha(s[0])
  {
  }

  lemma WorkflowsReadBack(ws: seq<Workflow>, after: string)
    requires forall k :: 0 <= k < |ws| ==> IsWritableWorkflow(ws[k])
    ensures forall k, t' :: 0 <= k < |ws| && Follows(t', '\n', after) ==>
      ParseWorkflow(WorkflowTexts(ws)[k] + t') == Ok(ws[k], t')
  {
    forall k, t' | 0 <= k < |ws| && Follows(t', '\n', after)
      ensures ParseWorkflow(WorkflowTexts(ws)[k] + t') == Ok(ws[k], t')
    {
      WorkflowRoundTrip(ws[k], t');
    }
  }

  lemma PartsRoundTrip(ps: seq<seq<(Category, nat)>>, t: string)
    requires |ps| >= 1 && forall k :: 0 <= k < |ps| ==> |ps[k]| >= 1
    requires Stops(ParsePart, '\n', t)
    ensures ParseParts(Text.Join(PartTexts(ps), '\n') + t) == Ok(PartMaps(ps), t)
  {
    PartShrinks();
    forall k, t' | 0 <= k < |ps| && Follows(t', '\n', t)
      ensures ParsePart(PartTexts(ps)[k] + t') == Ok(PartMaps(ps)[k], t')
    {
      PartRoundTrip(ps[k], t');
    }
    SeparatedList1Join(ParsePart, '\n', PartTexts(ps), PartMaps(ps), t);
  }

  /** A written processor is read back: its workflows, and its parts as the maps of
      their entries. */
  lemma ProcessorRoundTrip(ws: seq<Workflow>, ps: seq<seq<(Category, nat)>>, t: string)
    requires |ws| >= 1 && forall k :: 0 <= k < |ws| ==> IsWritableWorkflow(ws[k])
    requires |ps| >= 1 && forall k :: 0 <= k < |ps| ==> |ps[k]| >= 1
    requires Stops(ParsePart, '\n', t)
    ensures ParseProcessor(ProcessorText(ws, ps) + t) == Ok(Processor(ws, PartMaps(ps)), t)
  {
    var workflows := Text.Join(WorkflowTexts(ws), '\n');
    var parts := Text.Join(PartTexts(ps), '\n') + t;
    var after := "\n\n" + parts;
    Assoc4(workflows, "\n\n", Text.Join(PartTexts(ps), '\n'), t);
    WorkflowsRoundTrip(ws, after);
    TagPrefix("\n\n", parts);
    PartsRoundTrip(ps, t);
    ProcessorSteps(workflows + after, ws, after, parts, PartMaps(ps), t);
  }

  /** `ParseProcessor` in terms of what its three parsers read. */
  lemma ProcessorSteps(s: string, ws: seq<Workflow>, s1: string, s2: string, parts: seq<Part>, t: string)
    requires ParseWorkflows(s) == Ok(ws, s1)
    requires Tag("\n\n", s1) == Ok("\n\n", s2)
    requires ParseParts(s2) == Ok(parts, t)
    ensures ParseProcessor(s) == Ok(Processor(ws, parts), t)
  {
  }
}
